=== FILE: README.md ===
# trickLED in Dafny

A functional model of the trickLED library for MicroPython LED strips, with
proofs about it. The library drives NeoPixel strips. This model covers:

- its byte and colour arithmetic (`uint8`, `add8`, `mult8`, `blend`,
  `color_wheel`, `heat_color`, `colval`, `rand32`, `randrange`);
- the bit mask `BitMap` and the packed item map `ByteMap`;
- the buffer operations of the `TrickLED` strip, including the stripe and
  mirror expansion that `write` performs, and `TrickMatrix`'s
  coordinate-to-index mapping;
- the frame computations of the animations `NextGen`, `LitBits`, `Jitter`,
  `SideSwipe`, `Convergent` and `Divergent`;
- the heat-map animations `Fire` and `Conjunction`, with
  `MappedAnimationBase`'s `set_ordered_palette` and `colorize`;
- the six colour generators;
- the web front end's query-string parser `qs_parse`.

The model is purely functional:

- A strip is an immutable record holding its byte buffer (`Strips.Strip`).
  Every Python method that mutates it is a function returning the new strip.
- A method that raises returns `Err` with the kind of exception
  (`Wrappers.Result`).
- An animation is a record of its settings and state. `setup` and
  `calc_frame` are transitions from one record to the next.
- A Python generator is an explicit state (`Generators.Gen`). `Next` gives
  the next colour and the successor state.
- Every random draw reads the next entry of a `Random.Tape`, an arbitrary
  infinite sequence. A property proved for every tape therefore holds for
  every outcome of the random generator.
- The global brightness the generators read is a parameter.

Modules follow the library's structure:

| module | file | models |
|---|---|---|
| `Wrappers` | wrappers.dfy | the result type and the exception kinds |
| `Arith`, `PySeq` | arith.dfy, pyseq.dfy | integer facts; Python slice semantics |
| `ColorMath` | colormath.dfy | the colour functions |
| `Random` | random.dfy | `getrandbits`, both `randrange`s, `rand32` |
| `BitMaps` | bitmap.dfy | `BitMap` |
| `ByteMaps` | bytemap.dfy | `ByteMap` |
| `Strips` | strip.dfy | `TrickLED` |
| `Repeats` | repeat.dfy | `write`'s repeat modes |
| `Matrices` | matrix.dfy | `TrickMatrix` |
| `Generators` | generators.dfy | the colour generators |
| `Animations` | animation.dfy | `AnimationBase`, `default_palette`, `play` |
| `NextGens`, `LitAnimations`, `Jitters`, `SideSwipes` | nextgen.dfy, litbits.dfy, jitter.dfy, sideswipe.dfy | the animations of the same names |
| `Marchers` | marchers.dfy | `Convergent` and `Divergent` |
| `Mapped`, `Fires`, `Conjunctions` | mapped.dfy, fire.dfy, conjunction.dfy | the heat-map animations |
| `QueryStrings` | qsparse.dfy | `qs_parse` |

## Model

| member | source | states |
|---|---|---|
| ColorMath.Uint8 | lib/trickLED/trickLED.py:58-64 | A value in [0, 255] is kept; anything below becomes 0 and anything above becomes 255. |
| ColorMath.Uint8Monotone | lib/trickLED/trickLED.py:58-64 | Clamping preserves order and always lands in [0, 255]. |
| ColorMath.Add8 | lib/trickLED/trickLED.py:67-68 | Saturating addition: the sum when it is a byte, otherwise 0 or 255. |
| ColorMath.Mult8 | lib/trickLED/trickLED.py:71-72 | Saturating multiplication: the product when it is a byte, otherwise 0 or 255. |
| ColorMath.FloorDiv | lib/trickLED/trickLED.py:102-105 | Python's `//`: for a positive divisor the quotient `q` satisfies `q*b <= a < q*b + b`, and for a negative divisor the mirror image holds. |
| ColorMath.TrueDivAgrees | lib/trickLED/trickLED.py:552-554 | Clamping an exact quotient gives the same byte as clamping the floor quotient, so `div`'s true division can be modelled with floor division. |
| ColorMath.LerpEnds | lib/trickLED/trickLED.py:53-55 | The `step_inc` fade starts on `a` and, after `steps` steps, lands exactly on `b`. |
| ColorMath.LerpBetween | lib/trickLED/trickLED.py:53-55 | Every intermediate fade value lies between `a` and `b`. |
| ColorMath.MixBetween | lib/trickLED/trickLED.py:44-47 | One blended channel lies between the two input channels, equals `c1` at 0% and `c2` at 100%. |
| ColorMath.Blend | lib/trickLED/trickLED.py:35-50 | A percentage outside [0, 100] returns `col1` unchanged. Otherwise it fails exactly when `col1` has more than three channels or `col2` is shorter than `col1`. On success the result always has three byte channels, and channels beyond `col1`'s length are 0. |
| ColorMath.BlendEnds | lib/trickLED/trickLED.py:35-50 | Blending at 0% gives `col1` and at 100% gives `col2`; every channel stays between the inputs' channels. |
| ColorMath.ColorWheelShape | lib/trickLED/trickLED.py:87-99 | Every wheel colour has one literal zero channel, which one depending on the hue's band. The other two channels sum to `uint8(val)`. |
| ColorMath.CiBelowVal | lib/trickLED/trickLED.py:91-93 | The rising channel `ci` never exceeds `uint8(val)`, so `cd` is never negative. |
| ColorMath.ColorWheelPeriodic | lib/trickLED/trickLED.py:89 | Only `uint8(hue) mod 255` matters: hue 255 and above, and every hue at or below 0, give the colour of hue 0. |
| ColorMath.HeatColorMonotone | lib/trickLED/trickLED.py:102-112 | Over 0..255 no channel of the heat ramp darkens as the temperature rises. Temperature 0 is black and 255 is (255, 255, 252). |
| ColorMath.BigEndianRoundTrip | lib/trickLED/trickLED.py:163-164 | `to_bytes(n, 'big')` followed by `from_bytes` gives back the value whenever it fits in `n` bytes. |
| ColorMath.Colval | lib/trickLED/trickLED.py:159-165 | `None`, 0 and the empty tuple become `bpp` zero bytes. A non-empty tuple is returned as is. A non-zero int succeeds exactly when it fits in `bpp` bytes, and then becomes its big-endian bytes (OverflowError otherwise). |
| ColorMath.ColvalIdempotent | lib/trickLED/trickLED.py:159-165 | Normalising an already normalised colour changes nothing. |
| Random.GetRandBits | lib/trickLED/trickLED.py:4 | One draw: a value below 2^k, and the tape moves on by exactly one entry. |
| Random.RandRange | lib/trickLED/trickLED.py:143-157 | The fallback `randrange` returns a value in [low, high] with both ends included, or `high` itself when the range is empty. It takes one draw. |
| Random.StdRandRange | lib/trickLED/animations.py:6-9 | The standard `random.randrange` is what the library binds when it exists. It returns a value in [low, high), takes one draw, and raises ValueError exactly when the range is empty. |
| Random.StdRandRangeReaches | lib/trickLED/animations.py:6-9 | Every value of a non-empty range is produced by some tape. |
| Random.FallbackReachesHigh | lib/trickLED/trickLED.py:143-157 | The two `randrange`s differ: the fallback can return `high`, and the standard one never does. |
| Random.Rand32 | lib/trickLED/trickLED.py:115-140 | Below 1% the word is 0 and from 100% on it is all ones, with no draw consumed in either case. In between it takes the bucket's number of draws. |
| BitMaps.New | lib/trickLED/trickLED.py:181-189 | A new mask is well formed, with offset 0 and enough 32-bit words for `n` bits (`wc * 32 >= n`). |
| BitMaps.ReadAfterWrite | lib/trickLED/trickLED.py:191-203 | Writing 0 or 1 to one bit and reading any bit back gives the written value at that bit and the old value elsewhere. A value other than 0 or 1 writes nothing. |
| BitMaps.Get | lib/trickLED/trickLED.py:205-209 | `__getitem__` succeeds exactly for `0 <= i < n` and yields 0 or 1; it raises IndexError otherwise. |
| BitMaps.Set | lib/trickLED/trickLED.py:211-216 | `__setitem__` succeeds exactly for `0 <= i < wc*32`, not `n`, and keeps the mask's size, offset and density. |
| BitMaps.PhysInjective | lib/trickLED/trickLED.py:193-194 | Different logical indices in [0, n) never share a physical bit. |
| BitMaps.GetAfterSet | lib/trickLED/trickLED.py:205-216 | After a write, the written index reads the new value (when it is 0 or 1) and every other in-range index reads what it read before. |
| BitMaps.SetBeyondN | lib/trickLED/trickLED.py:193-194 | An index in [n, wc*32) is accepted. With a non-zero offset it aliases index `i mod n`; with no offset it touches a padding bit and no readable bit changes. |
| BitMaps.Scroll | lib/trickLED/trickLED.py:218-219 | `scroll` raises on an empty mask (modulo by zero) and otherwise changes only the offset. |
| BitMaps.ScrollGet | lib/trickLED/trickLED.py:218-219 | After `scroll(s)`, bit i reads what bit `(i - s) mod n` read before. |
| BitMaps.PhysOffset | lib/trickLED/trickLED.py:193-194 | An in-range index is stored at physical bit `(i + po) mod n`. |
| BitMaps.Repeat | lib/trickLED/trickLED.py:231-254 | A value of 2^32 or more raises ValueError. Otherwise the offset is reset and the buffer keeps exactly `wc*4` bytes, byte k being byte `k mod w` of the value's `w`-byte little-endian form. A negative value fails unless the mask is empty. |
| BitMaps.Repeat119 | lib/trickLED/trickLED.py:231-240 | `repeat(119)` lights bit i exactly when `i mod 4 != 3`. |
| BitMaps.RepeatByte | lib/trickLED/trickLED.py:236-240 | After `repeat` with a one-byte value, the byte holding any bit is that value. |
| BitMaps.RepeatZero | lib/trickLED/trickLED.py:236-240 | `repeat(0)` clears every bit. |
| BitMaps.RandomBytes | lib/trickLED/trickLED.py:225-228 | `randomize` packs `wc` words into `4*wc` bytes; below 1% they are all 0 and from 100% on all 0xFF. |
| BitMaps.Randomize | lib/trickLED/trickLED.py:221-229 | `randomize` resets the offset and keeps the mask's size and density. |
| BitMaps.RandomizeExtremes | lib/trickLED/trickLED.py:221-229 | Below 1% no bit is lit after `randomize`, and from 100% on every bit is. |
| ByteMaps.New | lib/trickLED/trickLED.py:271-279 | A new map holds `n` items of `bpi` zero bytes. |
| ByteMaps.SetItem | lib/trickLED/trickLED.py:281-290 | A write succeeds exactly when the value normalises to bytes and the key is in [0, n]. A write at key `n` appends an item and increments `n`. |
| ByteMaps.GetItemSpec | lib/trickLED/trickLED.py:292-311 | Reads accept exactly the keys in (-n, n); a negative key reads the item `n` places further on. |
| ByteMaps.GetOrderedItemSpec | lib/trickLED/trickLED.py:313-316 | For an order listing channels of one item, the ordered read is that item with its channels permuted by `order`. |
| ByteMaps.GetAfterSet | lib/trickLED/trickLED.py:281-311 | After a write, the written key reads the new value and every other key, negative ones included, reads what it read before. |
| ByteMaps.SetItemAppends | lib/trickLED/trickLED.py:285-287 | A write at key `n` appends one item and keeps the others. |
| ByteMaps.Append | lib/trickLED/trickLED.py:321-323 | `append` adds one byte and one to `n`. |
| ByteMaps.Extend | lib/trickLED/trickLED.py:325-327 | `extend` appends the bytes and sets `n` to the number of whole items. |
| ByteMaps.ApplyAll | lib/trickLED/trickLED.py:329-359 | `add`, `sub`, `mul` and `div` pass every byte through `uint8`, so results stay bytes. A tuple operand shorter than `bpi` raises ValueError, and a tuple operand gives a result of `n*bpi` bytes. On a valid map the operation fails exactly on a short tuple or a division by zero. |
| ByteMaps.ArithIdentity | lib/trickLED/trickLED.py:329-359 | Adding or subtracting 0, and multiplying or dividing by 1, leave a map unchanged. |
| ByteMaps.ScrollBytes | lib/trickLED/trickLED.py:361-363 | Byte k moves to `k + step*bpi` (modulo the buffer) while the step spans at most the buffer; a longer step changes nothing. |
| ByteMaps.ScrollItems | lib/trickLED/trickLED.py:361-363 | For a step of at most `n` items, new item i is old item `(i - step) mod n`; a larger step changes nothing. |
| ByteMaps.WriteFromSpec | lib/trickLED/trickLED.py:365-370 | A run of fitting colours written inside the map puts `vals[j]` at `start + j` and leaves every other item alone. |
| ByteMaps.FillSpec | lib/trickLED/trickLED.py:365-370 | `fill` sets every item from `start` to the end position and keeps the rest. |
| ByteMaps.FillGradientSpec | lib/trickLED/trickLED.py:372-382 | A gradient over at least two items starts on `v1` and ends on `v2`; every item between lies, channel by channel, between the two. |
| ByteMaps.FillGradientItems | lib/trickLED/trickLED.py:372-382 | The gradient fill leaves the ramp from `start`, `v2` at the end position, and the old items elsewhere. |
| ByteMaps.StepIncCheck | lib/trickLED/trickLED.py:53-55 | `step_inc` fails exactly when `c1` is non-empty and either `c2` is shorter than it or `steps` is 0. |
| ByteMaps.PullWriteIsWriteKeys | lib/trickLED/trickLED.py:384-393 | Pulling one colour per key and writing it there equals pulling all the colours first and writing them key by key; the generator ends where `Take` leaves it. |
| ByteMaps.WriteKeysSpec | lib/trickLED/trickLED.py:389-393 | Writing over distinct keys gives key `j` the value `vals[j]` and leaves every other item alone. |
| ByteMaps.FillGenSpec | lib/trickLED/trickLED.py:384-393 | `fill_gen` over `start..e` pulls `e - start + 1` colours and writes them upwards from `start` for a positive direction, or downwards from `e` otherwise. Every other item keeps its value. |
| Strips.New | lib/trickLED/trickLED.py:403-413 | A new strip has `n*bpp` zero bytes, and a missing repeat mode becomes stripe mode. |
| Strips.GetPixelSpec | lib/trickLED/trickLED.py:415-420 | Reading a pixel succeeds exactly for `0 <= i < n` and gives its `bpp` bytes. |
| Strips.PutPixelSpec | lib/trickLED/trickLED.py:415-420 | Putting `bpp` bytes into a pixel of a well-formed strip sets that pixel and keeps every other one. |
| Strips.SetItemSpec | lib/trickLED/trickLED.py:415-420 | `__setitem__` with a value that `colval` turns into at least `bpp` bytes, at an index in [0, n), sets that pixel to the first `bpp` bytes and keeps the rest. Any other index raises IndexError. |
| Strips.ScrollPixels | lib/trickLED/trickLED.py:426-432 | For a step of at most `n` pixels, new pixel i is old pixel `(i - step) mod n`; a longer step leaves the strip unchanged. |
| Strips.FillSolidSpec | lib/trickLED/trickLED.py:434-445 | Inside the strip, `fill_solid` paints exactly the pixels from `start` to the end position, which defaults to the last of `repeat_n or n`. |
| Strips.FillSolidStopsAtRepeat | lib/trickLED/trickLED.py:443-444 | With `repeat_n` set, a fill without an end position stops at pixel `repeat_n - 1`. |
| Strips.FillGradientPixels | lib/trickLED/trickLED.py:447-465 | A gradient fill leaves the ramp from `start`, `col2` at the end position, and the old pixels elsewhere. |
| Strips.FillGradientSpec | lib/trickLED/trickLED.py:447-465 | A gradient over at least two pixels starts on `col1` and ends on `col2`; every pixel between lies, channel by channel, between the two. |
| Strips.PullWriteIsWrite | lib/trickLED/trickLED.py:467-482 | Pulling and writing pixel by pixel equals pulling all the colours first and writing them in order, when nothing fails. |
| Strips.FillGenForward | lib/trickLED/trickLED.py:467-479 | A forward `fill_gen` over `start..e` writes the generator's first `e - start + 1` colours in order and keeps every other pixel. |
| Strips.BlendToColorSpec | lib/trickLED/trickLED.py:484-506 | On a three-byte strip, `blend_to_color` over pixels inside the strip never fails and never touches pixels outside the range. Every pixel it changes gets exactly its blend with `color`. |
| Strips.BlendSkipsBlack | lib/trickLED/trickLED.py:494-499 | As written, a black pixel equals the initial memo and is never blended: blending a black pixel 100% towards (200, 0, 0) leaves it black, although `blend` gives (200, 0, 0). |
| Strips.BlendToColorFixedSpec | lib/trickLED/trickLED.py:484-506 | With the corrected memo, every pixel of the range becomes exactly its blend with `color`, as a pixel-by-pixel `blend` would make it. |
| Strips.ApplyAll | lib/trickLED/trickLED.py:508-554 | Strip arithmetic raises ValueError for a tuple shorter than `bpp`. It rebuilds the buffer to only `(repeat_n or n)*bpp` clamped bytes and changes nothing else. |
| Strips.ApplyAllBytes | lib/trickLED/trickLED.py:508-554 | Byte k of the rebuilt buffer is the old byte combined with operand entry `k mod bpp`, clamped. The rebuild fails exactly when a byte is missing or divided by zero. |
| Strips.ApplyAllMatchesByteMap | lib/trickLED/trickLED.py:329-359 | Without `repeat_n`, strip arithmetic is `ByteMap` arithmetic on the same bytes. |
| Repeats.StripeSpec | lib/trickLED/trickLED.py:556-571 | When the buffer holds at least the section, the stripe copy leaves `n*bpp` bytes, byte k being byte `k mod (repeat_n*bpp)` of the old buffer. |
| Repeats.StripePixels | lib/trickLED/trickLED.py:556-571 | On a well-formed strip, pixel i becomes old pixel `i mod repeat_n`. |
| Repeats.StripeNoRoom | lib/trickLED/trickLED.py:565-571 | A section that already covers the strip leaves it unchanged. |
| Repeats.MirrorSource | lib/trickLED/trickLED.py:573-587 | The pixel the as-written walk copies to pixel i: i itself inside the prefix, and beyond it `2*repeat_n - 1 - i` or 0. |
| Repeats.MirrorSpec | lib/trickLED/trickLED.py:573-587 | On a well-formed strip with `0 < repeat_n <= n` the walk as written succeeds. Every pixel becomes the prefix pixel that `MirrorSource` names. |
| Repeats.MirrorSticksAtZero | lib/trickLED/trickLED.py:582-587 | The walk as written never turns back: every pixel from `2*repeat_n` on copies pixel 0, while the reflected pattern gives pixel 1 at `2*repeat_n + 1`. |
| Repeats.MirrorFixedSpec | lib/trickLED/trickLED.py:573-587 | The corrected walk succeeds on a well-formed strip with `0 < repeat_n <= n`, and pixel i becomes old pixel `Reflect(repeat_n, i)`. |
| Repeats.ReflectShape | lib/trickLED/trickLED.py:573-576 | The intended pattern is symmetric within each period of `2*repeat_n` pixels and repeats from period to period. |
| Repeats.WriteSpec | lib/trickLED/trickLED.py:589-595 | When `repeat_n` lies within the strip, `write` succeeds, keeps the strip well formed, and fills it from the prefix in its mode's pattern. |
| Repeats.ArithThenStripe | lib/trickLED/trickLED.py:508-571 | Strip arithmetic keeps only the first `repeat_n` pixels; a stripe `write` afterwards grows the buffer back to `n` pixels by tiling them. |
| Repeats.ArithThenMirror | lib/trickLED/trickLED.py:508-587 | In mirror mode the same sequence fails: the first copy writes pixel `repeat_n`, which the shrunken buffer no longer has. |
| Matrices.NewMatrix | lib/trickLED/trickLED.py:604-611 | A matrix of `width*height` pixels; a missing shape means the snake layout. |
| Matrices.Idx | lib/trickLED/trickLED.py:613-620 | `_idx` raises IndexError exactly when `x >= width` or `y >= height`. |
| Matrices.IdxInRange | lib/trickLED/trickLED.py:613-620 | Every in-range coordinate maps to a pixel in [0, width*height), and reading that pixel's coordinate back gives the same coordinate. |
| Matrices.IdxInjective | lib/trickLED/trickLED.py:613-620 | Distinct in-range coordinates map to distinct pixels. |
| Matrices.CoordRoundTrip | lib/trickLED/trickLED.py:613-620 | Every pixel is the image of its coordinate: the mapping covers [0, width*height). |
| Matrices.SnakeTurn | lib/trickLED/trickLED.py:617-620 | In the snake layout, the pixel after the end of an even row is the last column of the next row. |
| Matrices.NegativeAccepted | lib/trickLED/trickLED.py:615-618 | Negative coordinates are not rejected: (-1, 0) gives index -1. |
| Matrices.SetThenGet | lib/trickLED/trickLED.py:622-632 | Setting an in-range coordinate to a colour of `bpp` bytes succeeds. Reading it back gives the colour, and every other coordinate keeps its colour. |
| Animations.Init | lib/trickLED/animations.py:30-54 | Anything but a `TrickLED` raises ValueError. The frame counter starts at 0, `calc_n` is `repeat_n` when that is set and `n` otherwise, and the brightness goes through `uint8`. |
| Animations.CalcNIsActive | lib/trickLED/animations.py:50-54 | `calc_n` is the pixel count the strip's `fill_*` methods stop at; with `repeat_n <= n` it is within the strip. |
| Animations.Clear | trickLED/animations32.py:186 | `fill(0)` makes every pixel black, whatever the bytes per pixel, and keeps the strip's shape. |
| Animations.FillBlack | lib/trickLED/animations.py:170 | `fill((0,0,0))` raises IndexError exactly when a pixel has more than three bytes. Otherwise it makes every pixel black and keeps the strip's shape. |
| Animations.FillBlackIsPixelWrites | lib/trickLED/trickLED.py:415-420 | `fill((0,0,0))` fails exactly when writing `(0,0,0)` into a pixel through `self[i] = v` fails. Otherwise each pixel ends as that write leaves it. |
| Animations.HueSpacing | lib/trickLED/animations.py:21 | `min(255 // n, 30)` lies in [0, 30], keeps `sa*n <= 255`, and is 30 for `n <= 8`. |
| Animations.DefaultPalette | lib/trickLED/animations.py:17-24 | `default_palette` draws one random byte and returns `n` three-byte entries. A zero `n` divides by zero, and a negative one raises ValueError. |
| Animations.DefaultPaletteEntries | lib/trickLED/animations.py:17-24 | Entry i is the colour wheel at hue `(rn + min(255 // n, 30)*i) mod 255`. |
| Animations.PlayFrames | lib/trickLED/animations.py:104-112 | `play` resets the frame counter and increments it before each `calc_frame`, so the steps see frames 1, 2, …. It runs `max_iterations` frames when that is non-zero. |
| Animations.Range | lib/trickLED/animations.py:179 | `range(lo, hi, step)` for a positive step: `lo + step*j` for every j whose value is below `hi`, and nothing when `hi <= lo`. |
| Animations.PullWriteKeys | lib/trickLED/animations.py:176-184 | Writing `next(gen)` at distinct keys paints key `j` with the generator's `j`-th colour and leaves every other pixel alone; the generator ends where `Take` leaves it. |
| NextGens.Create | lib/trickLED/animations.py:155-167 | A missing generator becomes `striped_color_wheel(10, 1)`; anything but a `TrickLED` raises ValueError. No insertion point is recorded yet: only `setup` writes it. |
| NextGens.NormSpeed | lib/trickLED/animations.py:174-175 | The scroll speed is forced into {-1, 1}, 0 becoming 1, with the sign of the setting. |
| NextGens.PrefillKeys | lib/trickLED/animations.py:176-184 | Scrolling forwards pre-fills pixels `calc_n - 1` down to 0. Scrolling backwards pre-fills every `blanks + 1`-th pixel from 0, and raises ValueError when `blanks` is -1 (a zero range step). |
| NextGens.SetupForward | lib/trickLED/animations.py:169-184 | `setup` scrolling forwards raises IndexError at the clearing `fill((0,0,0))` exactly when a pixel has more than three bytes. Otherwise pixel `calc_n - 1 - j` holds the generator's j-th colour and the pixels past `calc_n` are black. |
| NextGens.SetupBackward | lib/trickLED/animations.py:169-181 | `setup` scrolling backwards raises IndexError at the clearing `fill((0,0,0))` exactly when a pixel has more than three bytes. Otherwise a pixel on the grid of multiples of `blanks + 1` holds the generator's `(i / (blanks + 1))`-th colour, and every pixel off that grid is black. |
| NextGens.FeedSpec | lib/trickLED/animations.py:188-195 | With `blanks > 0` the generator is drawn only when `frame mod (blanks + 1) == 0`, and black is fed otherwise. Without blanks it is drawn every frame. |
| NextGens.CalcFrameSpec | lib/trickLED/animations.py:186-196 | A frame succeeds exactly when `setup` has recorded the insertion point. Before that, reading `state['insert_point']` raises KeyError. Afterwards every pixel moves one place in the scroll direction, cyclically over the whole strip, and the insertion point takes the fed colour. |
| LitAnimations.Create | lib/trickLED/animations.py:204-220 | The mask covers the computed pixels; without a lit percentage it lights pixel i exactly when `i mod 4 != 3`. |
| LitAnimations.Setup | lib/trickLED/animations.py:222-227 | Afterwards there is a palette, the given one when there was one. With a lit percentage the mask takes that density; without one the mask is kept as it was. |
| LitAnimations.FrameMask | lib/trickLED/animations.py:230-231 | The mask is re-randomised only when a lit percentage is set and `frame mod 30 == 0`, otherwise it is kept with no draw. |
| LitAnimations.CalcFramePaints | lib/trickLED/animations.py:232-238 | Each computed pixel is painted from the mask: a lit pixel i gets `palette[i mod len]`, an unlit one black. The pixels past `calc_n` are left alone. |
| LitAnimations.CalcFramePalette | lib/trickLED/animations.py:239 | After a frame, palette entry k is the entry `scroll_speed` places back, cyclically, for speeds up to one turn. |
| LitAnimations.CalcFrameMask | lib/trickLED/animations.py:240 | After a frame, mask bit i is the bit `lit_scroll_speed` places back in the mask the frame painted with. |
| Jitters.Create | lib/trickLED/animations.py:245-262 | The mask starts as three on, one off, and a missing fill mode becomes `FILL_MODE_MULTI`. |
| Jitters.Setup | lib/trickLED/animations.py:264-268 | `setup` succeeds exactly when the background normalises through `colval`. The mask takes the lit percentage, and a missing generator becomes `random_pastel` for the strip's width. |
| Jitters.BackgroundStable | lib/trickLED/animations.py:266 | Running `setup` again leaves the background it normalised as it is: normalising twice changes nothing. |
| Jitters.SparkOdds | lib/trickLED/animations.py:273-275 | With `sparking` at most 0 a frame never sparks and keeps the mask. Above 255 every frame sparks, so without a generator the frame fails. |
| Jitters.CalcFrameFades | lib/trickLED/animations.py:269-298 | With the tuple background `setup` leaves, a non-sparking frame fades every lit computed pixel towards the background and sets every unlit one to exactly the background. It keeps the mask and the generator. |
| Jitters.CalcFrameSolid | lib/trickLED/animations.py:269-290 | With the tuple background `setup` leaves, a sparking frame in solid mode randomises the mask and draws one spark colour. It paints every lit computed pixel with that colour and dims the unlit ones that differ from the background. |
| Jitters.CalcFrameMulti | lib/trickLED/animations.py:269-290 | With the tuple background `setup` leaves, a sparking frame in multi mode draws the spark colour, then paints lit computed pixel j with colour number `LitCount(lit, 0, j)` of the further colours the generator gives. Unlit pixels that differ from the background are dimmed, and the generator ends where drawing that many leaves it. |
| Jitters.BlendBg | lib/trickLED/trickLED.py:35-48 | `blend` towards a tuple background is the ordinary blend. Towards the int or `None` that `setup` has not yet normalised, it raises TypeError once the percentage is in range and the colour has a channel. An out-of-range percentage returns the colour unchanged. |
| Jitters.CalcFrameRawFades | lib/trickLED/animations.py:269-298 | Before `setup`, a non-sparking frame with the fade percentage in range raises TypeError at the first lit computed pixel, which `blend`s towards the raw background. |
| Jitters.CalcFrameRawSparks | lib/trickLED/animations.py:269-290 | Before `setup`, a sparking frame with the fade percentage in range raises TypeError at the first unlit computed pixel. No tuple equals the raw background, so that pixel is `blend`ed towards it. |
| Jitters.PullIsTake | lib/trickLED/animations.py:282-283 | Drawing k colours one by one is `Take` of k. |
| SideSwipes.Create | lib/trickLED/animations.py:303-310 | A missing or empty generator list becomes `random_vivid()` and a striped wheel of stride 20 and stripes of 10. |
| SideSwipes.Setup | lib/trickLED/animations.py:312-316 | `setup` starts at pixel 0, going forwards, at cycle 0 with the first generator. |
| SideSwipes.CalcFrameSpec | lib/trickLED/animations.py:318-328 | A frame writes the current generator's colour at the cursor, changes no other pixel, advances only that generator, and keeps the cursor within [0, calc_n) and the direction in {1, -1}. |
| SideSwipes.MoveOk | lib/trickLED/animations.py:321-328 | A step stays on the computed pixels; at an end the cursor stays put, the cycle count goes up, the direction flips and the generator index becomes `cycle mod len`. |
| SideSwipes.SweepForward | lib/trickLED/animations.py:321-328 | Going forwards, the cursor visits each pixel up to the last computed one; one frame later it is still there, facing back, with the next generator. |
| SideSwipes.SweepBackward | lib/trickLED/animations.py:321-328 | Going backwards, the cursor visits each pixel down to 0; one frame later it is still there, facing forwards, with the next generator. |
| SideSwipes.RoundTrip | lib/trickLED/animations.py:312-328 | From the start, `2*calc_n` frames take the cursor to the far end and back: it is again at pixel 0 going forwards, having turned twice, with generator `2 mod len`. |
| Marchers.InsertPoints | lib/trickLED/animations.py:339-344 | There are two insertion points. `Convergent` uses the two ends, 0 and `calc_n - 1`. `Divergent` uses two neighbouring pixels in the middle, neither of them an end. |
| Marchers.InsertsInRange | lib/trickLED/animations.py:339-400 | The insertion points lie on the computed pixels exactly when there is at least one computed pixel (`Convergent`) or at least three (`Divergent`). |
| Marchers.StartCycle | lib/trickLED/animations.py:346-352 | `start_cycle` first raises IndexError at `fill((0,0,0))` on a strip of more than three bytes per pixel. Next it raises ZeroDivisionError for an empty palette. Otherwise it resets the movers to the insertion points and advances `palette_idx` by 1 modulo the palette length. |
| Marchers.StartCycleSpec | lib/trickLED/animations.py:346-352 | A cycle fails with IndexError exactly when a pixel has more than three bytes. Otherwise it starts on a black strip with the next palette colour at the insertion points and nowhere else. |
| Marchers.Swap | lib/trickLED/animations.py:363-366 | A mover's step moves the colour at `mv` to `ni` and turns `mv` black; nothing else changes. |
| Marchers.SwapKeepsLit | lib/trickLED/animations.py:363-366 | A step onto a black computed pixel keeps the number of lit computed pixels. |
| Marchers.MarchSpec | lib/trickLED/animations.py:355-369 | The pass over the movers succeeds. Every place it records is the place ahead of a mover and lies on the computed pixels, and it never changes how many computed pixels are lit. |
| Marchers.MarchFlags | lib/trickLED/animations.py:355-369 | The pass sets `new_cycle` exactly when a mover at an insertion point is blocked. It sets `new_insert` exactly when a mover elsewhere is blocked or, in `Divergent`, a mover would step off the computed pixels. |
| Marchers.NewCycleAtInsert | lib/trickLED/animations.py:354-374 | A frame starts a new cycle exactly when a mover still at an insertion point is blocked by a lit pixel. |
| Marchers.QuietFrameKeepsLit | lib/trickLED/animations.py:354-383 | A frame in which no mover is blocked (and, in `Divergent`, none would step off) keeps the number of lit computed pixels. |
| Marchers.MeetInMiddle | lib/trickLED/animations.py:354-383 | When movers meet away from the insertion points and no mover at an insertion point is blocked, the frame only inserts. The marched strip is kept, the insertion points are painted with the colour in use (the next palette entry in multi mode), and the movers restart from the insertion points. |
| Marchers.InsertSpec | lib/trickLED/animations.py:375-383 | New insertions paint the insertion points, and only them, with the colour in use (the next palette entry in multi mode), and keep the state valid. |
| Marchers.SetupValid | lib/trickLED/animations.py:339-352 | `setup` without a generator raises IndexError exactly when a pixel has more than three bytes. Otherwise it gives a valid state when the strip has enough computed pixels and the palette's entries are as wide as a pixel. |
| Marchers.CalcFrameValid | lib/trickLED/animations.py:354-383 | A frame keeps the state valid: the movers stay on the computed pixels whichever way the frame ends. The valid states have at most three bytes per pixel, the only strips `setup` accepts. |
| Mapped.ZeroMeta | trickLED/animations32.py:92 | `pixel_meta.fill(0)` sets every heat byte to zero. |
| Mapped.SubSpec | trickLED/animations32.py:164 | `pixel_meta.sub(c)` lowers every heat by `c`, stopping at 0. |
| Mapped.SetOrderedPaletteSpec | trickLED/animations32.py:25-32 | With an order that fits, the ordered palette has as many items as the palette, each with its bytes permuted by `order`. |
| Mapped.Heats | trickLED/animations32.py:45 | Iterating a one-byte map yields its items' bare bytes, `n` of them. |
| Mapped.Colorize | trickLED/animations32.py:34-54 | `colorize` succeeds exactly when the bytes it builds are as long as the strip's buffer, and then keeps the strip's shape. A missing ordered palette fails. |
| Mapped.ColorBytesSpec | trickLED/animations32.py:45-50 | `colorize` emits three bytes per heat value: zeros for heat 0 and the ordered palette item at `m >> shift` otherwise. |
| Mapped.ColorizeSucceeds | trickLED/animations32.py:39-54 | With a three-byte palette covering the heat values, `colorize` on a three-byte strip succeeds exactly when there is one heat value per pixel. Each pixel then shows its heat value's colour. |
| Mapped.PixelsAreCells | trickLED/animations32.py:45-52 | After `colorize`, each pixel shows its heat value's colour. |
| Fires.HeatPalette | trickLED/animations32.py:85-88 | The default palette has 64 entries, entry i being `heat_color(4*i)`. |
| Fires.Create | trickLED/animations32.py:61-88 | A supplied palette shorter than 64 raises ValueError, as does anything but a `TrickLED`. `hotspots` is at least 1, and the heat map and blend mask cover the computed pixels. |
| Fires.FirstWindow | trickLED/animations32.py:94-108 | Rising fire starts at pixel 0 and blends offsets [0, 11); falling fire starts at `calc_n - 1` and blends [-10, 1). Still fire draws its first point from [0, calc_n - 1), raising ValueError when `calc_n <= 1`. Its blend window also spans 11 offsets and contains the point itself. |
| Fires.StillFireNeedsTwo | trickLED/animations32.py:106 | Still fire over a single computed pixel raises ValueError during `setup`. |
| Fires.Place | trickLED/animations32.py:114-116 | A jittered hotspot position is kept when strictly inside the computed pixels, and clamped to them otherwise. |
| Fires.HotspotsSpec | trickLED/animations32.py:110-117 | Flash points stay on the computed pixels and never repeat. They extend the points already placed and take one draw per extra hotspot. |
| Fires.BlendMask | trickLED/animations32.py:120-124 | After `repeat(0)` and the marking, bit k of a computed pixel is set exactly when k is within `[fp + bmin, fp + bmax)` of some flash point and is not a flash point itself. |
| Fires.ShiftCovers | trickLED/animations32.py:126-132 | The palette shift 0, 1 or 2 (for at least 256, at least 128, or fewer entries) makes every heat byte name an existing entry of a palette of 64 or more. |
| Fires.SetupSpec | trickLED/animations32.py:90-132 | `setup` orders the palette and clears the heat map. It places between one and `hotspots` distinct flash points on the computed pixels, the first at the bottom, the top or a random pixel, sets the blend mask from them, and picks the palette shift. |
| Fires.SparkHeat | trickLED/animations32.py:143-148 | A spark byte at most `sparking` gives heat of at least 192, and any other byte gives heat in [64, 192). The heat keeps the byte's low six bits and is never 0. |
| Fires.SparksSpec | trickLED/animations32.py:141-149 | Every flash point gets a spark or an ember in one draw each, and no other heat changes. |
| Fires.BlendAverages | trickLED/animations32.py:152-162 | Smoothing reads only the pre-blend copy. An inner pixel takes the floor of the mean of its three neighbours, and an end pixel the floor of the mean of the two end bytes. |
| Fires.BlendFromSpec | trickLED/animations32.py:153-162 | Smoothing changes exactly the pixels whose blend bit is set, each to its smoothed heat, independent of the order they are visited in. |
| Fires.FrameSpec | trickLED/animations32.py:134-165 | A frame of a ready fire on a three-byte strip of exactly `calc_n` pixels succeeds and takes one draw per flash point. It keeps the fire ready and changes only its heat and pixels: each heat is the sparked, then smoothed heat less the cooling, stopping at 0. |
| Fires.FrameNeedsWholeStrip | trickLED/animations32.py:51-54 | A frame fails whenever the strip's pixel count differs from `calc_n`. |
| Fires.FlashPointsHot | trickLED/animations32.py:141-149 | Flash points are never blended. After a frame each holds at least 64 less the cooling, and at least 192 less the cooling when `sparking` is 255 or more. |
| Conjunctions.Create | trickLED/animations32.py:172-177 | A missing generator becomes `fading_color_wheel(25, 16)`, and the palette has 33 three-byte entries. |
| Conjunctions.InsertPointsSpec | trickLED/animations32.py:191-195 | From `rn` in [0, 31], the insertion points are `rn - 32, rn, rn + 32, …`, exactly 32 apart, ending with the first one at or past `calc_n`. |
| Conjunctions.InsertPointsCover | trickLED/animations32.py:191-218 | Every computed pixel lies between two consecutive insertion points and is at most 16 pixels from one of them. |
| Conjunctions.PaletteCycle | trickLED/animations32.py:187-188 | The palette of a new cycle has entry 0 black and entries 1 to 32 holding the 32 generator colours in reverse, the first colour at entry 32. |
| Conjunctions.StartCycleSpec | trickLED/animations32.py:184-195 | `start_cycle` zeroes the heat map, blackens the strip, and rebuilds and orders the palette. It sets the step to 0 and places the insertion points. |
| Conjunctions.LastMarkMarked | trickLED/animations32.py:207-217 | A pixel is marked exactly when it is `step` from an insertion point, and every mark is 15 or 31. |
| Conjunctions.MarkInsertsSpec | trickLED/animations32.py:207-217 | Marking always succeeds. Each marked pixel holds its last mark, the later insertion point winning and the above mark beating the below one at step 0, and the others keep their heat. |
| Conjunctions.FrameHeat | trickLED/animations32.py:204-217 | Within a cycle, a pixel `step` from an insertion point holds its last mark and every other pixel has faded by 1, stopping at 0. No heat goes above 31. |
| Conjunctions.CoolMappable | trickLED/animations32.py:177 | Heat values of at most 31 all name an entry of the 33-entry palette. |
| Conjunctions.FrameSpec | trickLED/animations32.py:197-218 | A frame within a cycle, on a ready conjunction over a three-byte strip of exactly `calc_n` pixels, succeeds without a draw. It counts the step up, keeps the conjunction ready, and changes only its heat and pixels. |
| Conjunctions.FrameNeedsWholeStrip | trickLED/animations32.py:51-54 | A frame within a cycle fails whenever the strip's pixel count differs from `calc_n`. |
| Conjunctions.CycleRestarts | trickLED/animations32.py:197-203 | From step 16 on, a frame starts a new cycle: the step goes back to 0 and the heat map to zero. The conjunction is ready again, with the generator 32 colours further on. |
| Conjunctions.SetupReady | trickLED/animations32.py:179-182 | `setup` on a startable conjunction leaves it ready at step 0. |
| Generators.Next | trickLED/generators.py:9-146 | Every advance keeps the generator valid and yields a colour of the generator's width. |
| Generators.SteppedOutputs | trickLED/generators.py:9-33 | `stepped_color_wheel` emits stripes of `stripe_size` colours. Each fades from `color_wheel(hue, brightness)` towards `color_wheel(hue + stride, brightness >> 2)`, and the hue then moves on by the normalised stride modulo 255. |
| Generators.SteppedStripeEnds | trickLED/generators.py:26-31 | Every stepped stripe starts exactly on `color_wheel(hue, brightness)` and ends on the next hue's colour at a quarter of the brightness. |
| Generators.SteppedSizeOne | trickLED/generators.py:28 | A stripe size of 1 raises ZeroDivisionError on the first advance. |
| Generators.StripedOutputs | trickLED/generators.py:36-52 | `striped_color_wheel` emits `color_wheel(hue, brightness)` exactly `stripe_size` times, then moves the hue on by the stride (0 treated as 1) modulo 255. |
| Generators.FadingNeedsStripe | trickLED/generators.py:66-67 | `fading_color_wheel` raises ValueError on its first advance when `stripe_size <= 1`. |
| Generators.FadingOutputs | trickLED/generators.py:55-86 | Otherwise it replays one brightness table of `stripe_size` entries per hue: output k is `color_wheel(hue_k, table[k mod size])`. |
| Generators.ComplimentOutputs | trickLED/generators.py:89-106 | `color_compliment` emits `stripe_size` copies of the hue's colour, then `stripe_size` copies of hue `(hue + 127) mod 255`. It then adds the stride, which is not normalised. |
| Generators.NextVivid | trickLED/generators.py:109-124 | `random_vivid` raises ValueError when the brightness is below 2 and otherwise takes two draws. |
| Generators.VividShape | trickLED/generators.py:109-124 | A `random_vivid` colour has one zero channel. The other two, the prime share and the rest, are both at least 1 and sum to the brightness; only the `(p, s, 0)` and `(0, p, s)` rotations occur. |
| Generators.VividReaches | trickLED/generators.py:109-124 | Conversely, each such colour comes out of some tape. |
| Generators.PastelMask | trickLED/generators.py:127-146 | A mask whose length differs from `bpp` raises ValueError on the first advance. Otherwise channel i is a random byte AND `mask[i]`, or the bare random byte when there is no mask. |
| Generators.TakeWidth | trickLED/generators.py:9-146 | Every colour that k advances give has the generator's width, and the generator keeps its width. |
| QueryStrings.JoinSplit | main.py:119 | Joining the pieces of `str.split` back with the separator gives the original string. |
| QueryStrings.SplitJoin | main.py:119 | Splitting the join of separator-free pieces gives back exactly those pieces. |
| QueryStrings.SplitHasTwo | main.py:121-122 | A string splits into at least two pieces exactly when it holds the separator. |
| QueryStrings.KeyValueText | main.py:121-122 | The key is the text before the first `=`, and the value the text between the first and second `=`, so "a=b=c" maps a to "b". |
| QueryStrings.LastValueIsLast | main.py:120-122 | The reference value of a key is that of the last element naming it, and there is none exactly when no element names it. |
| QueryStrings.StoreAllSpec | main.py:120-122 | Storing elements that all hold `=` succeeds: a later element overwrites an earlier one with the same key, and keys no element names keep their earlier value. |
| QueryStrings.QsParseFails | main.py:117-123 | `qs_parse` succeeds exactly when every `&`-separated element holds `=`, and otherwise raises IndexError; the empty query is one such failing element. |
| QueryStrings.QsParseSpec | main.py:117-123 | On success, the parameters are exactly the keys of the elements, each with the value of the last element naming it. |

## Left out

- I/O and hardware are outside the model: NeoPixel's transmit (`super().write()`), the asyncio loop, the sleeps, tick counters and fps printing in `play`, and `KeyboardInterrupt`. Only `play`'s frame-counter rule is modelled.
- The network and the rest of main.py are outside the model: sockets, wifi, JSON persistence, `machine.reset`, the main loop and the web page rendering. effects.py and web_page.py are not part of this model.
- Strips.Strip: NeoPixel's `ORDER` is treated as the identity. The buffer holds channels in logical order, and `_rgb_to_order` is the identity in strip arithmetic, because NeoPixel is a foreign class.
- Strips.GetPixel: rejects negative indices, which NeoPixel's own `__getitem__` would read from the end of the buffer. The same holds for `Strips.PutPixel`. So a `TrickMatrix` pixel at a negative coordinate is an error in the model, although `Matrices.NegativeAccepted` shows that `_idx` itself returns -1.
- ColorMath.Mix: `blend`, `color_wheel`, `step_inc` (gradients and the stepped wheel) and `div` compute in floating point. The model evaluates the same expressions in exact rational arithmetic and then truncates. A float `blend` at 100% can land one below the target, which `ColorMath.BlendEnds` does not allow.
- Fires.BlendAverages: the `/ 3` and `/ 2` smoothing divides in floating point; the model takes the exact mean, floored by `uint8`.
- Generators.FadingColorWheel: the brightness table comes from `sin8` in floating point. The model takes it as a parameter with one entry per stripe pixel, so `sin8`, `cos8` and `FADE_*` mode selection are not modelled.
- Generators.Next: a generator whose loop never reaches a `yield` (a stripe size of zero or less) hangs in Python. The model returns `Err(NoValue)` instead.
- Generators.NextPastel: an empty mask stands for `None`, so an explicitly empty mask tuple, which Python also treats as no mask, is the same input.
- Random.StdRandRange: one draw from the tape picks the value directly, with the standard library's rejection sampling abstracted away. Its distribution is not modelled.
- Random.RandRange: trickLED's own `randrange`, bound only when the port's `random` lacks `randrange`, is modelled but no animation or generator uses it. The model assumes the standard library is present.
- Random.Rand32: the density buckets are modelled as drawn, but nothing is proved about the density of ones between the two extremes.
- BitMaps.Repeat: on the error path Python has already reset `_po` to 0 before raising. The model returns the error without the reset mask.
- BitMaps.Repeat: a non-int value, which raises ValueError in Python, is outside the model's `int` argument.
- Fires.Fire: the flash points are a Python `set`, whose iteration order is unspecified. The model keeps them in insertion order without repeats, which affects only the order sparks are drawn in.
- Mapped.Colorize: a missing ordered palette gives `Err(TypeError)`, where Python raises AttributeError (on `None.bpi`). The "buffer length changed" exception is `Err(BufferLength)`.
- Mapped.Colorize: only three-byte strips are proved about; a wider palette item is emitted as sliced, but no property covers it.
- Jitters.Setup: `lit_percent` is an int; Python's `None`, which would fail in `rand32`, is not modelled. A `lit_percent` of 0 stands for `None` in `LitBits`.
- SideSwipes.Create: the cursor starts where `setup` puts it. A `calc_frame` before `setup` raises KeyError in Python, and that is not modelled.
- Marchers.CalcFrame: a frame before `setup` raises KeyError in the source at `state['movers']` (lib/trickLED/animations.py:359 and 415). The model starts with an empty list of movers and computes a frame from it instead. No lemma relies on that path.
- Conjunctions.CalcFrame: a frame before `setup` raises KeyError in the source at `state['step']` (trickLED/animations32.py:198). The model instead reports the TypeError that colourising with the unset ordered palette raises. No lemma relies on that path.
- Marchers.CalcFrame: `Convergent` prints a message when a mover would step off the strip. The print is not modelled; as in the source, that mover is dropped.
- Animations.Init: the `palette` setter's type dispatch (tuple, list, int or `ByteMap`) is left out; palettes are given as a `ByteMap`. The `settings` dictionary and `**kwargs` are reduced to the fields each animation reads.
- Animations.Clear: NeoPixel's `fill(0)` is assumed to behave as in the older neopixel module. There, `fill` writes the value into each pixel through TrickLED's `__setitem__`, and `colval` turns `0` into `bpp` zero bytes. The current module reads `0[i]` for each channel and raises TypeError. That TypeError is not modelled.
- Conjunctions.StartCycle: clears the strip with `fill(0)` (animations32.py:186) under the `Animations.Clear` assumption. With the current neopixel module, `start_cycle` would raise TypeError there.
- Conjunctions.StartCycleSpec: proves success through the `Animations.Clear` assumption about `fill(0)`. It does not cover the TypeError of the current neopixel module.
- Conjunctions.CycleRestarts: the restart goes through `start_cycle`, so it rests on the same `fill(0)` assumption.
- Conjunctions.SetupReady: `setup` calls `start_cycle`, so it rests on the same `fill(0)` assumption.
- Animations.PlayFrames: `play`'s own `fill((0,0,0))` before `setup` (animations.py:103) is not modelled. It raises IndexError on a strip of more than three bytes per pixel, as `Animations.FillBlack` states, for every animation.
- `SolidColor`, `TrickMatrix.hline`/`vline`/`fill_rect`/`hscroll`/`vscroll`, `BitMap.print`, `shift_bits` and the unused `BITS_ALL_32` constant are not modelled; none is part of the computing core.

## Findings

| source | as written | input that shows it | evidently intended | confidence | as-written member | corrected member |
|---|---|---|---|---|---|---|
| lib/trickLED/trickLED.py:579-587 | `_repeat_mirror` only steps `rl` while `0 < rl < n`; at 0 it sets `d = 1` but never moves again, so every pixel from `2*repeat_n` on copies pixel 0 | `repeat_n = 2`, `n = 6`, mirror mode: pixels 2 to 5 copy pixels 1, 0, 0, 0, where the back-and-forth pattern gives 1, 0, 0, 1 | reflect back and forth (0..n-1, n-1..0, 0..n-1, …), as the mode's comment "alternating backward and forward 0-n, n-0, 0-n" says | not executed | Repeats.RepeatMirror, Repeats.MirrorSticksAtZero | Repeats.RepeatMirrorFixed, Repeats.MirrorFixedSpec |
| lib/trickLED/trickLED.py:494-500 | the memo `blend_col` starts as black, so a black pixel equals it and is skipped by `continue` | one black pixel, `blend_to_color((200, 0, 0), 100)`: the pixel stays black where `blend` gives (200, 0, 0) | blend every pixel of the range; use the memo only for a pixel equal to the colour it was computed from | not executed | Strips.BlendToColor, Strips.BlendSkipsBlack | Strips.BlendToColorFixed, Strips.BlendToColorFixedSpec |

=== FILE: animation.dfy ===
/** What every animation shares (`AnimationBase`): the strip it draws on,
    the frame counter, `calc_n` (how many pixels a frame computes before
    `write` copies them), the default palette, and writing a generator's
    colours to a list of pixels. */
module Animations {
  import opened Wrappers
  import opened ColorMath
  import opened Random
  import opened Generators
  import opened Strips
  import opened PySeq
  import ByteMaps

  /** `FILL_MODE_MULTI` and `FILL_MODE_SOLID`. */
  const FillModeMulti := 4
  const FillModeSolid := 5

  /** What a constructor is handed as `leds`: a `TrickLED`, or anything else. */
  datatype LedsArg = TrickLEDArg(strip: Strip) | OtherLeds

  /** The settings every animation keeps, and its frame counter. */
  datatype Base = Base(leds: Strip, frame: int, calcN: nat, interval: int, brightness: byte)

  /** `AnimationBase.__init__`: anything but a `TrickLED` raises ValueError;
      `calc_n` is `repeat_n` when that is set and `n` otherwise; the
      brightness setting goes through `uint8`. */
  function Init(leds: LedsArg, interval: int, brightness: int): (r: Result<Base>)
    ensures leds.OtherLeds? <==> r == Err(ValueError)
    ensures r.Ok? ==> r.value.leds == leds.strip && r.value.frame == 0 && r.value.interval == interval
    ensures r.Ok? && leds.strip.repeatN != 0 ==> r.value.calcN == leds.strip.repeatN
    ensures r.Ok? && leds.strip.repeatN == 0 ==> r.value.calcN == leds.strip.n
    ensures r.Ok? ==> r.value.brightness == Uint8(brightness)
  {
    match leds
    case OtherLeds => Err(ValueError)
    case TrickLEDArg(s) =>
      var calcN := if s.repeatN != 0 then s.repeatN else s.n;
      Ok(Base(s, 0, calcN, interval, Uint8(brightness)))
  }

  /** `calc_n` is the pixel count the strip's `fill_*` methods stop at, so
      the pixels an animation computes are exactly the ones those methods
      fill; with `repeat_n <= n` they are pixels of the strip. */
  lemma CalcNIsActive(leds: LedsArg, interval: int, brightness: int)
    requires leds.TrickLEDArg?
    ensures var b := Init(leds, interval, brightness).value;
      b.calcN == Active(b.leds) && FillEnd(b.leds, None) == b.calcN - 1 &&
      (b.leds.repeatN <= b.leds.n ==> b.calcN <= b.leds.n)
  {
  }

  /** A black strip of the same shape: what NeoPixel's `fill` leaves when
      it succeeds with a black value. The `fill(0)` of the heat-mapped
      animations is modelled by it directly, under the assumption that
      `fill` sends the int `0` through TrickLED's `__setitem__` and
      `colval`, which turn it into `bpp` zero bytes. */
  function Clear(s: Strip): (r: Strip)
    ensures Shape(r, s) && (Strips.Valid(s) ==> Strips.Valid(r))
    ensures Strips.Valid(s) ==> forall i :: 0 <= i < s.n ==> Pixel(r, i) == Zeros(s.bpp)
  {
    var r := s.(buf := Zeros(|s.buf|));
    assert Strips.Valid(s) ==> forall i :: 0 <= i < s.n ==> Pixel(r, i) == Zeros(s.bpp) by {
      if Strips.Valid(s) {
        forall i | 0 <= i < s.n ensures Pixel(r, i) == Zeros(s.bpp) {
          ByteMaps.ItemBounds(i, s.n, s.bpp);
        }
      }
    }
    r
  }

  /** NeoPixel's `fill((0, 0, 0))`: channel `i` of the value is read for
      every `i < bpp`, so a strip of more than three bytes per pixel raises
      IndexError on the three-component tuple; otherwise every pixel turns
      black. */
  function FillBlack(s: Strip): (r: Result<Strip>)
    ensures r.Ok? <==> s.bpp <= |Black|
    ensures r.Err? ==> r.error == IndexError
    ensures r.Ok? ==> Shape(r.value, s) && (Strips.Valid(s) ==> Strips.Valid(r.value))
    ensures r.Ok? && Strips.Valid(s) ==> forall i :: 0 <= i < s.n ==> Pixel(r.value, i) == Zeros(s.bpp)
  {
    if s.bpp > |Black| then Err(IndexError) else Ok(Clear(s))
  }

  /** The black tuple `(0, 0, 0)`. */
  const Black: Color := [0, 0, 0]

  /** `fill((0, 0, 0))` agrees with writing the black tuple into each pixel
      through NeoPixel's `self[i] = v`: it fails exactly when such a write
      fails, and otherwise leaves every pixel as that write would. */
  lemma FillBlackIsPixelWrites(s: Strip, i: int)
    requires Strips.Valid(s) && 0 <= i < s.n
    ensures FillBlack(s).Ok? <==> PutPixel(s, i, Black).Ok?
    ensures FillBlack(s).Ok? ==> Pixel(FillBlack(s).value, i) == Pixel(PutPixel(s, i, Black).value, i)
  {
    ByteMaps.ItemBounds(i, s.n, s.bpp);
    if s.bpp <= |Black| {
      PutPixelSpec(s, i, Black[..s.bpp]);
      assert PutPixel(s, i, Black) == PutPixel(s, i, Black[..s.bpp]);
    }
  }

  // ------------------------------------------------------- default palette

  /** The bytes of the first `k` palette entries, entry `i` being the wheel
      colour at hue `(rn + sa * i) mod 255`. */
  function WheelBytes(rn: int, sa: int, brightness: int, k: nat): (r: seq<int>)
    ensures |r| == 3 * k && IsColor(r)
  {
    if k == 0 then []
    else WheelBytes(rn, sa, brightness, k - 1) + ColorWheel((rn + sa * (k - 1)) % 255, brightness)
  }

  lemma {:induction false} WheelBytesEntry(rn: int, sa: int, brightness: int, k: nat, i: nat)
    requires i < k
    ensures 0 <= i * 3 && i * 3 + 3 <= 3 * k
    ensures WheelBytes(rn, sa, brightness, k)[i * 3 .. i * 3 + 3] == ColorWheel((rn + sa * i) % 255, brightness)
  {
    var w := WheelBytes(rn, sa, brightness, k);
    var prev := WheelBytes(rn, sa, brightness, k - 1);
    if i < k - 1 {
      WheelBytesEntry(rn, sa, brightness, k - 1, i);
      assert w[i * 3 .. i * 3 + 3] == prev[i * 3 .. i * 3 + 3];
    } else {
      assert w[i * 3 .. i * 3 + 3] == w[|prev|..];
    }
  }

  /** The hue step of `default_palette`: `min(255 // n, 30)`. */
  function HueSpacing(n: int): (sa: int)
    requires n > 0
    ensures 0 <= sa <= 30 && sa * n <= 255
    ensures n <= 8 ==> sa == 30
  {
    Arith.DivBetween(255, n, 0, 255);
    assert (255 / n) * n <= 255;
    if 255 / n < 30 then 255 / n else 30
  }

  /** `default_palette(n, brightness)`: one random byte `rn`, then `n`
      entries stepping round the colour wheel. A zero `n` divides by zero
      and a negative one cannot size the map. */
  function DefaultPalette(n: int, brightness: int, t: Tape): (r: Result<Drawn<ByteMaps.ByteMap>>)
    ensures n < 0 ==> r == Err(ValueError)
    ensures n == 0 ==> r == Err(ZeroDivisionError)
    ensures n > 0 ==> r.Ok? && ByteMaps.Valid(r.value.value) && r.value.value.n == n && r.value.value.bpi == 3
    ensures r.Ok? ==> r.value.rest == GetRandBits(t, 8).rest
  {
    var rn := GetRandBits(t, 8);
    if n < 0 then Err(ValueError)
    else if n == 0 then Err(ZeroDivisionError)
    else Ok(Drawn(ByteMaps.ByteMap(n, 3, WheelBytes(rn.value, HueSpacing(n), brightness, n), [1, 0, 2]), rn.rest))
  }

  /** Entry `i` of the default palette is the colour wheel at hue
      `(rn + min(255 // n, 30) * i) mod 255`, `rn` being the random byte. */
  lemma DefaultPaletteEntries(n: int, brightness: int, t: Tape, i: int)
    requires 0 <= i < n
    ensures var p := DefaultPalette(n, brightness, t).value.value;
      ByteMaps.Item(p, i) == ColorWheel((GetRandBits(t, 8).value + HueSpacing(n) * i) % 255, brightness)
  {
    var rn := GetRandBits(t, 8).value;
    var sa := HueSpacing(n);
    var p := DefaultPalette(n, brightness, t).value.value;
    assert p == ByteMaps.ByteMap(n, 3, WheelBytes(rn, sa, brightness, n), [1, 0, 2]);
    WheelBytesEntry(rn, sa, brightness, n, i);
    ItemOfThree(p, i);
  }

  lemma ItemOfThree(p: ByteMaps.ByteMap, i: int)
    requires ByteMaps.Valid(p) && p.bpi == 3 && 0 <= i < p.n
    ensures 0 <= i * 3 && i * 3 + 3 <= |p.buf|
    ensures ByteMaps.Item(p, i) == p.buf[i * 3 .. i * 3 + 3]
  {
  }

  // ---------------------------------------------------------------- play

  /** The frame-counter rule of `play`: the counter is reset to 0, and each
      pass increments it before `calc_frame` runs, until `max_iterations`
      frames have run (never, when it is 0). `stopAfter` is the frame after
      which the loop is interrupted from outside if it is still running.
      The result lists the frame numbers the steps see. */
  method PlayFrames(maxIterations: nat, stopAfter: nat) returns (frames: seq<int>)
    ensures |frames| == if maxIterations == 0 || stopAfter < maxIterations then stopAfter else maxIterations
    ensures forall j :: 0 <= j < |frames| ==> frames[j] == j + 1
  {
    var frame := 0;
    frames := [];
    while (maxIterations == 0 || frame < maxIterations) && frame < stopAfter
      invariant 0 <= frame <= stopAfter
      invariant maxIterations > 0 ==> frame <= maxIterations
      invariant |frames| == frame
      invariant forall j :: 0 <= j < |frames| ==> frames[j] == j + 1
    {
      frame := frame + 1;
      frames := frames + [frame];
    }
  }

  // ----------------------------------------------- pulling onto pixels

  /** `range(lo, hi, step)` for a positive step. */
  function Range(lo: int, hi: int, step: int): (r: seq<int>)
    requires step > 0
    ensures forall j :: 0 <= j < |r| ==> r[j] == lo + step * j && r[j] < hi
    ensures lo < hi ==> |r| > 0 && lo + step * (|r| - 1) < hi <= lo + step * |r|
    ensures hi <= lo ==> r == []
    decreases hi - lo
  {
    if lo < hi then
      var rest := Range(lo + step, hi, step);
      var r := [lo] + rest;
      assert forall j :: 0 <= j < |r| ==> r[j] == lo + step * j && r[j] < hi by {
        forall j | 0 < j < |r| ensures r[j] == lo + step * j {
          assert r[j] == rest[j - 1] == lo + step + step * (j - 1);
          Arith.MulSucc(step, j - 1);
        }
      }
      Arith.MulSucc(step, |rest|);
      Arith.MulSucc(step, |rest| - 1);
      r
    else []
  }

  /** The pixels after writing `c` at `keys[0]` and then the colours
      `more` at the rest of the keys. */
  lemma KeysCombine(s: Strip, s': Strip, f: Strip, keys: seq<int>, c: Color, more: seq<Color>)
    requires Strips.Valid(s) && Strips.Valid(s') && Strips.Valid(f) && s'.n == s.n && f.n == s.n
    requires |keys| == |more| + 1 && Distinct(keys)
    requires forall j :: 0 <= j < |keys| ==> 0 <= keys[j] < s.n
    requires Pixel(s', keys[0]) == c
    requires forall i :: 0 <= i < s.n && i != keys[0] ==> Pixel(s', i) == Pixel(s, i)
    requires forall j :: 0 <= j < |keys[1..]| ==> Pixel(f, keys[1..][j]) == more[j]
    requires forall i :: 0 <= i < s.n && i !in keys[1..] ==> Pixel(f, i) == Pixel(s', i)
    ensures forall j :: 0 <= j < |keys| ==> Pixel(f, keys[j]) == ([c] + more)[j]
    ensures forall i :: 0 <= i < s.n && i !in keys ==> Pixel(f, i) == Pixel(s, i)
  {
    assert keys[0] !in keys[1..];
    forall j | 0 <= j < |keys| ensures Pixel(f, keys[j]) == ([c] + more)[j] {
      if j > 0 {
        assert keys[j] == keys[1..][j - 1];
      }
    }
    forall i | 0 <= i < s.n && i !in keys ensures Pixel(f, i) == Pixel(s, i) {
      assert i !in keys[1..] && i != keys[0];
    }
  }

  lemma FitsTail(s: Strip, s': Strip, c: Color, cs: seq<Color>)
    requires Fits(s, [c] + cs) && s'.bpp == s.bpp
    ensures Fits(s', cs) && |c| == s.bpp && IsColor(c)
  {
    assert ([c] + cs)[0] == c;
    forall j | 0 <= j < |cs| ensures |cs[j]| == s'.bpp && IsColor(cs[j]) {
      assert cs[j] == ([c] + cs)[j + 1];
    }
  }

  /** Pulling one colour per key and writing it there, over distinct keys
      of the strip, paints key `j` with the generator's `j`-th colour and
      leaves every other pixel alone; the generator ends where `Take` says. */
  lemma {:induction false} PullWriteKeys(s: Strip, g: Gen, b: byte, t: Tape, keys: seq<int>) returns (f: Filled, p: Pulled)
    requires Strips.Valid(s) && Generators.Valid(g) && Distinct(keys)
    requires forall j :: 0 <= j < |keys| ==> 0 <= keys[j] < s.n
    requires Take(g, b, t, |keys|).Ok? && Fits(s, Take(g, b, t, |keys|).value.colors)
    ensures Take(g, b, t, |keys|) == Ok(p)
    ensures PullWrite(s, g, b, t, keys) == Ok(f)
    ensures Strips.Valid(f.strip) && f.gen == p.gen && f.rest == p.rest
    ensures forall j :: 0 <= j < |keys| ==> Pixel(f.strip, keys[j]) == p.colors[j]
    ensures forall i :: 0 <= i < s.n && i !in keys ==> Pixel(f.strip, i) == Pixel(s, i)
    decreases |keys|
  {
    if keys == [] {
      f := Filled(s, g, t);
      p := Pulled([], g, t);
    } else {
      var y, more, s' := WriteHead(s, g, b, t, keys);
      var tail := keys[1..];
      assert Distinct(tail) && |tail| == |keys| - 1;
      var f', p' := PullWriteKeys(s', y.gen, b, y.rest, tail);
      Chain(Ok(p'), Take(y.gen, b, y.rest, |keys| - 1), Ok(more));
      Chain(PullWrite(s, g, b, t, keys), PullWrite(s', y.gen, b, y.rest, tail), Ok(f'));
      f := f';
      p := Pulled([y.color] + more.colors, more.gen, more.rest);
      KeysCombine(s, s', f'.strip, keys, y.color, more.colors);
    }
  }

  /** The first colour pulled and written at the first key. */
  lemma WriteHead(s: Strip, g: Gen, b: byte, t: Tape, keys: seq<int>) returns (y: Yield, more: Pulled, s': Strip)
    requires Strips.Valid(s) && Generators.Valid(g) && keys != []
    requires forall j :: 0 <= j < |keys| ==> 0 <= keys[j] < s.n
    requires Take(g, b, t, |keys|).Ok? && Fits(s, Take(g, b, t, |keys|).value.colors)
    ensures Next(g, b, t) == Ok(y) && Generators.Valid(y.gen)
    ensures Take(y.gen, b, y.rest, |keys| - 1) == Ok(more)
    ensures Take(g, b, t, |keys|) == Ok(Pulled([y.color] + more.colors, more.gen, more.rest))
    ensures Strips.Valid(s') && s'.n == s.n && s'.bpp == s.bpp && Fits(s', more.colors)
    ensures Pixel(s', keys[0]) == y.color
    ensures forall i :: 0 <= i < s.n && i != keys[0] ==> Pixel(s', i) == Pixel(s, i)
    ensures PullWrite(s, g, b, t, keys) == PullWrite(s', y.gen, b, y.rest, keys[1..])
  {
    y, more := TakeHead(g, b, t, |keys|);
    FitsTail(s, s, y.color, more.colors);
    WritableColor(s, y.color);
    SetItemSpec(s, keys[0], TupleColor(y.color));
    s' := SetItem(s, keys[0], TupleColor(y.color)).value;
    FitsTail(s, s', y.color, more.colors);
    PullWriteStep(s, g, b, t, keys, y);
  }


}

=== FILE: arith.dfy ===
/** Integer facts the rest of the model leans on: monotonicity of
    multiplication, bounds under division, and Euclidean `%` reasoning. */
module Arith {

  lemma MulMono(x: int, y: int, k: int)
    requires 0 <= k && x <= y
    ensures x * k <= y * k
  {
  }

  /** Division by a positive divisor preserves bounds that are multiples of it. */
  /** One more multiple: `k * (j + 1)` is `k * j + k`. */
  lemma MulSucc(k: int, j: int)
    ensures k * (j + 1) == k * j + k
  {
  }

  lemma DivBetween(num: int, d: int, lo: int, hi: int)
    requires 0 < d && lo * d <= num <= hi * d
    ensures lo <= num / d <= hi
  {
    var q := num / d;
    assert q * d <= num < q * d + d;
    if q < lo {
      MulMono(q + 1, lo, d);
    }
    if q > hi {
      MulMono(hi + 1, q, d);
    }
  }

  /** Quotient and remainder are the unique pair with `0 <= r < n`. */
  lemma DivUnique(x: int, n: int, q: int, r: int)
    requires 0 < n && 0 <= r < n && x == q * n + r
    ensures x / n == q && x % n == r
  {
    var q2 := x / n;
    var r2 := x % n;
    assert x == q2 * n + r2;
    assert (q - q2) * n == r2 - r;
    if q - q2 > 0 {
      MulMono(1, q - q2, n);
    } else if q - q2 < 0 {
      MulMono(q - q2, -1, n);
    }
  }

  /** Reduction of a value in [-m, 2m) modulo m. */
  lemma ModOnce(x: int, m: int)
    requires 0 < m && -m <= x < 2 * m
    ensures x % m == if x < 0 then x + m else if x < m then x else x - m
  {
    var q := if x < 0 then -1 else if x < m then 0 else 1;
    DivUnique(x, m, q, x - q * m);
  }

  lemma ModShift(x: int, q: int, n: int)
    requires n > 0
    ensures (x + q * n) % n == x % n
  {
    var d := x / n;
    assert x == d * n + x % n;
    assert x + q * n == (d + q) * n + x % n;
    DivUnique(x + q * n, n, d + q, x % n);
  }

  lemma ModSum(a: int, b: int, n: int)
    requires n > 0
    ensures (a % n + b) % n == (a + b) % n
  {
    var q := a / n;
    assert a == q * n + a % n;
    ModShift(a % n + b, q, n);
  }

  /** Byte `c` of item `i` in items of width `w`, reduced modulo a block
      of `n` items, is byte `c` of item `i mod n`. */
  lemma BlockMod(i: nat, c: int, n: int, w: int)
    requires n > 0 && 0 <= c < w
    ensures 0 <= (i % n) * w + c < n * w
    ensures (i * w + c) % (n * w) == (i % n) * w + c
  {
    var q, m := i / n, i % n;
    assert i == q * n + m;
    assert i * w + c == q * (n * w) + (m * w + c);
    MulMono(0, m, w);
    MulMono(m + 1, n, w);
    DivUnique(i * w + c, n * w, q, m * w + c);
  }

  /** Counting one more item inside groups of `size`. */
  lemma DivModStep(k: nat, size: nat)
    requires size > 0
    ensures k / size >= 0
    ensures k % size + 1 == size ==> (k + 1) / size == k / size + 1 && (k + 1) % size == 0
    ensures k % size + 1 < size ==> (k + 1) / size == k / size && (k + 1) % size == k % size + 1
  {
    var q := k / size;
    var r := k % size;
    assert k == q * size + r;
    if r + 1 == size {
      assert k + 1 == (q + 1) * size + 0;
      DivUnique(k + 1, size, q + 1, 0);
    } else {
      assert k + 1 == q * size + (r + 1);
      DivUnique(k + 1, size, q, r + 1);
    }
  }
}

=== FILE: bitmap.dfy ===
/** `BitMap`: a bit mask over `n` pixels stored in `ceil(n/32)` 32-bit words
    (little-endian bytes), read through a rotation offset `po` so that
    scrolling costs O(1). */
module BitMaps {
  import opened Wrappers
  import opened PySeq
  import opened ColorMath
  import opened Random
  import opened Arith

  datatype BitMap = BitMap(n: nat, wc: nat, pct: int, buf: seq<bv8>, po: int)

  /** Shape kept by every operation: the word count matches `n`, the buffer
      holds exactly `wc*4` bytes, and the offset lies in [0, n). */
  predicate Valid(m: BitMap) {
    && m.wc == (m.n + 31) / 32
    && |m.buf| == m.wc * 4
    && 0 <= m.po
    && (m.n == 0 ==> m.po == 0)
    && (m.n > 0 ==> m.po < m.n)
  }

  /** `BitMap(n, pct)`: all bits clear, no rotation. */
  function New(n: nat, pct: int): (m: BitMap)
    ensures Valid(m) && m.n == n && m.pct == pct && m.po == 0
    ensures m.wc * 32 >= n
  {
    var wc := (n + 31) / 32;
    BitMap(n, wc, pct, seq(wc * 4, _ => 0), 0)
  }

  /** `1 << j` for each bit position of a byte. */
  const Masks: seq<bv8> := [1, 2, 4, 8, 16, 32, 64, 128]

  /** Bit `p` of the buffer: bit `p % 8` of byte `p / 8`. */
  function ReadBit(buf: seq<bv8>, p: nat): (b: int)
    requires p / 8 < |buf|
    ensures b == 0 || b == 1
  {
    if buf[p / 8] & Masks[p % 8] != 0 then 1 else 0
  }

  /** `bit(idx, val)` on the physical index: a value of 0 clears the bit, 1
      sets it, anything else leaves the byte alone. */
  function WriteBit(buf: seq<bv8>, p: nat, v: int): (r: seq<bv8>)
    requires p / 8 < |buf|
    ensures |r| == |buf|
  {
    var mask := Masks[p % 8];
    if v == 0 then buf[p / 8 := buf[p / 8] & !mask]
    else if v == 1 then buf[p / 8 := buf[p / 8] | mask]
    else buf
  }

  /** Setting or clearing bit `j` of a byte decides that bit and no other. */
  lemma ByteBit(b: bv8, j: nat, k: nat)
    requires j < 8 && k < 8
    ensures ((b | Masks[j]) & Masks[k] != 0) == (j == k || b & Masks[k] != 0)
    ensures ((b & !Masks[j]) & Masks[k] != 0) == (j != k && b & Masks[k] != 0)
  {
    if j == 0 {} else if j == 1 {} else if j == 2 {} else if j == 3 {}
    else if j == 4 {} else if j == 5 {} else if j == 6 {} else {}
  }

  lemma ReadAfterWrite(buf: seq<bv8>, p: nat, q: nat, v: int)
    requires p / 8 < |buf| && q / 8 < |buf|
    ensures ReadBit(WriteBit(buf, p, v), q) ==
      if p == q && (v == 0 || v == 1) then v else ReadBit(buf, q)
  {
    if (v == 0 || v == 1) && p == q {
      ReadSameBit(buf, p, v);
    } else if (v == 0 || v == 1) && p / 8 == q / 8 {
      ReadNeighbourBit(buf, p, q, v);
    } else {
      ReadOtherByte(buf, p, q, v);
    }
  }

  /** Writing 0 or 1 to bit `p` and reading it back gives the value. */
  lemma ReadSameBit(buf: seq<bv8>, p: nat, v: int)
    requires p / 8 < |buf| && (v == 0 || v == 1)
    ensures ReadBit(WriteBit(buf, p, v), p) == v
  {
    WrittenByteBit(buf[p / 8], p % 8, p % 8, v);
  }

  /** Writing bit `p` leaves the other bits of its byte alone. */
  lemma ReadNeighbourBit(buf: seq<bv8>, p: nat, q: nat, v: int)
    requires p / 8 < |buf| && p / 8 == q / 8 && p != q && (v == 0 || v == 1)
    ensures ReadBit(WriteBit(buf, p, v), q) == ReadBit(buf, q)
  {
    SameByte(p, q);
    WrittenByteBit(buf[p / 8], p % 8, q % 8, v);
  }

  /** Bit `k` of a byte after bit `j` is set (`v` = 1) or cleared (`v` = 0). */
  lemma WrittenByteBit(b: bv8, j: nat, k: nat, v: int)
    requires j < 8 && k < 8 && (v == 0 || v == 1)
    ensures (if (if v == 0 then b & !Masks[j] else b | Masks[j]) & Masks[k] != 0 then 1 else 0) ==
      if j == k then v else if b & Masks[k] != 0 then 1 else 0
  {
    ByteBit(b, j, k);
  }

  /** A write to another byte, or of a value other than 0 and 1, leaves
      bit `q` alone. */
  lemma ReadOtherByte(buf: seq<bv8>, p: nat, q: nat, v: int)
    requires p / 8 < |buf| && q / 8 < |buf|
    requires !(v == 0 || v == 1) || p / 8 != q / 8
    ensures ReadBit(WriteBit(buf, p, v), q) == ReadBit(buf, q)
  {
    assert WriteBit(buf, p, v)[q / 8] == buf[q / 8];
  }

  /** Two bit positions in the same byte coincide exactly when their offsets
      within the byte do. */
  lemma SameByte(p: nat, q: nat)
    requires p / 8 == q / 8
    ensures p == q <==> p % 8 == q % 8
  {
    assert p == 8 * (p / 8) + p % 8;
    assert q == 8 * (q / 8) + q % 8;
  }

  /** The physical bit behind logical index `i`: the offset is applied (mod n)
      only when it is non-zero, exactly as `bit` does. */
  function Phys(m: BitMap, i: nat): int
    requires Valid(m)
  {
    if m.po != 0 then (i + m.po) % m.n else i
  }

  lemma PhysInRange(m: BitMap, i: nat)
    requires Valid(m) && i < m.wc * 32
    ensures 0 <= Phys(m, i) && Phys(m, i) / 8 < |m.buf|
    ensures i < m.n ==> Phys(m, i) < m.n
  {
  }

  /** `__getitem__`: only indices in [0, n) are readable. */
  function Get(m: BitMap, i: int): (r: Result<int>)
    requires Valid(m)
    ensures r.Ok? <==> 0 <= i < m.n
    ensures r.Ok? ==> r.value == 0 || r.value == 1
    ensures r.Err? ==> r.error == IndexError
  {
    if 0 <= i < m.n then
      PhysInRange(m, i);
      Ok(ReadBit(m.buf, Phys(m, i)))
    else Err(IndexError)
  }

  /** `__setitem__`: bounds are checked against the word capacity `wc*32`,
      not against `n`, so indices in [n, wc*32) are accepted too. */
  function Set(m: BitMap, i: int, v: int): (r: Result<BitMap>)
    requires Valid(m)
    ensures r.Ok? <==> 0 <= i < m.wc * 32
    ensures r.Ok? ==> Valid(r.value) && r.value.n == m.n && r.value.po == m.po && r.value.pct == m.pct
  {
    if 0 <= i < m.wc * 32 then
      PhysInRange(m, i);
      Ok(m.(buf := WriteBit(m.buf, Phys(m, i), v)))
    else Err(IndexError)
  }

  /** Different logical indices in [0, n) never share a physical bit. */
  lemma PhysInjective(m: BitMap, i: nat, j: nat)
    requires Valid(m) && i < m.n && j < m.n && i != j
    ensures Phys(m, i) != Phys(m, j)
  {
    if m.po != 0 && (i + m.po) % m.n == (j + m.po) % m.n {
      var qi := (i + m.po) / m.n;
      var qj := (j + m.po) / m.n;
      assert i + m.po == qi * m.n + (i + m.po) % m.n;
      assert j + m.po == qj * m.n + (j + m.po) % m.n;
      assert (qi - qj) * m.n == i - j;
      if qi - qj > 0 {
        MulMono(1, qi - qj, m.n);
      } else if qi - qj < 0 {
        MulMono(qi - qj, -1, m.n);
      }
    }
  }

  /** Writing one bit and reading any in-range bit back: the written index
      reads the new value (when it is 0 or 1), every other index is unchanged. */
  lemma GetAfterSet(m: BitMap, i: nat, v: int, j: nat)
    requires Valid(m) && i < m.n && j < m.n
    ensures Set(m, i, v).Ok?
    ensures Get(Set(m, i, v).value, j) ==
      if i == j && (v == 0 || v == 1) then Ok(v) else Get(m, j)
  {
    PhysInRange(m, i);
    PhysInRange(m, j);
    if i != j {
      PhysInjective(m, i, j);
    }
    ReadAfterWrite(m.buf, Phys(m, i), Phys(m, j), v);
  }

  /** With a non-zero offset, a write at an index in [n, wc*32) lands on the
      same bit as a write at `i mod n`; with no offset it touches a padding
      bit and no readable bit changes. */
  lemma SetBeyondN(m: BitMap, i: nat, v: int, j: nat)
    requires Valid(m) && m.n <= i < m.wc * 32 && j < m.n
    ensures Set(m, i, v).Ok?
    ensures m.po != 0 ==> Set(m, i, v) == Set(m, i % m.n, v)
    ensures m.po == 0 ==> Get(Set(m, i, v).value, j) == Get(m, j)
  {
    PhysInRange(m, i);
    PhysInRange(m, j);
    if m.po != 0 {
      ModSum(i, m.po, m.n);
    } else {
      ReadAfterWrite(m.buf, i, j, v);
    }
  }

  /** `scroll(steps)`: only the offset moves, `po := (po - steps) mod n`;
      an empty mask divides by zero. */
  function Scroll(m: BitMap, steps: int): (r: Result<BitMap>)
    requires Valid(m)
    ensures r.Err? <==> m.n == 0
    ensures r.Ok? ==> Valid(r.value) && r.value.buf == m.buf && r.value.n == m.n && r.value.pct == m.pct
  {
    if m.n == 0 then Err(ZeroDivisionError)
    else Ok(m.(po := (m.po - steps) % m.n))
  }

  /** After `scroll(s)` bit i reads what bit `(i - s) mod n` read before. */
  lemma ScrollGet(m: BitMap, s: int, i: nat)
    requires Valid(m) && m.n > 0 && i < m.n
    ensures Scroll(m, s).Ok?
    ensures Get(Scroll(m, s).value, i) == Get(m, (i - s) % m.n)
  {
    var m' := Scroll(m, s).value;
    var j := (i - s) % m.n;
    ScrollPhys(m, s, i);
    PhysInRange(m', i);
    PhysInRange(m, j);
    assert Get(m', i) == Ok(ReadBit(m'.buf, Phys(m', i)));
    assert Get(m, j) == Ok(ReadBit(m.buf, Phys(m, j)));
  }

  lemma ScrollPhys(m: BitMap, s: int, i: nat)
    requires Valid(m) && m.n > 0 && i < m.n
    ensures Scroll(m, s).Ok?
    ensures Phys(Scroll(m, s).value, i) == Phys(m, (i - s) % m.n)
  {
    var m' := Scroll(m, s).value;
    var j := (i - s) % m.n;
    PhysOffset(m', i);
    PhysOffset(m, j);
    ScrollMod(m.po, s, i, m.n, m'.po, j);
  }

  /** Rotating the offset by `-s` and reading index i lands where index
      `(i - s) mod n` lands without the rotation. */
  lemma ScrollMod(po: int, s: int, i: int, n: int, u: int, j: int)
    requires n > 0 && u == (po - s) % n && j == (i - s) % n
    ensures (i + u) % n == (j + po) % n
  {
    var q1 := (po - s) / n;
    var q2 := (i - s) / n;
    assert po - s == q1 * n + u;
    assert i - s == q2 * n + j;
    assert (q1 - q2) * n == q1 * n - q2 * n;
    ModShift(i + u, q1 - q2, n);
    assert i + u + (q1 - q2) * n == j + po;
  }

  /** The physical index is always `(i + po) mod n` for an in-range index. */
  lemma PhysOffset(m: BitMap, i: nat)
    requires Valid(m) && i < m.n
    ensures Phys(m, i) == (i + m.po) % m.n
  {
    if m.po == 0 {
      ModOnce(i, m.n);
    }
  }

  /** The little-endian bytes of `val` over `w` bytes (`to_bytes(w, 'little')`,
      and `struct.pack('I', …)` on the little-endian targets). */
  function LittleEndian(val: nat, w: nat): (r: seq<bv8>)
    ensures |r| == w
  {
    if w == 0 then [] else [Byte(val)] + LittleEndian(val / 256, w - 1)
  }

  /** The low byte of `val`. */
  function Byte(val: nat): (b: bv8)
    ensures val % 256 == 0 ==> b == 0
    ensures val % 256 == 0xFF ==> b == 0xFF
  {
    (val % 256) as bv8
  }

  /** `count` copies of `v`, concatenated as `buf += v` does. */
  function Concat(v: seq<bv8>, count: nat): (r: seq<bv8>)
    ensures |r| == count * |v|
  {
    if count == 0 then [] else Concat(v, count - 1) + v
  }

  lemma {:induction false} ConcatIndex(v: seq<bv8>, count: nat, k: nat)
    requires k < count * |v|
    ensures |v| > 0 && Concat(v, count)[k] == v[k % |v|]
  {
    var before := (count - 1) * |v|;
    assert count * |v| == before + |v|;
    assert Concat(v, count) == Concat(v, count - 1) + v;
    if k < before {
      ConcatIndex(v, count - 1, k);
    } else {
      var j := k - before;
      assert Concat(v, count)[k] == v[j];
      ModShift(j, count - 1, |v|);
      ModOnce(j, |v|);
    }
  }

  /** How many bytes of `val` `repeat` tiles: 1, 2, 3 or 4. */
  function Width(val: nat): (w: nat)
    ensures 1 <= w <= 4
  {
    if val < 256 then 1 else if val < 0x1_0000 then 2 else if val < 0x100_0000 then 3 else 4
  }

  /** `repeat(val)`: refill the buffer by tiling the little-endian bytes of
      `val`, 1, 2, 3 or 4 of them depending on its size, and cut the result to
      `wc*4` bytes. Values of 2^32 and more raise ValueError, and so do
      negative values whenever there is at least one byte to fill. */
  function Repeat(m: BitMap, val: int): (r: Result<BitMap>)
    requires Valid(m)
    ensures val >= 0x1_0000_0000 ==> r == Err(ValueError)
    ensures val < 0 ==> (r.Ok? <==> m.wc == 0)
    ensures 0 <= val < 0x1_0000_0000 ==> r.Ok?
    ensures r.Ok? ==> Valid(r.value) && r.value.po == 0 && r.value.n == m.n && r.value.pct == m.pct
    ensures r.Ok? && val >= 0 ==>
      forall k :: 0 <= k < m.wc * 4 ==> r.value.buf[k] == LittleEndian(val, Width(val))[k % Width(val)]
  {
    if val >= 0x1_0000_0000 then Err(ValueError)
    else if val < 0 then
      if m.wc * 4 == 0 then Ok(m.(po := 0, buf := [])) else Err(ValueError)
    else
      var w := Width(val);
      var count := if w == 1 then m.wc * 4 else if w == 2 then m.wc * 2
                   else if w == 3 then (m.wc * 4 + 2) / 3 else m.wc;
      var tiled := Concat(LittleEndian(val, w), count);
      assert count * w >= m.wc * 4;
      var buf := tiled[..m.wc * 4];
      TiledBytes(LittleEndian(val, w), count, m.wc * 4);
      Ok(m.(po := 0, buf := buf))
  }

  lemma TiledBytes(v: seq<bv8>, count: nat, len: nat)
    requires len <= count * |v|
    ensures forall k :: 0 <= k < len ==> |v| > 0 && Concat(v, count)[k] == v[k % |v|]
  {
    forall k | 0 <= k < len
      ensures |v| > 0 && Concat(v, count)[k] == v[k % |v|]
    {
      ConcatIndex(v, count, k);
    }
  }

  /** Bits of the byte 119 = 0b01110111: three on, one off. */
  lemma Bits119(j: nat)
    requires j < 8
    ensures (119 as bv8 & Masks[j] != 0) <==> j % 4 != 3
  {
    if j == 0 {} else if j == 1 {} else if j == 2 {} else if j == 3 {}
    else if j == 4 {} else if j == 5 {} else if j == 6 {} else {}
  }

  /** `repeat(119)`, the default LitBits pattern, lights bit i exactly when
      `i mod 4 != 3`. */
  lemma Repeat119(m: BitMap, i: nat)
    requires Valid(m) && i < m.n
    ensures Repeat(m, 119).Ok?
    ensures Get(Repeat(m, 119).value, i) == Ok(if i % 4 != 3 then 1 else 0)
  {
    var r := RepeatByte(m, 119, i);
    Read119(r.buf, i);
    assert Get(r, i) == Ok(ReadBit(r.buf, i));
  }

  lemma Read119(buf: seq<bv8>, i: nat)
    requires i / 8 < |buf| && buf[i / 8] == 119 as bv8
    ensures ReadBit(buf, i) == if i % 4 != 3 then 1 else 0
  {
    Bits119(i % 8);
    QuarterOfEighth(i);
  }

  /** After `repeat` with a one-byte value, the byte holding bit i is that value. */
  lemma RepeatByte(m: BitMap, val: nat, i: nat) returns (r: BitMap)
    requires Valid(m) && val < 256 && i < m.n
    ensures Repeat(m, val) == Ok(r)
    ensures Valid(r) && r.po == 0 && r.n == m.n && i / 8 < |r.buf| && r.buf[i / 8] == Byte(val)
  {
    OneByte(val);
    var k := i / 8;
    ModOne(k);
    r := Repeat(m, val).value;
    assert r.buf[k] == LittleEndian(val, 1)[k % 1];
  }

  lemma OneByte(val: nat)
    requires val < 256
    ensures Width(val) == 1 && LittleEndian(val, 1) == [Byte(val)]
  {
  }

  lemma ModOne(k: int)
    ensures k % 1 == 0
  {
  }

  lemma QuarterOfEighth(i: nat)
    ensures i % 4 == (i % 8) % 4
  {
    assert i == i % 8 + (2 * (i / 8)) * 4;
    ModShift(i % 8, 2 * (i / 8), 4);
  }

  /** `repeat(0)` clears every bit. */
  lemma RepeatZero(m: BitMap, i: nat)
    requires Valid(m) && i < m.n
    ensures Repeat(m, 0).Ok?
    ensures Get(Repeat(m, 0).value, i) == Ok(0)
  {
    var r := RepeatByte(m, 0, i);
    assert Get(r, i) == Ok(ReadBit(r.buf, i));
  }

  /** The bytes `randomize` packs for `k` words, each `rand32(pct)`. */
  function RandomBytes(pct: int, t: Tape, k: nat): (d: Drawn<seq<bv8>>)
    ensures |d.value| == 4 * k
    ensures pct < 1 ==> forall j :: 0 <= j < |d.value| ==> d.value[j] == 0
    ensures 100 <= pct ==> forall j :: 0 <= j < |d.value| ==> d.value[j] == 0xFF
    decreases k
  {
    if k == 0 then Drawn([], t)
    else
      var w := Rand32(pct, t);
      var bytes := LittleEndian(w.value as int, 4);
      ExtremeWords();
      var more := RandomBytes(pct, w.rest, k - 1);
      Drawn(bytes + more.value, more.rest)
  }

  /** The packed bytes of the all-clear and the all-set word. */
  lemma ExtremeWords()
    ensures LittleEndian(0, 4) == [0, 0, 0, 0]
    ensures LittleEndian(0xFFFF_FFFF, 4) == [0xFF, 0xFF, 0xFF, 0xFF]
  {
    FullWord();
  }

  lemma FullWord()
    ensures LittleEndian(0xFFFF_FFFF, 4) == [0xFF, 0xFF, 0xFF, 0xFF]
  {
    assert LittleEndian(0xFF, 1) == [0xFF];
    assert LittleEndian(0xFFFF, 2) == [0xFF, 0xFF];
    assert LittleEndian(0xFF_FFFF, 3) == [0xFF, 0xFF, 0xFF];
  }

  /** `randomize(pct)`: reset the offset and refill every word with
      `rand32(pct)`, using the mask's stored `pct` when none is given. */
  function Randomize(m: BitMap, pct: Option<int>, t: Tape): (d: Drawn<BitMap>)
    requires Valid(m)
    ensures Valid(d.value) && d.value.po == 0 && d.value.n == m.n && d.value.pct == m.pct
  {
    var p := if pct.Some? then pct.value else m.pct;
    var bytes := RandomBytes(p, t, m.wc);
    Drawn(m.(po := 0, buf := bytes.value), bytes.rest)
  }

  /** The density extremes are exact: below 1% no bit is lit, from 100% on
      every bit is. */
  lemma RandomizeExtremes(m: BitMap, pct: int, t: Tape, i: nat)
    requires Valid(m) && i < m.n
    ensures pct < 1 ==> Get(Randomize(m, Some(pct), t).value, i) == Ok(0)
    ensures 100 <= pct ==> Get(Randomize(m, Some(pct), t).value, i) == Ok(1)
  {
    var r := Randomize(m, Some(pct), t).value;
    assert r.buf[i / 8] == (if pct < 1 then 0 else if 100 <= pct then 0xFF else r.buf[i / 8]);
    if 100 <= pct {
      assert 0xFF as bv8 & Masks[i % 8] != 0;
    }
  }
}

=== FILE: bytemap.dfy ===
/** `ByteMap`: `n` items of `bpi` bytes each, packed into one byte buffer.
    Used for palettes and per-pixel state such as heat. Reads accept
    negative indices, writes one past the end append an item, and the
    whole-buffer arithmetic saturates every byte. */
module ByteMaps {
  import opened Wrappers
  import opened Arith
  import opened PySeq
  import opened ColorMath
  import opened Random
  import opened Generators

  datatype ByteMap = ByteMap(n: nat, bpi: nat, buf: seq<int>, order: seq<int>)

  /** The shape every operation keeps as long as the values written have
      `bpi` bytes: the buffer holds exactly `n * bpi` bytes. */
  predicate Valid(m: ByteMap) {
    m.bpi >= 1 && |m.buf| == m.n * m.bpi && IsColor(m.buf)
  }

  /** `ByteMap(n, bpi, order)`: all items zero. */
  function New(n: nat, bpi: nat, order: seq<int>): (m: ByteMap)
    ensures bpi >= 1 ==> Valid(m)
    ensures m.n == n && m.bpi == bpi && forall k :: 0 <= k < |m.buf| ==> m.buf[k] == 0
  {
    ByteMap(n, bpi, Zeros(n * bpi), order)
  }

  lemma ItemBounds(i: int, n: int, w: int)
    requires 0 <= i < n && 0 <= w
    ensures 0 <= i * w && i * w + w <= n * w
  {
    MulMono(0, i, w);
    MulMono(i + 1, n, w);
  }

  /** The bytes of item `i`. */
  function Item(m: ByteMap, i: int): (r: seq<int>)
    requires Valid(m) && 0 <= i < m.n
    ensures |r| == m.bpi && IsColor(r)
  {
    ItemBounds(i, m.n, m.bpi);
    m.buf[i * m.bpi .. i * m.bpi + m.bpi]
  }

  /** `len(m)` */
  function Len(m: ByteMap): nat {
    m.n
  }

  /** `m[key] = value`: the value is normalised by `colval` and must consist
      of bytes; then an index in [0, n) overwrites that item, index `n`
      appends one, and anything else raises IndexError. */
  function SetItem(m: ByteMap, key: int, value: ColorArg): (r: Result<ByteMap>)
    ensures r.Ok? <==>
      Colval(value, m.bpi).Ok? && IsColor(Colval(value, m.bpi).value) && 0 <= key <= m.n
    ensures r.Ok? ==> r.value.bpi == m.bpi && r.value.order == m.order
    ensures r.Ok? ==> r.value.n == if key == m.n then m.n + 1 else m.n
    ensures Colval(value, m.bpi).Ok? && IsColor(Colval(value, m.bpi).value) && !(0 <= key <= m.n) ==>
      r == Err(IndexError)
  {
    var v :- Colval(value, m.bpi);
    if !IsColor(v) then Err(ValueError)
    else if 0 <= key < m.n then
      var idx := key * m.bpi;
      Ok(m.(buf := SliceAssign(m.buf, idx, idx + m.bpi, v)))
    else if key == m.n then Ok(m.(buf := m.buf + v, n := m.n + 1))
    else Err(IndexError)
  }

  /** `m[key]` for an int key: [0, n) reads that item, (-n, 0) reads item
      `key + n`, anything else raises IndexError. A one-byte item comes back
      as a one-entry sequence (Python returns the bare int). */
  function GetItem(m: ByteMap, key: int): (r: Result<seq<int>>)
    ensures r.Ok? ==> -(m.n as int) < key < m.n
  {
    if 0 <= key < m.n then ReadAt(m, key * m.bpi)
    else if -(m.n as int) < key < 0 then ReadAt(m, (key + m.n) * m.bpi)
    else Err(IndexError)
  }

  /** The read at byte offset `si`: a slice of `bpi` bytes, or the single
      byte when `bpi` is 1. */
  function ReadAt(m: ByteMap, si: int): (r: Result<seq<int>>)
    ensures r.Ok? && m.bpi <= 1 ==> |r.value| == 1
  {
    if m.bpi > 1 then Ok(Slice(m.buf, si, si + m.bpi))
    else if 0 <= si < |m.buf| then Ok([m.buf[si]])
    else Err(IndexError)
  }

  lemma ReadItem(m: ByteMap, i: int)
    requires Valid(m) && 0 <= i < m.n
    ensures ReadAt(m, i * m.bpi) == Ok(Item(m, i))
  {
    ItemBounds(i, m.n, m.bpi);
    var si := i * m.bpi;
    if m.bpi == 1 {
      assert Item(m, i) == m.buf[si..si + 1] == [m.buf[si]];
    }
  }

  /** Reads accept exactly the indices in (-n, n), a negative index reading
      the item `n` places further on. */
  lemma GetItemSpec(m: ByteMap, key: int)
    requires Valid(m)
    ensures GetItem(m, key).Ok? <==> -(m.n as int) < key < m.n
    ensures 0 <= key < m.n ==> GetItem(m, key) == Ok(Item(m, key))
    ensures -(m.n as int) < key < 0 ==> GetItem(m, key) == Ok(Item(m, key + m.n))
  {
    if 0 <= key < m.n {
      ReadItem(m, key);
    } else if -(m.n as int) < key < 0 {
      ReadItem(m, key + m.n);
    }
  }

  /** `get_ordered_item(key)`: the item's bytes listed in `order`, each read
      as `buf[key * bpi + order[i]]` with Python's index rules. */
  function GetOrderedItem(m: ByteMap, key: int): (r: Result<seq<int>>)
    ensures r.Ok? ==> |r.value| == |m.order| && IsColor(r.value)
  {
    var got :- OrderedBytes(m.buf, key * m.bpi, m.order);
    if IsColor(got) then Ok(got) else Err(ValueError)
  }

  /** With an order that lists channels of one item, the ordered read is
      that item with its channels permuted by `order`. */
  lemma GetOrderedItemSpec(m: ByteMap, key: int)
    requires Valid(m) && 0 <= key < m.n
    requires forall i :: 0 <= i < |m.order| ==> 0 <= m.order[i] < m.bpi
    ensures GetOrderedItem(m, key).Ok?
    ensures forall i :: 0 <= i < |m.order| ==> GetOrderedItem(m, key).value[i] == Item(m, key)[m.order[i]]
  {
    ItemBounds(key, m.n, m.bpi);
    var si := key * m.bpi;
    assert forall i :: 0 <= i < |m.order| ==> 0 <= si + m.order[i] < |m.buf|;
    var got := OrderedBytes(m.buf, si, m.order).value;
    assert IsColor(got) by {
      forall i | 0 <= i < |got| ensures 0 <= got[i] < 256 {
        assert got[i] == m.buf[si + m.order[i]];
      }
    }
  }

  function OrderedBytes(buf: seq<int>, si: int, order: seq<int>): (r: Result<seq<int>>)
    ensures r.Ok? ==> |r.value| == |order|
    ensures (forall i :: 0 <= i < |order| ==> 0 <= si + order[i] < |buf|) ==>
      r.Ok? && forall i :: 0 <= i < |order| ==> r.value[i] == buf[si + order[i]]
  {
    if order == [] then Ok([])
    else
      var b :- At(buf, si + order[0]);
      var rest :- OrderedBytes(buf, si, order[1..]);
      Ok([b] + rest)
  }

  /** `append(val)`: one raw byte more and one item more (the caller keeps
      the buffer a whole number of items). */
  function Append(m: ByteMap, val: byte): (r: ByteMap)
    ensures r.n == m.n + 1 && r.buf == m.buf + [val]
  {
    m.(buf := m.buf + [val], n := m.n + 1)
  }

  /** `extend(vals)`: the item count follows the byte count down. */
  function Extend(m: ByteMap, vals: seq<byte>): (r: ByteMap)
    requires m.bpi >= 1
    ensures r.buf == m.buf + vals
    ensures r.n * m.bpi <= |r.buf| < r.n * m.bpi + m.bpi
  {
    var b := m.buf + vals;
    m.(buf := b, n := |b| / m.bpi)
  }

  /** The whole-buffer operations `add`, `sub`, `mul` and `div`. */
  datatype Op = Add | Sub | Mul | Div

  /** A scalar applies to every byte, a tuple cycles over each item's bytes. */
  datatype Operand = Scalar(v: int) | Tuple(t: seq<int>)

  /** One byte before clamping; `div` is floor division. */
  function Apply(op: Op, a: int, b: int): (r: Result<int>)
    ensures r.Err? <==> op == Div && b == 0
  {
    match op
    case Add => Ok(a + b)
    case Sub => Ok(a - b)
    case Mul => Ok(a * b)
    case Div => if b == 0 then Err(ZeroDivisionError) else Ok(FloorDiv(a, b))
  }

  /** The operand entry for byte `i`. */
  function OperandAt(x: Operand, i: nat, w: nat): int
    requires x.Tuple? ==> w >= 1 && |x.t| >= w
  {
    if x.Scalar? then x.v else x.t[i % w]
  }

  /** Byte `k` can be rebuilt: it exists and its operation does not fail. */
  predicate ByteOk(src: seq<int>, k: nat, op: Op, x: Operand, w: nat)
    requires x.Tuple? ==> w >= 1 && |x.t| >= w
  {
    k < |src| && Apply(op, src[k], OperandAt(x, k, w)).Ok?
  }

  /** The rebuilt byte `k`: `uint8(src[k] op operand)`. */
  function ByteAt(src: seq<int>, k: nat, op: Op, x: Operand, w: nat): byte
    requires x.Tuple? ==> w >= 1 && |x.t| >= w
    requires ByteOk(src, k, op, x, w)
  {
    Uint8(Apply(op, src[k], OperandAt(x, k, w)).value)
  }

  /** Bytes `i .. count-1` of the rebuilt buffer, left to right. */
  function MapBytes(src: seq<int>, i: nat, count: nat, op: Op, x: Operand, w: nat): (r: Result<seq<int>>)
    requires i <= count
    requires x.Tuple? ==> w >= 1 && |x.t| >= w
    ensures r.Ok? <==> forall k :: i <= k < count ==> ByteOk(src, k, op, x, w)
    ensures r.Ok? ==> |r.value| == count - i && IsColor(r.value)
    ensures r.Ok? ==> forall k :: i <= k < count ==> r.value[k - i] == ByteAt(src, k, op, x, w)
    decreases count - i
  {
    if i == count then Ok([])
    else if !ByteOk(src, i, op, x, w) then
      if i >= |src| then Err(IndexError) else Err(ZeroDivisionError)
    else
      var rest := MapBytes(src, i + 1, count, op, x, w);
      if rest.Err? then Err(rest.error)
      else
        Ok([ByteAt(src, i, op, x, w)] + rest.value)
  }

  /** `add(val)`, `sub(val)`, `mul(val)`, `div(val)`: every byte is combined
      with the operand and clamped by `uint8` (200 + 100 gives 255, 5 - 10
      gives 0, and a division by 0 raises). A tuple shorter than `bpi`
      raises ValueError; a tuple rebuilds exactly `n * bpi` bytes, a scalar
      rebuilds every byte of the buffer. */
  function ApplyAll(m: ByteMap, op: Op, x: Operand): (r: Result<ByteMap>)
    ensures x.Tuple? && |x.t| < m.bpi ==> r == Err(ValueError)
    ensures r.Ok? ==> r.value.n == m.n && r.value.bpi == m.bpi && r.value.order == m.order
    ensures r.Ok? ==> IsColor(r.value.buf) && |r.value.buf| == if x.Tuple? then m.n * m.bpi else |m.buf|
    ensures Valid(m) ==> (r.Ok? <==>
      !(x.Tuple? && |x.t| < m.bpi) && forall k :: 0 <= k < |m.buf| ==> ByteOk(m.buf, k, op, x, m.bpi))
    ensures Valid(m) && r.Ok? ==>
      Valid(r.value) && forall k :: 0 <= k < |m.buf| ==> r.value.buf[k] == ByteAt(m.buf, k, op, x, m.bpi)
  {
    match x
    case Tuple(t) =>
      if |t| < m.bpi then Err(ValueError)
      else if m.bpi == 0 then Ok(m.(buf := []))
      else
        var b :- MapBytes(m.buf, 0, m.n * m.bpi, op, x, m.bpi);
        Ok(m.(buf := b))
    case Scalar(_) =>
      var b :- MapBytes(m.buf, 0, |m.buf|, op, x, m.bpi);
      Ok(m.(buf := b))
  }

  /** Adding or subtracting 0 and multiplying or dividing by 1 leave a map
      unchanged: the clamp is the identity on bytes. */
  lemma ArithIdentity(m: ByteMap, op: Op)
    requires Valid(m)
    ensures ApplyAll(m, op, Scalar(if op == Add || op == Sub then 0 else 1)) == Ok(m)
  {
    var x := Scalar(if op == Add || op == Sub then 0 else 1);
    var r := ApplyAll(m, op, x);
    assert r.Ok?;
    assert r.value.buf == m.buf;
  }

  /** `scroll(step)`: the bytes rotate by `step` whole items. */
  function Scroll(m: ByteMap, step: int): (r: ByteMap)
    ensures r.n == m.n && r.bpi == m.bpi && r.order == m.order && |r.buf| == |m.buf|
    ensures Valid(m) ==> Valid(r)
  {
    RotateMembers(m.buf, m.bpi * -step);
    m.(buf := Rotate(m.buf, m.bpi * -step))
  }

  /** Byte `k` moves to `k + step * bpi` (modulo the buffer) while the step
      spans at most the whole buffer; a longer step changes nothing. */
  lemma ScrollBytes(m: ByteMap, step: int)
    ensures step * m.bpi < -|m.buf| || |m.buf| < step * m.bpi ==> Scroll(m, step) == m
    ensures -|m.buf| <= step * m.bpi <= |m.buf| ==>
      forall k :: 0 <= k < |m.buf| ==> Scroll(m, step).buf[k] == m.buf[(k - step * m.bpi) % |m.buf|]
  {
    var r := Scroll(m, step);
    if step * m.bpi < -|m.buf| || |m.buf| < step * m.bpi {
      RotateBeyond(m.buf, m.bpi * -step);
    } else {
      forall k | 0 <= k < |m.buf|
        ensures r.buf[k] == m.buf[(k - step * m.bpi) % |m.buf|]
      {
        RotateWithin(m.buf, m.bpi * -step, k);
      }
    }
  }

  /** For a step of at most `n` items, new item `i` is old item
      `(i - step) mod n`; a larger step changes nothing. */
  lemma ScrollItems(m: ByteMap, step: int, i: int)
    requires Valid(m) && 0 <= i < m.n
    ensures -(m.n as int) <= step <= m.n ==> Item(Scroll(m, step), i) == Item(m, (i - step) % m.n)
    ensures (step < -(m.n as int) || m.n < step) ==> Scroll(m, step) == m
  {
    if -(m.n as int) <= step <= m.n {
      ScrollItemsWithin(m, step, i);
    } else {
      ScrollItemsBeyond(m, step);
    }
  }

  /** A step of at most `n` items moves item `(i - step) mod n` to `i`. */
  lemma ScrollItemsWithin(m: ByteMap, step: int, i: int)
    requires Valid(m) && 0 <= i < m.n && -(m.n as int) <= step <= m.n
    ensures Item(Scroll(m, step), i) == Item(m, (i - step) % m.n)
  {
    var r := Scroll(m, step);
    forall c | 0 <= c < m.bpi
      ensures Item(r, i)[c] == Item(m, (i - step) % m.n)[c]
    {
      ScrollItemByte(m, step, i, c);
    }
  }

  /** A step of more than `n` items either way changes nothing. */
  lemma ScrollItemsBeyond(m: ByteMap, step: int)
    requires Valid(m) && (step < -(m.n as int) || m.n < step)
    ensures Scroll(m, step) == m
  {
    var w := m.bpi;
    var n := m.n as int;
    ScrollBytes(m, step);
    if step < -n {
      MulMono(step, -n - 1, w);
      assert (-n - 1) * w == -(n * w) - w;
    } else {
      MulMono(n + 1, step, w);
      assert (n + 1) * w == n * w + w;
    }
  }

  lemma ScrollItemByte(m: ByteMap, step: int, i: int, c: int)
    requires Valid(m) && 0 <= i < m.n && 0 <= c < m.bpi && -(m.n as int) <= step <= m.n
    ensures Item(Scroll(m, step), i)[c] == Item(m, (i - step) % m.n)[c]
  {
    var w := m.bpi;
    var n := m.n as int;
    MulMono(-n, step, w);
    MulMono(step, n, w);
    assert -n * w == -(n * w);
    ScrollBytes(m, step);
    ItemBounds(i, m.n, w);
    ItemBounds((i - step) % m.n, m.n, w);
    ScrollBlock(i, c, step, m.n, w);
  }

  /** Where the `fill_*` methods stop: a missing or too-large end position
      becomes the last item. */
  function EndPos(n: nat, end: Option<int>): int {
    if end.None? || end.value >= n then n - 1 else end.value
  }

  /** Writes `vals[j]` at index `start + j`, in order, stopping at the first
      failing write. */
  function WriteFrom(m: ByteMap, start: int, vals: seq<Color>): (r: Result<ByteMap>)
    decreases |vals|
  {
    if vals == [] then Ok(m)
    else
      var m' :- SetItem(m, start, TupleColor(vals[0]));
      WriteFrom(m', start + 1, vals[1..])
  }

  /** Colours that fit the map's items. */
  predicate Fits(m: ByteMap, vals: seq<Color>) {
    forall j :: 0 <= j < |vals| ==> |vals[j]| == m.bpi && IsColor(vals[j])
  }

  /** Splicing `v` in at offset `a` leaves every range that misses it alone. */
  lemma SpliceElsewhere(s: seq<int>, a: int, v: seq<int>, lo: int, hi: int)
    requires 0 <= a && a + |v| <= |s| && 0 <= lo <= hi <= |s|
    requires hi <= a || a + |v| <= lo
    ensures |s[..a] + v + s[a + |v|..]| == |s|
    ensures (s[..a] + v + s[a + |v|..])[lo..hi] == s[lo..hi]
  {
    var t := s[..a] + v + s[a + |v|..];
    forall k | lo <= k < hi ensures t[k] == s[k] {
      if k >= a + |v| {
        assert t[k] == s[a + |v|..][k - a - |v|];
      }
    }
  }

  /** One in-range write replaces exactly that item. */
  lemma SetItemInRange(m: ByteMap, key: int, v: Color)
    requires Valid(m) && 0 <= key < m.n && |v| == m.bpi && IsColor(v)
    ensures SetItem(m, key, TupleColor(v)).Ok?
    ensures var r := SetItem(m, key, TupleColor(v)).value;
      Valid(r) && r.n == m.n && r.order == m.order && Item(r, key) == v &&
      forall i :: 0 <= i < m.n && i != key ==> Item(r, i) == Item(m, i)
  {
    var w := m.bpi;
    ItemBounds(key, m.n, w);
    var idx := key * w;
    var t := m.buf[..idx] + v + m.buf[idx + w..];
    assert SetItem(m, key, TupleColor(v)) == Ok(m.(buf := t));
    var r := m.(buf := t);
    assert IsColor(t) by {
      forall k | 0 <= k < |t| ensures 0 <= t[k] < 256 {
        if k < idx {
        } else if k < idx + w {
          assert t[k] == v[k - idx];
        } else {
          assert t[k] == m.buf[k];
        }
      }
    }
    assert Item(r, key) == t[idx..idx + w] == v;
    forall i | 0 <= i < m.n && i != key
      ensures Item(r, i) == Item(m, i)
    {
      SetItemElsewhere(m, key, v, i);
    }
  }

  lemma SetItemElsewhere(m: ByteMap, key: int, v: Color, i: int)
    requires Valid(m) && 0 <= key < m.n && |v| == m.bpi && 0 <= i < m.n && i != key
    ensures var w := m.bpi; var idx := key * w;
      0 <= idx && idx + w <= |m.buf| && 0 <= i * w && i * w + w <= |m.buf| &&
      var t := m.buf[..idx] + v + m.buf[idx + w..];
      |t| == |m.buf| && t[i * w .. i * w + w] == m.buf[i * w .. i * w + w]
  {
    var w := m.bpi;
    ItemBounds(key, m.n, w);
    ItemBounds(i, m.n, w);
    ItemsApart(i, key, w);
    SpliceElsewhere(m.buf, key * w, v, i * w, i * w + w);
  }

  /** Two different items occupy disjoint byte ranges. */
  lemma ItemsApart(i: int, key: int, w: int)
    requires 0 <= w && i != key
    ensures i * w + w <= key * w || key * w + w <= i * w
  {
    if i < key {
      MulMono(i + 1, key, w);
      assert (i + 1) * w == i * w + w;
    } else {
      MulMono(key + 1, i, w);
      assert (key + 1) * w == key * w + w;
    }
  }

  /** Writing one item and reading any item back: the written index reads
      the new value, every other index (negative ones included) reads what
      it read before. */
  lemma GetAfterSet(m: ByteMap, key: int, v: Color, j: int)
    requires Valid(m) && 0 <= key < m.n && |v| == m.bpi && IsColor(v)
    requires -(m.n as int) < j < m.n
    ensures SetItem(m, key, TupleColor(v)).Ok?
    ensures GetItem(SetItem(m, key, TupleColor(v)).value, j) ==
      if j == key || j + m.n == key then Ok(v) else GetItem(m, j)
  {
    SetItemInRange(m, key, v);
    var r := SetItem(m, key, TupleColor(v)).value;
    GetItemSpec(m, j);
    GetItemSpec(r, j);
  }

  /** A write at index `n` appends one item and keeps the others. */
  lemma SetItemAppends(m: ByteMap, v: Color)
    requires Valid(m) && |v| == m.bpi && IsColor(v)
    ensures SetItem(m, m.n, TupleColor(v)).Ok?
    ensures var r := SetItem(m, m.n, TupleColor(v)).value;
      Valid(r) && r.n == m.n + 1 && Item(r, m.n) == v &&
      forall i :: 0 <= i < m.n ==> Item(r, i) == Item(m, i)
  {
    var r := SetItem(m, m.n, TupleColor(v)).value;
    assert r.buf == m.buf + v;
    assert |r.buf| == (m.n + 1) * m.bpi;
    forall i | 0 <= i < m.n
      ensures Item(r, i) == Item(m, i)
    {
      ItemBounds(i, m.n, m.bpi);
    }
  }

  /** Writing a run of fitting colours inside the map puts `vals[j]` at
      `start + j` and leaves every other item alone. */
  lemma {:induction false} WriteFromSpec(m: ByteMap, start: int, vals: seq<Color>)
    requires Valid(m) && 0 <= start && start + |vals| <= m.n && Fits(m, vals)
    ensures WriteFrom(m, start, vals).Ok?
    ensures var r := WriteFrom(m, start, vals).value;
      Valid(r) && r.n == m.n && r.bpi == m.bpi && r.order == m.order &&
      (forall i :: start <= i < start + |vals| ==> Item(r, i) == vals[i - start]) &&
      (forall i :: 0 <= i < m.n && !(start <= i < start + |vals|) ==> Item(r, i) == Item(m, i))
    decreases |vals|
  {
    if vals != [] {
      SetItemInRange(m, start, vals[0]);
      var m' := SetItem(m, start, TupleColor(vals[0])).value;
      var tail := vals[1..];
      assert Fits(m', tail) by {
        forall j | 0 <= j < |tail| ensures |tail[j]| == m'.bpi && IsColor(tail[j]) {
          assert tail[j] == vals[j + 1];
        }
      }
      WriteFromSpec(m', start + 1, tail);
      var r := WriteFrom(m', start + 1, tail).value;
      assert WriteFrom(m, start, vals) == Ok(r);
      forall i | start <= i < start + |vals|
        ensures Item(r, i) == vals[i - start]
      {
        if i > start {
          assert vals[i - start] == tail[i - (start + 1)];
        }
      }
      forall i | 0 <= i < m.n && !(start <= i < start + |vals|)
        ensures Item(r, i) == Item(m, i)
      {
        assert Item(r, i) == Item(m', i);
      }
    }
  }

  /** `n` copies of one colour. */
  function Copies(v: Color, count: int): (r: seq<Color>)
    ensures |r| == if count < 0 then 0 else count
    ensures forall j :: 0 <= j < |r| ==> r[j] == v
  {
    if count <= 0 then [] else seq(count, _ => v)
  }

  /** `fill(val, start_pos, end_pos)` */
  function Fill(m: ByteMap, val: ColorArg, start: int, end: Option<int>): (r: Result<ByteMap>)
  {
    var v :- Colval(val, m.bpi);
    WriteFrom(m, start, Copies(v, EndPos(m.n, end) - start + 1))
  }

  /** Filling sets every item from `start` to the end position to the
      colour and keeps the rest. */
  lemma FillSpec(m: ByteMap, val: ColorArg, start: nat, end: Option<int>)
    requires Valid(m) && Colval(val, m.bpi).Ok?
    requires var v := Colval(val, m.bpi).value; |v| == m.bpi && IsColor(v)
    ensures Fill(m, val, start, end).Ok?
    ensures var r := Fill(m, val, start, end).value;
      var e := EndPos(m.n, end);
      Valid(r) && r.n == m.n &&
      (forall i :: start <= i <= e ==> Item(r, i) == Colval(val, m.bpi).value) &&
      (forall i :: 0 <= i < m.n && !(start <= i <= e) ==> Item(r, i) == Item(m, i))
  {
    var v := Colval(val, m.bpi).value;
    var r := FillRun(m, v, start, end);
    assert Fill(m, val, start, end) == WriteFrom(m, start, Copies(v, EndPos(m.n, end) - start + 1));
  }

  /** Writing copies of one fitting colour over `start..e`. */
  lemma FillRun(m: ByteMap, v: Color, start: nat, end: Option<int>) returns (r: ByteMap)
    requires Valid(m) && |v| == m.bpi && IsColor(v)
    ensures WriteFrom(m, start, Copies(v, EndPos(m.n, end) - start + 1)) == Ok(r)
    ensures Valid(r) && r.n == m.n &&
      (forall i :: start <= i <= EndPos(m.n, end) ==> Item(r, i) == v) &&
      (forall i :: 0 <= i < m.n && !(start <= i <= EndPos(m.n, end)) ==> Item(r, i) == Item(m, i))
  {
    var e := EndPos(m.n, end);
    var vals := Copies(v, e - start + 1);
    assert e <= m.n - 1;
    assert Fits(m, vals) by {
      forall j | 0 <= j < |vals| ensures |vals[j]| == m.bpi && IsColor(vals[j]) {
        assert vals[j] == v;
      }
    }
    if vals == [] {
      r := m;
    } else {
      WriteFromSpec(m, start, vals);
      r := WriteFrom(m, start, vals).value;
    }
  }

  /** Item `i` of a `steps`-step gradient: channel `k` is
      `uint8(v1[k] + (v2[k] - v1[k]) / steps * i)` for `k < bpi`. */
  function GradientItem(v1: Color, v2: Color, i: int, steps: int, w: nat): (r: Color)
    requires steps > 0 && |v1| >= w && |v2| >= w
    ensures |r| == w && IsColor(r)
  {
    seq(w, k requires 0 <= k < w => Lerp(v1[k], v2[k], i, steps))
  }

  /** The first `steps` items of a gradient, before the closing `v2`. */
  function Ramp(v1: Color, v2: Color, steps: nat, w: nat): (r: seq<Color>)
    requires steps > 0 && |v1| >= w && |v2| >= w
    ensures |r| == steps
    ensures forall i :: 0 <= i < steps ==> r[i] == GradientItem(v1, v2, i, steps, w)
  {
    seq(steps, i requires 0 <= i < steps => GradientItem(v1, v2, i, steps, w))
  }

  /** Every channel of `c` below `w` lies between the same channels of
      `v1` and `v2`, whichever of the two is larger. */
  predicate Between(v1: Color, v2: Color, c: Color, w: nat)
    requires |v1| >= w && |v2| >= w && |c| >= w
  {
    forall k :: 0 <= k < w ==>
      (v1[k] <= v2[k] ==> v1[k] <= c[k] <= v2[k]) && (v2[k] <= v1[k] ==> v2[k] <= c[k] <= v1[k])
  }

  /** Every gradient item lies between the two end colours. */
  lemma GradientBetween(v1: Color, v2: Color, i: int, steps: int, w: nat)
    requires steps > 0 && 0 <= i <= steps && |v1| >= w && |v2| >= w
    requires IsColor(v1) && IsColor(v2)
    ensures Between(v1, v2, GradientItem(v1, v2, i, steps, w), w)
  {
    var g := GradientItem(v1, v2, i, steps, w);
    forall k | 0 <= k < w
      ensures (v1[k] <= v2[k] ==> v1[k] <= g[k] <= v2[k]) && (v2[k] <= v1[k] ==> v2[k] <= g[k] <= v1[k])
    {
      assert g[k] == Lerp(v1[k], v2[k], i, steps);
      LerpBetween(v1[k], v2[k], i, steps);
    }
  }

  /** The first gradient item is `v1` itself. */
  lemma GradientStart(v1: Color, v2: Color, steps: int, w: nat)
    requires steps > 0 && |v1| == w && |v2| >= w && IsColor(v1) && IsColor(v2)
    ensures GradientItem(v1, v2, 0, steps, w) == v1
  {
    var g := GradientItem(v1, v2, 0, steps, w);
    forall k | 0 <= k < w ensures g[k] == v1[k] {
      LerpEnds(v1[k], v2[k], steps);
    }
  }

  /** `step_inc(c1, c2, steps)` evaluated only for its errors: the first
      channel reads `c2[0]` (IndexError when `c2` is empty) and then divides
      by `steps`; a later channel missing from `c2` raises IndexError. */
  function StepIncCheck(c1: Color, c2: Color, steps: int): (r: Result<()>)
    ensures r.Ok? <==> |c1| == 0 || (|c2| >= |c1| && steps != 0)
  {
    if |c1| == 0 then Ok(())
    else if |c2| == 0 then Err(IndexError)
    else if steps == 0 then Err(ZeroDivisionError)
    else if |c2| < |c1| then Err(IndexError)
    else Ok(())
  }

  /** `fill_gradient(v1, v2, start_pos, end_pos)`: `steps` interpolated items
      from `start`, then `v2` at the end position. */
  function FillGradient(m: ByteMap, v1: ColorArg, v2: ColorArg, start: int, end: Option<int>): (r: Result<ByteMap>)
  {
    var e := EndPos(m.n, end);
    var steps := e - start;
    var c1 :- Colval(v1, m.bpi);
    var c2 :- Colval(v2, m.bpi);
    var _ :- StepIncCheck(c1, c2, steps);
    if steps > 0 && |c1| < m.bpi then Err(IndexError)
    else
      var ramp := if steps > 0 then Ramp(c1, c2, steps, m.bpi) else [];
      var m' :- WriteFrom(m, start, ramp);
      SetItem(m', e, TupleColor(c2))
  }

  /** The items a gradient fill leaves: the ramp from `start`, `v2` at the
      end position, and the old items elsewhere. */
  lemma FillGradientItems(m: ByteMap, v1: Color, v2: Color, start: nat, end: Option<int>) returns (r: ByteMap)
    requires Valid(m) && |v1| == m.bpi && |v2| == m.bpi && IsColor(v1) && IsColor(v2)
    requires start < EndPos(m.n, end)
    ensures FillGradient(m, TupleColor(v1), TupleColor(v2), start, end) == Ok(r)
    ensures Valid(r) && r.n == m.n && r.bpi == m.bpi && Item(r, EndPos(m.n, end)) == v2
    ensures forall i :: start <= i < EndPos(m.n, end) ==>
      Item(r, i) == GradientItem(v1, v2, i - start, EndPos(m.n, end) - start, m.bpi)
    ensures forall i :: 0 <= i < m.n && !(start <= i <= EndPos(m.n, end)) ==> Item(r, i) == Item(m, i)
  {
    var e := EndPos(m.n, end);
    var m';
    m', r := RampThenEnd(m, v1, v2, start, e);
    assert Colval(TupleColor(v1), m.bpi) == Ok(v1) && Colval(TupleColor(v2), m.bpi) == Ok(v2);
    assert StepIncCheck(v1, v2, e - start) == Ok(());
    assert FillGradient(m, TupleColor(v1), TupleColor(v2), start, end) == Ok(r);
  }

  /** The two writes of a gradient fill: the ramp from `start`, then `v2`
      at `e`. */
  lemma RampThenEnd(m: ByteMap, v1: Color, v2: Color, start: nat, e: int) returns (m': ByteMap, r: ByteMap)
    requires Valid(m) && |v1| == m.bpi && |v2| == m.bpi && IsColor(v1) && IsColor(v2)
    requires start < e < m.n
    ensures WriteFrom(m, start, Ramp(v1, v2, e - start, m.bpi)) == Ok(m')
    ensures SetItem(m', e, TupleColor(v2)) == Ok(r)
    ensures Valid(r) && r.n == m.n && r.bpi == m.bpi && Item(r, e) == v2
    ensures forall i :: start <= i < e ==> Item(r, i) == GradientItem(v1, v2, i - start, e - start, m.bpi)
    ensures forall i :: 0 <= i < m.n && !(start <= i <= e) ==> Item(r, i) == Item(m, i)
  {
    var ramp := Ramp(v1, v2, e - start, m.bpi);
    WriteFromSpec(m, start, ramp);
    m' := WriteFrom(m, start, ramp).value;
    SetItemInRange(m', e, v2);
    r := SetItem(m', e, TupleColor(v2)).value;
  }

  /** A gradient over at least two items starts on `v1`, ends on `v2`, and
      every item in between lies channel by channel between the two. */
  lemma FillGradientSpec(m: ByteMap, v1: Color, v2: Color, start: nat, end: Option<int>) returns (r: ByteMap)
    requires Valid(m) && |v1| == m.bpi && |v2| == m.bpi && IsColor(v1) && IsColor(v2)
    requires start < EndPos(m.n, end)
    ensures FillGradient(m, TupleColor(v1), TupleColor(v2), start, end) == Ok(r)
    ensures Valid(r) && r.n == m.n && Item(r, start) == v1 && Item(r, EndPos(m.n, end)) == v2
    ensures forall i :: start <= i <= EndPos(m.n, end) ==> Between(v1, v2, Item(r, i), m.bpi)
    ensures forall i :: 0 <= i < m.n && !(start <= i <= EndPos(m.n, end)) ==> Item(r, i) == Item(m, i)
  {
    r := FillGradientItems(m, v1, v2, start, end);
    RampEnds(r, v1, v2, start, EndPos(m.n, end), m.bpi);
  }

  /** A map holding a ramp of width `w` from `start` and `v2` at `e` starts
      on `v1` and holds only colours between `v1` and `v2` in between. */
  lemma RampEnds(r: ByteMap, v1: Color, v2: Color, start: int, e: int, w: nat)
    requires Valid(r) && r.bpi == w && 0 <= start < e < r.n && |v1| == w && |v2| == w && IsColor(v1) && IsColor(v2)
    requires Item(r, e) == v2
    requires forall i :: start <= i < e ==> Item(r, i) == GradientItem(v1, v2, i - start, e - start, w)
    ensures Item(r, start) == v1
    ensures forall i :: start <= i <= e ==> Between(v1, v2, Item(r, i), w)
  {
    assert Item(r, start) == GradientItem(v1, v2, 0, e - start, w);
    GradientStart(v1, v2, e - start, w);
    RampBetween(r, v1, v2, start, e);
  }

  /** A map holding a ramp from `start` and `v2` at `e` holds, between the
      two, only colours between `v1` and `v2`. */
  lemma RampBetween(r: ByteMap, v1: Color, v2: Color, start: int, e: int)
    requires Valid(r) && 0 <= start < e < r.n && |v1| == r.bpi && |v2| == r.bpi && IsColor(v1) && IsColor(v2)
    requires Item(r, e) == v2
    requires forall i :: start <= i < e ==> Item(r, i) == GradientItem(v1, v2, i - start, e - start, r.bpi)
    ensures forall i :: start <= i <= e ==> Between(v1, v2, Item(r, i), r.bpi)
  {
    forall i | start <= i <= e
      ensures Between(v1, v2, Item(r, i), r.bpi)
    {
      if i < e {
        GradientBetween(v1, v2, i - start, e - start, r.bpi);
      } else {
        GradientBetween(v1, v2, e - start, e - start, r.bpi);
        GradientEnd(v1, v2, e - start, r.bpi);
      }
    }
  }

  /** The item one full ramp past the start is `v2`. */
  lemma GradientEnd(v1: Color, v2: Color, steps: int, w: nat)
    requires steps > 0 && |v1| >= w && |v2| == w && IsColor(v1) && IsColor(v2)
    ensures GradientItem(v1, v2, steps, steps, w) == v2
  {
    var g := GradientItem(v1, v2, steps, steps, w);
    forall k | 0 <= k < w ensures g[k] == v2[k] {
      LerpEnds(v1[k], v2[k], steps);
    }
  }

  /** The indices `fill_gen` writes, in the order it writes them. */
  function GenKeys(start: int, e: int, direction: int): (r: seq<int>)
    ensures |r| == if e < start then 0 else e - start + 1
    ensures forall j :: 0 <= j < |r| ==> r[j] == if direction > 0 then start + j else e - j
  {
    if e < start then []
    else if direction > 0 then seq(e - start + 1, j => start + j)
    else seq(e - start + 1, j => e - j)
  }

  /** The `k` consecutive indices from `start`. */
  function Span(start: int, k: nat): (r: seq<int>)
    ensures |r| == k && forall j :: 0 <= j < k ==> r[j] == start + j
  {
    seq(k, j => start + j)
  }

  lemma SpanTail(start: int, k: nat)
    requires k > 0
    ensures Span(start, k)[0] == start && Span(start, k)[1..] == Span(start + 1, k - 1)
  {
    var a := Span(start, k)[1..];
    var b := Span(start + 1, k - 1);
    assert |a| == |b|;
    forall j | 0 <= j < |a| ensures a[j] == b[j] {
      assert a[j] == Span(start, k)[j + 1];
    }
  }

  /** The map and generator after `fill_gen`. */
  datatype Filled = Filled(bytes: ByteMap, gen: Gen, rest: Tape)

  /** For each key in turn: advance the generator, then write its colour. */
  function PullWrite(m: ByteMap, g: Gen, brightness: byte, t: Tape, keys: seq<int>): (r: Result<Filled>)
    requires Generators.Valid(g)
    ensures r.Ok? ==> Generators.Valid(r.value.gen)
    decreases |keys|
  {
    if keys == [] then Ok(Filled(m, g, t))
    else
      var y :- Next(g, brightness, t);
      var m' :- SetItem(m, keys[0], TupleColor(y.color));
      PullWrite(m', y.gen, brightness, y.rest, keys[1..])
  }

  /** `fill_gen(gen, start_pos, end_pos, direction)` */
  function FillGen(m: ByteMap, g: Gen, brightness: byte, t: Tape, start: int, end: Option<int>, direction: int): (r: Result<Filled>)
    requires Generators.Valid(g)
    ensures r.Ok? ==> Generators.Valid(r.value.gen)
  {
    PullWrite(m, g, brightness, t, GenKeys(start, EndPos(m.n, end), direction))
  }

  /** One step of `PullWrite`: the first key takes the generator's next colour. */
  lemma PullWriteStep(m: ByteMap, g: Gen, b: byte, t: Tape, keys: seq<int>, y: Yield)
    requires Generators.Valid(g) && keys != [] && Next(g, b, t) == Ok(y)
    requires SetItem(m, keys[0], TupleColor(y.color)).Ok?
    ensures PullWrite(m, g, b, t, keys) ==
      PullWrite(SetItem(m, keys[0], TupleColor(y.color)).value, y.gen, b, y.rest, keys[1..])
  {
  }

  /** The head and tail of a fitting run fit any map of the same width. */
  lemma FitsCons(m: ByteMap, m': ByteMap, c: Color, rest: seq<Color>)
    requires Fits(m, [c] + rest) && m'.bpi == m.bpi
    ensures |c| == m.bpi && IsColor(c) && Fits(m', rest)
  {
    assert ([c] + rest)[0] == c;
    forall j | 0 <= j < |rest| ensures |rest[j]| == m.bpi && IsColor(rest[j]) {
      assert rest[j] == ([c] + rest)[j + 1];
    }
  }

  /** The items after writing `c` at `keys[0]` and then the colours
      `more` at the rest of the keys. */
  lemma KeysCombine(m: ByteMap, m': ByteMap, f: ByteMap, keys: seq<int>, c: Color, more: seq<Color>)
    requires Valid(m) && Valid(m') && Valid(f) && m'.n == m.n && f.n == m.n
    requires |keys| == |more| + 1 && Distinct(keys)
    requires forall j :: 0 <= j < |keys| ==> 0 <= keys[j] < m.n
    requires Item(m', keys[0]) == c
    requires forall i :: 0 <= i < m.n && i != keys[0] ==> Item(m', i) == Item(m, i)
    requires forall j :: 0 <= j < |keys[1..]| ==> Item(f, keys[1..][j]) == more[j]
    requires forall i :: 0 <= i < m.n && i !in keys[1..] ==> Item(f, i) == Item(m', i)
    ensures forall j :: 0 <= j < |keys| ==> Item(f, keys[j]) == ([c] + more)[j]
    ensures forall i :: 0 <= i < m.n && i !in keys ==> Item(f, i) == Item(m, i)
  {
    assert keys[0] !in keys[1..];
    forall j | 0 <= j < |keys| ensures Item(f, keys[j]) == ([c] + more)[j] {
      if j > 0 {
        assert keys[j] == keys[1..][j - 1];
      }
    }
    forall i | 0 <= i < m.n && i !in keys ensures Item(f, i) == Item(m, i) {
      assert i !in keys[1..] && i != keys[0];
    }
  }

  /** Writes `vals[j]` at `keys[j]`, in order, stopping at the first
      failing write. */
  function WriteKeys(m: ByteMap, keys: seq<int>, vals: seq<Color>): (r: Result<ByteMap>)
    decreases |keys|
  {
    if keys == [] || vals == [] then Ok(m)
    else
      var m' :- SetItem(m, keys[0], TupleColor(vals[0]));
      WriteKeys(m', keys[1..], vals[1..])
  }

  /** Keys inside the map stay inside it once the first is dropped. */
  lemma TailInRange(keys: seq<int>, n: nat)
    requires keys != [] && forall j :: 0 <= j < |keys| ==> 0 <= keys[j] < n
    ensures forall j :: 0 <= j < |keys[1..]| ==> 0 <= keys[1..][j] < n
  {
    forall j | 0 <= j < |keys[1..]| ensures 0 <= keys[1..][j] < n {
      assert keys[1..][j] == keys[j + 1];
    }
  }

  /** One step of `WriteKeys`. */
  lemma WriteKeysStep(m: ByteMap, keys: seq<int>, c: Color, rest: seq<Color>, m': ByteMap)
    requires keys != [] && SetItem(m, keys[0], TupleColor(c)) == Ok(m')
    ensures WriteKeys(m, keys, [c] + rest) == WriteKeys(m', keys[1..], rest)
  {
    assert ([c] + rest)[0] == c && ([c] + rest)[1..] == rest;
  }

  /** What `PullWriteIsWriteKeys` needs: every key inside the map, and the
      `|keys|` colours the generator gives next fit its items. */
  ghost predicate Ready(m: ByteMap, g: Gen, b: byte, t: Tape, keys: seq<int>, p: Pulled) {
    Valid(m) && Generators.Valid(g) && (forall j :: 0 <= j < |keys| ==> 0 <= keys[j] < m.n) &&
    Take(g, b, t, |keys|) == Ok(p) && Fits(m, p.colors)
  }

  /** One pull and write keeps the rest of the run ready. */
  lemma Advance(m: ByteMap, g: Gen, b: byte, t: Tape, keys: seq<int>, p: Pulled)
    returns (y: Yield, more: Pulled, m': ByteMap)
    requires Ready(m, g, b, t, keys, p) && keys != []
    ensures Ready(m', y.gen, b, y.rest, keys[1..], more)
    ensures Next(g, b, t) == Ok(y) && SetItem(m, keys[0], TupleColor(y.color)) == Ok(m')
    ensures p == Pulled([y.color] + more.colors, more.gen, more.rest)
  {
    y, more := TakeHead(g, b, t, |keys|);
    assert p == Pulled([y.color] + more.colors, more.gen, more.rest);
    m' := SetHead(m, keys[0], y.color, more.colors);
    TailInRange(keys, m'.n);
    assert |keys[1..]| == |keys| - 1;
  }

  /** Writing the first of a run of fitting colours keeps the map valid
      and the rest of the run fitting. */
  lemma SetHead(m: ByteMap, key: int, c: Color, more: seq<Color>) returns (m': ByteMap)
    requires Valid(m) && 0 <= key < m.n && Fits(m, [c] + more)
    ensures SetItem(m, key, TupleColor(c)) == Ok(m')
    ensures Valid(m') && m'.n == m.n && m'.bpi == m.bpi && Fits(m', more)
  {
    FitsCons(m, m, c, more);
    SetItemInRange(m, key, c);
    m' := SetItem(m, key, TupleColor(c)).value;
    FitsCons(m, m', c, more);
  }

  /** Pulling one colour per key and writing it there is pulling the
      colours first and then writing them key by key; the generator ends
      where `Take` says. */
  lemma {:induction false} PullWriteIsWriteKeys(m: ByteMap, g: Gen, b: byte, t: Tape, keys: seq<int>, p: Pulled)
    requires Ready(m, g, b, t, keys, p)
    ensures WriteKeys(m, keys, p.colors).Ok?
    ensures PullWrite(m, g, b, t, keys) == Ok(Filled(WriteKeys(m, keys, p.colors).value, p.gen, p.rest))
    decreases |keys|
  {
    if keys != [] {
      var y, more, m' := Advance(m, g, b, t, keys, p);
      PullWriteStep(m, g, b, t, keys, y);
      WriteKeysStep(m, keys, y.color, more.colors, m');
      PullWriteIsWriteKeys(m', y.gen, b, y.rest, keys[1..], more);
    }
  }

  /** Writing over distinct keys of the map gives key `j` the value
      `vals[j]` and leaves every other item alone. */
  lemma {:induction false} WriteKeysSpec(m: ByteMap, keys: seq<int>, vals: seq<Color>)
    requires Valid(m) && Distinct(keys) && |vals| == |keys| && Fits(m, vals)
    requires forall j :: 0 <= j < |keys| ==> 0 <= keys[j] < m.n
    ensures WriteKeys(m, keys, vals).Ok?
    ensures var r := WriteKeys(m, keys, vals).value;
      Valid(r) && r.n == m.n && r.bpi == m.bpi && r.order == m.order &&
      (forall j :: 0 <= j < |keys| ==> Item(r, keys[j]) == vals[j]) &&
      (forall i :: 0 <= i < m.n && i !in keys ==> Item(r, i) == Item(m, i))
    decreases |keys|
  {
    if keys != [] {
      assert vals == [vals[0]] + vals[1..];
      FitsCons(m, m, vals[0], vals[1..]);
      SetItemInRange(m, keys[0], vals[0]);
      var m' := SetItem(m, keys[0], TupleColor(vals[0])).value;
      FitsCons(m, m', vals[0], vals[1..]);
      var tail := keys[1..];
      assert Distinct(tail);
      TailInRange(keys, m'.n);
      WriteKeysSpec(m', tail, vals[1..]);
      var r := WriteKeys(m', tail, vals[1..]).value;
      WriteKeysStep(m, keys, vals[0], vals[1..], m');
      KeysCombine(m, m', r, keys, vals[0], vals[1..]);
    }
  }

  /** Where item `i` of the run `start..e` sits among the colours
      `fill_gen` pulls: counted from `start` going up, from `e` going down. */
  function RunIndex(start: int, e: int, direction: int, i: int): (j: int)
    requires start <= i <= e
    ensures 0 <= j <= e - start
  {
    if direction > 0 then i - start else e - i
  }

  /** Writing `vals` over the keys of the run `start..e` puts on each item
      of the run its own colour and leaves the other items alone. */
  lemma WriteRun(m: ByteMap, start: nat, end: Option<int>, direction: int, vals: seq<Color>) returns (r: ByteMap)
    requires Valid(m) && start <= EndPos(m.n, end) && |vals| == EndPos(m.n, end) - start + 1 && Fits(m, vals)
    ensures WriteKeys(m, GenKeys(start, EndPos(m.n, end), direction), vals) == Ok(r)
    ensures Valid(r) && r.n == m.n && r.bpi == m.bpi && r.order == m.order
    ensures forall i :: start <= i <= EndPos(m.n, end) ==>
      Item(r, i) == vals[RunIndex(start, EndPos(m.n, end), direction, i)]
    ensures forall i :: 0 <= i < m.n && !(start <= i <= EndPos(m.n, end)) ==> Item(r, i) == Item(m, i)
  {
    var e := EndPos(m.n, end);
    var keys := GenKeys(start, e, direction);
    assert Distinct(keys);
    WriteKeysSpec(m, keys, vals);
    r := WriteKeys(m, keys, vals).value;
    forall i | start <= i <= e ensures Item(r, i) == vals[RunIndex(start, e, direction, i)] {
      assert keys[RunIndex(start, e, direction, i)] == i;
    }
    forall i | 0 <= i < m.n && !(start <= i <= e) ensures Item(r, i) == Item(m, i) {
      assert i !in keys;
    }
  }

  /** `fill_gen` over the run `start..e` pulls `e - start + 1` colours and
      writes them upwards from `start` for a positive direction, downwards
      from `e` otherwise; every other item keeps its value and the generator
      ends where `Take` says. */
  lemma FillGenSpec(m: ByteMap, g: Gen, b: byte, t: Tape, start: nat, end: Option<int>, direction: int, p: Pulled)
    returns (r: Filled)
    requires Valid(m) && Generators.Valid(g) && start <= EndPos(m.n, end)
    requires Take(g, b, t, EndPos(m.n, end) - start + 1) == Ok(p) && Fits(m, p.colors)
    ensures FillGen(m, g, b, t, start, end, direction) == Ok(r)
    ensures Valid(r.bytes) && r.bytes.n == m.n && r.bytes.bpi == m.bpi && r.bytes.order == m.order
    ensures r.gen == p.gen && r.rest == p.rest
    ensures forall i :: start <= i <= EndPos(m.n, end) ==>
      Item(r.bytes, i) == p.colors[RunIndex(start, EndPos(m.n, end), direction, i)]
    ensures forall i :: 0 <= i < m.n && !(start <= i <= EndPos(m.n, end)) ==> Item(r.bytes, i) == Item(m, i)
  {
    var keys := GenKeys(start, EndPos(m.n, end), direction);
    assert Ready(m, g, b, t, keys, p);
    PullWriteIsWriteKeys(m, g, b, t, keys, p);
    var bytes := WriteRun(m, start, end, direction, p.colors);
    r := Filled(bytes, p.gen, p.rest);
  }
}

=== FILE: colormath.dfy ===
/** Integer colour arithmetic of the trickLED library: saturating byte
    arithmetic, the 255-step colour wheel, the black-body heat ramp, linear
    blending and the normalisation of colour arguments.

    Python evaluates `blend` and `color_wheel` in floating point; here the
    same expressions are evaluated in exact rational arithmetic and then
    truncated, which is what the float code approximates. */
module ColorMath {
  import opened Wrappers
  import opened Arith

  type byte = x: int | 0 <= x < 256

  /** A colour tuple: one entry per channel (1 to 4 in practice). */
  type Color = seq<int>

  predicate IsColor(c: Color) {
    forall i :: 0 <= i < |c| ==> 0 <= c[i] < 256
  }

  function Zeros(n: nat): (r: Color)
    ensures |r| == n && IsColor(r)
    ensures forall i :: 0 <= i < n ==> r[i] == 0
  {
    seq(n, _ => 0)
  }

  /** `uint8`: clamp into [0, 255]. */
  function Uint8(v: int): (r: byte)
    ensures 0 <= v <= 255 ==> r == v
    ensures v < 0 ==> r == 0
    ensures 255 < v ==> r == 255
  {
    if 0 <= v <= 255 then v else if v < 0 then 0 else 255
  }

  /** `uint8` never moves a value further from [0, 255] and preserves order. */
  lemma Uint8Monotone(a: int, b: int)
    requires a <= b
    ensures Uint8(a) <= Uint8(b)
  {
  }

  /** `add8`: saturating addition; 200 + 100 gives 255 and 5 + (-10)
      gives 0. */
  function Add8(a: int, b: int): (r: byte)
    ensures a + b <= 0 ==> r == 0
    ensures 255 <= a + b ==> r == 255
    ensures 0 <= a + b <= 255 ==> r == a + b
  {
    Uint8(a + b)
  }

  /** `mult8`: saturating multiplication. */
  function Mult8(a: int, b: int): (r: byte)
    ensures 0 <= a && 0 <= b && a * b <= 255 ==> r == a * b
    ensures 255 <= a * b ==> r == 255
    ensures a * b <= 0 ==> r == 0
  {
    Uint8(a * b)
  }

  /** Python's floor division `a // b`. Dafny's `/` is Euclidean, which agrees
      with it only for a positive divisor. */
  function FloorDiv(a: int, b: int): (q: int)
    requires b != 0
    ensures b > 0 ==> q * b <= a < q * b + b
    ensures b < 0 ==> q * b >= a > q * b + b
  {
    if b > 0 then a / b else (-a) / (-b)
  }

  /** `uint8` applied to a (float) quotient: `int()` truncates, which on
      the accepted range [0, 255] is the floor. */
  function Uint8Real(v: real): (r: byte)
    ensures 0.0 <= v <= 255.0 ==> r == v.Floor
  {
    if 0.0 <= v <= 255.0 then v.Floor else if v < 0.0 then 0 else 255
  }

  /** Cancelling a positive real factor keeps an ordering. */
  lemma CancelLt(x: real, y: real, c: real)
    requires c > 0.0 && x * c < y * c
    ensures x < y
  {
  }

  lemma CancelLe(x: real, y: real, c: real)
    requires c > 0.0 && x * c <= y * c
    ensures x <= y
  {
  }

  /** A remainder below a positive divisor makes a fraction in [0, 1). */
  lemma FractionBounds(r: real, b: real)
    requires b > 0.0 && 0.0 <= r < b
    ensures 0.0 <= r / b < 1.0
  {
    assert (r / b) * b == r;
    CancelLt(r / b, 1.0, b);
    CancelLe(0.0, r / b, b);
  }

  /** For a positive divisor, `q * b <= a < q * b + b` pins the floor of `a / b`. */
  lemma QuotientBetween(a: int, b: int, q: int)
    requires b > 0 && q * b <= a < q * b + b
    ensures (a as real / b as real).Floor == q
  {
    assert (q * b) as real == q as real * b as real;
    var x, y, z, w := a as real, b as real, q as real, (a - q * b) as real;
    assert x == z * y + w;
    assert x / y == z + w / y;
    FractionBounds(w, y);
  }

  /** The exact quotient's floor is Python's floor quotient. */
  lemma QuotientFloor(a: int, b: int)
    requires b != 0
    ensures (a as real / b as real).Floor == FloorDiv(a, b)
  {
    var q := FloorDiv(a, b);
    if b > 0 {
      QuotientBetween(a, b, q);
    } else {
      QuotientBetween(-a, -b, q);
      assert (-a) as real / (-b) as real == a as real / b as real;
    }
  }

  /** Clamping the exact quotient `a / b` gives the same byte as clamping
      the floor quotient `a // b`, so a true division can be modelled with
      `FloorDiv`. */
  lemma TrueDivAgrees(a: int, b: int)
    requires b != 0
    ensures Uint8Real(a as real / b as real) == Uint8(FloorDiv(a, b))
  {
    QuotientFloor(a, b);
  }

  /** Step `i` of a `steps`-step fade from `a` towards `b`, the channel
      expression `uint8(a + (b - a) / steps * i)` shared by `fill_gradient`
      and `stepped_color_wheel`, in exact arithmetic. */
  function Lerp(a: int, b: int, i: int, steps: int): byte
    requires steps > 0
  {
    Uint8(FloorDiv(a * steps + (b - a) * i, steps))
  }

  /** The fade starts on `a` and, after `steps` steps, lands exactly on `b`. */
  lemma LerpEnds(a: int, b: int, steps: int)
    requires steps > 0 && 0 <= a < 256 && 0 <= b < 256
    ensures Lerp(a, b, 0, steps) == a
    ensures Lerp(a, b, steps, steps) == b
  {
    DivUnique(a * steps, steps, a, 0);
    assert a * steps + (b - a) * steps == b * steps + 0;
    DivUnique(b * steps, steps, b, 0);
  }

  /** In between it stays within the two. */
  lemma LerpBetween(a: int, b: int, i: int, steps: int)
    requires steps > 0 && 0 <= a < 256 && 0 <= b < 256 && 0 <= i <= steps
    ensures a <= b ==> a <= Lerp(a, b, i, steps) <= b
    ensures b <= a ==> b <= Lerp(a, b, i, steps) <= a
  {
    var num := a * steps + (b - a) * i;
    ScaleBetween(a, b, i, steps);
    var q := FloorDiv(num, steps);
    assert q == num / steps;
    if a <= b {
      DivBetween(num, steps, a, b);
    } else {
      DivBetween(num, steps, b, a);
    }
    assert Lerp(a, b, i, steps) == Uint8(q);
  }

  /** `a * steps + (b - a) * i` for `0 <= i <= steps` lies between
      `a * steps` and `b * steps`. */
  lemma ScaleBetween(a: int, b: int, i: int, steps: int)
    requires 0 <= i <= steps
    ensures a <= b ==> a * steps <= a * steps + (b - a) * i <= b * steps
    ensures b <= a ==> b * steps <= a * steps + (b - a) * i <= a * steps
  {
    if a <= b {
      MulMono(0, i, b - a);
      MulMono(i, steps, b - a);
      assert (b - a) * steps == b * steps - a * steps;
    } else {
      MulMono(0, i, a - b);
      MulMono(i, steps, a - b);
      assert (b - a) * i == -((a - b) * i);
      assert (a - b) * steps == a * steps - b * steps;
    }
  }


  /** One channel of `blend`, `c1 + (c2 - c1) / 100 * pct`, truncated by `uint8`. */
  function Mix(c1: int, c2: int, pct: int): byte
  {
    Uint8((c1 * 100 + (c2 - c1) * pct) / 100)
  }

  /** For byte channels and 0 <= pct <= 100 the mix lies between the two
      channels, starts at `c1` and ends at `c2`. */
  lemma MixBetween(c1: int, c2: int, pct: int)
    requires 0 <= c1 < 256 && 0 <= c2 < 256 && 0 <= pct <= 100
    ensures c1 <= c2 ==> c1 <= Mix(c1, c2, pct) <= c2
    ensures c2 <= c1 ==> c2 <= Mix(c1, c2, pct) <= c1
    ensures pct == 0 ==> Mix(c1, c2, pct) == c1
    ensures pct == 100 ==> Mix(c1, c2, pct) == c2
  {
    var num := c1 * 100 + (c2 - c1) * pct;
    ScaleBetween(c1, c2, pct, 100);
    if c1 <= c2 {
      DivBetween(num, 100, c1, c2);
    } else {
      DivBetween(num, 100, c2, c1);
    }
    if pct == 0 {
      assert num == c1 * 100;
    }
    if pct == 100 {
      assert num == c2 * 100;
    }
  }


  /** `blend(col1, col2, pct)`. The result list always has three entries;
      a fourth channel in `col1` raises IndexError, and so does a `col2`
      shorter than `col1`. A percentage outside [0, 100] returns `col1`. */
  function Blend(c1: Color, c2: Color, pct: int): (r: Result<Color>)
    ensures !(0 <= pct <= 100) ==> r == Ok(c1)
    ensures 0 <= pct <= 100 ==> (r.Err? <==> (|c1| > 3 || |c2| < |c1|))
    ensures 0 <= pct <= 100 && r.Ok? ==> |r.value| == 3 && IsColor(r.value)
    ensures 0 <= pct <= 100 && r.Ok? ==>
      forall i :: |c1| <= i < 3 ==> r.value[i] == 0
  {
    if 0 <= pct <= 100 then
      if |c1| > 3 || |c2| < |c1| then Err(IndexError)
      else Ok(seq(3, i requires 0 <= i < 3 => if i < |c1| then Mix(c1[i], c2[i], pct) else 0))
    else Ok(c1)
  }

  /** Blending at 0% reproduces `col1` and at 100% reproduces `col2`, and
      every channel stays between the two inputs' channels. */
  lemma BlendEnds(c1: Color, c2: Color, pct: int)
    requires |c1| == 3 && |c2| >= 3 && IsColor(c1) && IsColor(c2)
    requires 0 <= pct <= 100
    ensures Blend(c1, c2, pct).Ok?
    ensures pct == 0 ==> Blend(c1, c2, pct).value == c1
    ensures pct == 100 ==> Blend(c1, c2, pct).value == c2[..3]
    ensures forall i :: 0 <= i < 3 ==> Blend(c1, c2, pct).value[i] == Mix(c1[i], c2[i], pct)
    ensures forall i :: 0 <= i < 3 ==>
      (c1[i] <= c2[i] ==> c1[i] <= Blend(c1, c2, pct).value[i] <= c2[i]) &&
      (c2[i] <= c1[i] ==> c2[i] <= Blend(c1, c2, pct).value[i] <= c1[i])
  {
    var r := Blend(c1, c2, pct).value;
    forall i | 0 <= i < 3
      ensures r[i] == Mix(c1[i], c2[i], pct)
      ensures c1[i] <= c2[i] ==> c1[i] <= r[i] <= c2[i]
      ensures c2[i] <= c1[i] ==> c2[i] <= r[i] <= c1[i]
      ensures pct == 0 ==> r[i] == c1[i]
      ensures pct == 100 ==> r[i] == c2[i]
    {
      MixBetween(c1[i], c2[i], pct);
    }
  }

  /** `color_wheel(hue, val)`: the hue is clamped and reduced modulo 255 and
      the wheel is split into three 85-wide bands, red to green, green to
      blue, blue to red; hues 0, 85 and 170 give pure red, green and
      blue. */
  function ColorWheel(hue: int, val: int): (r: Color)
    ensures |r| == 3 && IsColor(r)
  {
    var h := Uint8(hue) % 255;
    var pa := h % 85;
    var ci := Uint8(val * pa / 85);
    CiBelowVal(val, pa);
    var cd := Uint8(val) - ci;
    if h < 85 then [cd, ci, 0]
    else if h < 170 then [0, cd, ci]
    else [ci, 0, cd]
  }

  /** The rising channel of the wheel never exceeds the clamped value. */
  lemma CiBelowVal(val: int, pa: int)
    requires 0 <= pa < 85
    ensures Uint8(val * pa / 85) <= Uint8(val)
  {
    if 0 <= val {
      MulMono(pa, 85, val);
      assert pa * val == val * pa && 85 * val == val * 85;
      DivBetween(val * pa, 85, 0, val);
      Uint8Monotone(val * pa / 85, val);
    } else {
      MulMono(val, 0, pa);
      assert val * pa / 85 <= 0;
    }
  }

  /** Every wheel colour has a literal zero channel (which one depends on the
      band) and its two other channels sum to the clamped value. */
  lemma ColorWheelShape(hue: int, val: int)
    ensures var r := ColorWheel(hue, val);
      var h := Uint8(hue) % 255;
      (h < 85 ==> r[2] == 0 && r[0] + r[1] == Uint8(val)) &&
      (85 <= h < 170 ==> r[0] == 0 && r[1] + r[2] == Uint8(val)) &&
      (170 <= h ==> r[1] == 0 && r[0] + r[2] == Uint8(val))
    ensures var r := ColorWheel(hue, val);
      (r[0] == 0 || r[1] == 0 || r[2] == 0) && r[0] + r[1] + r[2] == Uint8(val)
  {
  }

  /** Hue 255 (and every hue above it) wraps round to hue 0; the wheel only
      depends on the clamped hue modulo 255. */
  lemma ColorWheelPeriodic(hue: int, val: int)
    ensures ColorWheel(hue, val) == ColorWheel(Uint8(hue) % 255, val)
    ensures 255 <= hue ==> ColorWheel(hue, val) == ColorWheel(0, val)
    ensures hue <= 0 ==> ColorWheel(hue, val) == ColorWheel(0, val)
  {
    var h := Uint8(hue) % 255;
    assert Uint8(h) == h && h % 255 == h;
    if 255 <= hue {
      assert Uint8(hue) == 255 && h == 0;
    } else if hue <= 0 {
      assert Uint8(hue) == 0 && h == 0;
    }
  }

  /** `heat_color(temp)`: scale the temperature to 0..191 and split that into
      three 64-wide ramps, black to red, red to yellow, yellow to white. */
  function HeatColor(temp: int): (r: Color)
    ensures |r| == 3 && IsColor(r)
  {
    var t191 := temp * 191 / 255;
    var ramp := (t191 % 64) * 4;
    if t191 < 64 then [ramp, 0, 0]
    else if t191 < 128 then [255, ramp, 0]
    else [255, 255, ramp]
  }

  /** Over 0..255 the heat ramp never darkens any channel as the temperature
      rises, starts at black and ends just below white. */
  lemma HeatColorMonotone(a: int, b: int)
    requires 0 <= a <= b <= 255
    ensures forall i :: 0 <= i < 3 ==> HeatColor(a)[i] <= HeatColor(b)[i]
    ensures HeatColor(0) == [0, 0, 0]
    ensures HeatColor(255) == [255, 255, 252]
  {
    var ta := a * 191 / 255;
    var tb := b * 191 / 255;
    assert a * 191 <= b * 191;
    assert ta <= tb;
    assert 0 <= ta && tb <= 191;
    assert 0 <= ta && tb <= 191;
    if ta / 64 == tb / 64 {
      assert ta % 64 <= tb % 64;
    }
  }

  /** Python's colour arguments: `None`, an int (possibly hex) or a tuple. */
  datatype ColorArg = NoColor | IntColor(v: int) | TupleColor(t: seq<int>)

  function Pow256(n: nat): (r: nat)
    ensures r >= 1
  {
    if n == 0 then 1 else 256 * Pow256(n - 1)
  }

  /** `v.to_bytes(n, 'big')` for `0 <= v < 256^n`. */
  function BigEndian(v: nat, n: nat): (r: Color)
    ensures |r| == n && IsColor(r)
  {
    if n == 0 then [] else BigEndian(v / 256, n - 1) + [v % 256]
  }

  /** `int.from_bytes(s, 'big')`, the inverse of `BigEndian`. */
  function FromBigEndian(s: Color): int
  {
    if |s| == 0 then 0 else FromBigEndian(s[..|s| - 1]) * 256 + s[|s| - 1]
  }

  lemma {:induction false} BigEndianRoundTrip(v: nat, n: nat)
    requires v < Pow256(n)
    ensures FromBigEndian(BigEndian(v, n)) == v
  {
    if n > 0 {
      var s := BigEndian(v, n);
      assert s[..|s| - 1] == BigEndian(v / 256, n - 1);
      BigEndianRoundTrip(v / 256, n - 1);
    }
  }

  /** `colval(val, bpp)`: falsy arguments (None, 0, an empty tuple) become
      black, an int becomes its `bpp` big-endian bytes (OverflowError when
      it does not fit; `0x0a0a0a` becomes (10, 10, 10)), and any other
      tuple is returned unchanged. */
  function Colval(val: ColorArg, bpp: nat): (r: Result<Color>)
    ensures val.NoColor? || val == IntColor(0) || val == TupleColor([]) ==> r == Ok(Zeros(bpp))
    ensures val.TupleColor? && val.t != [] ==> r == Ok(val.t)
    ensures val.IntColor? && val.v != 0 ==>
      (r.Ok? <==> 0 < val.v < Pow256(bpp)) &&
      (r.Ok? ==> |r.value| == bpp && IsColor(r.value) && FromBigEndian(r.value) == val.v)
  {
    match val
    case NoColor => Ok(Zeros(bpp))
    case IntColor(v) =>
      if v == 0 then Ok(Zeros(bpp))
      else if v < 0 || v >= Pow256(bpp) then Err(OverflowError)
      else BigEndianRoundTrip(v, bpp); Ok(BigEndian(v, bpp))
    case TupleColor(t) => if t == [] then Ok(Zeros(bpp)) else Ok(t)
  }

  /** Normalising an already normalised colour changes nothing. */
  lemma ColvalIdempotent(val: ColorArg, bpp: nat)
    requires bpp > 0 && Colval(val, bpp).Ok?
    ensures Colval(TupleColor(Colval(val, bpp).value), bpp) == Colval(val, bpp)
  {
  }
}

=== FILE: conjunction.dfy ===
/** `Conjunction`: colours grow outwards in both directions from insert
    points 32 pixels apart, fading as they go; after 16 steps the colours
    from neighbouring points meet, and the cycle starts over with a fresh
    palette from the generator and freshly placed insert points. */
module Conjunctions {
  import opened Wrappers
  import opened ColorMath
  import opened Random
  import opened Generators
  import opened Strips
  import opened Animations
  import opened Mapped
  import ByteMaps

  /** The animation's state: its settings, the generator that refills the
      palette every cycle, the palette and its copy in the strip's byte
      order, the heat map (one byte per computed pixel), the step within the
      cycle and the insert points. The palette shift stays 0. */
  datatype Conjunction = Conjunction(base: Base, gen: Gen, palette: ByteMaps.ByteMap,
                                     ordered: Option<ByteMaps.ByteMap>, meta: ByteMaps.ByteMap,
                                     step: int, inserts: seq<int>)

  /** Palette entries: black, then one per generator colour. */
  const PaletteSize := 33

  /** The distance between insert points. */
  const Spacing := 32

  /** Steps in a cycle: after this many the colours of neighbouring points
      meet. */
  const CycleSteps := 16

  /** `Conjunction(leds, generator=…)`: without a generator, a fading
      colour wheel of hue stride 25 and stripes of 16, fading out (whose
      brightness table is `fadeOut`); a black palette of 33 three-byte
      entries; a zero heat map over the computed pixels. */
  function Create(leds: LedsArg, gen: Option<Gen>, fadeOut: seq<int>, interval: int, brightness: int): (r: Result<Conjunction>)
    ensures r.Ok? <==> leds.TrickLEDArg?
    ensures r.Err? ==> r.error == ValueError
    ensures r.Ok? ==> var a := r.value;
      a.base == Init(leds, interval, brightness).value &&
      a.gen == (if gen.Some? then gen.value else FadingColorWheel(25, 16, 0, fadeOut)) &&
      ByteMaps.Valid(a.palette) && a.palette.n == PaletteSize && a.palette.bpi == 3 && a.palette.order == DefaultOrder &&
      (forall k :: 0 <= k < |a.palette.buf| ==> a.palette.buf[k] == 0) &&
      ByteMeta(a.meta) && a.meta.n == a.base.calcN && (forall k :: 0 <= k < a.meta.n ==> a.meta.buf[k] == 0) &&
      a.ordered.None?
  {
    var base :- Init(leds, interval, brightness);
    var g := if gen.Some? then gen.value else FadingColorWheel(25, 16, 0, fadeOut);
    Ok(Conjunction(base, g, ByteMaps.New(PaletteSize, 3, DefaultOrder), None,
                   ByteMaps.New(base.calcN, 1, DefaultOrder), 0, []))
  }

  // ------------------------------------------------------- insert points

  /** The points the `while rn < calc_n` loop appends after `p`: each 32
      past the one before, the last being the first at or past `calcN`. */
  function PointsAfter(p: int, calcN: nat): (r: seq<int>)
    decreases if p < calcN then calcN - p else 0
  {
    if p < calcN then [p + Spacing] + PointsAfter(p + Spacing, calcN) else []
  }

  /** `[rn - 32, rn]` and then the points after `rn`. */
  function InsertPoints(rn: int, calcN: nat): (r: seq<int>)
  {
    [rn - Spacing, rn] + PointsAfter(rn, calcN)
  }

  /** The points after `p` run on 32 apart from `p` and stop at the first
      one at or past `calcN`. */
  lemma {:induction false} PointsAfterSpec(p: int, calcN: nat)
    ensures var r := PointsAfter(p, calcN);
      (forall j :: 0 <= j < |r| ==> r[j] == p + Spacing * (j + 1)) &&
      (p < calcN <==> r != []) &&
      (r != [] ==> r[|r| - 1] >= calcN && forall j :: 0 <= j < |r| - 1 ==> r[j] < calcN)
    decreases if p < calcN then calcN - p else 0
  {
    if p < calcN {
      var rest := PointsAfter(p + Spacing, calcN);
      PointsAfterSpec(p + Spacing, calcN);
      var r := PointsAfter(p, calcN);
      assert r == [p + Spacing] + rest;
      forall j | 0 < j < |r| ensures r[j] == p + Spacing * (j + 1) {
        assert r[j] == rest[j - 1];
      }
    }
  }

  /** The insert points `start_cycle` places from `rn` (0 to 31): evenly 32
      apart starting from `rn - 32`, so the first lies before the strip;
      every one but the last lies before `calcN` and the last lies at or
      past it, so each computed pixel lies between two neighbouring
      points. */
  lemma InsertPointsSpec(rn: int, calcN: nat)
    requires 0 <= rn < Spacing
    ensures var r := InsertPoints(rn, calcN);
      |r| >= 2 && r[0] < 0 && r[1] == rn &&
      (forall j :: 0 <= j < |r| ==> r[j] == rn + Spacing * (j - 1)) &&
      r[|r| - 1] >= calcN && (forall j :: 0 <= j < |r| - 1 ==> r[j] < calcN)
  {
    var tail := PointsAfter(rn, calcN);
    PointsAfterSpec(rn, calcN);
    var r := InsertPoints(rn, calcN);
    forall j | 2 <= j < |r| ensures r[j] == rn + Spacing * (j - 1) {
      assert r[j] == tail[j - 2];
    }
  }

  /** Every computed pixel lies at most 16 pixels past one insert point or
      at most 16 before the next: the 16 steps of a cycle reach it. */
  lemma InsertPointsCover(rn: int, calcN: nat, k: int)
    requires 0 <= rn < Spacing && 0 <= k < calcN
    ensures var r := InsertPoints(rn, calcN);
      exists j :: 0 <= j < |r| - 1 && r[j] <= k < r[j + 1] &&
        (k - r[j] <= CycleSteps || r[j + 1] - k <= CycleSteps)
  {
    InsertPointsSpec(rn, calcN);
    var r := InsertPoints(rn, calcN);
    var j := (k - rn) / Spacing + 1;
    assert 0 <= j < |r| - 1 && r[j] <= k < r[j + 1];
  }

  // --------------------------------------------------------------- cycle

  /** `start_cycle`: clear the heat map and the strip (the strip's
      `fill(0)` taken as black, as `Animations.Clear` assumes), refill palette
      entries 32 down to 1 from the generator, make entry 0 black
      (`colval(0)` is `(0, 0, 0)`), order the palette, reset the step and
      place the insert points from one 5-bit draw. */
  function StartCycle(a: Conjunction, gb: byte, t: Tape): (r: Result<Drawn<Conjunction>>)
    requires Generators.Valid(a.gen)
  {
    var meta :- ByteMaps.Fill(a.meta, IntColor(0), 0, None);
    var leds := Clear(a.base.leds);
    var f :- ByteMaps.FillGen(a.palette, a.gen, gb, t, 1, None, -1);
    var pal :- ByteMaps.SetItem(f.bytes, 0, TupleColor([0, 0, 0]));
    var ordered :- SetOrderedPalette(pal, a.ordered);
    var rn := GetRandBits(f.rest, 5);
    Ok(Drawn(a.(base := a.base.(leds := leds), gen := f.gen, palette := pal, ordered := Some(ordered),
                meta := meta, step := 0, inserts := InsertPoints(rn.value, a.base.calcN)), rn.rest))
  }

  /** `setup`: a fresh ordered palette of the palette's size, then the
      first cycle. */
  function Setup(a: Conjunction, gb: byte, t: Tape): (r: Result<Drawn<Conjunction>>)
    requires Generators.Valid(a.gen)
  {
    var ordered := ByteMaps.New(a.palette.n, a.palette.bpi, DefaultOrder);
    StartCycle(a.(ordered := Some(ordered), step := 0, inserts := []), gb, t)
  }

  /** The state a cycle starts from: a heat map over the computed pixels,
      a 33-entry three-byte palette whose order fits it, a three-byte
      ordered copy if there is one, and a three-byte generator in a
      reachable state. */
  predicate Startable(a: Conjunction) {
    && ByteMeta(a.meta) && a.meta.n == a.base.calcN
    && ByteMaps.Valid(a.palette) && a.palette.n == PaletteSize && a.palette.bpi == 3 && OrderFits(a.palette)
    && (a.ordered.Some? ==> ByteMaps.Valid(a.ordered.value) && a.ordered.value.bpi == 3)
    && Generators.Valid(a.gen) && Width(a.gen) == 3
  }

  /** A conjunction built on a strip, from a three-byte generator in a
      reachable state or from the default fading wheel with a 16-entry
      table, can start a cycle. */
  lemma CreateStartable(leds: LedsArg, gen: Option<Gen>, fadeOut: seq<int>, interval: int, brightness: int)
    requires leds.TrickLEDArg?
    requires gen.Some? ==> Generators.Valid(gen.value) && Width(gen.value) == 3
    requires gen.None? ==> |fadeOut| == 16
    ensures Startable(Create(leds, gen, fadeOut, interval, brightness).value)
  {
    var a := Create(leds, gen, fadeOut, interval, brightness).value;
    DefaultOrderFits(a.palette);
  }

  /** The palette of a new cycle: entry 0 black and entries 1 to 32 the 32
      generator colours in reverse, the first colour going to entry 32. */
  lemma PaletteCycle(pal: ByteMaps.ByteMap, g: Gen, gb: byte, t: Tape, p: Pulled) returns (f: ByteMaps.Filled, r: ByteMaps.ByteMap)
    requires ByteMaps.Valid(pal) && pal.n == PaletteSize && pal.bpi == 3
    requires Generators.Valid(g) && Width(g) == 3 && Take(g, gb, t, PaletteSize - 1) == Ok(p)
    ensures ByteMaps.FillGen(pal, g, gb, t, 1, None, -1) == Ok(f) && f.gen == p.gen && f.rest == p.rest
    ensures ByteMaps.SetItem(f.bytes, 0, TupleColor([0, 0, 0])) == Ok(r)
    ensures ByteMaps.Valid(r) && r.n == PaletteSize && r.bpi == 3 && r.order == pal.order
    ensures ByteMaps.Item(r, 0) == [0, 0, 0]
    ensures forall i :: 1 <= i < PaletteSize ==> ByteMaps.Item(r, i) == p.colors[PaletteSize - 1 - i]
  {
    TakeWidth(g, gb, t, PaletteSize - 1);
    assert ByteMaps.EndPos(pal.n, None) == PaletteSize - 1;
    f := ByteMaps.FillGenSpec(pal, g, gb, t, 1, None, -1, p);
    forall i | 1 <= i < PaletteSize ensures ByteMaps.Item(f.bytes, i) == p.colors[PaletteSize - 1 - i] {
      assert ByteMaps.RunIndex(1, PaletteSize - 1, -1, i) == PaletteSize - 1 - i;
    }
    r := BlackFirst(f.bytes, p.colors);
  }

  /** `palette[0] = colval(0)` on a palette holding `colors` in reverse. */
  lemma BlackFirst(b: ByteMaps.ByteMap, colors: seq<Color>) returns (r: ByteMaps.ByteMap)
    requires ByteMaps.Valid(b) && b.n == PaletteSize && b.bpi == 3 && |colors| == PaletteSize - 1
    requires forall i :: 1 <= i < PaletteSize ==> ByteMaps.Item(b, i) == colors[PaletteSize - 1 - i]
    ensures ByteMaps.SetItem(b, 0, TupleColor([0, 0, 0])) == Ok(r)
    ensures ByteMaps.Valid(r) && r.n == PaletteSize && r.bpi == 3 && r.order == b.order
    ensures ByteMaps.Item(r, 0) == [0, 0, 0]
    ensures forall i :: 1 <= i < PaletteSize ==> ByteMaps.Item(r, i) == colors[PaletteSize - 1 - i]
  {
    ByteMaps.SetItemInRange(b, 0, [0, 0, 0]);
    r := ByteMaps.SetItem(b, 0, TupleColor([0, 0, 0])).value;
  }

  /** `start_cycle` on a startable conjunction whose generator gives 32
      colours: the heat map is all zero, the strip black, the palette is
      black then the 32 colours in reverse, the ordered palette is its copy
      in byte order, the step is 0, the generator has advanced 32 times and
      the insert points come from one further 5-bit draw. */
  lemma StartCycleSpec(a: Conjunction, gb: byte, t: Tape, p: Pulled) returns (r: Conjunction, rest: Tape)
    requires Startable(a) && Take(a.gen, gb, t, PaletteSize - 1) == Ok(p)
    ensures StartCycle(a, gb, t) == Ok(Drawn(r, rest))
    ensures r.base == a.base.(leds := Clear(a.base.leds)) && r.gen == p.gen && r.step == 0
    ensures ByteMeta(r.meta) && r.meta.n == a.meta.n && forall k :: 0 <= k < r.meta.n ==> r.meta.buf[k] == 0
    ensures ByteMaps.Valid(r.palette) && r.palette.n == PaletteSize && r.palette.bpi == 3 &&
      r.palette.order == a.palette.order && ByteMaps.Item(r.palette, 0) == [0, 0, 0] &&
      forall i :: 1 <= i < PaletteSize ==> ByteMaps.Item(r.palette, i) == p.colors[PaletteSize - 1 - i]
    ensures r.ordered.Some? && ByteMaps.Valid(r.ordered.value) && r.ordered.value.n == PaletteSize &&
      r.ordered.value.bpi == 3 && forall i :: 0 <= i < PaletteSize ==> Reordered(r.ordered.value, r.palette, i)
    ensures var d := GetRandBits(p.rest, 5);
      0 <= d.value < Spacing && r.inserts == InsertPoints(d.value, a.base.calcN) && rest == d.rest
  {
    var meta := ZeroMeta(a.meta);
    var f, pal := PaletteCycle(a.palette, a.gen, gb, t, p);
    SetOrderedPaletteSpec(pal, a.ordered);
    var ordered := SetOrderedPalette(pal, a.ordered).value;
    var d := GetRandBits(p.rest, 5);
    assert Pow2(5) == 32 by {
      assert Pow2(2) == 4;
    }
    r := a.(base := a.base.(leds := Clear(a.base.leds)), gen := f.gen, palette := pal, ordered := Some(ordered),
            meta := meta, step := 0, inserts := InsertPoints(d.value, a.base.calcN));
    rest := d.rest;
  }

  // --------------------------------------------------------------- frame

  /** Heat values of a cycle stay at or below this: the marks are 15 and
      31 and everything else only fades. */
  const MaxHeat := 31

  /** The mark on the lower side of insert point `j`: `[15, 31][j % 2]`. */
  function BelowMark(j: nat): int {
    if j % 2 == 0 then 15 else 31
  }

  /** The mark on the upper side of insert point `j`: `[31, 15][j % 2]`. */
  function AboveMark(j: nat): int {
    if j % 2 == 0 then 31 else 15
  }

  /** Insert points `j` onwards, in order: the pixel `step` below each and
      then the pixel `step` above it get their marks, when they are
      computed pixels. */
  function MarkInserts(m: ByteMaps.ByteMap, ips: seq<int>, j: nat, step: int, calcN: nat): (r: Result<ByteMaps.ByteMap>)
    ensures r.Ok? ==> r.value.bpi == m.bpi
    decreases |ips| - j
  {
    if j >= |ips| then Ok(m)
    else
      var m1 :- MarkPixel(m, ips[j] - step, BelowMark(j), calcN);
      var m2 :- MarkPixel(m1, ips[j] + step, AboveMark(j), calcN);
      MarkInserts(m2, ips, j + 1, step, calcN)
  }

  /** Pixel `k` gets heat `v` when it is one of the computed pixels. */
  function MarkPixel(m: ByteMaps.ByteMap, k: int, v: int, calcN: nat): (r: Result<ByteMaps.ByteMap>)
  {
    if 0 <= k < calcN then ByteMaps.SetItem(m, k, IntColor(v)) else Ok(m)
  }

  /** Pixel `k` is `step` below or above one of insert points `j` onwards. */
  predicate Marked(ips: seq<int>, j: nat, step: int, k: int) {
    exists q :: j <= q < |ips| && (ips[q] - step == k || ips[q] + step == k)
  }

  /** The mark that insert points `j` onwards leave on pixel `k`, if any:
      the last one written wins, so a later insert point overrides an
      earlier one, and the upper mark overrides the lower one when both
      land on the insert point itself (step 0). */
  function LastMark(ips: seq<int>, j: nat, step: int, k: int): (r: Option<int>)
    decreases |ips| - j
  {
    if j >= |ips| then None
    else
      match LastMark(ips, j + 1, step, k)
      case Some(v) => Some(v)
      case None =>
        if ips[j] + step == k then Some(AboveMark(j))
        else if ips[j] - step == k then Some(BelowMark(j))
        else None
  }

  /** Every pixel marked from insert point `j` on holds its last mark in
      `after`; every other pixel keeps its heat from `before`. */
  predicate MarkedFrom(before: seq<int>, after: seq<int>, ips: seq<int>, j: nat, step: int) {
    |after| == |before| &&
    forall k :: 0 <= k < |before| ==>
      after[k] == if LastMark(ips, j, step, k).Some? then LastMark(ips, j, step, k).value else before[k]
  }

  /** A pixel has a mark exactly when it is `step` from one of the insert
      points, and every mark is 15 or 31. */
  lemma {:induction false} LastMarkMarked(ips: seq<int>, j: nat, step: int, k: int)
    ensures LastMark(ips, j, step, k).Some? <==> Marked(ips, j, step, k)
    ensures LastMark(ips, j, step, k).Some? ==> LastMark(ips, j, step, k).value in {15, 31}
    decreases |ips| - j
  {
    if j < |ips| {
      LastMarkMarked(ips, j + 1, step, k);
      if Marked(ips, j, step, k) && !Marked(ips, j + 1, step, k) {
        var q :| j <= q < |ips| && (ips[q] - step == k || ips[q] + step == k);
        assert q == j;
      }
    }
  }

  /** One mark, written only when `k` is a computed pixel. */
  lemma MarkAt(m: ByteMaps.ByteMap, k: int, v: int, calcN: nat) returns (m': ByteMaps.ByteMap)
    requires ByteMeta(m) && m.n == calcN && 0 <= v < 256
    ensures MarkPixel(m, k, v, calcN) == Ok(m')
    ensures ByteMeta(m') && m'.n == m.n
    ensures forall i :: 0 <= i < m.n ==> m'.buf[i] == if i == k then v else m.buf[i]
  {
    if 0 <= k < calcN {
      SetByte(m, k, v);
      m' := m.(buf := m.buf[k := v]);
    } else {
      m' := m;
    }
  }

  /** One insert point's marks. */
  lemma MarkOne(m: ByteMaps.ByteMap, ips: seq<int>, j: nat, step: int, calcN: nat) returns (m': ByteMaps.ByteMap)
    requires ByteMeta(m) && m.n == calcN && j < |ips|
    ensures ByteMeta(m') && m'.n == m.n
    ensures MarkInserts(m, ips, j, step, calcN) == MarkInserts(m', ips, j + 1, step, calcN)
    ensures forall k :: 0 <= k < m.n ==>
      m'.buf[k] == if k == ips[j] + step then AboveMark(j) else if k == ips[j] - step then BelowMark(j) else m.buf[k]
  {
    var m1 := MarkAt(m, ips[j] - step, BelowMark(j), calcN);
    m' := MarkAt(m1, ips[j] + step, AboveMark(j), calcN);
  }

  /** Insert point `j`'s marks followed by the marks after it. */
  lemma MarkCombine(m: ByteMaps.ByteMap, mm: ByteMaps.ByteMap, m': ByteMaps.ByteMap, ips: seq<int>, j: nat, step: int)
    requires |m.buf| == |mm.buf| == |m'.buf| == m.n && j < |ips|
    requires forall k :: 0 <= k < m.n ==>
      mm.buf[k] == if k == ips[j] + step then AboveMark(j) else if k == ips[j] - step then BelowMark(j) else m.buf[k]
    requires MarkedFrom(mm.buf, m'.buf, ips, j + 1, step)
    ensures MarkedFrom(m.buf, m'.buf, ips, j, step)
  {
  }

  /** Past the last insert point nothing is marked. */
  lemma NoMarksLeft(m: ByteMaps.ByteMap, ips: seq<int>, j: nat, step: int, calcN: nat)
    requires j >= |ips|
    ensures MarkInserts(m, ips, j, step, calcN) == Ok(m)
    ensures MarkedFrom(m.buf, m.buf, ips, j, step)
  {
  }

  /** The marks of insert points `j` onwards always succeed on a heat map
      over the computed pixels: each marked pixel holds its last mark and
      the others keep their heat. */
  lemma {:induction false} MarkInsertsSpec(m: ByteMaps.ByteMap, ips: seq<int>, j: nat, step: int, calcN: nat)
    returns (r: ByteMaps.ByteMap)
    requires ByteMeta(m) && m.n == calcN && j <= |ips|
    ensures MarkInserts(m, ips, j, step, calcN) == Ok(r)
    ensures ByteMeta(r) && r.n == m.n && MarkedFrom(m.buf, r.buf, ips, j, step)
    decreases |ips| - j
  {
    if j >= |ips| {
      r := m;
      NoMarksLeft(m, ips, j, step, calcN);
    } else {
      var mm := MarkOne(m, ips, j, step, calcN);
      r := MarkInsertsSpec(mm, ips, j + 1, step, calcN);
      MarkCombine(m, mm, r, ips, j, step);
      Chain(MarkInserts(m, ips, j, step, calcN), MarkInserts(mm, ips, j + 1, step, calcN), Ok(r));
    }
  }

  /** `calc_frame`: the step counts up; from step 16 on a new cycle starts
      instead of a frame. Otherwise every heat fades by 1, the insert
      points' marks are written `step` pixels to either side, and the heat
      is coloured through the ordered palette with shift 0. */
  function CalcFrame(a: Conjunction, gb: byte, t: Tape): (r: Result<Drawn<Conjunction>>)
    requires Generators.Valid(a.gen) && a.meta.bpi == 1
  {
    var next := a.(step := a.step + 1);
    if a.step >= CycleSteps then StartCycle(next, gb, t)
    else
      var faded :- ByteMaps.ApplyAll(a.meta, ByteMaps.Sub, ByteMaps.Scalar(1));
      var meta :- MarkInserts(faded, a.inserts, 0, a.step, a.base.calcN);
      var leds :- Colorize(Heats(meta), a.ordered, 0, a.base.leds);
      Ok(Drawn(next.(meta := meta, base := a.base.(leds := leds)), t))
  }

  /** The state every frame relies on, as `setup` and every new cycle
      leave it: startable, heat at most 31, a three-byte ordered palette of
      33 entries, and a step that has not gone negative. */
  predicate Ready(a: Conjunction) {
    && Startable(a)
    && (forall k :: 0 <= k < a.meta.n ==> a.meta.buf[k] <= MaxHeat)
    && a.ordered.Some? && ByteMaps.Valid(a.ordered.value) && a.ordered.value.bpi == 3
    && a.ordered.value.n == PaletteSize && a.step >= 0
  }

  /** The heat of a frame within a cycle: each pixel `step` below or above
      an insert point holds its last mark, every other pixel has faded by 1
      (stopping at 0), and no heat goes above 31. */
  lemma FrameHeat(a: Conjunction) returns (faded: ByteMaps.ByteMap, meta: ByteMaps.ByteMap)
    requires Ready(a) && a.step < CycleSteps
    ensures ByteMaps.ApplyAll(a.meta, ByteMaps.Sub, ByteMaps.Scalar(1)) == Ok(faded)
    ensures MarkInserts(faded, a.inserts, 0, a.step, a.base.calcN) == Ok(meta)
    ensures ByteMeta(meta) && meta.n == a.base.calcN
    ensures forall k :: 0 <= k < a.base.calcN ==>
      meta.buf[k] == if LastMark(a.inserts, 0, a.step, k).Some? then LastMark(a.inserts, 0, a.step, k).value
        else Uint8(a.meta.buf[k] - 1)
    ensures forall k :: 0 <= k < a.base.calcN ==> meta.buf[k] <= MaxHeat
  {
    faded := SubSpec(a.meta, 1);
    meta := MarkInsertsSpec(faded, a.inserts, 0, a.step, a.base.calcN);
    forall k | 0 <= k < a.base.calcN ensures meta.buf[k] <= MaxHeat {
      LastMarkMarked(a.inserts, 0, a.step, k);
    }
  }

  /** Heat values of at most 31 all name an entry of a 33-entry palette. */
  lemma CoolMappable(heat: seq<int>, op: ByteMaps.ByteMap)
    requires op.n == PaletteSize && forall k :: 0 <= k < |heat| ==> 0 <= heat[k] <= MaxHeat
    ensures Mappable(heat, op, 0)
  {
  }

  /** A frame within a cycle, on a ready conjunction over a three-byte
      strip of exactly `calc_n` pixels, succeeds without a draw, counts the
      step up, keeps the conjunction ready and changes only its heat and
      its pixels, each pixel showing its heat's entry of the ordered
      palette. */
  lemma FrameSpec(a: Conjunction, gb: byte, t: Tape) returns (r: Conjunction)
    requires Ready(a) && a.step < CycleSteps
    requires Strips.Valid(a.base.leds) && a.base.leds.bpp == 3 && a.base.leds.n == a.base.calcN
    ensures CalcFrame(a, gb, t) == Ok(Drawn(r, t))
    ensures r == a.(step := a.step + 1, meta := r.meta, base := a.base.(leds := r.base.leds))
    ensures Ready(r) && Strips.Valid(r.base.leds) && Shape(r.base.leds, a.base.leds)
    ensures forall k :: 0 <= k < a.base.calcN ==>
      r.meta.buf[k] == if LastMark(a.inserts, 0, a.step, k).Some? then LastMark(a.inserts, 0, a.step, k).value
        else Uint8(a.meta.buf[k] - 1)
    ensures forall k :: 0 <= k < a.base.calcN ==>
      Pixel(r.base.leds, k) == CellColor(r.meta.buf[k], a.ordered.value, 0)
  {
    var faded, meta := FrameHeat(a);
    var op := a.ordered.value;
    CoolMappable(Heats(meta), op);
    ColorizeSucceeds(Heats(meta), op, 0, a.base.leds);
    var leds := Colorize(Heats(meta), a.ordered, 0, a.base.leds).value;
    r := a.(step := a.step + 1, meta := meta, base := a.base.(leds := leds));
    assert CalcFrame(a, gb, t) == Ok(Drawn(r, t));
  }

  /** `colorize` refuses a buffer that is not `calc_n` three-byte pixels
      long, so a frame within a cycle fails exactly when the strip has
      more (repeated) pixels than it computes. */
  lemma FrameNeedsWholeStrip(a: Conjunction, gb: byte, t: Tape)
    requires Ready(a) && a.step < CycleSteps && Strips.Valid(a.base.leds) && a.base.leds.bpp == 3
    ensures CalcFrame(a, gb, t).Ok? <==> a.base.leds.n == a.base.calcN
  {
    var faded, meta := FrameHeat(a);
    CoolMappable(Heats(meta), a.ordered.value);
    ColorizeSucceeds(Heats(meta), a.ordered.value, 0, a.base.leds);
  }

  /** A new cycle leaves a startable conjunction ready. */
  lemma CycleReady(a: Conjunction, gb: byte, t: Tape, p: Pulled) returns (r: Conjunction, rest: Tape)
    requires Startable(a) && Take(a.gen, gb, t, PaletteSize - 1) == Ok(p)
    ensures StartCycle(a, gb, t) == Ok(Drawn(r, rest)) && Ready(r) && r.step == 0 && r.gen == p.gen
    ensures forall k :: 0 <= k < r.meta.n ==> r.meta.buf[k] == 0
  {
    r, rest := StartCycleSpec(a, gb, t, p);
    TakeWidth(a.gen, gb, t, PaletteSize - 1);
  }

  /** From step 16 on, a frame starts a new cycle: the step goes back to
      0, the heat map to zero, and the conjunction is ready again with the
      generator 32 colours further on. */
  lemma CycleRestarts(a: Conjunction, gb: byte, t: Tape, p: Pulled) returns (r: Conjunction, rest: Tape)
    requires Ready(a) && a.step >= CycleSteps && Take(a.gen, gb, t, PaletteSize - 1) == Ok(p)
    ensures CalcFrame(a, gb, t) == Ok(Drawn(r, rest)) && Ready(r) && r.step == 0 && r.gen == p.gen
    ensures forall k :: 0 <= k < r.meta.n ==> r.meta.buf[k] == 0
  {
    var next := a.(step := a.step + 1);
    assert Startable(next);
    RestartFrame(a, gb, t);
    r, rest := CycleReady(next, gb, t, p);
  }

  /** From step 16 on, a frame is a new cycle with the step counted up. */
  lemma RestartFrame(a: Conjunction, gb: byte, t: Tape)
    requires Generators.Valid(a.gen) && a.meta.bpi == 1 && a.step >= CycleSteps
    ensures CalcFrame(a, gb, t) == StartCycle(a.(step := a.step + 1), gb, t)
  {
  }

  /** `setup` on a startable conjunction leaves it ready at step 0. */
  lemma SetupReady(a: Conjunction, gb: byte, t: Tape, p: Pulled) returns (r: Conjunction, rest: Tape)
    requires Startable(a) && Take(a.gen, gb, t, PaletteSize - 1) == Ok(p)
    ensures Setup(a, gb, t) == Ok(Drawn(r, rest)) && Ready(r) && r.step == 0
  {
    var ordered := ByteMaps.New(a.palette.n, a.palette.bpi, DefaultOrder);
    r, rest := CycleReady(a.(ordered := Some(ordered), step := 0, inserts := []), gb, t, p);
  }
}

=== FILE: fire.dfy ===
/** `Fire`: a heat map over the computed pixels. Every frame the heat
    scrolls one way along the strip, each flash point gets a fresh spark,
    the pixels near the flash points are smoothed with their neighbours,
    everything cools, and the heat is coloured through a heat palette of
    64, 128 or 256 entries. */
module Fires {
  import opened Wrappers
  import opened ColorMath
  import opened Random
  import opened PySeq
  import opened Strips
  import opened Animations
  import opened Mapped
  import ByteMaps
  import BitMaps

  /** The animation's state: its settings, the palette and its copy in the
      strip's byte order, the palette shift, the heat map (one byte per
      computed pixel), the blend mask and the flash points. Python keeps
      the flash points in a set; here they are listed in insertion order
      without repeats. */
  datatype Fire = Fire(base: Base, sparking: int, cooling: int, speed: int, hotspots: int,
                       palette: ByteMaps.ByteMap, ordered: Option<ByteMaps.ByteMap>, shift: nat,
                       meta: ByteMaps.ByteMap, blend: BitMaps.BitMap, flash: seq<int>)

  /** The smallest palette `Fire` accepts. */
  const MinPalette := 64

  /** The default palette: 64 entries, entry `i` being `heat_color(4 * i)`. */
  function HeatPalette(): (p: ByteMaps.ByteMap)
    ensures ByteMaps.Valid(p) && p.n == MinPalette && p.bpi == 3 && p.order == DefaultOrder
    ensures forall i :: 0 <= i < MinPalette ==> ByteMaps.Item(p, i) == HeatColor(4 * i)
  {
    var m := ByteMaps.New(MinPalette, 3, DefaultOrder);
    var vals := seq(MinPalette, i => HeatColor(4 * i));
    ByteMaps.WriteFromSpec(m, 0, vals);
    ByteMaps.WriteFrom(m, 0, vals).value
  }

  /** `Fire(leds, sparking, cooling, scroll_speed, hotspots, palette=…)`:
      at least one hotspot; a palette given must have 64 entries or more;
      the heat map and the blend mask cover the computed pixels. */
  function Create(leds: LedsArg, sparking: int, cooling: int, speed: int, hotspots: int,
                  palette: Option<ByteMaps.ByteMap>, interval: int, brightness: int): (r: Result<Fire>)
    ensures r.Ok? <==> leds.TrickLEDArg? && (palette.Some? ==> palette.value.n >= MinPalette)
    ensures r.Err? ==> r.error == ValueError
    ensures r.Ok? ==> var a := r.value;
      a.base == Init(leds, interval, brightness).value && a.hotspots >= 1 &&
      (hotspots >= 1 ==> a.hotspots == hotspots) &&
      a.palette == (if palette.Some? then palette.value else HeatPalette()) && a.palette.n >= MinPalette &&
      ByteMeta(a.meta) && a.meta.n == a.base.calcN && (forall k :: 0 <= k < a.meta.n ==> a.meta.buf[k] == 0) &&
      BitMaps.Valid(a.blend) && a.blend.n == a.base.calcN && a.ordered.None? && a.flash == []
  {
    var base :- Init(leds, interval, brightness);
    var pal :- if palette.None? then Ok(HeatPalette())
               else if ByteMaps.Len(palette.value) >= MinPalette then Ok(palette.value)
               else Err(ValueError);
    Ok(Fire(base, sparking, cooling, speed, if hotspots > 1 then hotspots else 1, pal, None, 0,
            ByteMaps.New(base.calcN, 1, DefaultOrder), BitMaps.New(base.calcN, 50), []))
  }

  // ---------------------------------------------------------------- setup

  /** Where the first flash point goes and which offsets around each flash
      point are blended: fire rising from pixel 0 blends the ten pixels
      above it, fire falling from the last pixel the ten below it, and
      still fire, from a random pixel, five on either side. */
  datatype Window = Window(first: int, lo: int, hi: int)

  function FirstWindow(speed: int, calcN: nat, t: Tape): (r: Result<Drawn<Window>>)
    ensures r.Err? <==> speed == 0 && calcN <= 1
    ensures r.Err? ==> r.error == ValueError
    ensures r.Ok? ==> r.value.value.hi - r.value.value.lo == 11 && r.value.value.lo <= 0 < r.value.value.hi
    ensures r.Ok? && calcN > 0 ==> 0 <= r.value.value.first < calcN
    ensures speed == 0 && r.Ok? ==> r.value.value.first < calcN - 1
    ensures speed > 0 ==> r == Ok(Drawn(Window(0, 0, 11), t))
    ensures speed < 0 ==> r == Ok(Drawn(Window(calcN - 1, -10, 1), t))
  {
    if speed > 0 then Ok(Drawn(Window(0, 0, 11), t))
    else if speed < 0 then Ok(Drawn(Window(calcN - 1, -10, 1), t))
    else
      var d :- StdRandRange(0, calcN - 1, t);
      Ok(Drawn(Window(d.value, -5, 6), d.rest))
  }

  /** A jittered hotspot position: kept when strictly inside the computed
      pixels, otherwise clamped to them. */
  function Place(ip: int, calcN: nat): (r: int)
    ensures calcN > 0 ==> 0 <= r < calcN
    ensures 0 < ip < calcN ==> r == ip
    ensures calcN > 0 && ip <= 0 ==> r == 0
    ensures calcN > 0 && ip >= calcN ==> r == calcN - 1
  {
    if 0 < ip < calcN then ip
    else
      var lo := if ip > 0 then ip else 0;
      if lo < calcN - 1 then lo else calcN - 1
  }

  /** `set.add`: a point already present is not added again. */
  function AddPoint(fs: seq<int>, p: int): (r: seq<int>)
    ensures forall x :: x in r <==> x in fs || x == p
    ensures Distinct(fs) ==> Distinct(r)
    ensures fs <= r && |r| <= |fs| + 1
  {
    if p in fs then fs else fs + [p]
  }

  /** Hotspots `i` to `count - 1`: hotspot `i` goes to `sect * i`
      (carried as the running sum `at`) plus a jitter `getrandbits(4) - 8`
      in [-8, 7], then `Place`. */
  function Hotspots(fs: seq<int>, sect: int, at: int, i: int, count: int, calcN: nat, t: Tape): (d: Drawn<seq<int>>)
    decreases count - i, 1
  {
    if i >= count then Drawn(fs, t) else Hotspot(fs, sect, at, i, count, calcN, t)
  }

  /** Hotspot `i`, then the ones after it. */
  function Hotspot(fs: seq<int>, sect: int, at: int, i: int, count: int, calcN: nat, t: Tape): (d: Drawn<seq<int>>)
    requires i < count
    decreases count - i, 0
  {
    var rn := GetRandBits(t, 4);
    var ip := Place(at + rn.value - 8, calcN);
    Hotspots(AddPoint(fs, ip), sect, at + sect, i + 1, count, calcN, rn.rest)
  }

  /** Every point lies on the computed pixels. */
  predicate Within(fs: seq<int>, calcN: nat) {
    forall q :: 0 <= q < |fs| ==> 0 <= fs[q] < calcN
  }

  /** Adding a placed point keeps the points on the computed pixels and
      without repeats. */
  lemma AddPointWithin(fs: seq<int>, p: int, calcN: nat)
    requires Distinct(fs) && Within(fs, calcN) && 0 <= p < calcN
    ensures Distinct(AddPoint(fs, p)) && Within(AddPoint(fs, p), calcN) && fs <= AddPoint(fs, p)
  {
    var r := AddPoint(fs, p);
    forall q | 0 <= q < |r| ensures 0 <= r[q] < calcN {
      if q >= |fs| {
        assert r[q] == p;
      }
    }
  }

  /** One extra hotspot: its jittered, placed position is added. */
  lemma HotspotStep(fs: seq<int>, sect: int, at: int, i: int, count: int, calcN: nat, t: Tape)
    returns (fs': seq<int>, t': Tape)
    requires calcN > 0 && Distinct(fs) && Within(fs, calcN) && i < count
    ensures Hotspots(fs, sect, at, i, count, calcN, t) == Hotspots(fs', sect, at + sect, i + 1, count, calcN, t')
    ensures Distinct(fs') && Within(fs', calcN) && fs <= fs'
    ensures t'.source == t.source && t'.pos == t.pos + 1
  {
    var rn := GetRandBits(t, 4);
    var ip := Place(at + rn.value - 8, calcN);
    AddPointWithin(fs, ip, calcN);
    fs', t' := AddPoint(fs, ip), rn.rest;
  }

  /** Flash points stay on the computed pixels, never repeat, extend the
      points already placed, and take one draw per extra hotspot. */
  lemma {:induction false} HotspotsSpec(fs: seq<int>, sect: int, at: int, i: int, count: int, calcN: nat, t: Tape)
    returns (d: Drawn<seq<int>>)
    requires calcN > 0 && Distinct(fs) && Within(fs, calcN)
    ensures Hotspots(fs, sect, at, i, count, calcN, t) == d
    ensures Distinct(d.value) && Within(d.value, calcN) && fs <= d.value
    ensures d.rest.source == t.source && d.rest.pos == t.pos + (if i < count then count - i else 0)
    decreases count - i
  {
    if i >= count {
      d := Drawn(fs, t);
    } else {
      var fs', t' := HotspotStep(fs, sect, at, i, count, calcN, t);
      d := HotspotsSpec(fs', sect, at + sect, i + 1, count, calcN, t');
    }
  }

  /** Blend bits from `i` up to `hi`: each position on the computed pixels
      that is not itself a flash point. */
  function MarkRange(m: BitMaps.BitMap, flash: seq<int>, i: int, hi: int, calcN: nat): (r: Result<BitMaps.BitMap>)
    requires BitMaps.Valid(m)
    ensures r.Ok? ==> BitMaps.Valid(r.value) && r.value.n == m.n
    decreases hi - i
  {
    if i >= hi then Ok(m)
    else if 0 <= i < calcN && i !in flash then
      var m' :- BitMaps.Set(m, i, 1);
      MarkRange(m', flash, i + 1, hi, calcN)
    else MarkRange(m, flash, i + 1, hi, calcN)
  }

  /** The windows of flash points `j` onwards, in turn. */
  function MarkFrom(m: BitMaps.BitMap, flash: seq<int>, j: nat, lo: int, hi: int, calcN: nat): (r: Result<BitMaps.BitMap>)
    requires BitMaps.Valid(m)
    ensures r.Ok? ==> BitMaps.Valid(r.value) && r.value.n == m.n
    decreases |flash| - j
  {
    if j >= |flash| then Ok(m)
    else
      var m' :- MarkRange(m, flash, flash[j] + lo, flash[j] + hi, calcN);
      MarkFrom(m', flash, j + 1, lo, hi, calcN)
  }

  /** Pixel `i` is smoothed: a computed pixel, not a flash point, within
      the window of flash point `q` for some `q >= j`. */
  predicate Blended(flash: seq<int>, j: nat, lo: int, hi: int, calcN: nat, i: int) {
    0 <= i < calcN && i !in flash && exists q :: j <= q < |flash| && flash[q] + lo <= i < flash[q] + hi
  }

  /** One position of a window: it is set when it is a computed pixel and
      not a flash point, and the marking goes on from the next position. */
  lemma MarkStep(m: BitMaps.BitMap, flash: seq<int>, i: int, hi: int, calcN: nat, k: nat) returns (m': BitMaps.BitMap)
    requires BitMaps.Valid(m) && calcN <= m.n && k < m.n && i < hi
    ensures BitMaps.Valid(m') && m'.n == m.n
    ensures MarkRange(m, flash, i, hi, calcN) == MarkRange(m', flash, i + 1, hi, calcN)
    ensures BitMaps.Get(m', k) == if k == i && k < calcN && k !in flash then Ok(1) else BitMaps.Get(m, k)
  {
    if 0 <= i < calcN && i !in flash {
      BitMaps.GetAfterSet(m, i, 1, k);
      m' := BitMaps.Set(m, i, 1).value;
    } else {
      m' := m;
    }
  }

  /** Marking one window sets exactly its computed, non-flash positions:
      bit `k` after the marking. */
  lemma {:induction false} MarkRangeAt(m: BitMaps.BitMap, flash: seq<int>, i: int, hi: int, calcN: nat, k: nat)
    returns (r: BitMaps.BitMap)
    requires BitMaps.Valid(m) && calcN <= m.n && k < m.n
    ensures MarkRange(m, flash, i, hi, calcN) == Ok(r) && BitMaps.Valid(r) && r.n == m.n
    ensures BitMaps.Get(r, k) == if i <= k < hi && k < calcN && k !in flash then Ok(1) else BitMaps.Get(m, k)
    decreases hi - i
  {
    if i >= hi {
      r := m;
    } else {
      var m' := MarkStep(m, flash, i, hi, calcN, k);
      r := MarkRangeAt(m', flash, i + 1, hi, calcN, k);
    }
  }

  /** One flash point's window, then the windows after it. */
  lemma MarkFromStep(m: BitMaps.BitMap, flash: seq<int>, j: nat, lo: int, hi: int, calcN: nat, k: nat)
    returns (m': BitMaps.BitMap)
    requires BitMaps.Valid(m) && calcN <= m.n && j < |flash| && k < m.n
    ensures BitMaps.Valid(m') && m'.n == m.n
    ensures MarkFrom(m, flash, j, lo, hi, calcN) == MarkFrom(m', flash, j + 1, lo, hi, calcN)
    ensures BitMaps.Get(m', k) ==
      if flash[j] + lo <= k < flash[j] + hi && k < calcN && k !in flash then Ok(1) else BitMaps.Get(m, k)
  {
    m' := MarkRangeAt(m, flash, flash[j] + lo, flash[j] + hi, calcN, k);
  }

  /** Pixel `k` is `Blended` from flash point `j` on exactly when it is in
      flash point `j`'s window or `Blended` from `j + 1` on. */
  lemma BlendedStep(flash: seq<int>, j: nat, lo: int, hi: int, calcN: nat, k: int)
    requires j < |flash|
    ensures Blended(flash, j, lo, hi, calcN, k) <==>
      (0 <= k < calcN && k !in flash && flash[j] + lo <= k < flash[j] + hi) || Blended(flash, j + 1, lo, hi, calcN, k)
  {
    if Blended(flash, j, lo, hi, calcN, k) && !Blended(flash, j + 1, lo, hi, calcN, k) {
      var q :| j <= q < |flash| && flash[q] + lo <= k < flash[q] + hi;
      assert q == j;
    }
  }

  /** Marking the windows of flash points `j` onwards sets exactly the
      positions `Blended` names: bit `k` after the marking. */
  lemma {:induction false} MarkFromAt(m: BitMaps.BitMap, flash: seq<int>, j: nat, lo: int, hi: int, calcN: nat, k: nat)
    returns (r: BitMaps.BitMap)
    requires BitMaps.Valid(m) && calcN <= m.n && j <= |flash| && k < m.n
    ensures MarkFrom(m, flash, j, lo, hi, calcN) == Ok(r) && BitMaps.Valid(r) && r.n == m.n
    ensures BitMaps.Get(r, k) == if Blended(flash, j, lo, hi, calcN, k) then Ok(1) else BitMaps.Get(m, k)
    decreases |flash| - j
  {
    if j >= |flash| {
      r := m;
    } else {
      var m' := MarkFromStep(m, flash, j, lo, hi, calcN, k);
      BlendedStep(flash, j, lo, hi, calcN, k);
      r := MarkFromAt(m', flash, j + 1, lo, hi, calcN, k);
    }
  }

  /** After `repeat(0)` and the marking, bit `k` of a computed pixel is
      set exactly when that pixel is `Blended`. */
  lemma BlendMask(m: BitMaps.BitMap, flash: seq<int>, lo: int, hi: int, calcN: nat)
    requires BitMaps.Valid(m) && m.n == calcN && calcN > 0
    ensures BitMaps.Repeat(m, 0).Ok? && MarkFrom(BitMaps.Repeat(m, 0).value, flash, 0, lo, hi, calcN).Ok?
    ensures var r := MarkFrom(BitMaps.Repeat(m, 0).value, flash, 0, lo, hi, calcN).value;
      BitMaps.Valid(r) && r.n == calcN &&
      forall k :: 0 <= k < calcN ==> BitMaps.Get(r, k) == Ok(if Blended(flash, 0, lo, hi, calcN, k) then 1 else 0)
  {
    var z := BitMaps.Repeat(m, 0).value;
    var r := MarkFromAt(z, flash, 0, lo, hi, calcN, 0);
    forall k | 0 <= k < calcN
      ensures BitMaps.Get(r, k) == Ok(if Blended(flash, 0, lo, hi, calcN, k) then 1 else 0)
    {
      BitMaps.RepeatZero(m, k);
      var r' := MarkFromAt(z, flash, 0, lo, hi, calcN, k);
    }
  }

  /** The palette shift: 256 heat levels onto a palette of 256 entries or
      more, 128 or more, or fewer. */
  function ShiftFor(len: nat): nat {
    if len >= 256 then 0 else if len >= 128 then 1 else 2
  }

  /** With the palette shift, every heat byte names an existing palette
      entry of a palette of 64 entries or more; on a palette of exactly
      64, 128 or 256 entries the hottest byte names the last entry. */
  lemma ShiftCovers(len: nat, m: int)
    requires len >= MinPalette && 0 <= m < 256
    ensures 0 <= Shr(m, ShiftFor(len)) < len
    ensures len == 64 || len == 128 || len == 256 ==> Shr(255, ShiftFor(len)) == len - 1
  {
    assert Shr(m, 1) == m / 2;
    assert Shr(m, 2) == m / 2 / 2;
    assert Shr(255, 2) == 63 && Shr(255, 1) == 127;
  }

  /** `setup`: order the palette, zero the heat map, place the flash points
      and mark the blend window around each, and pick the palette shift.
      `calc_n // hotspots` divides by zero when the setting is 0. */
  function Setup(a: Fire, t: Tape): (r: Result<Drawn<Fire>>)
    requires BitMaps.Valid(a.blend)
  {
    var ordered :- SetOrderedPalette(a.palette, a.ordered);
    var meta :- ByteMaps.Fill(a.meta, IntColor(0), 0, None);
    var w :- FirstWindow(a.speed, a.base.calcN, t);
    if a.hotspots == 0 then Err(ZeroDivisionError)
    else
      var sect := FloorDiv(a.base.calcN, a.hotspots);
      var h := Hotspots([w.value.first], sect, sect, 1, a.hotspots, a.base.calcN, w.rest);
      var blank :- BitMaps.Repeat(a.blend, 0);
      var blend :- MarkFrom(blank, h.value, 0, w.value.lo, w.value.hi, a.base.calcN);
      Ok(Drawn(a.(ordered := Some(ordered), meta := meta, flash := h.value, blend := blend,
                  shift := ShiftFor(ByteMaps.Len(a.palette))), h.rest))
  }

  /** The state `setup` works from: a heat map and a blend mask over the
      computed pixels, a three-byte palette of at least 64 entries whose
      order fits it, and at least one hotspot. */
  predicate Settable(a: Fire) {
    && ByteMeta(a.meta) && a.meta.n == a.base.calcN && a.base.calcN > 0
    && BitMaps.Valid(a.blend) && a.blend.n == a.base.calcN
    && ByteMaps.Valid(a.palette) && a.palette.bpi == 3 && OrderFits(a.palette) && a.palette.n >= MinPalette
    && (a.ordered.Some? ==> ByteMaps.Valid(a.ordered.value) && a.ordered.value.bpi == 3)
    && a.hotspots >= 1
  }

  /** A fire built on a strip with at least one computed pixel, from the
      default palette or a valid three-byte one whose order fits, can be
      set up. */
  lemma CreateSettable(leds: LedsArg, sparking: int, cooling: int, speed: int, hotspots: int,
                       palette: Option<ByteMaps.ByteMap>, interval: int, brightness: int)
    requires Create(leds, sparking, cooling, speed, hotspots, palette, interval, brightness).Ok?
    requires Create(leds, sparking, cooling, speed, hotspots, palette, interval, brightness).value.base.calcN > 0
    requires palette.Some? ==> ByteMaps.Valid(palette.value) && palette.value.bpi == 3 && OrderFits(palette.value)
    ensures Settable(Create(leds, sparking, cooling, speed, hotspots, palette, interval, brightness).value)
  {
    var a := Create(leds, sparking, cooling, speed, hotspots, palette, interval, brightness).value;
    if palette.None? {
      DefaultOrderFits(a.palette);
    }
  }



  /** Still fire draws its first flash point from `[0, calc_n - 1)`,
      which needs two computed pixels; rising and falling fire need one. */
  predicate Placeable(a: Fire) {
    a.speed != 0 || a.base.calcN >= 2
  }

  /** Still fire over a single computed pixel makes `randrange(0, 0)`
      raise ValueError during `setup`. */
  lemma StillFireNeedsTwo(a: Fire, t: Tape)
    requires Settable(a) && !Placeable(a)
    ensures Setup(a, t) == Err(ValueError)
  {
    SetOrderedPaletteSpec(a.palette, a.ordered);
    var meta := ZeroMeta(a.meta);
  }

  /** The points `setup` places and the draws it takes: the first point,
      then one jittered point per further hotspot. */
  lemma PlacePoints(a: Fire, t: Tape) returns (w: Drawn<Window>, h: Drawn<seq<int>>)
    requires Settable(a) && Placeable(a)
    ensures FirstWindow(a.speed, a.base.calcN, t) == Ok(w)
    ensures h == Hotspots([w.value.first], FloorDiv(a.base.calcN, a.hotspots), FloorDiv(a.base.calcN, a.hotspots),
                          1, a.hotspots, a.base.calcN, w.rest)
    ensures Distinct(h.value) && Within(h.value, a.base.calcN) && |h.value| >= 1 && h.value[0] == w.value.first
    ensures h.rest.source == t.source && h.rest.pos == t.pos + (if a.speed == 0 then 1 else 0) + a.hotspots - 1
  {
    w := FirstWindow(a.speed, a.base.calcN, t).value;
    var sect := FloorDiv(a.base.calcN, a.hotspots);
    h := HotspotsSpec([w.value.first], sect, sect, 1, a.hotspots, a.base.calcN, w.rest);
    assert [w.value.first] <= h.value;
  }

  /** `setup` orders the palette, clears the heat map, places between one
      and `hotspots` distinct flash points on the computed pixels (the
      first at the bottom, the top or a random pixel as the fire rises,
      falls or stands), marks for smoothing exactly the non-flash pixels
      within each flash point's window, and picks the palette shift; it
      draws once per extra hotspot, plus once for still fire. */
  lemma SetupSpec(a: Fire, t: Tape) returns (r: Fire, rest: Tape)
    requires Settable(a) && Placeable(a)
    ensures Setup(a, t) == Ok(Drawn(r, rest))
    ensures r.base == a.base && r.palette == a.palette && r.sparking == a.sparking && r.cooling == a.cooling
    ensures r.speed == a.speed && r.hotspots == a.hotspots
    ensures ByteMeta(r.meta) && r.meta.n == a.base.calcN && forall k :: 0 <= k < r.meta.n ==> r.meta.buf[k] == 0
    ensures var w := FirstWindow(a.speed, a.base.calcN, t).value.value;
      Distinct(r.flash) && Within(r.flash, a.base.calcN) && |r.flash| >= 1 && r.flash[0] == w.first &&
      BitMaps.Valid(r.blend) && r.blend.n == a.base.calcN &&
      forall k :: 0 <= k < a.base.calcN ==>
        BitMaps.Get(r.blend, k) == Ok(if Blended(r.flash, 0, w.lo, w.hi, a.base.calcN, k) then 1 else 0)
    ensures r.ordered.Some? && ByteMaps.Valid(r.ordered.value) && r.ordered.value.n == a.palette.n &&
      r.ordered.value.bpi == 3 && forall i :: 0 <= i < a.palette.n ==> Reordered(r.ordered.value, a.palette, i)
    ensures r.shift == ShiftFor(a.palette.n)
    ensures a.speed == 0 ==> 0 <= r.flash[0] < a.base.calcN - 1
    ensures rest.source == t.source && rest.pos == t.pos + (if a.speed == 0 then 1 else 0) + a.hotspots - 1
  {
    SetOrderedPaletteSpec(a.palette, a.ordered);
    var ordered := SetOrderedPalette(a.palette, a.ordered).value;
    var meta := ZeroMeta(a.meta);
    var w, h := PlacePoints(a, t);
    BlendMask(a.blend, h.value, w.value.lo, w.value.hi, a.base.calcN);
    var blend := MarkFrom(BitMaps.Repeat(a.blend, 0).value, h.value, 0, w.value.lo, w.value.hi, a.base.calcN).value;
    r := a.(ordered := Some(ordered), meta := meta, flash := h.value, blend := blend, shift := ShiftFor(a.palette.n));
    rest := h.rest;
  }

  // ---------------------------------------------------------------- frame

  /** `getrandbits(8)`. */
  function RandByte(t: Tape): (d: Drawn<int>)
    ensures 0 <= d.value < 256
    ensures d.rest.pos == t.pos + 1 && d.rest.source == t.source
  {
    var g := GetRandBits(t, 8);
    assert Pow2(8) == 256 by {
      assert Pow2(4) == 16;
    }
    g
  }

  /** The heat a flash point gets from the draw `spark`: a spark of 192 to
      255 when the draw is at most `sparking`, else an ember of 64 to 127;
      either way the low six bits of the draw pick the level. */
  function SparkHeat(spark: int, sparking: int): (v: int)
    requires 0 <= spark < 256
    ensures 64 <= v <= 255
    ensures v >= 192 <==> spark <= sparking
    ensures v % 64 == spark % 64
  {
    (if spark <= sparking then 192 else 64) + spark % 64
  }

  /** The source's bitwise form of the heat, `192 + (spark & 63)` for a
      spark and `(spark & 127) | 64` for an ember. */
  function SparkHeatBits(spark: bv8, sparking: int): int
  {
    if spark as int <= sparking then 192 + (spark & 63) as int else ((spark & 127) | 64) as int
  }

  /** The bitwise form and the arithmetic form agree on every draw. */
  lemma SparkHeatBitsAgree(spark: bv8, sparking: int)
    ensures SparkHeatBits(spark, sparking) == SparkHeat(spark as int, sparking)
  {
    assert (spark & 63) as int == spark as int % 64;
    assert ((spark & 127) | 64) as int == 64 + spark as int % 64;
  }

  /** The heat a draw can give: a spark or an ember, always a spark when
      `sparking` is 255 or more and never one when it is negative. */
  predicate Sparked(v: int, sparking: int) {
    64 <= v <= 255 && (sparking >= 255 ==> v >= 192) && (sparking < 0 ==> v <= 127)
  }

  /** Flash points `j` onwards, in order, each take one draw and get its
      heat. */
  function Sparks(meta: ByteMaps.ByteMap, flash: seq<int>, j: nat, sparking: int, t: Tape): (r: Result<Drawn<ByteMaps.ByteMap>>)
    ensures r.Ok? ==> r.value.value.bpi == meta.bpi
    decreases |flash| - j, 1
  {
    if j >= |flash| then Ok(Drawn(meta, t)) else SparkAt(meta, flash, j, sparking, t)
  }

  /** Flash point `j`, then the ones after it. */
  function SparkAt(meta: ByteMaps.ByteMap, flash: seq<int>, j: nat, sparking: int, t: Tape): (r: Result<Drawn<ByteMaps.ByteMap>>)
    requires j < |flash|
    ensures r.Ok? ==> r.value.value.bpi == meta.bpi
    decreases |flash| - j, 0
  {
    var s := RandByte(t);
    var m' :- ByteMaps.SetItem(meta, flash[j], IntColor(SparkHeat(s.value, sparking)));
    Sparks(m', flash, j + 1, sparking, s.rest)
  }

  /** Point `j` is among flash points `j` onwards. */
  predicate Flashed(flash: seq<int>, j: nat, k: int) {
    exists q :: j <= q < |flash| && flash[q] == k
  }

  /** One flash point's spark. */
  lemma SparkStep(meta: ByteMaps.ByteMap, flash: seq<int>, j: nat, sparking: int, t: Tape)
    returns (m': ByteMaps.ByteMap, t': Tape)
    requires ByteMeta(meta) && Within(flash, meta.n) && j < |flash|
    ensures ByteMeta(m') && m'.n == meta.n && t'.source == t.source && t'.pos == t.pos + 1
    ensures Sparks(meta, flash, j, sparking, t) == Sparks(m', flash, j + 1, sparking, t')
    ensures Sparked(m'.buf[flash[j]], sparking)
    ensures forall k :: 0 <= k < meta.n && k != flash[j] ==> m'.buf[k] == meta.buf[k]
  {
    var s := RandByte(t);
    var v := SparkHeat(s.value, sparking);
    SetByte(meta, flash[j], v);
    m', t' := meta.(buf := meta.buf[flash[j] := v]), s.rest;
  }

  /** Every flash point from `j` on holds a spark or an ember in `after`;
      every other point keeps its heat from `before`. */
  predicate SparkedFrom(before: seq<int>, after: seq<int>, flash: seq<int>, j: nat, sparking: int) {
    |after| == |before| &&
    forall k :: 0 <= k < |before| ==>
      if Flashed(flash, j, k) then Sparked(after[k], sparking) else after[k] == before[k]
  }

  /** Every flash point from `j` on gets a spark or an ember, in one draw
      each; no other heat changes. */
  lemma {:induction false} SparksSpec(meta: ByteMaps.ByteMap, flash: seq<int>, j: nat, sparking: int, t: Tape)
    returns (m': ByteMaps.ByteMap, rest: Tape)
    requires ByteMeta(meta) && Within(flash, meta.n) && j <= |flash|
    ensures Sparks(meta, flash, j, sparking, t) == Ok(Drawn(m', rest))
    ensures ByteMeta(m') && m'.n == meta.n && rest.source == t.source && rest.pos == t.pos + |flash| - j
    ensures SparkedFrom(meta.buf, m'.buf, flash, j, sparking)
    decreases |flash| - j
  {
    if j >= |flash| {
      m', rest := meta, t;
      assert Sparks(meta, flash, j, sparking, t) == Ok(Drawn(m', rest));
    } else {
      var mm, tt := SparkStep(meta, flash, j, sparking, t);
      m', rest := SparksSpec(mm, flash, j + 1, sparking, tt);
      assert Sparks(meta, flash, j, sparking, t) == Ok(Drawn(m', rest));
      SparksCombine(meta, mm, m', flash, j, sparking);
    }
  }

  /** Flash point `j`'s spark followed by the sparks after it. */
  lemma SparksCombine(meta: ByteMaps.ByteMap, mm: ByteMaps.ByteMap, m': ByteMaps.ByteMap, flash: seq<int>, j: nat, sparking: int)
    requires |meta.buf| == |mm.buf| == |m'.buf| == meta.n && j < |flash| && 0 <= flash[j] < meta.n
    requires Sparked(mm.buf[flash[j]], sparking)
    requires forall k :: 0 <= k < meta.n && k != flash[j] ==> mm.buf[k] == meta.buf[k]
    requires SparkedFrom(mm.buf, m'.buf, flash, j + 1, sparking)
    ensures SparkedFrom(meta.buf, m'.buf, flash, j, sparking)
  {
    forall k | 0 <= k < meta.n
      ensures if Flashed(flash, j, k) then Sparked(m'.buf[k], sparking) else m'.buf[k] == meta.buf[k]
    {
      if Flashed(flash, j, k) && !Flashed(flash, j + 1, k) {
        var q :| j <= q < |flash| && flash[q] == k;
        assert q == j;
      }
    }
  }

  /** `sum` of a sequence of bytes. */
  function Sum(s: seq<int>): int
    decreases |s|
  {
    if s == [] then 0 else s[0] + Sum(s[1..])
  }

  lemma SumTwo(a: int, b: int)
    ensures Sum([a, b]) == a + b
  {
    assert [a, b][1..] == [b];
    assert [b][1..] == [];
    assert Sum([b]) == b + Sum([]);
  }

  lemma SumThree(a: int, b: int, c: int)
    ensures Sum([a, b, c]) == a + b + c
  {
    assert [a, b, c][1..] == [b, c];
    SumTwo(b, c);
  }

  /** The smoothed heat of pixel `i`: the mean of it and its neighbours
      (`heat_map[i-1:i+2]`), or of the first two or the last two pixels at
      the ends, through `uint8`. Python divides with `/`; the floor
      quotient gives the same byte (`ColorMath.TrueDivAgrees`). */
  function BlendValue(h: seq<int>, i: int, calcN: int): (v: byte)
  {
    if 0 < i < calcN - 1 then Uint8(FloorDiv(Sum(Slice(h, i - 1, i + 2)), 3))
    else if i == 0 then Uint8(FloorDiv(Sum(Slice(h, 0, 2)), 2))
    else Uint8(FloorDiv(Sum(Slice(h, -2, calcN)), 2))
  }

  /** On a heat buffer of `calc_n >= 2` bytes the smoothed heat is the
      floor of the mean of the three bytes around an inner pixel, and of
      the two end bytes at either end. */
  lemma BlendAverages(h: seq<int>, i: int, calcN: nat)
    requires |h| == calcN >= 2 && IsColor(h) && 0 <= i < calcN
    ensures var v := BlendValue(h, i, calcN);
      (0 < i < calcN - 1 ==> 3 * v <= h[i - 1] + h[i] + h[i + 1] < 3 * v + 3) &&
      (i == 0 ==> 2 * v <= h[0] + h[1] < 2 * v + 2) &&
      (i == calcN - 1 ==> 2 * v <= h[calcN - 2] + h[calcN - 1] < 2 * v + 2)
  {
    if 0 < i < calcN - 1 {
      var w := Slice(h, i - 1, i + 2);
      assert w == [h[i - 1], h[i], h[i + 1]];
      SumThree(h[i - 1], h[i], h[i + 1]);
    } else if i == 0 {
      var w := Slice(h, 0, 2);
      assert w == [h[0], h[1]];
      SumTwo(h[0], h[1]);
    } else {
      var w := Slice(h, -2, calcN);
      assert w == [h[calcN - 2], h[calcN - 1]];
      SumTwo(h[calcN - 2], h[calcN - 1]);
    }
  }

  /** Smoothing from pixel `i` on: each pixel whose blend bit is set gets
      its smoothed heat, read from the unsmoothed copy `heat`. */
  function BlendFrom(meta: ByteMaps.ByteMap, heat: seq<int>, blend: BitMaps.BitMap, i: nat, calcN: nat): (r: Result<ByteMaps.ByteMap>)
    requires BitMaps.Valid(blend)
    ensures r.Ok? ==> r.value.bpi == meta.bpi
    decreases calcN - i, 1
  {
    if i >= calcN then Ok(meta) else BlendAt(meta, heat, blend, i, calcN)
  }

  /** Pixel `i`, then the pixels after it. */
  function BlendAt(meta: ByteMaps.ByteMap, heat: seq<int>, blend: BitMaps.BitMap, i: nat, calcN: nat): (r: Result<ByteMaps.ByteMap>)
    requires BitMaps.Valid(blend) && i < calcN
    ensures r.Ok? ==> r.value.bpi == meta.bpi
    decreases calcN - i, 0
  {
    var bit :- BitMaps.Get(blend, i);
    if bit != 0 then
      var m' :- ByteMaps.SetItem(meta, i, IntColor(BlendValue(heat, i, calcN)));
      BlendFrom(m', heat, blend, i + 1, calcN)
    else BlendFrom(meta, heat, blend, i + 1, calcN)
  }

  /** One pixel's smoothing: the map `mm` pixel `i` leaves. */
  lemma BlendStep(meta: ByteMaps.ByteMap, heat: seq<int>, blend: BitMaps.BitMap, i: nat, calcN: nat)
    returns (mm: ByteMaps.ByteMap)
    requires ByteMeta(meta) && meta.n == calcN && BitMaps.Valid(blend) && blend.n == calcN && i < calcN
    ensures ByteMeta(mm) && mm.n == meta.n
    ensures mm == if BitMaps.Get(blend, i) == Ok(1) then meta.(buf := meta.buf[i := BlendValue(heat, i, calcN)]) else meta
    ensures mm.buf == if BitMaps.Get(blend, i) == Ok(1) then meta.buf[i := BlendValue(heat, i, calcN)] else meta.buf
  {
    if BitMaps.Get(blend, i) == Ok(1) {
      SetByte(meta, i, BlendValue(heat, i, calcN));
      mm := meta.(buf := meta.buf[i := BlendValue(heat, i, calcN)]);
    } else {
      mm := meta;
    }
  }

  /** Smoothing from `i` ends where smoothing from `i + 1` ends, started
      from the map `mm` pixel `i` leaves. */
  lemma BlendLink(meta: ByteMaps.ByteMap, mm: ByteMaps.ByteMap, m': ByteMaps.ByteMap, heat: seq<int>,
                  blend: BitMaps.BitMap, i: nat, calcN: nat)
    requires ByteMeta(meta) && meta.n == calcN && BitMaps.Valid(blend) && blend.n == calcN && i < calcN
    requires mm == if BitMaps.Get(blend, i) == Ok(1) then meta.(buf := meta.buf[i := BlendValue(heat, i, calcN)]) else meta
    requires BlendFrom(mm, heat, blend, i + 1, calcN) == Ok(m')
    ensures BlendFrom(meta, heat, blend, i, calcN) == Ok(m')
  {
    if BitMaps.Get(blend, i) == Ok(1) {
      SetByte(meta, i, BlendValue(heat, i, calcN));
    }
  }

  /** Smoothing from pixel `i` on changes exactly the pixels from `i` on
      whose blend bit is set, each to its smoothed heat. */
  lemma {:induction false} BlendFromSpec(meta: ByteMaps.ByteMap, heat: seq<int>, blend: BitMaps.BitMap, i: nat, calcN: nat)
    returns (m': ByteMaps.ByteMap)
    requires ByteMeta(meta) && meta.n == calcN && BitMaps.Valid(blend) && blend.n == calcN && i <= calcN
    ensures BlendFrom(meta, heat, blend, i, calcN) == Ok(m') && ByteMeta(m') && m'.n == meta.n
    ensures forall k :: 0 <= k < calcN ==>
      m'.buf[k] == if i <= k && BitMaps.Get(blend, k) == Ok(1) then BlendValue(heat, k, calcN) else meta.buf[k]
    decreases calcN - i
  {
    if i >= calcN {
      m' := meta;
    } else {
      var mm := BlendStep(meta, heat, blend, i, calcN);
      m' := BlendFromSpec(mm, heat, blend, i + 1, calcN);
      BlendLink(meta, mm, m', heat, blend, i, calcN);
      BlendCombine(meta, mm, m', heat, blend, i, calcN);
    }
  }

  /** Pixel `i`'s smoothing followed by the smoothing from `i + 1` is the
      smoothing from `i`, pixel by pixel. */
  lemma BlendCombine(meta: ByteMaps.ByteMap, mm: ByteMaps.ByteMap, m': ByteMaps.ByteMap, heat: seq<int>,
                     blend: BitMaps.BitMap, i: nat, calcN: nat)
    requires |meta.buf| == calcN && |mm.buf| == calcN && |m'.buf| == calcN && BitMaps.Valid(blend) && i < calcN
    requires mm.buf == if BitMaps.Get(blend, i) == Ok(1) then meta.buf[i := BlendValue(heat, i, calcN)] else meta.buf
    requires forall k :: 0 <= k < calcN ==>
      m'.buf[k] == if i + 1 <= k && BitMaps.Get(blend, k) == Ok(1) then BlendValue(heat, k, calcN) else mm.buf[k]
    ensures forall k :: 0 <= k < calcN ==>
      m'.buf[k] == if i <= k && BitMaps.Get(blend, k) == Ok(1) then BlendValue(heat, k, calcN) else meta.buf[k]
  {
  }

  /** The heat map after the scroll `calc_frame` starts with. */
  function Scrolled(a: Fire): (m: ByteMaps.ByteMap)
    ensures m.n == a.meta.n && m.bpi == a.meta.bpi && (ByteMaps.Valid(a.meta) ==> ByteMaps.Valid(m))
    ensures a.speed == 0 ==> m == a.meta
  {
    if a.speed != 0 then ByteMaps.Scroll(a.meta, a.speed) else a.meta
  }

  /** `calc_frame`: scroll the heat, spark the flash points, smooth the
      marked pixels from a copy of the heat, cool everything, colour the
      strip. */
  function CalcFrame(a: Fire, t: Tape): (r: Result<Drawn<Fire>>)
    requires BitMaps.Valid(a.blend) && a.meta.bpi == 1
  {
    var sp :- Sparks(Scrolled(a), a.flash, 0, a.sparking, t);
    var blended :- BlendFrom(sp.value, sp.value.buf, a.blend, 0, a.base.calcN);
    var cooled :- ByteMaps.ApplyAll(blended, ByteMaps.Sub, ByteMaps.Scalar(a.cooling));
    var leds :- Colorize(Heats(cooled), a.ordered, a.shift, a.base.leds);
    Ok(Drawn(a.(meta := cooled, base := a.base.(leds := leds)), sp.rest))
  }

  /** The state every frame relies on, as `setup` leaves it: a heat map
      and a blend mask over the computed pixels, flash points on them
      whose blend bits are clear, and an ordered three-byte palette of 64
      entries or more with the shift chosen for it. */
  predicate Ready(a: Fire) {
    && ByteMeta(a.meta) && a.meta.n == a.base.calcN && a.base.calcN > 0
    && BitMaps.Valid(a.blend) && a.blend.n == a.base.calcN
    && Within(a.flash, a.base.calcN)
    && (forall q :: 0 <= q < |a.flash| ==> BitMaps.Get(a.blend, a.flash[q]) == Ok(0))
    && a.ordered.Some? && ByteMaps.Valid(a.ordered.value) && a.ordered.value.bpi == 3
    && a.ordered.value.n >= MinPalette && a.shift == ShiftFor(a.ordered.value.n)
  }

  /** `setup` leaves a settable fire ready for its frames. */
  lemma SetupReady(a: Fire, t: Tape)
    requires Settable(a) && Placeable(a)
    ensures Setup(a, t).Ok? && Ready(Setup(a, t).value.value)
  {
    var r, rest := SetupSpec(a, t);
    var w := FirstWindow(a.speed, a.base.calcN, t).value.value;
    forall q | 0 <= q < |r.flash| ensures BitMaps.Get(r.blend, r.flash[q]) == Ok(0) {
      assert r.flash[q] in r.flash;
      assert !Blended(r.flash, 0, w.lo, w.hi, a.base.calcN, r.flash[q]);
    }
  }

  /** Every heat byte names a palette entry of a ready fire. */
  lemma HeatsMappable(heat: seq<int>, op: ByteMaps.ByteMap, shift: nat)
    requires op.n >= MinPalette && shift == ShiftFor(op.n) && IsColor(heat)
    ensures Mappable(heat, op, shift)
  {
    forall k | 0 <= k < |heat| ensures 0 <= heat[k] && Shr(heat[k], shift) < op.n {
      ShiftCovers(op.n, heat[k]);
    }
  }

  /** The stages of a frame up to the cooling, on a ready fire: the
      sparked heat, the smoothed heat, the cooled heat. */
  lemma FrameHeat(a: Fire, t: Tape) returns (sparked: ByteMaps.ByteMap, cooled: ByteMaps.ByteMap, rest: Tape)
    requires Ready(a)
    ensures Sparks(Scrolled(a), a.flash, 0, a.sparking, t) == Ok(Drawn(sparked, rest))
    ensures ByteMeta(sparked) && sparked.n == a.base.calcN && rest.source == t.source && rest.pos == t.pos + |a.flash|
    ensures BlendFrom(sparked, sparked.buf, a.blend, 0, a.base.calcN).Ok?
    ensures ByteMaps.ApplyAll(BlendFrom(sparked, sparked.buf, a.blend, 0, a.base.calcN).value,
                              ByteMaps.Sub, ByteMaps.Scalar(a.cooling)) == Ok(cooled)
    ensures ByteMeta(cooled) && cooled.n == a.base.calcN
    ensures forall k :: 0 <= k < a.base.calcN ==>
      cooled.buf[k] == Uint8((if BitMaps.Get(a.blend, k) == Ok(1) then BlendValue(sparked.buf, k, a.base.calcN)
                              else sparked.buf[k]) - a.cooling)
  {
    sparked, rest := SparksSpec(Scrolled(a), a.flash, 0, a.sparking, t);
    var blended := BlendFromSpec(sparked, sparked.buf, a.blend, 0, a.base.calcN);
    cooled := SubSpec(blended, a.cooling);
  }

  /** A frame of a ready fire on a three-byte strip of exactly `calc_n`
      pixels succeeds, takes one draw per flash point, keeps the fire
      ready and changes only its heat and its pixels: each heat is the
      sparked (or, where the blend bit is set, smoothed) heat less the
      cooling, and each pixel shows its heat's palette colour. */
  lemma FrameSpec(a: Fire, t: Tape) returns (sparked: ByteMaps.ByteMap, r: Fire, rest: Tape)
    requires Ready(a) && Strips.Valid(a.base.leds) && a.base.leds.bpp == 3 && a.base.leds.n == a.base.calcN
    ensures Sparks(Scrolled(a), a.flash, 0, a.sparking, t) == Ok(Drawn(sparked, rest))
    ensures ByteMeta(sparked) && sparked.n == a.base.calcN
    ensures CalcFrame(a, t) == Ok(Drawn(r, rest)) && rest.pos == t.pos + |a.flash|
    ensures r == a.(meta := r.meta, base := a.base.(leds := r.base.leds))
    ensures Ready(r) && Strips.Valid(r.base.leds) && Shape(r.base.leds, a.base.leds)
    ensures Mappable(r.meta.buf, a.ordered.value, a.shift)
    ensures forall k :: 0 <= k < a.base.calcN ==>
      r.meta.buf[k] == Uint8((if BitMaps.Get(a.blend, k) == Ok(1) then BlendValue(sparked.buf, k, a.base.calcN)
                              else sparked.buf[k]) - a.cooling)
    ensures forall k :: 0 <= k < a.base.calcN ==>
      Pixel(r.base.leds, k) == CellColor(r.meta.buf[k], a.ordered.value, a.shift)
  {
    var cooled;
    sparked, cooled, rest := FrameHeat(a, t);
    var op := a.ordered.value;
    HeatsMappable(Heats(cooled), op, a.shift);
    ColorizeSucceeds(Heats(cooled), op, a.shift, a.base.leds);
    assert Heats(cooled) == cooled.buf;
    var leds := Colorize(Heats(cooled), a.ordered, a.shift, a.base.leds).value;
    r := a.(meta := cooled, base := a.base.(leds := leds));
    assert CalcFrame(a, t) == Ok(Drawn(r, rest));
  }

  /** `colorize` refuses a strip whose buffer is not `calc_n` three-byte
      pixels long, so a frame of a ready fire fails exactly when the strip
      has more (repeated) pixels than it computes. */
  lemma FrameNeedsWholeStrip(a: Fire, t: Tape)
    requires Ready(a) && Strips.Valid(a.base.leds) && a.base.leds.bpp == 3
    ensures CalcFrame(a, t).Ok? <==> a.base.leds.n == a.base.calcN
  {
    var sparked, cooled, rest := FrameHeat(a, t);
    HeatsMappable(Heats(cooled), a.ordered.value, a.shift);
    ColorizeSucceeds(Heats(cooled), a.ordered.value, a.shift, a.base.leds);
  }

  /** The flash points never go cold: their blend bits are clear, so each
      keeps its fresh spark or ember less the cooling, and with `sparking`
      at 255 or more a spark less the cooling. */
  lemma FlashPointsHot(a: Fire, t: Tape, q: int) returns (r: Fire)
    requires Ready(a) && Strips.Valid(a.base.leds) && a.base.leds.bpp == 3 && a.base.leds.n == a.base.calcN
    requires 0 <= q < |a.flash| && a.cooling >= 0
    ensures CalcFrame(a, t).Ok? && CalcFrame(a, t).value.value == r && ByteMeta(r.meta) && r.meta.n == a.base.calcN
    ensures var h := r.meta.buf[a.flash[q]];
      h >= 64 - a.cooling && (a.sparking >= 255 ==> h >= 192 - a.cooling)
  {
    var sparked, rest;
    sparked, r, rest := FrameSpec(a, t);
    var sp, rest' := SparksSpec(Scrolled(a), a.flash, 0, a.sparking, t);
    assert Flashed(a.flash, 0, a.flash[q]);
  }
}

=== FILE: generators.dfy ===
/** The colour generators of `trickLED/generators.py`.

    Each Python generator is an infinite coroutine; here it is an explicit
    state (`Gen`) and a step function `Next` that returns the next colour and
    the successor state. As with Python generators, a generator's body only
    runs on the first advance, so argument errors surface from the first
    `Next`, never from construction. The global brightness the bodies read
    is the `brightness` argument of `Next`, and random draws come from the
    `Tape`. A generator whose loop would never reach a `yield` (a stripe
    size of zero or less) makes `Next` return `NoValue`. */
module Generators {
  import opened Wrappers
  import opened ColorMath
  import opened Random
  import opened Arith

  /** `pos` is the position inside the current stripe; a stripe's colours are
      fixed when its first colour is produced. `started` records whether the
      generator body has run (and so whether a zero stride was normalised). */
  datatype Gen =
    | Stepped(stride: int, size: int, hue: int, pos: nat, c1: Color, c2: Color, started: bool)
    | Striped(stride: int, size: int, hue: int, pos: nat, col: Color, started: bool)
    | Fading(stride: int, size: int, hue: int, pos: nat, table: seq<int>, started: bool)
    | Compliment(stride: int, size: int, hue: int, pos: nat, col: Color)
    | Vivid
    | Pastel(bpp: nat, mask: seq<byte>, started: bool)

  datatype Yield = Yield(color: Color, gen: Gen, rest: Tape)

  /** The fade table of `fading_color_wheel` is a float sine ramp; it is
      supplied with the generator and must have one entry per stripe pixel.
      The stripe position stays inside the stripe. */
  predicate Valid(g: Gen) {
    match g
    case Stepped(_, size, _, pos, c1, c2, _) => pos == 0 || (pos < size && |c1| == 3 && |c2| == 3)
    case Striped(_, size, _, pos, col, _) => pos == 0 || (pos < size && |col| == 3 && IsColor(col))
    case Fading(_, size, _, pos, table, _) => (size > 1 ==> |table| == size) && (pos == 0 || pos < size)
    case Compliment(_, size, _, pos, col) => pos == 0 || (pos < 2 * size && |col| == 3 && IsColor(col))
    case Vivid => true
    case Pastel(_, _, _) => true
  }

  /** `stepped_color_wheel(hue_stride, stripe_size, start_hue)` */
  function SteppedColorWheel(stride: int, size: int, start: int): Gen {
    Stepped(stride, size, start, 0, [], [], false)
  }

  /** `striped_color_wheel(hue_stride, stripe_size, start_hue)` */
  function StripedColorWheel(stride: int, size: int, start: int): Gen {
    Striped(stride, size, start, 0, [], false)
  }

  /** `fading_color_wheel(hue_stride, stripe_size, start_hue, mode)`, with the
      brightness table that `mode` selects. */
  function FadingColorWheel(stride: int, size: int, start: int, table: seq<int>): Gen {
    Fading(stride, size, start, 0, table, false)
  }

  /** `color_compliment(hue_stride, stripe_size, start_hue)` */
  function ColorCompliment(stride: int, size: int, start: int): Gen {
    Compliment(stride, size, start, 0, [])
  }

  /** `random_pastel(bpp, mask)`; an empty mask stands for `None`. */
  function RandomPastel(bpp: nat, mask: seq<byte>): Gen {
    Pastel(bpp, mask, false)
  }

  /** A zero stride becomes 1 (stepped, striped and fading wheels only). */
  function Stride(stride: int): int {
    if stride == 0 then 1 else stride
  }

  /** Pixel `i` of a stepped stripe: `add8(c1, (c2 - c1) / (size - 1) * i)`
      per channel. */
  function StepColor(c1: Color, c2: Color, i: nat, size: int): (r: Color)
    requires |c1| == 3 && |c2| == 3 && size > 1
    ensures |r| == 3 && IsColor(r)
  {
    seq(3, k requires 0 <= k < 3 => Lerp(c1[k], c2[k], i, size - 1))
  }

  /** Where the wheel generators go after the last colour of a stripe. */
  function NextHue(hue: int, stride: int): int {
    (hue + stride) % 255
  }

  /** How many bytes each colour of the generator has. */
  function Width(g: Gen): nat {
    if g.Pastel? then g.bpp else 3
  }

  /** `next(gen)` */
  function Next(g: Gen, brightness: byte, t: Tape): (r: Result<Yield>)
    requires Valid(g)
    ensures r.Ok? ==> Valid(r.value.gen) && |r.value.color| == Width(g) && Width(r.value.gen) == Width(g)
    ensures r.Ok? ==> IsColor(r.value.color)
  {
    match g
    case Stepped(_, _, _, _, _, _, _) => NextStepped(g, brightness, t)
    case Striped(_, _, _, _, _, _) => NextStriped(g, brightness, t)
    case Fading(_, _, _, _, _, _) => NextFading(g, t)
    case Compliment(_, _, _, _, _) => NextCompliment(g, brightness, t)
    case Vivid => NextVivid(brightness, t)
    case Pastel(_, _, _) => NextPastel(g, t)
  }

  function NextStepped(g: Gen, brightness: byte, t: Tape): (r: Result<Yield>)
    requires g.Stepped? && Valid(g)
    ensures r.Ok? ==> Valid(r.value.gen) && |r.value.color| == 3 && IsColor(r.value.color)
  {
    var Stepped(stride, size, hue, pos, c1, c2, started) := g;
    var s := if started then stride else Stride(stride);
    if pos == 0 then
      if size == 1 then Err(ZeroDivisionError)
      else if size <= 0 then Err(NoValue)
      else
        var a := ColorWheel(hue, brightness);
        var b := ColorWheel(NextHue(hue, s), brightness / 4);
        Ok(Yield(StepColor(a, b, 0, size), Stepped(s, size, hue, 1, a, b, true), t))
    else
      var g' := if pos + 1 == size then Stepped(s, size, NextHue(hue, s), 0, c1, c2, true)
                else Stepped(s, size, hue, pos + 1, c1, c2, true);
      Ok(Yield(StepColor(c1, c2, pos, size), g', t))
  }

  function NextStriped(g: Gen, brightness: byte, t: Tape): (r: Result<Yield>)
    requires g.Striped? && Valid(g)
    ensures r.Ok? ==> Valid(r.value.gen) && |r.value.color| == 3 && IsColor(r.value.color)
  {
    var Striped(stride, size, hue, pos, col, started) := g;
    var s := if started then stride else Stride(stride);
    if pos == 0 && size <= 0 then Err(NoValue)
    else
      var c := if pos == 0 then ColorWheel(hue, brightness) else col;
      var g' := if pos + 1 == size then Striped(s, size, NextHue(hue, s), 0, c, true)
                else Striped(s, size, hue, pos + 1, c, true);
      Ok(Yield(c, g', t))
  }

  /** The fading wheel ignores the global brightness: its table sets it. */
  function NextFading(g: Gen, t: Tape): (r: Result<Yield>)
    requires g.Fading? && Valid(g)
    ensures r.Ok? ==> Valid(r.value.gen) && |r.value.color| == 3 && IsColor(r.value.color)
  {
    var Fading(stride, size, hue, pos, table, started) := g;
    if size <= 1 then Err(ValueError)
    else
      var s := if started then stride else Stride(stride);
      var g' := if pos + 1 == size then Fading(s, size, NextHue(hue, s), 0, table, true)
                else Fading(s, size, hue, pos + 1, table, true);
      Ok(Yield(ColorWheel(hue, table[pos]), g', t))
  }

  function NextCompliment(g: Gen, brightness: byte, t: Tape): (r: Result<Yield>)
    requires g.Compliment? && Valid(g)
    ensures r.Ok? ==> Valid(r.value.gen) && |r.value.color| == 3 && IsColor(r.value.color)
  {
    var Compliment(stride, size, hue, pos, col) := g;
    if pos == 0 && size <= 0 then Err(NoValue)
    else
      var c := if pos == 0 then ColorWheel(hue, brightness)
               else if pos == size then ColorWheel((hue + 127) % 255, brightness)
               else col;
      var g' := if pos + 1 == 2 * size then Compliment(stride, size, NextHue(hue, stride), 0, c)
                else Compliment(stride, size, hue, pos + 1, c);
      Ok(Yield(c, g', t))
  }

  /** Two draws: which channel stays dark, then the prime share. With the
      upper bound excluded, `cov` is 0 or 1 and `prime` lies in
      `[1, brightness)`; a brightness of 0 or 1 leaves that range empty and
      raises ValueError. */
  function NextVivid(brightness: byte, t: Tape): (r: Result<Yield>)
    ensures r.Ok? <==> brightness >= 2
    ensures r.Err? ==> r.error == ValueError
    ensures r.Ok? ==> r.value.gen == Vivid && |r.value.color| == 3 && IsColor(r.value.color)
    ensures r.Ok? ==> r.value.rest.pos == t.pos + 2 && r.value.rest.source == t.source
  {
    var cov := StdRandRange(0, 2, t).value;
    var prime :- StdRandRange(1, brightness, cov.rest);
    Ok(Yield(VividColor(cov.value, prime.value, brightness), Vivid, prime.rest))
  }

  function NextPastel(g: Gen, t: Tape): (r: Result<Yield>)
    requires g.Pastel?
    ensures r.Ok? ==> r.value.gen.Pastel? && r.value.gen.bpp == g.bpp && |r.value.color| == g.bpp && IsColor(r.value.color)
  {
    var Pastel(bpp, mask, _) := g;
    if |mask| > 0 && |mask| != bpp then Err(ValueError)
    else
      var d := GetRandBits(t, 8 * bpp);
      Ok(Yield(PastelColor(d.value, bpp, mask), Pastel(bpp, mask, true), d.rest))
  }

  /** `prime << s[0] | second << s[1]` as three big-endian bytes, for the
      rotation `cov` in {0, 1, 2}. */
  function VividColor(cov: int, prime: int, brightness: byte): (r: Color)
    requires 0 <= cov <= 2 && 1 <= prime < brightness
    ensures |r| == 3 && IsColor(r)
  {
    var second := brightness - prime;
    if cov == 0 then [prime, second, 0]
    else if cov == 1 then [0, prime, second]
    else [second, 0, prime]
  }

  /** Byte `i` (big-endian, of `bpp`) of the random value, AND-ed with the
      mask entry for that channel when there is a mask. */
  function PastelColor(v: nat, bpp: nat, mask: seq<byte>): (r: Color)
    requires |mask| == 0 || |mask| == bpp
    ensures |r| == bpp && IsColor(r)
  {
    seq(bpp, i requires 0 <= i < bpp =>
      var byte := (v / Pow256(bpp - 1 - i)) % 256;
      if |mask| == 0 then byte else ((byte as bv8) & (mask[i] as bv8)) as int)
  }

  /** The next channel, cyclically. */
  function Succ3(j: nat): nat {
    (j + 1) % 3
  }

  /** `random_vivid` colours: exactly one channel is zero and the other
      two, the prime share and the rest, are at least 1 and add up to the
      brightness. Only the red-yellow-green `(p, s, 0)` and
      green-aqua-blue `(0, p, s)` rotations occur, so green is never dark.
      A brightness below 2 fails with ValueError. */
  lemma VividShape(brightness: byte, t: Tape)
    ensures brightness < 2 ==> Next(Vivid, brightness, t) == Err(ValueError)
    ensures brightness >= 2 ==> Next(Vivid, brightness, t).Ok?
    ensures brightness >= 2 ==> var c := Next(Vivid, brightness, t).value.color;
      c[0] + c[1] + c[2] == brightness && c[1] >= 1 &&
      exists j :: 0 <= j < 2 && c[j] >= 1 && c[Succ3(j)] == brightness - c[j] && c[Succ3(j)] >= 1 &&
        c[Succ3(Succ3(j))] == 0
  {
    if brightness >= 2 {
      var cov := StdRandRange(0, 2, t).value;
      var prime := StdRandRange(1, brightness, cov.rest).value;
      var c := Next(Vivid, brightness, t).value.color;
      assert c == VividColor(cov.value, prime.value, brightness);
      var j := cov.value;
      assert Succ3(0) == 1 && Succ3(1) == 2 && Succ3(2) == 0;
      assert c[j] == prime.value;
    }
  }

  /** Conversely, each such colour comes out of some tape: any choice of
      the two rotations and any prime share in `[1, brightness)`. */
  lemma VividReaches(brightness: byte, cov: int, prime: int) returns (t: Tape)
    requires 0 <= cov < 2 && 1 <= prime < brightness
    ensures Next(Vivid, brightness, t).Ok?
    ensures Next(Vivid, brightness, t).value.color == VividColor(cov, prime, brightness)
  {
    var c: nat := cov;
    var p: nat := prime - 1;
    t := Tape(x => if x == 0 then c else p, 0);
    var d1 := StdRandRange(0, 2, t);
    Random.SmallMod(c, 2);
    assert d1 == Ok(Drawn(cov, t.(pos := 1)));
    var d2 := StdRandRange(1, brightness, d1.value.rest);
    Random.SmallMod(p, brightness - 1);
    assert d2 == Ok(Drawn(prime, t.(pos := 2)));
  }

  /** `random_pastel` with a mask of the wrong length fails on its first
      advance; otherwise channel i is a random byte AND `mask[i]`, or the
      bare random byte when there is no mask. */
  lemma PastelMask(bpp: nat, mask: seq<byte>, t: Tape)
    ensures |mask| > 0 && |mask| != bpp ==> Next(RandomPastel(bpp, mask), 0, t) == Err(ValueError)
    ensures |mask| == 0 || |mask| == bpp ==>
      var r := Next(RandomPastel(bpp, mask), 0, t);
      var v := GetRandBits(t, 8 * bpp).value;
      r.Ok? && forall i :: 0 <= i < bpp ==>
        var byte := (v / Pow256(bpp - 1 - i)) % 256;
        r.value.color[i] == if |mask| == 0 then byte else ((byte as bv8) & (mask[i] as bv8)) as int
  {
    if |mask| == 0 || |mask| == bpp {
      PastelChannels(bpp, mask, t);
    } else if |mask| > 0 {
      PastelBadMask(bpp, mask, t);
    }
  }

  /** A mask whose length is not `bpp` makes the first advance fail. */
  lemma PastelBadMask(bpp: nat, mask: seq<byte>, t: Tape)
    requires |mask| > 0 && |mask| != bpp
    ensures Next(RandomPastel(bpp, mask), 0, t) == Err(ValueError)
  {
  }

  /** With a mask of the right length (or none), the first advance gives
      channel by channel the random bytes, masked. */
  lemma PastelChannels(bpp: nat, mask: seq<byte>, t: Tape)
    requires |mask| == 0 || |mask| == bpp
    ensures var r := Next(RandomPastel(bpp, mask), 0, t);
      var v := GetRandBits(t, 8 * bpp).value;
      r.Ok? && forall i :: 0 <= i < bpp ==>
        var byte := (v / Pow256(bpp - 1 - i)) % 256;
        r.value.color[i] == if |mask| == 0 then byte else ((byte as bv8) & (mask[i] as bv8)) as int
  {
    var d := GetRandBits(t, 8 * bpp);
    PastelAdvance(bpp, mask, t);
    forall i | 0 <= i < bpp
      ensures var byte := (d.value / Pow256(bpp - 1 - i)) % 256;
        PastelColor(d.value, bpp, mask)[i] == if |mask| == 0 then byte else ((byte as bv8) & (mask[i] as bv8)) as int
    {
      PastelChannel(d.value, bpp, mask, i);
    }
  }

  /** The first advance of `random_pastel` with a mask of the right length
      (or none) yields the pastel colour of `bpp` random bytes. */
  lemma PastelAdvance(bpp: nat, mask: seq<byte>, t: Tape)
    requires |mask| == 0 || |mask| == bpp
    ensures var d := GetRandBits(t, 8 * bpp);
      Next(RandomPastel(bpp, mask), 0, t) == Ok(Yield(PastelColor(d.value, bpp, mask), Pastel(bpp, mask, true), d.rest))
  {
  }

  /** Channel `i` of a pastel colour. */
  lemma PastelChannel(v: nat, bpp: nat, mask: seq<byte>, i: nat)
    requires (|mask| == 0 || |mask| == bpp) && i < bpp
    ensures var byte := (v / Pow256(bpp - 1 - i)) % 256;
      PastelColor(v, bpp, mask)[i] == if |mask| == 0 then byte else ((byte as bv8) & (mask[i] as bv8)) as int
  {
  }

  /** The colours of `k` successive advances, or the first error. */
  datatype Pulled = Pulled(colors: seq<Color>, gen: Gen, rest: Tape)

  function Take(g: Gen, brightness: byte, t: Tape, k: nat): (r: Result<Pulled>)
    requires Valid(g)
    ensures r.Ok? ==> |r.value.colors| == k && Valid(r.value.gen)
    ensures r.Ok? ==> forall j :: 0 <= j < k ==> IsColor(r.value.colors[j])
    decreases k
  {
    if k == 0 then Ok(Pulled([], g, t))
    else
      var p :- Take(g, brightness, t, k - 1);
      var y :- Next(p.gen, brightness, p.rest);
      Ok(Pulled(p.colors + [y.color], y.gen, y.rest))
  }

  /** The hue after `q` completed stripes. */
  function HueAfter(start: int, stride: int, q: int): int {
    if q == 0 then start else (start + q * stride) % 255
  }

  lemma HueStep(start: int, stride: int, q: int)
    requires q >= 0
    ensures NextHue(HueAfter(start, stride, q), stride) == HueAfter(start, stride, q + 1)
  {
    if q > 0 {
      ModSum(start + q * stride, stride, 255);
      assert start + q * stride + stride == start + (q + 1) * stride;
    }
  }

  /** Take one more colour: the pulled prefix is kept. */
  lemma TakeStep(g: Gen, b: byte, t: Tape, k: nat)
    requires Valid(g) && k > 0 && Take(g, b, t, k - 1).Ok?
    requires Next(Take(g, b, t, k - 1).value.gen, b, Take(g, b, t, k - 1).value.rest).Ok?
    ensures var p := Take(g, b, t, k - 1).value;
      var y := Next(p.gen, b, p.rest).value;
      Take(g, b, t, k) == Ok(Pulled(p.colors + [y.color], y.gen, y.rest))
  {
  }

  /** Every colour `k` advances give has the generator's width, and the
      generator keeps its width. */
  lemma {:induction false} TakeWidth(g: Gen, b: byte, t: Tape, k: nat)
    requires Valid(g) && Take(g, b, t, k).Ok?
    ensures Width(Take(g, b, t, k).value.gen) == Width(g)
    ensures forall j :: 0 <= j < k ==> |Take(g, b, t, k).value.colors[j]| == Width(g)
    decreases k
  {
    if k > 0 {
      TakeWidth(g, b, t, k - 1);
    }
  }

  /** Taking `k` colours is taking the first one and then `k - 1` more from
      the advanced generator. */
  lemma {:induction false} TakeHead(g: Gen, b: byte, t: Tape, k: nat) returns (y: Yield, more: Pulled)
    requires Valid(g) && k > 0 && Take(g, b, t, k).Ok?
    ensures Next(g, b, t) == Ok(y) && Valid(y.gen)
    ensures Take(y.gen, b, y.rest, k - 1) == Ok(more)
    ensures Take(g, b, t, k) == Ok(Pulled([y.color] + more.colors, more.gen, more.rest))
    decreases k
  {
    if k == 1 {
      y := Next(g, b, t).value;
      more := Pulled([], y.gen, y.rest);
      assert [] + [y.color] == [y.color] == [y.color] + [];
      assert Take(g, b, t, 1) == Ok(Pulled([y.color], y.gen, y.rest));
    } else {
      var p, z := TakeLast(g, b, t, k);
      var more0;
      y, more0 := TakeHead(g, b, t, k - 1);
      HeadOfLonger(g, b, t, k, y, more0, p, z);
      more := Pulled(more0.colors + [z.color], z.gen, z.rest);
    }
  }

  /** The step of `TakeHead` from `k - 1` colours to `k`. */
  lemma HeadOfLonger(g: Gen, b: byte, t: Tape, k: nat, y: Yield, more0: Pulled, p: Pulled, z: Yield)
    requires Valid(g) && k > 1 && Valid(y.gen)
    requires Take(g, b, t, k - 1) == Ok(p) && Next(p.gen, b, p.rest) == Ok(z)
    requires Take(y.gen, b, y.rest, k - 2) == Ok(more0)
    requires Take(g, b, t, k - 1) == Ok(Pulled([y.color] + more0.colors, more0.gen, more0.rest))
    ensures Take(y.gen, b, y.rest, k - 1) == Ok(Pulled(more0.colors + [z.color], z.gen, z.rest))
    ensures Take(g, b, t, k) == Ok(Pulled([y.color] + (more0.colors + [z.color]), z.gen, z.rest))
  {
    assert p == Pulled([y.color] + more0.colors, more0.gen, more0.rest);
    TakeSnoc(y.gen, b, y.rest, k - 1, more0, z);
    TakeSnoc(g, b, t, k, p, z);
    assert ([y.color] + more0.colors) + [z.color] == [y.color] + (more0.colors + [z.color]);
  }

  /** A successful take of `k > 0` colours is a take of `k - 1` and one
      more advance. */
  lemma TakeLast(g: Gen, b: byte, t: Tape, k: nat) returns (p: Pulled, z: Yield)
    requires Valid(g) && k > 0 && Take(g, b, t, k).Ok?
    ensures Take(g, b, t, k - 1) == Ok(p) && Valid(p.gen) && Next(p.gen, b, p.rest) == Ok(z)
    ensures Take(g, b, t, k) == Ok(Pulled(p.colors + [z.color], z.gen, z.rest))
  {
    p := Take(g, b, t, k - 1).value;
    z := Next(p.gen, b, p.rest).value;
  }

  /** `TakeStep` with the pulled prefix and the next advance named. */
  lemma TakeSnoc(g: Gen, b: byte, t: Tape, k: nat, p: Pulled, z: Yield)
    requires Valid(g) && k > 0 && Take(g, b, t, k - 1) == Ok(p) && Next(p.gen, b, p.rest) == Ok(z)
    ensures Take(g, b, t, k) == Ok(Pulled(p.colors + [z.color], z.gen, z.rest))
  {
  }


  /** The stepped wheel after `k >= 1` outputs. */
  predicate SteppedAt(g: Gen, s: int, size: nat, start: int, b: byte, k: nat)
    requires size > 0
  {
    && g.Stepped? && g.started && g.stride == s && g.size == size
    && g.hue == HueAfter(start, s, k / size) && g.pos == k % size
    && (g.pos != 0 ==> g.c1 == ColorWheel(g.hue, b) && g.c2 == ColorWheel(NextHue(g.hue, s), b / 4))
  }

  lemma SteppedStep(g: Gen, stride: int, size: nat, start: int, b: byte, k: nat, t: Tape)
    requires size >= 2
    requires SteppedAt(g, Stride(stride), size, start, b, k) || (k == 0 && g == SteppedColorWheel(stride, size, start))
    ensures Valid(g) && Next(g, b, t).Ok?
    ensures var h := HueAfter(start, Stride(stride), k / size);
      Next(g, b, t).value.color == StepColor(ColorWheel(h, b), ColorWheel(NextHue(h, Stride(stride)), b / 4), k % size, size)
    ensures SteppedAt(Next(g, b, t).value.gen, Stride(stride), size, start, b, k + 1)
  {
    var s := Stride(stride);
    SteppedColor(g, b, t);
    DivModStep(k, size);
    if k % size + 1 == size {
      HueStep(start, s, k / size);
    }
  }

  /** The colour a stepped wheel gives: a new stripe's first colour, or the
      next one of the current stripe. */
  lemma SteppedColor(g: Gen, b: byte, t: Tape)
    requires g.Stepped? && Valid(g) && g.size >= 2
    ensures Next(g, b, t).Ok?
    ensures var s := if g.started then g.stride else Stride(g.stride);
      Next(g, b, t).value.color == if g.pos == 0
        then StepColor(ColorWheel(g.hue, b), ColorWheel(NextHue(g.hue, s), b / 4), 0, g.size)
        else StepColor(g.c1, g.c2, g.pos, g.size)
  {
  }

  /** `stepped_color_wheel` emits stripes of `stripe_size` colours fading
      from `color_wheel(hue, brightness)` towards `color_wheel(hue + stride,
      brightness // 4)`, then moves the hue on by the (normalised) stride
      modulo 255: output k is step `k % size` of the stripe whose hue is
      `start + (k / size) * stride`. */
  lemma {:induction false} SteppedOutputs(stride: int, size: nat, start: int, b: byte, t: Tape, k: nat)
    requires size >= 2 && k >= 1
    ensures var r := Take(SteppedColorWheel(stride, size, start), b, t, k);
      && r.Ok?
      && SteppedAt(r.value.gen, Stride(stride), size, start, b, k)
      && forall j :: 0 <= j < k ==>
           var h := HueAfter(start, Stride(stride), j / size);
           r.value.colors[j] == StepColor(ColorWheel(h, b), ColorWheel(NextHue(h, Stride(stride)), b / 4), j % size, size)
  {
    var g0 := SteppedColorWheel(stride, size, start);
    if k > 1 {
      SteppedOutputs(stride, size, start, b, t, k - 1);
    }
    var p := Take(g0, b, t, k - 1).value;
    SteppedStep(p.gen, stride, size, start, b, k - 1, p.rest);
    TakeStep(g0, b, t, k);
    var y := Next(p.gen, b, p.rest).value;
    var cs := p.colors + [y.color];
    forall j | 0 <= j < k
      ensures var h := HueAfter(start, Stride(stride), j / size);
        cs[j] == StepColor(ColorWheel(h, b), ColorWheel(NextHue(h, Stride(stride)), b / 4), j % size, size)
    {
      if j < k - 1 {
        assert cs[j] == p.colors[j];
      }
    }
  }

  /** The striped wheel after `k >= 1` outputs. */
  predicate StripedAt(g: Gen, s: int, size: nat, start: int, b: byte, k: nat)
    requires size > 0
  {
    && g.Striped? && g.started && g.stride == s && g.size == size
    && g.hue == HueAfter(start, s, k / size) && g.pos == k % size
    && (g.pos != 0 ==> g.col == ColorWheel(g.hue, b))
  }

  lemma StripedStep(g: Gen, stride: int, size: nat, start: int, b: byte, k: nat, t: Tape)
    requires size >= 1
    requires StripedAt(g, Stride(stride), size, start, b, k) || (k == 0 && g == StripedColorWheel(stride, size, start))
    ensures Valid(g) && Next(g, b, t).Ok?
    ensures Next(g, b, t).value.color == ColorWheel(HueAfter(start, Stride(stride), k / size), b)
    ensures StripedAt(Next(g, b, t).value.gen, Stride(stride), size, start, b, k + 1)
  {
    var s := Stride(stride);
    DivModStep(k, size);
    if k % size + 1 == size {
      HueStep(start, s, k / size);
    }
  }

  /** `striped_color_wheel` emits `color_wheel(hue, brightness)` exactly
      `stripe_size` times, then moves the hue on by the (normalised) stride
      modulo 255: output k has hue `start + (k / size) * stride`. */
  lemma {:induction false} StripedOutputs(stride: int, size: nat, start: int, b: byte, t: Tape, k: nat)
    requires size >= 1 && k >= 1
    ensures var r := Take(StripedColorWheel(stride, size, start), b, t, k);
      && r.Ok?
      && StripedAt(r.value.gen, Stride(stride), size, start, b, k)
      && forall j :: 0 <= j < k ==>
           r.value.colors[j] == ColorWheel(HueAfter(start, Stride(stride), j / size), b)
  {
    var g0 := StripedColorWheel(stride, size, start);
    if k > 1 {
      StripedOutputs(stride, size, start, b, t, k - 1);
    }
    var p := Take(g0, b, t, k - 1).value;
    StripedStep(p.gen, stride, size, start, b, k - 1, p.rest);
    TakeStep(g0, b, t, k);
    var y := Next(p.gen, b, p.rest).value;
    var cs := p.colors + [y.color];
    forall j | 0 <= j < k
      ensures cs[j] == ColorWheel(HueAfter(start, Stride(stride), j / size), b)
    {
      if j < k - 1 {
        assert cs[j] == p.colors[j];
      }
    }
  }

  /** `fading_color_wheel` fails on its first advance when the stripe size is
      at most 1, however it was constructed. */
  lemma FadingNeedsStripe(stride: int, size: int, start: int, table: seq<int>, b: byte, t: Tape)
    requires size <= 1
    ensures Next(FadingColorWheel(stride, size, start, table), b, t) == Err(ValueError)
  {
  }

  /** The fading wheel after `k >= 1` outputs. */
  predicate FadingAt(g: Gen, s: int, size: nat, start: int, table: seq<int>, k: nat)
    requires size > 0
  {
    g == Fading(s, size, HueAfter(start, s, k / size), k % size, table, true)
  }

  lemma FadingStep(g: Gen, stride: int, size: nat, start: int, table: seq<int>, b: byte, k: nat, t: Tape)
    requires size >= 2 && |table| == size
    requires FadingAt(g, Stride(stride), size, start, table, k) || (k == 0 && g == FadingColorWheel(stride, size, start, table))
    ensures Valid(g) && Next(g, b, t).Ok?
    ensures Next(g, b, t).value.color == ColorWheel(HueAfter(start, Stride(stride), k / size), table[k % size])
    ensures FadingAt(Next(g, b, t).value.gen, Stride(stride), size, start, table, k + 1)
  {
    var s := Stride(stride);
    DivModStep(k, size);
    if k % size + 1 == size {
      HueStep(start, s, k / size);
    }
  }

  /** Otherwise it replays the same brightness table once per hue: output k
      is `color_wheel(hue_k, table[k mod size])`. */
  lemma {:induction false} FadingOutputs(stride: int, size: nat, start: int, table: seq<int>, b: byte, t: Tape, k: nat)
    requires size >= 2 && |table| == size && k >= 1
    ensures var r := Take(FadingColorWheel(stride, size, start, table), b, t, k);
      && r.Ok?
      && FadingAt(r.value.gen, Stride(stride), size, start, table, k)
      && forall j :: 0 <= j < k ==>
           r.value.colors[j] == ColorWheel(HueAfter(start, Stride(stride), j / size), table[j % size])
  {
    var g0 := FadingColorWheel(stride, size, start, table);
    if k > 1 {
      FadingOutputs(stride, size, start, table, b, t, k - 1);
    }
    var p := Take(g0, b, t, k - 1).value;
    FadingStep(p.gen, stride, size, start, table, b, k - 1, p.rest);
    TakeStep(g0, b, t, k);
    var y := Next(p.gen, b, p.rest).value;
    var cs := p.colors + [y.color];
    forall j | 0 <= j < k
      ensures cs[j] == ColorWheel(HueAfter(start, Stride(stride), j / size), table[j % size])
    {
      if j < k - 1 {
        assert cs[j] == p.colors[j];
      }
    }
  }

  /** The colour at position `pos` of a hue's double stripe. */
  function ComplimentColor(hue: int, pos: nat, size: nat, b: byte): Color {
    if pos < size then ColorWheel(hue, b) else ColorWheel((hue + 127) % 255, b)
  }

  /** The compliment generator after `k` outputs. */
  predicate ComplimentAt(g: Gen, stride: int, size: nat, start: int, b: byte, k: nat)
    requires size > 0
  {
    && g.Compliment? && g.stride == stride && g.size == size
    && g.hue == HueAfter(start, stride, k / (2 * size)) && g.pos == k % (2 * size)
    && (g.pos != 0 ==> g.col == ComplimentColor(g.hue, g.pos - 1, size, b))
  }

  lemma ComplimentStep(g: Gen, stride: int, size: nat, start: int, b: byte, k: nat, t: Tape)
    requires size >= 1 && ComplimentAt(g, stride, size, start, b, k)
    ensures Valid(g) && Next(g, b, t).Ok?
    ensures Next(g, b, t).value.color == ComplimentColor(HueAfter(start, stride, k / (2 * size)), k % (2 * size), size, b)
    ensures ComplimentAt(Next(g, b, t).value.gen, stride, size, start, b, k + 1)
  {
    var period := 2 * size;
    var q := k / period;
    var hue := HueAfter(start, stride, q);
    var pos := k % period;
    assert g == Compliment(stride, size, hue, pos, g.col);
    var y := NextCompliment(g, b, t).value;
    assert Next(g, b, t) == NextCompliment(g, b, t);
    var c := ComplimentColor(hue, pos, size, b);
    assert y.color == c;
    DivModStep(k, period);
    if pos + 1 == period {
      HueStep(start, stride, q);
      assert y.gen == Compliment(stride, size, HueAfter(start, stride, q + 1), 0, c);
    } else {
      assert y.gen == Compliment(stride, size, hue, pos + 1, c);
    }
  }

  /** `color_compliment` emits `stripe_size` copies of the hue's colour, then
      `stripe_size` copies of the colour 127 steps round the wheel, then adds
      the stride (a zero stride is not normalised, so the pair repeats). */
  lemma {:induction false} ComplimentOutputs(stride: int, size: nat, start: int, b: byte, t: Tape, k: nat)
    requires size >= 1
    ensures var r := Take(ColorCompliment(stride, size, start), b, t, k);
      && r.Ok?
      && ComplimentAt(r.value.gen, stride, size, start, b, k)
      && forall j :: 0 <= j < k ==>
           r.value.colors[j] == ComplimentColor(HueAfter(start, stride, j / (2 * size)), j % (2 * size), size, b)
  {
    var g0 := ColorCompliment(stride, size, start);
    if k > 0 {
      ComplimentOutputs(stride, size, start, b, t, k - 1);
      var p := Take(g0, b, t, k - 1).value;
      ComplimentStep(p.gen, stride, size, start, b, k - 1, p.rest);
      TakeStep(g0, b, t, k);
      var y := Next(p.gen, b, p.rest).value;
      var cs := p.colors + [y.color];
      forall j | 0 <= j < k
        ensures cs[j] == ComplimentColor(HueAfter(start, stride, j / (2 * size)), j % (2 * size), size, b)
      {
        if j < k - 1 {
          assert cs[j] == p.colors[j];
        }
      }
    }
  }

  /** `stepped_color_wheel` fails on its first advance when the stripe size is
      1: the fade increment divides by `stripe_size - 1`. */
  lemma SteppedSizeOne(stride: int, start: int, b: byte, t: Tape)
    ensures Next(SteppedColorWheel(stride, 1, start), b, t) == Err(ZeroDivisionError)
  {
  }

  /** Every stepped stripe starts with exactly `color_wheel(hue, brightness)`
      and ends on the next hue's colour at a quarter of the brightness. */
  lemma SteppedStripeEnds(c1: Color, c2: Color, size: int)
    requires |c1| == 3 && |c2| == 3 && IsColor(c1) && IsColor(c2) && size > 1
    ensures StepColor(c1, c2, 0, size) == c1
    ensures StepColor(c1, c2, size - 1, size) == c2
  {
    forall k | 0 <= k < 3
      ensures StepColor(c1, c2, 0, size)[k] == c1[k]
      ensures StepColor(c1, c2, size - 1, size)[k] == c2[k]
    {
      LerpEnds(c1[k], c2[k], size - 1);
    }
  }

  lemma SteppedFirstColor(stride: int, size: int, start: int, b: byte, t: Tape)
    requires size > 1
    ensures Next(SteppedColorWheel(stride, size, start), b, t).Ok?
    ensures Next(SteppedColorWheel(stride, size, start), b, t).value.color == ColorWheel(start, b)
    ensures Next(SteppedColorWheel(stride, size, start), b, t).value.gen.c2 ==
      ColorWheel(NextHue(start, Stride(stride)), b / 4)
  {
    SteppedStripeEnds(ColorWheel(start, b), ColorWheel(NextHue(start, Stride(stride)), b / 4), size);
  }
}

=== FILE: jitter.dfy ===
/** `Jitter`: on a random fraction of the frames (`sparking` out of 256) a
    fresh random set of pixels lights up with generator colours; every other
    pixel fades towards the background. */
module Jitters {
  import opened Wrappers
  import opened ColorMath
  import opened Random
  import opened Generators
  import opened Strips
  import opened Animations
  import BitMaps

  /** A zero `fillMode` stands for `None`. `background` is kept as given;
      `setup` normalises it through `colval`. */
  datatype Jitter = Jitter(base: Base, gen: Option<Gen>, fade: int, sparking: int, background: ColorArg,
                           litPercent: int, fillMode: int, lit: BitMaps.BitMap)

  /** `Jitter(leds, fade_percent, sparking, background, lit_percent,
      fill_mode)`: the `LitBits` constructor runs without a lit percentage,
      so the mask starts as three on, one off; a missing fill mode is
      `FILL_MODE_MULTI`. */
  function Create(leds: LedsArg, gen: Option<Gen>, fade: int, sparking: int, background: ColorArg,
                  litPercent: int, fillMode: int, interval: int, brightness: int): (r: Result<Jitter>)
    ensures r.Ok? <==> leds.TrickLEDArg?
    ensures r.Ok? ==> BitMaps.Valid(r.value.lit) && r.value.lit.n == r.value.base.calcN
    ensures r.Ok? ==> r.value.fillMode == (if fillMode == 0 then FillModeMulti else fillMode)
    ensures r.Ok? ==> forall i :: 0 <= i < r.value.lit.n ==> BitMaps.Get(r.value.lit, i) == Ok(if i % 4 != 3 then 1 else 0)
  {
    var base :- Init(leds, interval, brightness);
    var lit := BitMaps.Repeat(BitMaps.New(base.calcN, 50), 119).value;
    assert forall i :: 0 <= i < lit.n ==> BitMaps.Get(lit, i) == Ok(if i % 4 != 3 then 1 else 0) by {
      forall i | 0 <= i < lit.n ensures BitMaps.Get(lit, i) == Ok(if i % 4 != 3 then 1 else 0) {
        BitMaps.Repeat119(BitMaps.New(base.calcN, 50), i);
      }
    }
    Ok(Jitter(base, gen, fade, sparking, background, litPercent, if fillMode == 0 then FillModeMulti else fillMode, lit))
  }

  /** `setup`: the mask takes the lit percentage, the background goes
      through `colval`, and a missing generator becomes `random_pastel`
      for the strip's pixel width. */
  function Setup(a: Jitter): (r: Result<Jitter>)
    requires BitMaps.Valid(a.lit)
    ensures r.Ok? <==> Colval(a.background, 3).Ok?
    ensures r.Ok? ==> r.value.gen.Some? && r.value.lit.pct == a.litPercent && BitMaps.Valid(r.value.lit)
    ensures r.Ok? ==> r.value.background == TupleColor(Colval(a.background, 3).value)
    ensures r.Ok? && a.gen.None? ==> r.value.gen == Some(RandomPastel(a.base.leds.bpp, []))
  {
    var bg :- Colval(a.background, 3);
    var g := if a.gen.None? then RandomPastel(a.base.leds.bpp, []) else a.gen.value;
    Ok(a.(lit := a.lit.(pct := a.litPercent), background := TupleColor(bg), gen := Some(g)))
  }

  /** Running `setup` again leaves the background it normalised as it is. */
  lemma BackgroundStable(a: Jitter)
    requires BitMaps.Valid(a.lit) && Setup(a).Ok?
    ensures Colval(Setup(a).value.background, 3) == Colval(a.background, 3)
  {
  }

  /** `blend(prev, bg, fade)` with the background as `calc_frame` reads
      it from the settings: only `setup` turns it into a tuple, and
      indexing an int or `None` is a TypeError as soon as the percentage
      is in range and the colour has a channel. */
  function BlendBg(prev: Color, bg: ColorArg, fade: int): (r: Result<Color>)
    ensures bg.TupleColor? ==> r == Blend(prev, bg.t, fade)
    ensures !bg.TupleColor? && 0 <= fade <= 100 && prev != [] ==> r == Err(TypeError)
    ensures !(0 <= fade <= 100) ==> r == Ok(prev)
  {
    if bg.TupleColor? then Blend(prev, bg.t, fade)
    else if 0 <= fade <= 100 && prev != [] then Err(TypeError)
    else Blend(prev, [], fade)
  }

  /** The value a fading step writes at pixel `i`: the pixel blended
      towards the background if it is lit, the background as given if
      not. */
  function FadeColor(s: Strip, i: int, bit: int, bg: ColorArg, fade: int): Result<ColorArg> {
    if bit != 0 then
      var prev :- GetPixel(s, i);
      var col :- BlendBg(prev, bg, fade);
      Ok(TupleColor(col))
    else Ok(bg)
  }

  /** An unlit pixel of a sparking frame: faded towards the background
      unless it already equals it (a tuple never equals an int or
      `None`). */
  function DimPixel(s: Strip, i: int, bg: ColorArg, fade: int): (r: Result<Strip>)
    ensures r.Ok? ==> Shape(r.value, s)
  {
    if bg.TupleColor? then DimTowards(s, i, bg.t, fade)
    else
      var prev :- GetPixel(s, i);
      var col :- BlendBg(prev, bg, fade);
      SetItem(s, i, TupleColor(col))
  }

  /** `DimPixel` towards a background that is a tuple. */
  function DimTowards(s: Strip, i: int, bg: Color, fade: int): (r: Result<Strip>)
    ensures r.Ok? ==> Shape(r.value, s)
  {
    var prev :- GetPixel(s, i);
    if prev != bg then
      var col :- Blend(prev, bg, fade);
      SetItem(s, i, TupleColor(col))
    else Ok(s)
  }

  /** A non-sparking frame, from pixel `i` on: a lit pixel fades towards
      the background, an unlit one is set to it. */
  function FadeFrom(s: Strip, lit: BitMaps.BitMap, bg: ColorArg, fade: int, i: nat, calcN: nat): (r: Result<Strip>)
    requires BitMaps.Valid(lit)
    ensures r.Ok? ==> Shape(r.value, s)
    decreases calcN - i, 1
  {
    if i >= calcN then Ok(s)
    else FadeStep(s, lit, bg, fade, i, calcN)
  }

  /** Pixel `i` of a non-sparking frame, then the pixels after it. */
  function FadeStep(s: Strip, lit: BitMaps.BitMap, bg: ColorArg, fade: int, i: nat, calcN: nat): (r: Result<Strip>)
    requires BitMaps.Valid(lit) && i < calcN
    ensures r.Ok? ==> Shape(r.value, s)
    decreases calcN - i, 0
  {
    var bit :- BitMaps.Get(lit, i);
    var col :- FadeColor(s, i, bit, bg, fade);
    var s' :- SetItem(s, i, col);
    FadeFrom(s', lit, bg, fade, i + 1, calcN)
  }

  /** What a fading step leaves at a pixel holding `prev`. */
  function Faded(prev: Color, bg: Color, fade: int): Color
    requires |prev| == 3 && |bg| == 3
  {
    Blend(prev, bg, fade).value
  }

  /** The frame's pixel widths: three-byte pixels and background. */
  predicate Fits3(s: Strip, bg: Color) {
    Strips.Valid(s) && s.bpp == 3 && |bg| == 3 && IsColor(bg)
  }

  /** What a non-sparking frame leaves at computed pixel `j`: the
      background if it is unlit, the pixel faded towards it if lit. */
  function FadeTarget(s: Strip, lit: BitMaps.BitMap, bg: Color, fade: int, j: int): Color
    requires Fits3(s, bg) && BitMaps.Valid(lit) && 0 <= j < s.n
  {
    if BitMaps.Get(lit, j) == Ok(0) then bg else Faded(Pixel(s, j), bg, fade)
  }

  /** One step of the fading pass: pixel `i` takes its target. */
  lemma FadeOne(s: Strip, lit: BitMaps.BitMap, bg: Color, fade: int, i: nat, calcN: nat) returns (s': Strip)
    requires Fits3(s, bg) && BitMaps.Valid(lit) && i < calcN <= s.n && calcN <= lit.n
    ensures FadeFrom(s, lit, TupleColor(bg), fade, i, calcN) == FadeFrom(s', lit, TupleColor(bg), fade, i + 1, calcN)
    ensures Fits3(s', bg) && s'.n == s.n && Pixel(s', i) == FadeTarget(s, lit, bg, fade, i)
    ensures forall j :: 0 <= j < s.n && j != i ==> Pixel(s', j) == Pixel(s, j)
  {
    GetPixelSpec(s, i);
    var c := FadeTarget(s, lit, bg, fade, i);
    assert FadeColor(s, i, BitMaps.Get(lit, i).value, TupleColor(bg), fade) == Ok(TupleColor(c));
    WritableColor(s, c);
    SetItemSpec(s, i, TupleColor(c));
    s' := SetItem(s, i, TupleColor(c)).value;
  }

  /** A non-sparking frame fades each lit computed pixel towards the
      background and sets each unlit one to it; the pixels past `calc_n`
      are left alone. */
  lemma {:induction false} FadeFromSpec(s: Strip, lit: BitMaps.BitMap, bg: Color, fade: int, i: nat, calcN: nat)
    requires Fits3(s, bg) && BitMaps.Valid(lit) && calcN <= s.n && calcN <= lit.n && i <= calcN
    ensures FadeFrom(s, lit, TupleColor(bg), fade, i, calcN).Ok?
    ensures var r := FadeFrom(s, lit, TupleColor(bg), fade, i, calcN).value;
      Fits3(r, bg) &&
      (forall j :: i <= j < calcN ==> Pixel(r, j) == FadeTarget(s, lit, bg, fade, j)) &&
      (forall j :: 0 <= j < s.n && !(i <= j < calcN) ==> Pixel(r, j) == Pixel(s, j))
    decreases calcN - i
  {
    if i < calcN {
      var s' := FadeOne(s, lit, bg, fade, i, calcN);
      FadeFromSpec(s', lit, bg, fade, i + 1, calcN);
      var r := FadeFrom(s', lit, TupleColor(bg), fade, i + 1, calcN).value;
      forall j | i + 1 <= j < calcN ensures FadeTarget(s', lit, bg, fade, j) == FadeTarget(s, lit, bg, fade, j) {
      }
    }
  }

  /** How the sparking pass draws a colour: `next(gen)` for a generator
      state and the random tape, with the successor state and tape. */
  type Draw = (Gen, Tape) -> Result<Yield>

  /** `next(gen)` at global brightness `gb`. Every state a generator passes
      through is valid, so the error for an invalid one is never produced. */
  function Drawer(gb: byte): (d: Draw)
    ensures forall g, t :: Generators.Valid(g) ==> d(g, t) == Next(g, gb, t)
  {
    (g, t) => if Generators.Valid(g) then Next(g, gb, t) else Err(NoValue)
  }

  /** The colours of `k` successive draws, head first, or the first
      error. */
  function Pull(draw: Draw, g: Gen, t: Tape, k: nat): (r: Result<Pulled>)
    ensures r.Ok? ==> |r.value.colors| == k
    decreases k
  {
    if k == 0 then Ok(Pulled([], g, t))
    else
      var y :- draw(g, t);
      var more :- Pull(draw, y.gen, y.rest, k - 1);
      Ok(Pulled([y.color] + more.colors, more.gen, more.rest))
  }

  /** Drawing `k` colours head first from a generator is `Take` of `k`. */
  lemma {:induction false} PullIsTake(g: Gen, gb: byte, t: Tape, k: nat)
    requires Generators.Valid(g) && Take(g, gb, t, k).Ok?
    ensures Pull(Drawer(gb), g, t, k) == Take(g, gb, t, k)
    decreases k
  {
    if k > 0 {
      var y, more := TakeHead(g, gb, t, k);
      PullIsTake(y.gen, gb, y.rest, k - 1);
      PullCons(Drawer(gb), g, t, k, y, more);
    }
  }

  /** One draw followed by `k - 1` more is `k` draws. */
  lemma PullCons(draw: Draw, g: Gen, t: Tape, k: nat, y: Yield, more: Pulled)
    requires k > 0 && draw(g, t) == Ok(y) && Pull(draw, y.gen, y.rest, k - 1) == Ok(more)
    ensures Pull(draw, g, t, k) == Ok(Pulled([y.color] + more.colors, more.gen, more.rest))
  {
  }

  /** A sparking frame, from pixel `i` on: a lit pixel takes the spark
      colour (solid mode) or the generator's next colour (any other mode);
      an unlit pixel that differs from the background fades towards it. */
  function SparkFrom(s: Strip, lit: BitMaps.BitMap, draw: Draw, g: Gen, t: Tape, spark: Color, solid: bool,
                     bg: ColorArg, fade: int, i: nat, calcN: nat): (r: Result<Filled>)
    requires BitMaps.Valid(lit)
    ensures r.Ok? ==> Shape(r.value.strip, s)
    decreases calcN - i, 1
  {
    if i >= calcN then Ok(Filled(s, g, t))
    else SparkStep(s, lit, draw, g, t, spark, solid, bg, fade, i, calcN)
  }

  /** Pixel `i` of a sparking frame, then the pixels after it. */
  function SparkStep(s: Strip, lit: BitMaps.BitMap, draw: Draw, g: Gen, t: Tape, spark: Color, solid: bool,
                     bg: ColorArg, fade: int, i: nat, calcN: nat): (r: Result<Filled>)
    requires BitMaps.Valid(lit) && i < calcN
    ensures r.Ok? ==> Shape(r.value.strip, s)
    decreases calcN - i, 0
  {
    var bit :- BitMaps.Get(lit, i);
    if bit != 0 then
      var y :- if solid then Ok(Yield(spark, g, t)) else draw(g, t);
      var s' :- SetItem(s, i, TupleColor(y.color));
      SparkFrom(s', lit, draw, y.gen, y.rest, spark, solid, bg, fade, i + 1, calcN)
    else
      var s' :- DimPixel(s, i, bg, fade);
      SparkFrom(s', lit, draw, g, t, spark, solid, bg, fade, i + 1, calcN)
  }

  /** What an unlit pixel holding `prev` shows after a sparking frame. */
  function Dimmed(prev: Color, bg: Color, fade: int): Color
    requires |prev| == 3 && |bg| == 3
  {
    if prev != bg then Faded(prev, bg, fade) else prev
  }

  /** One unlit step of a sparking frame: pixel `i` is dimmed and the
      generator is not touched. */
  lemma SparkUnlit(s: Strip, lit: BitMaps.BitMap, draw: Draw, g: Gen, t: Tape, spark: Color, solid: bool,
                   bg: Color, fade: int, i: nat, calcN: nat) returns (s': Strip)
    requires Fits3(s, bg) && BitMaps.Valid(lit) && i < calcN <= s.n && calcN <= lit.n
    requires BitMaps.Get(lit, i) == Ok(0)
    ensures SparkFrom(s, lit, draw, g, t, spark, solid, TupleColor(bg), fade, i, calcN) ==
      SparkFrom(s', lit, draw, g, t, spark, solid, TupleColor(bg), fade, i + 1, calcN)
    ensures Fits3(s', bg) && s'.n == s.n && Pixel(s', i) == Dimmed(Pixel(s, i), bg, fade)
    ensures forall j :: 0 <= j < s.n && j != i ==> Pixel(s', j) == Pixel(s, j)
  {
    GetPixelSpec(s, i);
    var prev := Pixel(s, i);
    if prev != bg {
      var col := Faded(prev, bg, fade);
      WritableColor(s, col);
      SetItemSpec(s, i, TupleColor(col));
    }
    s' := DimPixel(s, i, TupleColor(bg), fade).value;
  }

  /** One lit step of a sparking frame: pixel `i` takes the colour `y`
      holds, and drawing moves on to `y`'s state and tape. */
  lemma SparkLit(s: Strip, lit: BitMaps.BitMap, draw: Draw, g: Gen, t: Tape, spark: Color, solid: bool,
                 bg: Color, fade: int, i: nat, calcN: nat, y: Yield) returns (s': Strip)
    requires Fits3(s, bg) && BitMaps.Valid(lit) && i < calcN <= s.n && calcN <= lit.n
    requires BitMaps.Get(lit, i) != Ok(0) && |y.color| == 3 && IsColor(y.color)
    requires (if solid then Ok(Yield(spark, g, t)) else draw(g, t)) == Ok(y)
    ensures SparkFrom(s, lit, draw, g, t, spark, solid, TupleColor(bg), fade, i, calcN) ==
      SparkFrom(s', lit, draw, y.gen, y.rest, spark, solid, TupleColor(bg), fade, i + 1, calcN)
    ensures Fits3(s', bg) && s'.n == s.n && Pixel(s', i) == y.color
    ensures forall j :: 0 <= j < s.n && j != i ==> Pixel(s', j) == Pixel(s, j)
  {
    WritableColor(s, y.color);
    SetItemSpec(s, i, TupleColor(y.color));
    s' := SetItem(s, i, TupleColor(y.color)).value;
  }

  /** What a solid-mode sparking frame leaves at computed pixel `j`. */
  function SolidTarget(s: Strip, lit: BitMaps.BitMap, spark: Color, bg: Color, fade: int, j: int): Color
    requires Fits3(s, bg) && BitMaps.Valid(lit) && 0 <= j < s.n
  {
    if BitMaps.Get(lit, j) == Ok(0) then Dimmed(Pixel(s, j), bg, fade) else spark
  }

  /** One solid-mode step: pixel `i` takes its target, nothing else
      changes and the generator is not touched. */
  lemma SolidOne(s: Strip, lit: BitMaps.BitMap, draw: Draw, g: Gen, t: Tape, spark: Color,
                 bg: Color, fade: int, i: nat, calcN: nat) returns (s': Strip)
    requires Fits3(s, bg) && |spark| == 3 && IsColor(spark)
    requires BitMaps.Valid(lit) && i < calcN <= s.n && calcN <= lit.n
    ensures SparkFrom(s, lit, draw, g, t, spark, true, TupleColor(bg), fade, i, calcN) ==
      SparkFrom(s', lit, draw, g, t, spark, true, TupleColor(bg), fade, i + 1, calcN)
    ensures Fits3(s', bg) && s'.n == s.n && Pixel(s', i) == SolidTarget(s, lit, spark, bg, fade, i)
    ensures forall j :: 0 <= j < s.n && j != i ==> Pixel(s', j) == Pixel(s, j)
  {
    if BitMaps.Get(lit, i) == Ok(0) {
      s' := SparkUnlit(s, lit, draw, g, t, spark, true, bg, fade, i, calcN);
    } else {
      s' := SparkLit(s, lit, draw, g, t, spark, true, bg, fade, i, calcN, Yield(spark, g, t));
    }
  }

  /** The solid-mode step from pixel `i + 1` back to pixel `i`: a strip
      that agrees with `SolidTarget` of `s'` from `i + 1` on, where `s'`
      differs from `s` only at `i` and holds its target there, agrees with
      `SolidTarget` of `s` from `i` on. */
  lemma SolidCombine(s: Strip, s': Strip, r: Strip, lit: BitMaps.BitMap, spark: Color, bg: Color, fade: int,
                     i: nat, calcN: nat)
    requires Fits3(s, bg) && Fits3(s', bg) && Fits3(r, bg) && BitMaps.Valid(lit)
    requires s'.n == s.n && r.n == s.n && i < calcN <= s.n && calcN <= lit.n
    requires Pixel(s', i) == SolidTarget(s, lit, spark, bg, fade, i)
    requires forall j :: 0 <= j < s.n && j != i ==> Pixel(s', j) == Pixel(s, j)
    requires forall j :: i + 1 <= j < calcN ==> Pixel(r, j) == SolidTarget(s', lit, spark, bg, fade, j)
    requires forall j :: 0 <= j < s.n && !(i + 1 <= j < calcN) ==> Pixel(r, j) == Pixel(s', j)
    ensures forall j :: i <= j < calcN ==> Pixel(r, j) == SolidTarget(s, lit, spark, bg, fade, j)
    ensures forall j :: 0 <= j < s.n && !(i <= j < calcN) ==> Pixel(r, j) == Pixel(s, j)
  {
    forall j | i + 1 <= j < calcN ensures Pixel(r, j) == SolidTarget(s, lit, spark, bg, fade, j) {
      assert SolidTarget(s', lit, spark, bg, fade, j) == SolidTarget(s, lit, spark, bg, fade, j);
    }
  }

  /** In solid mode a sparking frame paints every lit computed pixel with
      the spark colour, dims the unlit ones that differ from the
      background, leaves the rest alone, and draws nothing more from the
      generator. */
  lemma {:induction false} SparkSolidSpec(s: Strip, lit: BitMaps.BitMap, draw: Draw, g: Gen, t: Tape, spark: Color,
                                          bg: Color, fade: int, i: nat, calcN: nat) returns (f: Filled)
    requires Fits3(s, bg) && |spark| == 3 && IsColor(spark)
    requires BitMaps.Valid(lit) && calcN <= s.n && calcN <= lit.n && i <= calcN
    ensures SparkFrom(s, lit, draw, g, t, spark, true, TupleColor(bg), fade, i, calcN) == Ok(f)
    ensures Fits3(f.strip, bg) && f.gen == g && f.rest == t
    ensures forall j :: i <= j < calcN ==> Pixel(f.strip, j) == SolidTarget(s, lit, spark, bg, fade, j)
    ensures forall j :: 0 <= j < s.n && !(i <= j < calcN) ==> Pixel(f.strip, j) == Pixel(s, j)
    decreases calcN - i
  {
    if i < calcN {
      var s' := SolidOne(s, lit, draw, g, t, spark, bg, fade, i, calcN);
      f := SparkSolidSpec(s', lit, draw, g, t, spark, bg, fade, i + 1, calcN);
      SolidCombine(s, s', f.strip, lit, spark, bg, fade, i, calcN);
    } else {
      f := Filled(s, g, t);
    }
  }

  /** How many pixels of `[i, j)` are lit. */
  function LitCount(lit: BitMaps.BitMap, i: nat, j: nat): nat
    requires BitMaps.Valid(lit) && j <= lit.n
    decreases j - i
  {
    if i >= j then 0
    else (if BitMaps.Get(lit, i) == Ok(1) then 1 else 0) + LitCount(lit, i + 1, j)
  }

  /** Counting from a lit pixel `i` counts it plus what follows. */
  lemma LitCountStep(lit: BitMaps.BitMap, i: nat, j: nat)
    requires BitMaps.Valid(lit) && i < j <= lit.n
    ensures LitCount(lit, i, j) == (if BitMaps.Get(lit, i) == Ok(1) then 1 else 0) + LitCount(lit, i + 1, j)
  {
  }

  /** The pixels a multi-mode sparking frame from `i` leaves in `r`, given
      the colours `cs` it pulled: a lit pixel `j` holds colour number
      `LitCount(lit, i, j)`, the unlit ones are dimmed and the rest keep
      their colour from `s`. */
  predicate MultiDone(s: Strip, r: Strip, lit: BitMaps.BitMap, bg: Color, fade: int, i: nat, calcN: nat, cs: seq<Color>)
    requires Fits3(s, bg) && Fits3(r, bg) && r.n == s.n && BitMaps.Valid(lit) && calcN <= s.n && calcN <= lit.n
  {
    && (forall j :: i <= j < calcN && BitMaps.Get(lit, j) == Ok(1) ==>
          LitCount(lit, i, j) < |cs| && Pixel(r, j) == cs[LitCount(lit, i, j)])
    && (forall j :: i <= j < calcN && BitMaps.Get(lit, j) == Ok(0) ==> Pixel(r, j) == Dimmed(Pixel(s, j), bg, fade))
    && (forall j :: 0 <= j < s.n && !(i <= j < calcN) ==> Pixel(r, j) == Pixel(s, j))
  }

  /** The unlit step from `i + 1` back to `i`. */
  lemma MultiCombineUnlit(s: Strip, s': Strip, r: Strip, lit: BitMaps.BitMap, bg: Color, fade: int,
                          i: nat, calcN: nat, cs: seq<Color>)
    requires Fits3(s, bg) && Fits3(s', bg) && Fits3(r, bg) && s'.n == s.n && r.n == s.n && BitMaps.Valid(lit)
    requires i < calcN <= s.n && calcN <= lit.n && BitMaps.Get(lit, i) == Ok(0)
    requires Pixel(s', i) == Dimmed(Pixel(s, i), bg, fade)
    requires forall j :: 0 <= j < s.n && j != i ==> Pixel(s', j) == Pixel(s, j)
    requires MultiDone(s', r, lit, bg, fade, i + 1, calcN, cs)
    ensures MultiDone(s, r, lit, bg, fade, i, calcN, cs)
  {
    forall j | i < j < calcN ensures LitCount(lit, i, j) == LitCount(lit, i + 1, j) {
      LitCountStep(lit, i, j);
    }
  }

  /** The lit step from `i + 1` back to `i`. */
  lemma MultiCombineLit(s: Strip, s': Strip, r: Strip, lit: BitMaps.BitMap, bg: Color, fade: int,
                        i: nat, calcN: nat, c: Color, cs: seq<Color>)
    requires Fits3(s, bg) && Fits3(s', bg) && Fits3(r, bg) && s'.n == s.n && r.n == s.n && BitMaps.Valid(lit)
    requires i < calcN <= s.n && calcN <= lit.n && BitMaps.Get(lit, i) == Ok(1)
    requires Pixel(s', i) == c
    requires forall j :: 0 <= j < s.n && j != i ==> Pixel(s', j) == Pixel(s, j)
    requires MultiDone(s', r, lit, bg, fade, i + 1, calcN, cs)
    ensures MultiDone(s, r, lit, bg, fade, i, calcN, [c] + cs)
  {
    forall j | i <= j < calcN && BitMaps.Get(lit, j) == Ok(1)
      ensures LitCount(lit, i, j) < |[c] + cs| && Pixel(r, j) == ([c] + cs)[LitCount(lit, i, j)]
    {
      if j > i {
        LitCountStep(lit, i, j);
      }
    }
  }

  /** Colours of three bytes each. */
  predicate ThreeBytes(cs: seq<Color>) {
    forall k :: 0 <= k < |cs| ==> |cs[k]| == 3 && IsColor(cs[k])
  }

  /** In multi mode a sparking frame paints lit pixel `j` with colour
      number `LitCount(lit, i, j)` of those drawn, dims the unlit ones,
      leaves the rest alone, and leaves the generator where drawing as many
      colours as there are lit pixels leaves it. */
  lemma SparkMultiSpec(s: Strip, lit: BitMaps.BitMap, draw: Draw, g: Gen, t: Tape, spark: Color,
                       bg: Color, fade: int, i: nat, calcN: nat, p: Pulled) returns (f: Filled)
    requires Fits3(s, bg) && BitMaps.Valid(lit) && calcN <= s.n && calcN <= lit.n && i <= calcN
    requires Pull(draw, g, t, LitCount(lit, i, calcN)) == Ok(p) && ThreeBytes(p.colors)
    ensures SparkFrom(s, lit, draw, g, t, spark, false, TupleColor(bg), fade, i, calcN) == Ok(f)
    ensures Fits3(f.strip, bg) && f.strip.n == s.n && f.gen == p.gen && f.rest == p.rest
    ensures MultiDone(s, f.strip, lit, bg, fade, i, calcN, p.colors)
  {
    f := MultiFrame(s, lit, draw, g, t, spark, bg, fade, i, calcN, p);
    MultiPixels(s, lit, draw, g, t, spark, bg, fade, i, calcN, p, f);
  }

  /** A multi-mode sparking frame from `i` succeeds on a three-byte strip,
      keeps its shape and leaves the generator where drawing one colour
      per lit pixel leaves it. */
  lemma {:induction false} MultiFrame(s: Strip, lit: BitMaps.BitMap, draw: Draw, g: Gen, t: Tape, spark: Color,
                                      bg: Color, fade: int, i: nat, calcN: nat, p: Pulled) returns (f: Filled)
    requires Fits3(s, bg) && BitMaps.Valid(lit) && calcN <= s.n && calcN <= lit.n && i <= calcN
    requires Pull(draw, g, t, LitCount(lit, i, calcN)) == Ok(p) && ThreeBytes(p.colors)
    ensures SparkFrom(s, lit, draw, g, t, spark, false, TupleColor(bg), fade, i, calcN) == Ok(f)
    ensures Fits3(f.strip, bg) && f.strip.n == s.n && f.gen == p.gen && f.rest == p.rest
    decreases calcN - i, 1
  {
    if i >= calcN {
      f := Filled(s, g, t);
    } else if BitMaps.Get(lit, i) == Ok(0) {
      f := FrameUnlit(s, lit, draw, g, t, spark, bg, fade, i, calcN, p);
    } else {
      f := FrameLit(s, lit, draw, g, t, spark, bg, fade, i, calcN, p);
    }
  }

  /** An unlit pixel `i` draws nothing, then the rest of the frame. */
  lemma {:induction false} FrameUnlit(s: Strip, lit: BitMaps.BitMap, draw: Draw, g: Gen, t: Tape, spark: Color,
                                      bg: Color, fade: int, i: nat, calcN: nat, p: Pulled) returns (f: Filled)
    requires Fits3(s, bg) && BitMaps.Valid(lit) && calcN <= s.n && calcN <= lit.n && i < calcN
    requires Pull(draw, g, t, LitCount(lit, i, calcN)) == Ok(p) && ThreeBytes(p.colors)
    requires BitMaps.Get(lit, i) == Ok(0)
    ensures SparkFrom(s, lit, draw, g, t, spark, false, TupleColor(bg), fade, i, calcN) == Ok(f)
    ensures Fits3(f.strip, bg) && f.strip.n == s.n && f.gen == p.gen && f.rest == p.rest
    decreases calcN - i, 0
  {
    UnlitPull(lit, draw, g, t, i, calcN, p);
    var s' := SparkUnlit(s, lit, draw, g, t, spark, false, bg, fade, i, calcN);
    f := MultiFrame(s', lit, draw, g, t, spark, bg, fade, i + 1, calcN, p);
  }

  /** A lit pixel `i` draws one colour, then the rest of the frame. */
  lemma {:induction false} FrameLit(s: Strip, lit: BitMaps.BitMap, draw: Draw, g: Gen, t: Tape, spark: Color,
                                    bg: Color, fade: int, i: nat, calcN: nat, p: Pulled) returns (f: Filled)
    requires Fits3(s, bg) && BitMaps.Valid(lit) && calcN <= s.n && calcN <= lit.n && i < calcN
    requires Pull(draw, g, t, LitCount(lit, i, calcN)) == Ok(p) && ThreeBytes(p.colors)
    requires BitMaps.Get(lit, i) != Ok(0)
    ensures SparkFrom(s, lit, draw, g, t, spark, false, TupleColor(bg), fade, i, calcN) == Ok(f)
    ensures Fits3(f.strip, bg) && f.strip.n == s.n && f.gen == p.gen && f.rest == p.rest
    decreases calcN - i, 0
  {
    LitCountStep(lit, i, calcN);
    var y, more := PullHead(draw, g, t, LitCount(lit, i, calcN), p);
    var s' := SparkLit(s, lit, draw, g, t, spark, false, bg, fade, i, calcN, y);
    f := MultiFrame(s', lit, draw, y.gen, y.rest, spark, bg, fade, i + 1, calcN, more);
  }

  /** The pixels a multi-mode sparking frame from `i` leaves in its
      result `f`. */
  lemma {:induction false} MultiPixels(s: Strip, lit: BitMaps.BitMap, draw: Draw, g: Gen, t: Tape, spark: Color,
                                       bg: Color, fade: int, i: nat, calcN: nat, p: Pulled, f: Filled)
    requires Fits3(s, bg) && BitMaps.Valid(lit) && calcN <= s.n && calcN <= lit.n && i <= calcN
    requires Pull(draw, g, t, LitCount(lit, i, calcN)) == Ok(p) && ThreeBytes(p.colors)
    requires SparkFrom(s, lit, draw, g, t, spark, false, TupleColor(bg), fade, i, calcN) == Ok(f)
    requires Fits3(f.strip, bg) && f.strip.n == s.n
    ensures MultiDone(s, f.strip, lit, bg, fade, i, calcN, p.colors)
    decreases calcN - i, 2
  {
    if i < calcN {
      if BitMaps.Get(lit, i) == Ok(0) {
        PixelsUnlit(s, lit, draw, g, t, spark, bg, fade, i, calcN, p, f);
      } else {
        PixelsLit(s, lit, draw, g, t, spark, bg, fade, i, calcN, p, f);
      }
    }
  }

  /** An unlit pixel `i` is dimmed; the rest of the frame follows. */
  lemma {:induction false} PixelsUnlit(s: Strip, lit: BitMaps.BitMap, draw: Draw, g: Gen, t: Tape, spark: Color,
                                       bg: Color, fade: int, i: nat, calcN: nat, p: Pulled, f: Filled)
    requires Fits3(s, bg) && BitMaps.Valid(lit) && calcN <= s.n && calcN <= lit.n && i < calcN
    requires Pull(draw, g, t, LitCount(lit, i, calcN)) == Ok(p) && ThreeBytes(p.colors)
    requires BitMaps.Get(lit, i) == Ok(0)
    requires SparkFrom(s, lit, draw, g, t, spark, false, TupleColor(bg), fade, i, calcN) == Ok(f)
    requires Fits3(f.strip, bg) && f.strip.n == s.n
    ensures MultiDone(s, f.strip, lit, bg, fade, i, calcN, p.colors)
    decreases calcN - i, 1
  {
    var s' := UnlitRest(s, lit, draw, g, t, spark, bg, fade, i, calcN, p, f);
    MultiCombineUnlit(s, s', f.strip, lit, bg, fade, i, calcN, p.colors);
  }

  /** The strip `s'` after unlit pixel `i` is dimmed, and the pixels the
      rest of the frame leaves in `f`. */
  lemma {:induction false} UnlitRest(s: Strip, lit: BitMaps.BitMap, draw: Draw, g: Gen, t: Tape, spark: Color,
                                     bg: Color, fade: int, i: nat, calcN: nat, p: Pulled, f: Filled) returns (s': Strip)
    requires Fits3(s, bg) && BitMaps.Valid(lit) && calcN <= s.n && calcN <= lit.n && i < calcN
    requires Pull(draw, g, t, LitCount(lit, i, calcN)) == Ok(p) && ThreeBytes(p.colors)
    requires BitMaps.Get(lit, i) == Ok(0)
    requires SparkFrom(s, lit, draw, g, t, spark, false, TupleColor(bg), fade, i, calcN) == Ok(f)
    requires Fits3(f.strip, bg) && f.strip.n == s.n
    ensures Fits3(s', bg) && s'.n == s.n && Pixel(s', i) == Dimmed(Pixel(s, i), bg, fade)
    ensures forall j :: 0 <= j < s.n && j != i ==> Pixel(s', j) == Pixel(s, j)
    ensures MultiDone(s', f.strip, lit, bg, fade, i + 1, calcN, p.colors)
    decreases calcN - i, 0
  {
    UnlitPull(lit, draw, g, t, i, calcN, p);
    s' := SparkUnlit(s, lit, draw, g, t, spark, false, bg, fade, i, calcN);
    MultiPixels(s', lit, draw, g, t, spark, bg, fade, i + 1, calcN, p, f);
  }

  /** A lit pixel `i` takes the next colour drawn; the rest of the frame
      follows. */
  lemma {:induction false} PixelsLit(s: Strip, lit: BitMaps.BitMap, draw: Draw, g: Gen, t: Tape, spark: Color,
                                     bg: Color, fade: int, i: nat, calcN: nat, p: Pulled, f: Filled)
    requires Fits3(s, bg) && BitMaps.Valid(lit) && calcN <= s.n && calcN <= lit.n && i < calcN
    requires Pull(draw, g, t, LitCount(lit, i, calcN)) == Ok(p) && ThreeBytes(p.colors)
    requires BitMaps.Get(lit, i) != Ok(0)
    requires SparkFrom(s, lit, draw, g, t, spark, false, TupleColor(bg), fade, i, calcN) == Ok(f)
    requires Fits3(f.strip, bg) && f.strip.n == s.n
    ensures MultiDone(s, f.strip, lit, bg, fade, i, calcN, p.colors)
    decreases calcN - i, 1
  {
    var s', c, cs := LitRest(s, lit, draw, g, t, spark, bg, fade, i, calcN, p, f);
    MultiCombineLit(s, s', f.strip, lit, bg, fade, i, calcN, c, cs);
  }

  /** The strip `s'` after lit pixel `i` takes the first colour `c` drawn,
      and the pixels the rest of the frame leaves in `f` from the colours
      `cs` drawn after it. */
  lemma {:induction false} LitRest(s: Strip, lit: BitMaps.BitMap, draw: Draw, g: Gen, t: Tape, spark: Color,
                                   bg: Color, fade: int, i: nat, calcN: nat, p: Pulled, f: Filled)
    returns (s': Strip, c: Color, cs: seq<Color>)
    requires Fits3(s, bg) && BitMaps.Valid(lit) && calcN <= s.n && calcN <= lit.n && i < calcN
    requires Pull(draw, g, t, LitCount(lit, i, calcN)) == Ok(p) && ThreeBytes(p.colors)
    requires BitMaps.Get(lit, i) != Ok(0)
    requires SparkFrom(s, lit, draw, g, t, spark, false, TupleColor(bg), fade, i, calcN) == Ok(f)
    requires Fits3(f.strip, bg) && f.strip.n == s.n
    ensures Fits3(s', bg) && s'.n == s.n && Pixel(s', i) == c && p.colors == [c] + cs
    ensures forall j :: 0 <= j < s.n && j != i ==> Pixel(s', j) == Pixel(s, j)
    ensures MultiDone(s', f.strip, lit, bg, fade, i + 1, calcN, cs)
    decreases calcN - i, 0
  {
    LitCountStep(lit, i, calcN);
    var y, more := PullHead(draw, g, t, LitCount(lit, i, calcN), p);
    s' := SparkLit(s, lit, draw, g, t, spark, false, bg, fade, i, calcN, y);
    MultiPixels(s', lit, draw, y.gen, y.rest, spark, bg, fade, i + 1, calcN, more, f);
    c, cs := y.color, more.colors;
  }

  /** An unlit pixel draws no colour: the draws from `i` are those from
      `i + 1`. */
  lemma UnlitPull(lit: BitMaps.BitMap, draw: Draw, g: Gen, t: Tape, i: nat, calcN: nat, p: Pulled)
    requires BitMaps.Valid(lit) && i < calcN <= lit.n && BitMaps.Get(lit, i) == Ok(0)
    requires Pull(draw, g, t, LitCount(lit, i, calcN)) == Ok(p)
    ensures Pull(draw, g, t, LitCount(lit, i + 1, calcN)) == Ok(p)
  {
    LitCountStep(lit, i, calcN);
  }

  /** Drawing `k > 0` colours is one draw, then `k - 1` more. */
  lemma PullHead(draw: Draw, g: Gen, t: Tape, k: nat, p: Pulled) returns (y: Yield, more: Pulled)
    requires k > 0 && Pull(draw, g, t, k) == Ok(p) && ThreeBytes(p.colors)
    ensures draw(g, t) == Ok(y) && Pull(draw, y.gen, y.rest, k - 1) == Ok(more)
    ensures p.colors == [y.color] + more.colors && p.gen == more.gen && p.rest == more.rest
    ensures |y.color| == 3 && IsColor(y.color) && ThreeBytes(more.colors)
  {
    y := draw(g, t).value;
    more := Pull(draw, y.gen, y.rest, k - 1).value;
    assert p.colors[0] == y.color;
    forall j | 0 <= j < |more.colors| ensures |more.colors[j]| == 3 && IsColor(more.colors[j]) {
      assert more.colors[j] == p.colors[j + 1];
    }
  }

  /** `calc_frame`: one random byte decides; below `sparking` the mask is
      randomized, the spark colour drawn and the sparking pass run,
      otherwise the fading pass. Without a generator `next(None)` is a
      TypeError. Both passes read the background as it stands in the
      settings, a tuple only once `setup` has run (`BlendBg`). */
  function CalcFrame(a: Jitter, gb: byte, t: Tape): (r: Result<Drawn<Jitter>>)
    requires BitMaps.Valid(a.lit) && (a.gen.Some? ==> Generators.Valid(a.gen.value))
    ensures r.Ok? ==> Shape(r.value.value.base.leds, a.base.leds)
    ensures r.Ok? && GetRandBits(t, 8).value >= a.sparking ==> r.value.value.lit == a.lit && r.value.value.gen == a.gen
  {
    var rv := GetRandBits(t, 8);
    if rv.value < a.sparking then
      var lit := BitMaps.Randomize(a.lit, None, rv.rest);
      if a.gen.None? then Err(TypeError)
      else
        var y :- Next(a.gen.value, gb, lit.rest);
        var f :- SparkFrom(a.base.leds, lit.value, Drawer(gb), y.gen, y.rest, y.color, a.fillMode == FillModeSolid, a.background, a.fade, 0, a.base.calcN);
        Ok(Drawn(a.(base := a.base.(leds := f.strip), gen := Some(f.gen), lit := lit.value), f.rest))
    else
      var s :- FadeFrom(a.base.leds, a.lit, a.background, a.fade, 0, a.base.calcN);
      Ok(Drawn(a.(base := a.base.(leds := s)), rv.rest))
  }

  /** The two extremes of the sparking threshold: a `sparking` of 0 or
      less never sparks, whatever the 8-bit draw, and one above 255
      always does. (Each draw's case is stated by `CalcFrameFades`, for a
      draw at or above `sparking`, and by `CalcFrameSolid` and
      `CalcFrameMulti`, for one below it.) */
  lemma SparkOdds(a: Jitter, gb: byte, t: Tape)
    requires BitMaps.Valid(a.lit) && (a.gen.Some? ==> Generators.Valid(a.gen.value))
    ensures a.sparking <= 0 && CalcFrame(a, gb, t).Ok? ==> CalcFrame(a, gb, t).value.value.lit == a.lit
    ensures a.sparking > 255 && a.gen.None? ==> CalcFrame(a, gb, t) == Err(TypeError)
  {
    assert Pow2(8) == 256 by {
      assert Pow2(4) == 16;
    }
  }

  /** A non-sparking frame fades every lit computed pixel towards the
      background, sets every unlit one to it, and keeps the mask and the
      generator. */
  lemma CalcFrameFades(a: Jitter, gb: byte, t: Tape, bg: Color)
    requires BitMaps.Valid(a.lit) && (a.gen.Some? ==> Generators.Valid(a.gen.value))
    requires a.background == TupleColor(bg) && Fits3(a.base.leds, bg)
    requires a.base.calcN <= a.base.leds.n && a.base.calcN <= a.lit.n
    requires GetRandBits(t, 8).value >= a.sparking
    ensures CalcFrame(a, gb, t).Ok?
    ensures var r := CalcFrame(a, gb, t).value; var s := a.base.leds; var leds := r.value.base.leds;
      r.value.lit == a.lit && r.value.gen == a.gen && r.rest == GetRandBits(t, 8).rest &&
      Fits3(leds, bg) &&
      (forall j :: 0 <= j < a.base.calcN ==> Pixel(leds, j) == FadeTarget(s, a.lit, bg, a.fade, j)) &&
      (forall j :: a.base.calcN <= j < s.n ==> Pixel(leds, j) == Pixel(s, j))
  {
    FadeFromSpec(a.base.leds, a.lit, bg, a.fade, 0, a.base.calcN);
  }

  /** A sparking frame in solid mode randomizes the mask, draws one spark
      colour, paints every lit computed pixel with it and dims the unlit
      ones; the generator has advanced once. */
  lemma CalcFrameSolid(a: Jitter, gb: byte, t: Tape, bg: Color, lit: BitMaps.BitMap, y: Yield)
    requires BitMaps.Valid(a.lit) && a.gen.Some? && Generators.Valid(a.gen.value) && Width(a.gen.value) == 3
    requires a.background == TupleColor(bg) && Fits3(a.base.leds, bg)
    requires a.base.calcN <= a.base.leds.n && a.base.calcN <= a.lit.n
    requires GetRandBits(t, 8).value < a.sparking && a.fillMode == FillModeSolid
    requires BitMaps.Randomize(a.lit, None, GetRandBits(t, 8).rest).value == lit
    requires Next(a.gen.value, gb, BitMaps.Randomize(a.lit, None, GetRandBits(t, 8).rest).rest) == Ok(y)
    ensures CalcFrame(a, gb, t).Ok?
    ensures var r := CalcFrame(a, gb, t).value; var s := a.base.leds; var leds := r.value.base.leds;
      r.value.lit == lit && r.value.gen == Some(y.gen) && r.rest == y.rest &&
      Fits3(leds, bg) &&
      (forall j :: 0 <= j < a.base.calcN ==> Pixel(leds, j) == SolidTarget(s, lit, y.color, bg, a.fade, j)) &&
      (forall j :: a.base.calcN <= j < s.n ==> Pixel(leds, j) == Pixel(s, j))
  {
    var f := SparkSolidSpec(a.base.leds, lit, Drawer(gb), y.gen, y.rest, y.color, bg, a.fade, 0, a.base.calcN);
  }

  /** A sparking frame in any other mode randomizes the mask, draws the
      spark colour (unused), then paints lit computed pixel `j` with colour
      number `LitCount(lit, 0, j)` of the colours the generator gives next,
      one per lit pixel, and dims the unlit ones. */
  lemma CalcFrameMulti(a: Jitter, gb: byte, t: Tape, bg: Color, lit: BitMaps.BitMap, y: Yield, p: Pulled)
    requires BitMaps.Valid(a.lit) && a.gen.Some? && Generators.Valid(a.gen.value) && Width(a.gen.value) == 3
    requires a.background == TupleColor(bg) && Fits3(a.base.leds, bg)
    requires a.base.calcN <= a.base.leds.n && a.base.calcN <= a.lit.n
    requires GetRandBits(t, 8).value < a.sparking && a.fillMode != FillModeSolid
    requires BitMaps.Randomize(a.lit, None, GetRandBits(t, 8).rest).value == lit
    requires Next(a.gen.value, gb, BitMaps.Randomize(a.lit, None, GetRandBits(t, 8).rest).rest) == Ok(y)
    requires Take(y.gen, gb, y.rest, LitCount(lit, 0, a.base.calcN)) == Ok(p)
    ensures CalcFrame(a, gb, t).Ok?
    ensures var r := CalcFrame(a, gb, t).value; var leds := r.value.base.leds;
      r.value.lit == lit && r.value.gen == Some(p.gen) && r.rest == p.rest &&
      Fits3(leds, bg) && leds.n == a.base.leds.n &&
      MultiDone(a.base.leds, leds, lit, bg, a.fade, 0, a.base.calcN, p.colors)
  {
    var k := LitCount(lit, 0, a.base.calcN);
    TakeWidth(y.gen, gb, y.rest, k);
    PullIsTake(y.gen, gb, y.rest, k);
    var f := SparkMultiSpec(a.base.leds, lit, Drawer(gb), y.gen, y.rest, y.color, bg, a.fade, 0, a.base.calcN, p);
  }

  /** Before `setup`, with an int or `None` background and a fade
      percentage in range, the fading pass sets the unlit pixels before
      the first lit one `j` to the background and then raises TypeError
      blending pixel `j` towards it. */
  lemma {:induction false} FadeRawFails(s: Strip, lit: BitMaps.BitMap, bg: ColorArg, fade: int, i: nat, j: nat, calcN: nat)
    requires Strips.Valid(s) && BitMaps.Valid(lit) && i <= j < calcN <= s.n && calcN <= lit.n
    requires !bg.TupleColor? && 0 <= fade <= 100 && Writable(s, bg)
    requires BitMaps.Get(lit, j) == Ok(1) && forall k :: i <= k < j ==> BitMaps.Get(lit, k) == Ok(0)
    ensures FadeFrom(s, lit, bg, fade, i, calcN) == Err(TypeError)
    decreases j - i
  {
    GetPixelSpec(s, i);
    if i < j {
      SetItemSpec(s, i, bg);
      var s' := SetItem(s, i, bg).value;
      assert FadeStep(s, lit, bg, fade, i, calcN) == FadeFrom(s', lit, bg, fade, i + 1, calcN);
      FadeRawFails(s', lit, bg, fade, i + 1, j, calcN);
    }
  }

  /** Before `setup`, with an int or `None` background and a fade
      percentage in range, the sparking pass paints the lit pixels before
      the first unlit one `j` and then raises TypeError blending pixel `j`
      towards the background, which no pixel can equal. */
  lemma {:induction false} SparkRawFails(s: Strip, lit: BitMaps.BitMap, draw: Draw, g: Gen, t: Tape, spark: Color, solid: bool,
                                         bg: ColorArg, fade: int, i: nat, j: nat, calcN: nat)
    requires Strips.Valid(s) && s.bpp == 3 && BitMaps.Valid(lit) && i <= j < calcN <= s.n && calcN <= lit.n
    requires !bg.TupleColor? && 0 <= fade <= 100
    requires BitMaps.Get(lit, j) == Ok(0) && forall k :: i <= k < j ==> BitMaps.Get(lit, k) == Ok(1)
    requires solid ==> |spark| == 3 && IsColor(spark)
    requires !solid ==> Pull(draw, g, t, j - i).Ok? && ThreeBytes(Pull(draw, g, t, j - i).value.colors)
    ensures SparkFrom(s, lit, draw, g, t, spark, solid, bg, fade, i, calcN) == Err(TypeError)
    decreases j - i
  {
    if i < j {
      var y := FirstDraw(draw, g, t, spark, solid, j - i);
      var s' := RawSparkLit(s, lit, draw, g, t, spark, solid, bg, fade, i, calcN, y);
      SparkRawFails(s', lit, draw, y.gen, y.rest, spark, solid, bg, fade, i + 1, j, calcN);
    } else {
      SparkRawAt(s, lit, draw, g, t, spark, solid, bg, fade, i, calcN);
    }
  }

  /** An unlit pixel of the sparking pass never equals an int or `None`
      background, so blending it towards that background raises
      TypeError. */
  lemma SparkRawAt(s: Strip, lit: BitMaps.BitMap, draw: Draw, g: Gen, t: Tape, spark: Color, solid: bool,
                   bg: ColorArg, fade: int, i: nat, calcN: nat)
    requires Strips.Valid(s) && BitMaps.Valid(lit) && i < calcN <= s.n
    requires !bg.TupleColor? && 0 <= fade <= 100 && BitMaps.Get(lit, i) == Ok(0)
    ensures DimPixel(s, i, bg, fade) == Err(TypeError)
    ensures SparkFrom(s, lit, draw, g, t, spark, solid, bg, fade, i, calcN) == Err(TypeError)
  {
    GetPixelSpec(s, i);
  }

  /** The colour the first of `k > 0` lit pixels takes: the spark colour in
      solid mode, otherwise a draw that leaves `k - 1` three-byte draws
      to come. */
  lemma FirstDraw(draw: Draw, g: Gen, t: Tape, spark: Color, solid: bool, k: nat) returns (y: Yield)
    requires k > 0
    requires solid ==> |spark| == 3 && IsColor(spark)
    requires !solid ==> Pull(draw, g, t, k).Ok? && ThreeBytes(Pull(draw, g, t, k).value.colors)
    ensures (if solid then Ok(Yield(spark, g, t)) else draw(g, t)) == Ok(y)
    ensures |y.color| == 3 && IsColor(y.color)
    ensures solid ==> y == Yield(spark, g, t)
    ensures !solid ==> Pull(draw, y.gen, y.rest, k - 1).Ok? && ThreeBytes(Pull(draw, y.gen, y.rest, k - 1).value.colors)
  {
    if solid {
      y := Yield(spark, g, t);
    } else {
      var more;
      y, more := PullHead(draw, g, t, k, Pull(draw, g, t, k).value);
    }
  }

  /** A lit step of the sparking pass, whatever the background: pixel `i`
      takes the colour `y` holds and drawing moves on to `y`'s state. */
  lemma RawSparkLit(s: Strip, lit: BitMaps.BitMap, draw: Draw, g: Gen, t: Tape, spark: Color, solid: bool,
                    bg: ColorArg, fade: int, i: nat, calcN: nat, y: Yield) returns (s': Strip)
    requires Strips.Valid(s) && s.bpp == 3 && BitMaps.Valid(lit) && i < calcN <= s.n
    requires BitMaps.Get(lit, i) == Ok(1) && |y.color| == 3 && IsColor(y.color)
    requires (if solid then Ok(Yield(spark, g, t)) else draw(g, t)) == Ok(y)
    ensures SparkFrom(s, lit, draw, g, t, spark, solid, bg, fade, i, calcN) ==
      SparkFrom(s', lit, draw, y.gen, y.rest, spark, solid, bg, fade, i + 1, calcN)
    ensures Strips.Valid(s') && s'.bpp == 3 && s'.n == s.n
  {
    WritableColor(s, y.color);
    SetItemSpec(s, i, TupleColor(y.color));
    s' := SetItem(s, i, TupleColor(y.color)).value;
  }

  /** A non-sparking frame before `setup`: the background is still the int
      or `None` given to the constructor, so the first lit computed pixel
      `j` raises TypeError in `blend` (when the fade percentage is in
      range). */
  lemma CalcFrameRawFades(a: Jitter, gb: byte, t: Tape, j: nat)
    requires BitMaps.Valid(a.lit) && (a.gen.Some? ==> Generators.Valid(a.gen.value))
    requires Strips.Valid(a.base.leds) && a.base.calcN <= a.base.leds.n && a.base.calcN <= a.lit.n
    requires !a.background.TupleColor? && Writable(a.base.leds, a.background) && 0 <= a.fade <= 100
    requires GetRandBits(t, 8).value >= a.sparking
    requires j < a.base.calcN && BitMaps.Get(a.lit, j) == Ok(1)
    requires forall k :: 0 <= k < j ==> BitMaps.Get(a.lit, k) == Ok(0)
    ensures CalcFrame(a, gb, t) == Err(TypeError)
  {
    FadeRawFails(a.base.leds, a.lit, a.background, a.fade, 0, j, a.base.calcN);
  }

  /** A sparking frame before `setup`: the lit computed pixels before the
      first unlit one `j` take their colours, and pixel `j`, which differs
      from the int or `None` background, raises TypeError in `blend`. */
  lemma CalcFrameRawSparks(a: Jitter, gb: byte, t: Tape, lit: BitMaps.BitMap, y: Yield, j: nat)
    requires BitMaps.Valid(a.lit) && a.gen.Some? && Generators.Valid(a.gen.value) && Width(a.gen.value) == 3
    requires Strips.Valid(a.base.leds) && a.base.leds.bpp == 3 && a.base.calcN <= a.base.leds.n && a.base.calcN <= a.lit.n
    requires !a.background.TupleColor? && 0 <= a.fade <= 100
    requires GetRandBits(t, 8).value < a.sparking
    requires BitMaps.Randomize(a.lit, None, GetRandBits(t, 8).rest).value == lit
    requires Next(a.gen.value, gb, BitMaps.Randomize(a.lit, None, GetRandBits(t, 8).rest).rest) == Ok(y)
    requires j < a.base.calcN && BitMaps.Get(lit, j) == Ok(0)
    requires forall k :: 0 <= k < j ==> BitMaps.Get(lit, k) == Ok(1)
    requires a.fillMode != FillModeSolid ==> Take(y.gen, gb, y.rest, j).Ok?
    ensures CalcFrame(a, gb, t) == Err(TypeError)
  {
    SparkRawFrame(a.base.leds, lit, gb, y, a.fillMode == FillModeSolid, a.background, a.fade, j, a.base.calcN);
  }

  /** The sparking pass of `CalcFrameRawSparks`, from the spark colour `y`
      on. */
  lemma SparkRawFrame(s: Strip, lit: BitMaps.BitMap, gb: byte, y: Yield, solid: bool, bg: ColorArg, fade: int, j: nat, calcN: nat)
    requires Strips.Valid(s) && s.bpp == 3 && BitMaps.Valid(lit) && j < calcN <= s.n && calcN <= lit.n
    requires !bg.TupleColor? && 0 <= fade <= 100
    requires BitMaps.Get(lit, j) == Ok(0) && forall k :: 0 <= k < j ==> BitMaps.Get(lit, k) == Ok(1)
    requires Generators.Valid(y.gen) && Width(y.gen) == 3 && |y.color| == 3 && IsColor(y.color)
    requires !solid ==> Take(y.gen, gb, y.rest, j).Ok?
    ensures SparkFrom(s, lit, Drawer(gb), y.gen, y.rest, y.color, solid, bg, fade, 0, calcN) == Err(TypeError)
  {
    if !solid {
      PullReady(y, gb, j);
    }
    SparkRawFails(s, lit, Drawer(gb), y.gen, y.rest, y.color, solid, bg, fade, 0, j, calcN);
  }

  /** `k` colours a generator of width 3 can give are `k` three-byte
      draws. */
  lemma PullReady(y: Yield, gb: byte, k: nat)
    requires Generators.Valid(y.gen) && Width(y.gen) == 3 && Take(y.gen, gb, y.rest, k).Ok?
    ensures Pull(Drawer(gb), y.gen, y.rest, k).Ok? && ThreeBytes(Pull(Drawer(gb), y.gen, y.rest, k).value.colors)
  {
    TakeWidth(y.gen, gb, y.rest, k);
    PullIsTake(y.gen, gb, y.rest, k);
  }
}

=== FILE: litbits.dfy ===
/** `LitBits`: a bit mask decides which pixels are lit; a lit pixel shows
    the palette entry at its position (cyclically), an unlit one is black.
    Every frame the palette and the mask scroll, each at its own speed. */
module LitAnimations {
  import opened Wrappers
  import opened ColorMath
  import opened Random
  import opened Strips
  import opened Animations
  import ByteMaps
  import BitMaps

  /** `litPercent` 0 stands for `None` as well: the two are falsy alike, and
      the value is only used when it is truthy. */
  datatype LitBits = LitBits(base: Base, palette: Option<ByteMaps.ByteMap>, speed: int, litSpeed: int,
                             litPercent: int, lit: BitMaps.BitMap)

  /** `LitBits(leds, scroll_speed, lit_scroll_speed, lit_percent)`: a mask
      over the `calc_n` computed pixels, preset to three on, one off unless
      a lit percentage is given. */
  function Create(leds: LedsArg, palette: Option<ByteMaps.ByteMap>, speed: int, litSpeed: int, litPercent: int,
                  interval: int, brightness: int): (r: Result<LitBits>)
    ensures r.Ok? <==> leds.TrickLEDArg?
    ensures r.Ok? ==> BitMaps.Valid(r.value.lit) && r.value.lit.n == r.value.base.calcN && r.value.lit.pct == 50
    ensures r.Ok? && litPercent == 0 ==> forall i :: 0 <= i < r.value.lit.n ==>
      BitMaps.Get(r.value.lit, i) == Ok(if i % 4 != 3 then 1 else 0)
  {
    var base :- Init(leds, interval, brightness);
    var lit := BitMaps.New(base.calcN, 50);
    var lit' := if litPercent != 0 then lit else BitMaps.Repeat(lit, 119).value;
    assert litPercent == 0 ==> forall i :: 0 <= i < lit'.n ==> BitMaps.Get(lit', i) == Ok(if i % 4 != 3 then 1 else 0) by {
      if litPercent == 0 {
        forall i | 0 <= i < lit'.n ensures BitMaps.Get(lit', i) == Ok(if i % 4 != 3 then 1 else 0) {
          BitMaps.Repeat119(lit, i);
        }
      }
    }
    Ok(LitBits(base, palette, speed, litSpeed, litPercent, lit'))
  }

  /** `setup`: a missing palette becomes the default one of 20 entries, and
      with a lit percentage the mask takes it and is randomized. */
  function Setup(a: LitBits, t: Tape): (r: Drawn<LitBits>)
    requires BitMaps.Valid(a.lit)
    ensures r.value.palette.Some? && BitMaps.Valid(r.value.lit) && r.value.lit.n == a.lit.n
    ensures a.palette.Some? ==> r.value.palette == a.palette
    ensures a.litPercent != 0 ==> r.value.lit.pct == a.litPercent
    ensures a.litPercent == 0 ==> r.value.lit == a.lit
  {
    var p := if a.palette.None? then DefaultPalette(20, a.base.brightness, t).value else Drawn(a.palette.value, t);
    if a.litPercent != 0 then
      var lit := BitMaps.Randomize(a.lit.(pct := a.litPercent), None, p.rest);
      Drawn(a.(palette := Some(p.value), lit := lit.value), lit.rest)
    else Drawn(a.(palette := Some(p.value)), p.rest)
  }

  /** `palette[i % len(palette)]` as the value written to the strip: a
      one-byte palette yields an int, a wider one a tuple. */
  function PaletteColor(pal: ByteMaps.ByteMap, i: int): (r: Result<ColorArg>)
    ensures pal.n == 0 ==> r == Err(ZeroDivisionError)
  {
    if ByteMaps.Len(pal) == 0 then Err(ZeroDivisionError)
    else
      var v :- ByteMaps.GetItem(pal, i % ByteMaps.Len(pal));
      if pal.bpi > 1 then Ok(TupleColor(v)) else Ok(IntColor(v[0]))
  }

  /** Pixels `i` to `calc_n - 1` in turn: lit ones take their palette
      colour, the others black. */
  function PaintFrom(s: Strip, lit: BitMaps.BitMap, pal: ByteMaps.ByteMap, i: nat, calcN: nat): (r: Result<Strip>)
    requires BitMaps.Valid(lit)
    ensures r.Ok? ==> Shape(r.value, s)
    decreases calcN - i
  {
    if i >= calcN then Ok(s)
    else
      var bit :- BitMaps.Get(lit, i);
      var col :- if bit == 1 then PaletteColor(pal, i) else Ok(IntColor(0));
      var s' :- SetItem(s, i, col);
      PaintFrom(s', lit, pal, i + 1, calcN)
  }

  /** What pixel `i` shows after painting, as a reference definition. */
  function Painted(lit: BitMaps.BitMap, pal: ByteMaps.ByteMap, i: nat, bpp: nat): Color
    requires BitMaps.Valid(lit) && ByteMaps.Valid(pal) && pal.n > 0
  {
    if BitMaps.Get(lit, i) == Ok(1) then ByteMaps.Item(pal, i % pal.n) else Zeros(bpp)
  }

  /** One step of painting writes what `Painted` says. */
  lemma PaintOne(s: Strip, lit: BitMaps.BitMap, pal: ByteMaps.ByteMap, i: nat)
    requires Strips.Valid(s) && i < s.n && BitMaps.Valid(lit) && i < lit.n
    requires ByteMaps.Valid(pal) && pal.n > 0 && pal.bpi == s.bpp >= 2
    ensures var bit := BitMaps.Get(lit, i).value;
      var col := if bit == 1 then PaletteColor(pal, i) else Ok(IntColor(0));
      col.Ok? && Writable(s, col.value) && Written(s, col.value) == Painted(lit, pal, i, s.bpp)
  {
    if BitMaps.Get(lit, i) == Ok(1) {
      ByteMaps.GetItemSpec(pal, i % pal.n);
    }
  }

  /** Painting from `i` sets each pixel in `[i, calc_n)` to `Painted` and
      leaves the rest of the strip alone. */
  lemma {:induction false} PaintFromSpec(s: Strip, lit: BitMaps.BitMap, pal: ByteMaps.ByteMap, i: nat, calcN: nat)
    requires Strips.Valid(s) && calcN <= s.n && BitMaps.Valid(lit) && calcN <= lit.n && i <= calcN
    requires ByteMaps.Valid(pal) && pal.n > 0 && pal.bpi == s.bpp >= 2
    ensures PaintFrom(s, lit, pal, i, calcN).Ok?
    ensures var r := PaintFrom(s, lit, pal, i, calcN).value;
      Strips.Valid(r) &&
      (forall j :: i <= j < calcN ==> Pixel(r, j) == Painted(lit, pal, j, s.bpp)) &&
      (forall j :: 0 <= j < s.n && !(i <= j < calcN) ==> Pixel(r, j) == Pixel(s, j))
    decreases calcN - i
  {
    if i < calcN {
      PaintOne(s, lit, pal, i);
      var bit := BitMaps.Get(lit, i).value;
      var col := (if bit == 1 then PaletteColor(pal, i) else Ok(IntColor(0))).value;
      SetItemSpec(s, i, col);
      var s' := SetItem(s, i, col).value;
      PaintFromSpec(s', lit, pal, i + 1, calcN);
    }
  }

  /** Painting the computed pixels succeeds on a strip the palette fits. */
  lemma PaintOk(s: Strip, lit: BitMaps.BitMap, pal: ByteMaps.ByteMap, calcN: nat)
    requires Strips.Valid(s) && calcN <= s.n && BitMaps.Valid(lit) && calcN <= lit.n
    requires ByteMaps.Valid(pal) && pal.n > 0 && pal.bpi == s.bpp >= 2
    ensures PaintFrom(s, lit, pal, 0, calcN).Ok?
  {
    PaintFromSpec(s, lit, pal, 0, calcN);
  }

  /** The mask a frame paints with: freshly randomized every 30th frame
      when a lit percentage is set, the current one otherwise. */
  function FrameMask(a: LitBits, t: Tape): (d: Drawn<BitMaps.BitMap>)
    requires BitMaps.Valid(a.lit)
    ensures BitMaps.Valid(d.value) && d.value.n == a.lit.n
    ensures a.litPercent == 0 || a.base.frame % 30 != 0 ==> d == Drawn(a.lit, t)
  {
    if a.litPercent != 0 && a.base.frame % 30 == 0 then BitMaps.Randomize(a.lit, None, t) else Drawn(a.lit, t)
  }

  /** `calc_frame`: paint the pixels from the frame's mask, then scroll the
      palette by `scroll_speed` and the mask by `lit_scroll_speed`. Without
      a palette, `len(None)` is a TypeError. */
  function CalcFrame(a: LitBits, t: Tape): (r: Result<Drawn<LitBits>>)
    requires BitMaps.Valid(a.lit)
    ensures a.palette.None? ==> r == Err(TypeError)
    ensures r.Ok? ==> Shape(r.value.value.base.leds, a.base.leds) && BitMaps.Valid(r.value.value.lit)
  {
    var d := FrameMask(a, t);
    if a.palette.None? then Err(TypeError)
    else
      var s :- PaintFrom(a.base.leds, d.value, a.palette.value, 0, a.base.calcN);
      var pal := ByteMaps.Scroll(a.palette.value, a.speed);
      var lit :- BitMaps.Scroll(d.value, a.litSpeed);
      Ok(Drawn(a.(base := a.base.(leds := s), palette := Some(pal), lit := lit), d.rest))
  }

  /** The state a frame relies on. */
  predicate Ready(a: LitBits) {
    && Strips.Valid(a.base.leds) && a.base.calcN <= a.base.leds.n
    && BitMaps.Valid(a.lit) && a.lit.n == a.base.calcN && a.base.calcN > 0
    && a.palette.Some? && ByteMaps.Valid(a.palette.value) && a.palette.value.n > 0
    && a.palette.value.bpi == a.base.leds.bpp >= 2
  }

  /** A frame paints each computed pixel from the mask it used (lit: its
      palette entry, cyclically; unlit: black) and leaves the pixels past
      `calc_n` alone. */
  lemma CalcFramePaints(a: LitBits, t: Tape)
    requires Ready(a)
    ensures CalcFrame(a, t).Ok?
    ensures var r := CalcFrame(a, t).value.value; var s := a.base.leds; var used := FrameMask(a, t).value;
      Strips.Valid(r.base.leds) &&
      (forall j :: 0 <= j < a.base.calcN ==> Pixel(r.base.leds, j) == Painted(used, a.palette.value, j, s.bpp)) &&
      (forall j :: a.base.calcN <= j < s.n ==> Pixel(r.base.leds, j) == Pixel(s, j))
  {
    PaintFromSpec(a.base.leds, FrameMask(a, t).value, a.palette.value, 0, a.base.calcN);
  }

  /** After a frame, palette entry `k` is the entry `scroll_speed` places
      back (cyclically), for speeds of at most one turn. */
  lemma CalcFramePalette(a: LitBits, t: Tape, k: int)
    requires Ready(a) && 0 <= k < a.palette.value.n
    requires -(a.palette.value.n as int) <= a.speed <= a.palette.value.n
    ensures CalcFrame(a, t).Ok?
    ensures var pal := a.palette.value;
      ByteMaps.Item(CalcFrame(a, t).value.value.palette.value, k) == ByteMaps.Item(pal, (k - a.speed) % pal.n)
  {
    var used := FrameMask(a, t).value;
    PaintOk(a.base.leds, used, a.palette.value, a.base.calcN);
    ByteMaps.ScrollItems(a.palette.value, a.speed, k);
  }

  /** After a frame, mask bit `i` is the bit `lit_scroll_speed` places back
      in the mask the frame painted with. */
  lemma CalcFrameMask(a: LitBits, t: Tape, i: int)
    requires Ready(a) && 0 <= i < a.lit.n
    ensures CalcFrame(a, t).Ok?
    ensures BitMaps.Get(CalcFrame(a, t).value.value.lit, i) == BitMaps.Get(FrameMask(a, t).value, (i - a.litSpeed) % a.lit.n)
  {
    var used := FrameMask(a, t).value;
    PaintOk(a.base.leds, used, a.palette.value, a.base.calcN);
    BitMaps.ScrollGet(used, a.litSpeed, i);
  }
}

=== FILE: mapped.dfy ===
/** `MappedAnimationBase`: animations that keep one byte of state per
    computed pixel (a heat map) and turn it into colours through a palette
    that has been put into the strip's byte order beforehand. */
module Mapped {
  import opened Wrappers
  import opened ColorMath
  import opened Random
  import opened PySeq
  import opened Strips
  import ByteMaps

  /** The `order` a `ByteMap` gets when none is given: green, red, blue. */
  const DefaultOrder: seq<int> := [1, 0, 2]

  /** A heat map: one byte per item. */
  predicate ByteMeta(m: ByteMaps.ByteMap) {
    ByteMaps.Valid(m) && m.bpi == 1
  }

  /** The default byte order fits any three-byte map. */
  lemma DefaultOrderFits(p: ByteMaps.ByteMap)
    requires p.bpi == 3 && p.order == DefaultOrder
    ensures OrderFits(p)
  {
  }

  /** `pixel_meta.fill(0)` on a heat map: every byte zero. */
  lemma ZeroMeta(m: ByteMaps.ByteMap) returns (z: ByteMaps.ByteMap)
    requires ByteMeta(m)
    ensures ByteMaps.Fill(m, IntColor(0), 0, None) == Ok(z)
    ensures ByteMeta(z) && z.n == m.n && forall k :: 0 <= k < z.n ==> z.buf[k] == 0
  {
    var vals := ByteMaps.Copies(Zeros(1), m.n);
    assert ByteMaps.Fill(m, IntColor(0), 0, None) == ByteMaps.WriteFrom(m, 0, vals);
    if m.n == 0 {
      z := m;
    } else {
      ByteMaps.WriteFromSpec(m, 0, vals);
      z := ByteMaps.WriteFrom(m, 0, vals).value;
      forall k | 0 <= k < z.n ensures z.buf[k] == 0 {
        assert ByteMaps.Item(z, k) == vals[k];
        assert ByteMaps.Item(z, k)[0] == z.buf[k];
      }
    }
  }

  /** Writing a byte into a heat map replaces exactly that byte. */
  lemma SetByte(m: ByteMaps.ByteMap, k: int, v: int)
    requires ByteMeta(m) && 0 <= k < m.n && 0 <= v < 256
    ensures ByteMaps.SetItem(m, k, IntColor(v)) == Ok(m.(buf := m.buf[k := v]))
    ensures ByteMeta(m.(buf := m.buf[k := v]))
  {
    if v == 0 {
      assert Zeros(1) == [0];
    } else {
      assert Pow256(1) == 256;
      assert BigEndian(v, 1) == BigEndian(v / 256, 0) + [v % 256] == [v];
    }
    assert Colval(IntColor(v), 1) == Ok([v]);
    assert SliceAssign(m.buf, k, k + 1, [v]) == m.buf[k := v];
  }

  /** `pixel_meta.sub(c)`: every heat drops by `c`, stopping at 0 (and,
      for a negative `c`, rises, stopping at 255). */
  lemma SubSpec(m: ByteMaps.ByteMap, c: int) returns (r: ByteMaps.ByteMap)
    requires ByteMeta(m)
    ensures ByteMaps.ApplyAll(m, ByteMaps.Sub, ByteMaps.Scalar(c)) == Ok(r) && ByteMeta(r) && r.n == m.n
    ensures forall k :: 0 <= k < m.n ==> r.buf[k] == Uint8(m.buf[k] - c)
    ensures c >= 0 ==> forall k :: 0 <= k < m.n ==> r.buf[k] == if m.buf[k] > c then m.buf[k] - c else 0
  {
    r := ByteMaps.ApplyAll(m, ByteMaps.Sub, ByteMaps.Scalar(c)).value;
  }

  // ------------------------------------------------------ ordered palette

  /** Items `i` onwards: `op[i] = pal.get_ordered_item(i)`. */
  function OrderFrom(pal: ByteMaps.ByteMap, o: ByteMaps.ByteMap, i: nat): (r: Result<ByteMaps.ByteMap>)
    ensures r.Ok? && o.n == pal.n ==> r.value.n == o.n && r.value.bpi == o.bpi
    decreases pal.n - i, 1
  {
    if i >= pal.n then Ok(o) else OrderStep(pal, o, i)
  }

  /** Item `i`, then the items after it. */
  function OrderStep(pal: ByteMaps.ByteMap, o: ByteMaps.ByteMap, i: nat): (r: Result<ByteMaps.ByteMap>)
    requires i < pal.n
    ensures r.Ok? && o.n == pal.n ==> r.value.n == o.n && r.value.bpi == o.bpi
    decreases pal.n - i, 0
  {
    var item :- ByteMaps.GetOrderedItem(pal, i);
    var o' :- ByteMaps.SetItem(o, i, TupleColor(item));
    OrderFrom(pal, o', i + 1)
  }

  /** `set_ordered_palette`: the ordered copy is (re)allocated when there is
      none or its length differs from the palette's, then every item is
      written in the palette's byte order. */
  function SetOrderedPalette(pal: ByteMaps.ByteMap, op: Option<ByteMaps.ByteMap>): (r: Result<ByteMaps.ByteMap>)
    ensures r.Ok? ==> r.value.n == pal.n
    ensures r.Ok? && (op.None? || op.value.n != pal.n) ==> r.value.bpi == pal.bpi
  {
    var o := if op.None? || pal.n != op.value.n then ByteMaps.New(pal.n, pal.bpi, DefaultOrder) else op.value;
    OrderFrom(pal, o, 0)
  }

  /** The palette's `order` picks, for each byte of an item, one of the
      item's own bytes. */
  predicate OrderFits(pal: ByteMaps.ByteMap) {
    |pal.order| == pal.bpi && forall k :: 0 <= k < |pal.order| ==> 0 <= pal.order[k] < pal.bpi
  }

  /** Item `i` of `pal` in byte order. */
  predicate Reordered(r: ByteMaps.ByteMap, pal: ByteMaps.ByteMap, i: nat)
    requires ByteMaps.Valid(r) && ByteMaps.Valid(pal) && OrderFits(pal) && i < r.n && i < pal.n && r.bpi == pal.bpi
  {
    forall k :: 0 <= k < pal.bpi ==> ByteMaps.Item(r, i)[k] == ByteMaps.Item(pal, i)[pal.order[k]]
  }

  /** One item: it is rewritten in byte order and nothing else changes. */
  lemma OrderOne(pal: ByteMaps.ByteMap, o: ByteMaps.ByteMap, i: nat) returns (o': ByteMaps.ByteMap)
    requires ByteMaps.Valid(pal) && pal.bpi == 3 && OrderFits(pal) && ByteMaps.Valid(o) && o.n == pal.n && o.bpi == pal.bpi
    requires i < pal.n
    ensures ByteMaps.SetItem(o, i, TupleColor(ByteMaps.GetOrderedItem(pal, i).value)) == Ok(o')
    ensures ByteMaps.Valid(o') && o'.n == pal.n && o'.bpi == pal.bpi && Reordered(o', pal, i)
    ensures forall j :: 0 <= j < pal.n && j != i ==> ByteMaps.Item(o', j) == ByteMaps.Item(o, j)
  {
    ByteMaps.GetOrderedItemSpec(pal, i);
    var item := ByteMaps.GetOrderedItem(pal, i).value;
    ByteMaps.SetItemInRange(o, i, item);
    o' := ByteMaps.SetItem(o, i, TupleColor(item)).value;
  }

  /** Ordering from `i` ends where ordering from `i + 1` ends, started from
      the map `o'` item `i` leaves. */
  lemma OrderLink(pal: ByteMaps.ByteMap, o: ByteMaps.ByteMap, o': ByteMaps.ByteMap, i: nat)
    requires ByteMaps.Valid(pal) && pal.bpi == 3 && OrderFits(pal) && i < pal.n
    requires ByteMaps.SetItem(o, i, TupleColor(ByteMaps.GetOrderedItem(pal, i).value)) == Ok(o')
    ensures OrderFrom(pal, o, i) == OrderFrom(pal, o', i + 1)
  {
    ByteMaps.GetOrderedItemSpec(pal, i);
  }

  /** Ordering item `i` leaves a valid map `o'` of the same shape to order
      the items after it in. */
  lemma OrderNext(pal: ByteMaps.ByteMap, o: ByteMaps.ByteMap, i: nat) returns (o': ByteMaps.ByteMap)
    requires ByteMaps.Valid(pal) && pal.bpi == 3 && OrderFits(pal) && ByteMaps.Valid(o) && o.n == pal.n && o.bpi == pal.bpi
    requires i < pal.n
    ensures OrderFrom(pal, o, i) == OrderFrom(pal, o', i + 1)
    ensures ByteMaps.Valid(o') && o'.n == pal.n && o'.bpi == pal.bpi
  {
    o' := OrderOne(pal, o, i);
    OrderLink(pal, o, o', i);
  }

  /** `OrderNext`, with what ordering item `i` does to the items. */
  lemma OrderNextItems(pal: ByteMaps.ByteMap, o: ByteMaps.ByteMap, i: nat) returns (o': ByteMaps.ByteMap)
    requires ByteMaps.Valid(pal) && pal.bpi == 3 && OrderFits(pal) && ByteMaps.Valid(o) && o.n == pal.n && o.bpi == pal.bpi
    requires i < pal.n
    ensures OrderFrom(pal, o, i) == OrderFrom(pal, o', i + 1)
    ensures ByteMaps.Valid(o') && o'.n == pal.n && o'.bpi == pal.bpi && Reordered(o', pal, i)
    ensures forall j :: 0 <= j < pal.n && j != i ==> ByteMaps.Item(o', j) == ByteMaps.Item(o, j)
  {
    o' := OrderOne(pal, o, i);
    OrderLink(pal, o, o', i);
  }

  /** Past the last item there is nothing left to order. */
  lemma OrderDone(pal: ByteMaps.ByteMap, o: ByteMaps.ByteMap, i: nat)
    requires i >= pal.n
    ensures OrderFrom(pal, o, i) == Ok(o)
  {
  }

  /** Ordering items `i` onwards succeeds and keeps the map's shape. */
  lemma {:induction false} OrderFromOk(pal: ByteMaps.ByteMap, o: ByteMaps.ByteMap, i: nat) returns (r: ByteMaps.ByteMap)
    requires ByteMaps.Valid(pal) && pal.bpi == 3 && OrderFits(pal) && ByteMaps.Valid(o) && o.n == pal.n && o.bpi == pal.bpi
    requires i <= pal.n
    ensures OrderFrom(pal, o, i) == Ok(r)
    ensures ByteMaps.Valid(r) && r.n == pal.n && r.bpi == pal.bpi
    decreases pal.n - i, 1
  {
    if i < pal.n {
      r := OrderStepOk(pal, o, i);
    } else {
      r := o;
      OrderDone(pal, o, i);
    }
  }

  /** `OrderFromOk` from an item `i` that exists. */
  lemma {:induction false} OrderStepOk(pal: ByteMaps.ByteMap, o: ByteMaps.ByteMap, i: nat) returns (r: ByteMaps.ByteMap)
    requires ByteMaps.Valid(pal) && pal.bpi == 3 && OrderFits(pal) && ByteMaps.Valid(o) && o.n == pal.n && o.bpi == pal.bpi
    requires i < pal.n
    ensures OrderFrom(pal, o, i) == Ok(r)
    ensures ByteMaps.Valid(r) && r.n == pal.n && r.bpi == pal.bpi
    decreases pal.n - i, 0
  {
    var o' := OrderNext(pal, o, i);
    r := OrderFromOk(pal, o', i + 1);
  }

  /** Item `j` after ordering items `i` onwards: ordered if `j` is one of
      them, as it was otherwise. */
  lemma {:induction false} OrderFromItem(pal: ByteMaps.ByteMap, o: ByteMaps.ByteMap, i: nat, j: nat, r: ByteMaps.ByteMap)
    requires ByteMaps.Valid(pal) && pal.bpi == 3 && OrderFits(pal) && ByteMaps.Valid(o) && o.n == pal.n && o.bpi == pal.bpi
    requires i <= pal.n && j < pal.n
    requires OrderFrom(pal, o, i) == Ok(r) && ByteMaps.Valid(r) && r.n == pal.n && r.bpi == pal.bpi
    ensures i <= j ==> Reordered(r, pal, j)
    ensures j < i ==> ByteMaps.Item(r, j) == ByteMaps.Item(o, j)
    decreases pal.n - i, 1
  {
    if i < pal.n {
      OrderItemAt(pal, o, i, j, r);
    }
  }

  /** `OrderFromItem` from an item `i` that exists. */
  lemma {:induction false} OrderItemAt(pal: ByteMaps.ByteMap, o: ByteMaps.ByteMap, i: nat, j: nat, r: ByteMaps.ByteMap)
    requires ByteMaps.Valid(pal) && pal.bpi == 3 && OrderFits(pal) && ByteMaps.Valid(o) && o.n == pal.n && o.bpi == pal.bpi
    requires i < pal.n && j < pal.n
    requires OrderFrom(pal, o, i) == Ok(r) && ByteMaps.Valid(r) && r.n == pal.n && r.bpi == pal.bpi
    ensures i <= j ==> Reordered(r, pal, j)
    ensures j < i ==> ByteMaps.Item(r, j) == ByteMaps.Item(o, j)
    decreases pal.n - i, 0
  {
    var o' := OrderNextItems(pal, o, i);
    OrderFromItem(pal, o', i + 1, j, r);
    OrderItemStep(pal, o, o', r, i, j);
  }

  /** The step from item `i + 1` back to item `i`, for item `j`: `o'` is
      `o` with item `i` ordered, and `r` is `o'` with the items from
      `i + 1` on ordered. */
  lemma OrderItemStep(pal: ByteMaps.ByteMap, o: ByteMaps.ByteMap, o': ByteMaps.ByteMap, r: ByteMaps.ByteMap, i: nat, j: nat)
    requires ByteMaps.Valid(pal) && pal.bpi == 3 && OrderFits(pal) && i < pal.n && j < pal.n
    requires ByteMaps.Valid(o) && o.n == pal.n && o.bpi == pal.bpi
    requires ByteMaps.Valid(o') && o'.n == pal.n && o'.bpi == pal.bpi && Reordered(o', pal, i)
    requires forall k :: 0 <= k < pal.n && k != i ==> ByteMaps.Item(o', k) == ByteMaps.Item(o, k)
    requires ByteMaps.Valid(r) && r.n == pal.n && r.bpi == pal.bpi
    requires i + 1 <= j ==> Reordered(r, pal, j)
    requires j < i + 1 ==> ByteMaps.Item(r, j) == ByteMaps.Item(o', j)
    ensures i <= j ==> Reordered(r, pal, j)
    ensures j < i ==> ByteMaps.Item(r, j) == ByteMaps.Item(o, j)
  {
    if j == i {
      assert ByteMaps.Item(r, i) == ByteMaps.Item(o', i);
    }
  }

  /** Ordering items `i` onwards rewrites exactly those items. */
  lemma OrderFromSpec(pal: ByteMaps.ByteMap, o: ByteMaps.ByteMap, i: nat) returns (r: ByteMaps.ByteMap)
    requires ByteMaps.Valid(pal) && pal.bpi == 3 && OrderFits(pal) && ByteMaps.Valid(o) && o.n == pal.n && o.bpi == pal.bpi
    requires i <= pal.n
    ensures OrderFrom(pal, o, i) == Ok(r)
    ensures ByteMaps.Valid(r) && r.n == pal.n && r.bpi == pal.bpi
    ensures forall j :: i <= j < pal.n ==> Reordered(r, pal, j)
    ensures forall j :: 0 <= j < i ==> ByteMaps.Item(r, j) == ByteMaps.Item(o, j)
  {
    r := OrderFromOk(pal, o, i);
    forall j | 0 <= j < pal.n
      ensures i <= j ==> Reordered(r, pal, j)
      ensures j < i ==> ByteMaps.Item(r, j) == ByteMaps.Item(o, j)
    {
      OrderFromItem(pal, o, i, j, r);
    }
  }

  /** With an order that fits and an ordered copy (if any) of the same item
      width, the ordered palette has the palette's items with their bytes
      permuted by `order`. */
  lemma SetOrderedPaletteSpec(pal: ByteMaps.ByteMap, op: Option<ByteMaps.ByteMap>)
    requires ByteMaps.Valid(pal) && pal.bpi == 3 && OrderFits(pal)
    requires op.Some? ==> ByteMaps.Valid(op.value) && op.value.bpi == pal.bpi
    ensures SetOrderedPalette(pal, op).Ok?
    ensures var r := SetOrderedPalette(pal, op).value;
      ByteMaps.Valid(r) && r.n == pal.n && r.bpi == pal.bpi && forall i :: 0 <= i < pal.n ==> Reordered(r, pal, i)
  {
    var o := if op.None? || pal.n != op.value.n then ByteMaps.New(pal.n, pal.bpi, DefaultOrder) else op.value;
    var r := OrderFromSpec(pal, o, 0);
  }

  // ------------------------------------------------------------ colorize

  /** `m >> shift`: `shift` halvings, each rounding down as Python's shift
      does (Dafny's `/` by a positive divisor is floor division). */
  function Shr(m: int, shift: nat): (r: int)
    ensures m >= 0 ==> 0 <= r <= m
    decreases shift
  {
    if shift == 0 then m else Shr(m / 2, shift - 1)
  }

  /** The values `for m in meta` yields from a one-byte map: item `k` is
      the bare byte `buf[k]`, and iteration stops at `n` or at the first
      index the buffer does not reach. */
  function Heats(meta: ByteMaps.ByteMap): (r: seq<int>)
    requires meta.bpi == 1
    ensures ByteMaps.Valid(meta) ==> r == meta.buf && |r| == meta.n
    ensures |r| <= meta.n && forall k :: 0 <= k < |r| ==> ByteMaps.GetItem(meta, k) == Ok([r[k]])
  {
    meta.buf[..if meta.n < |meta.buf| then meta.n else |meta.buf|]
  }

  /** The bytes one heat value turns into: three zero bytes for 0, else
      the `bpi` bytes of palette item `m >> shift` (a slice, so fewer or
      none past the end of the palette). */
  function Cell(m: int, op: ByteMaps.ByteMap, shift: nat): (r: seq<int>)
  {
    if m != 0 then
      var i := Shr(m, shift) * op.bpi;
      Slice(op.buf, i, i + op.bpi)
    else [0, 0, 0]
  }

  /** The bytes `colorize` builds from the heat values, in order. */
  function ColorBytes(heat: seq<int>, op: ByteMaps.ByteMap, shift: nat): (r: seq<int>)
    decreases |heat|
  {
    if heat == [] then [] else Cell(heat[0], op, shift) + ColorBytes(heat[1..], op, shift)
  }

  /** `colorize`: replace the strip's whole buffer by the heat map's
      colours. A buffer of another length raises; so does a missing
      ordered palette. */
  function Colorize(heat: seq<int>, op: Option<ByteMaps.ByteMap>, shift: nat, s: Strip): (r: Result<Strip>)
    ensures op.None? ==> r == Err(TypeError)
    ensures r.Ok? ==> r.value.n == s.n && r.value.bpp == s.bpp && |r.value.buf| == |s.buf|
    ensures op.Some? ==> (r.Ok? <==> |ColorBytes(heat, op.value, shift)| == |s.buf|)
  {
    if op.None? then Err(TypeError)
    else
      var buf := ColorBytes(heat, op.value, shift);
      if |s.buf| == |buf| then Ok(s.(buf := buf)) else Err(BufferLength)
  }

  /** Heat values whose palette item exists. */
  predicate Mappable(heat: seq<int>, op: ByteMaps.ByteMap, shift: nat) {
    forall k :: 0 <= k < |heat| ==> 0 <= heat[k] && Shr(heat[k], shift) < op.n
  }

  /** What pixel `k` gets from heat `m`: black for 0, the palette item
      otherwise. */
  function CellColor(m: int, op: ByteMaps.ByteMap, shift: nat): (c: Color)
    requires ByteMaps.Valid(op) && 0 <= m && Shr(m, shift) < op.n
  {
    if m == 0 then [0, 0, 0] else ByteMaps.Item(op, Shr(m, shift))
  }

  /** One heat value's bytes, when its palette item exists. */
  lemma CellSpec(m: int, op: ByteMaps.ByteMap, shift: nat)
    requires ByteMaps.Valid(op) && op.bpi == 3 && 0 <= m && Shr(m, shift) < op.n
    ensures Cell(m, op, shift) == CellColor(m, op, shift) && |CellColor(m, op, shift)| == 3
    ensures IsColor(CellColor(m, op, shift))
  {
    if m != 0 {
      ByteMaps.ItemBounds(Shr(m, shift), op.n, 3);
    }
  }

  /** Three-byte groups of `c + rest` past the first are those of `rest`. */
  lemma GroupsShift(c: seq<int>, rest: seq<int>, k: nat)
    requires |c| == 3 && 0 < k && 3 * k <= |rest|
    ensures (c + rest)[3 * k .. 3 * k + 3] == rest[3 * (k - 1) .. 3 * (k - 1) + 3]
  {
  }

  /** With a three-byte palette covering every heat value, `colorize`
      emits three bytes per heat value: zeros for heat 0 and the palette
      item at `m >> shift` otherwise. */
  lemma {:induction false} ColorBytesSpec(heat: seq<int>, op: ByteMaps.ByteMap, shift: nat)
    requires ByteMaps.Valid(op) && op.bpi == 3 && Mappable(heat, op, shift)
    ensures var r := ColorBytes(heat, op, shift);
      |r| == 3 * |heat| && IsColor(r) &&
      forall k :: 0 <= k < |heat| ==> r[3 * k .. 3 * k + 3] == CellColor(heat[k], op, shift)
    decreases |heat|
  {
    if heat != [] {
      var m := heat[0];
      CellSpec(m, op, shift);
      var c := CellColor(m, op, shift);
      var tail := heat[1..];
      assert Mappable(tail, op, shift) by {
        forall k | 0 <= k < |tail| ensures 0 <= tail[k] && Shr(tail[k], shift) < op.n {
          assert tail[k] == heat[k + 1];
        }
      }
      ColorBytesSpec(tail, op, shift);
      var rest := ColorBytes(tail, op, shift);
      assert ColorBytes(heat, op, shift) == c + rest;
      forall k | 0 <= k < |heat| ensures (c + rest)[3 * k .. 3 * k + 3] == CellColor(heat[k], op, shift) {
        if k > 0 {
          GroupsShift(c, rest, k);
          assert tail[k - 1] == heat[k];
        }
      }
    }
  }

  lemma LengthsAgree(a: nat, h: nat, b: nat, n: nat)
    requires a == 3 * h && b == n * 3
    ensures a == b <==> h == n
  {
  }

  /** With a three-byte palette covering the heat values, `colorize`
      succeeds exactly when the strip's buffer holds three bytes per heat
      value, so for `calc_n` heat values on a three-byte strip exactly when
      `calc_n` is the whole strip. */
  lemma ColorizeSucceeds(heat: seq<int>, op: ByteMaps.ByteMap, shift: nat, s: Strip)
    requires ByteMaps.Valid(op) && op.bpi == 3 && Mappable(heat, op, shift) && Strips.Valid(s) && s.bpp == 3
    ensures Colorize(heat, Some(op), shift, s).Ok? <==> |heat| == s.n
    ensures var r := Colorize(heat, Some(op), shift, s);
      r.Ok? ==> Strips.Valid(r.value) && forall k :: 0 <= k < s.n ==> Pixel(r.value, k) == CellColor(heat[k], op, shift)
  {
    ColorBytesSpec(heat, op, shift);
    var buf := ColorBytes(heat, op, shift);
    LengthsAgree(|buf|, |heat|, |s.buf|, s.n);
    if |heat| == s.n {
      var r := s.(buf := buf);
      assert Colorize(heat, Some(op), shift, s) == Ok(r);
      PixelsAreCells(r, heat, op, shift);
    }
  }

  /** A three-byte strip whose buffer is grouped as `ColorBytesSpec` says
      shows each heat value's colour at its pixel. */
  lemma PixelsAreCells(r: Strip, heat: seq<int>, op: ByteMaps.ByteMap, shift: nat)
    requires ByteMaps.Valid(op) && Mappable(heat, op, shift) && r.bpp == 3 && |heat| == r.n
    requires |r.buf| == 3 * r.n && IsColor(r.buf)
    requires forall k :: 0 <= k < |heat| ==> r.buf[3 * k .. 3 * k + 3] == CellColor(heat[k], op, shift)
    ensures Strips.Valid(r) && forall k :: 0 <= k < r.n ==> Pixel(r, k) == CellColor(heat[k], op, shift)
  {
    forall k | 0 <= k < r.n ensures Pixel(r, k) == CellColor(heat[k], op, shift) {
      assert Pixel(r, k) == r.buf[k * 3 .. k * 3 + 3];
    }
  }
}

=== FILE: marchers.dfy ===
/** `Convergent` and `Divergent`: pixels of one palette colour are placed at
    two insertion points and march, one place per frame, towards each other
    (`Convergent`, from both ends) or apart (`Divergent`, from the middle).
    A mover steps only onto a black pixel; a blocked mover either restarts
    the whole cycle in the next palette colour (when it is still at an
    insertion point) or has new pixels placed at the insertion points. */
module Marchers {
  import opened Wrappers
  import opened ColorMath
  import opened Random
  import opened Generators
  import opened Strips
  import opened Animations
  import ByteMaps

  /** Which of the two animations: they differ in their insertion points,
      in the direction of the first mover, and in what a step off the
      computed pixels does. */
  datatype Kind = Converge | Diverge

  /** `movers` are the pixels that march, `paletteIdx` and `color` the
      palette entry in use. */
  datatype Marcher = Marcher(base: Base, kind: Kind, palette: ByteMaps.ByteMap, gen: Option<Gen>, fillMode: int,
                             inserts: seq<int>, movers: seq<int>, paletteIdx: int, color: ColorArg)

  /** `Convergent(leds, fill_mode)` / `Divergent(leds, fill_mode)`: without
      a palette, the default one of 20 entries (one random byte); a missing
      fill mode is `FILL_MODE_SOLID`. */
  function Create(leds: LedsArg, kind: Kind, palette: Option<ByteMaps.ByteMap>, gen: Option<Gen>, fillMode: int,
                  interval: int, brightness: int, t: Tape): (r: Result<Drawn<Marcher>>)
    ensures r.Ok? <==> leds.TrickLEDArg?
    ensures r.Ok? ==> r.value.value.fillMode == (if fillMode == 0 then FillModeSolid else fillMode)
    ensures r.Ok? && palette.Some? ==> r.value.value.palette == palette.value && r.value.rest == t
    ensures r.Ok? && palette.None? ==> ByteMaps.Valid(r.value.value.palette) && r.value.value.palette.n == 20
  {
    var base :- Init(leds, interval, brightness);
    var pal := if palette.Some? then Drawn(palette.value, t) else DefaultPalette(20, base.brightness, t).value;
    Ok(Drawn(Marcher(base, kind, pal.value, gen, if fillMode == 0 then FillModeSolid else fillMode, [], [], 0, IntColor(0)), pal.rest))
  }

  /** `[0, calc_n - 1]` for `Convergent`; `[hwp, hwp + 1]` with
      `hwp = calc_n // 2` for `Divergent`. */
  function InsertPoints(kind: Kind, calcN: nat): (r: seq<int>)
    ensures |r| == 2
    ensures kind == Converge && calcN >= 1 ==> r[0] == 0 && r[1] == calcN - 1
    ensures kind == Diverge && calcN >= 3 ==> 0 < r[0] && r[1] == r[0] + 1 < calcN
  {
    if kind == Converge then [0, calcN - 1] else [calcN / 2, calcN / 2 + 1]
  }

  /** `palette[i]`: a tuple for a palette of several bytes per entry, an int
      for a one-byte palette. */
  function PaletteEntry(pal: ByteMaps.ByteMap, i: int): (r: Result<ColorArg>)
    ensures ByteMaps.Valid(pal) && 0 <= i < pal.n && pal.bpi >= 2 ==> r == Ok(TupleColor(ByteMaps.Item(pal, i)))
  {
    assert ByteMaps.Valid(pal) && 0 <= i < pal.n ==> ByteMaps.GetItem(pal, i) == Ok(ByteMaps.Item(pal, i)) by {
      if ByteMaps.Valid(pal) && 0 <= i < pal.n {
        ByteMaps.GetItemSpec(pal, i);
      }
    }
    var v :- ByteMaps.GetItem(pal, i);
    if pal.bpi > 1 then Ok(TupleColor(v)) else Ok(IntColor(v[0]))
  }

  /** `for ip in keys: leds[ip] = color` */
  function Paint(s: Strip, keys: seq<int>, color: ColorArg): (r: Result<Strip>)
    ensures r.Ok? ==> Shape(r.value, s)
    decreases |keys|
  {
    if keys == [] then Ok(s)
    else
      var s' :- SetItem(s, keys[0], color);
      Paint(s', keys[1..], color)
  }

  /** Painting in-range keys with a writable colour sets exactly those
      pixels to it. */
  lemma {:induction false} PaintSpec(s: Strip, keys: seq<int>, color: ColorArg)
    requires Strips.Valid(s) && Writable(s, color) && forall k :: 0 <= k < |keys| ==> 0 <= keys[k] < s.n
    ensures Paint(s, keys, color).Ok?
    ensures var r := Paint(s, keys, color).value;
      Strips.Valid(r) && forall p :: 0 <= p < s.n ==> Pixel(r, p) == if p in keys then Written(s, color) else Pixel(s, p)
    decreases |keys|
  {
    if keys != [] {
      SetItemSpec(s, keys[0], color);
      var s' := SetItem(s, keys[0], color).value;
      assert Writable(s', color) && Written(s', color) == Written(s, color);
      PaintSpec(s', keys[1..], color);
      forall p | 0 <= p < s.n ensures p in keys <==> p == keys[0] || p in keys[1..] {
        assert keys == [keys[0]] + keys[1..];
      }
    }
  }

  /** `start_cycle`: the movers go back to the insertion points, the strip
      turns black, the next palette entry (cyclically) is taken and painted
      at the insertion points. Turning a strip of more than three bytes per
      pixel black raises IndexError; after that, an empty palette divides
      by zero. */
  function StartCycle(a: Marcher): (r: Result<Marcher>)
    ensures a.base.leds.bpp > 3 ==> r == Err(IndexError)
    ensures a.base.leds.bpp <= 3 && a.palette.n == 0 ==> r == Err(ZeroDivisionError)
    ensures r.Ok? ==> r.value.movers == a.inserts && r.value.paletteIdx == (a.paletteIdx + 1) % a.palette.n
    ensures r.Ok? ==> Shape(r.value.base.leds, a.base.leds)
  {
    var black :- FillBlack(a.base.leds);
    if ByteMaps.Len(a.palette) == 0 then Err(ZeroDivisionError)
    else
      var idx := (a.paletteIdx + 1) % ByteMaps.Len(a.palette);
      var color :- PaletteEntry(a.palette, idx);
      var leds :- Paint(black, a.inserts, color);
      Ok(a.(base := a.base.(leds := leds), movers := a.inserts, paletteIdx := idx, color := color))
  }

  /** `setup`: with a generator, the palette is first refilled from it;
      then the insertion points are fixed, the palette index reset and the
      first cycle started. */
  function Setup(a: Marcher, gb: byte, t: Tape): (r: Result<Drawn<Marcher>>)
    requires a.gen.Some? ==> Generators.Valid(a.gen.value)
    ensures r.Ok? ==> r.value.value.inserts == InsertPoints(a.kind, a.base.calcN)
    ensures r.Ok? ==> r.value.value.movers == r.value.value.inserts
    ensures r.Ok? && a.gen.None? ==> r.value.rest == t && r.value.value.palette == a.palette
  {
    var p :- if a.gen.Some? then
        var f :- ByteMaps.FillGen(a.palette, a.gen.value, gb, t, 0, None, 1);
        Ok(Drawn(a.(palette := f.bytes, gen := Some(f.gen)), f.rest))
      else Ok(Drawn(a, t));
    var b := p.value.(inserts := InsertPoints(a.kind, a.base.calcN), paletteIdx := 0);
    var c :- StartCycle(b);
    Ok(Drawn(c, p.rest))
  }

  /** The direction of mover number `j`: the first mover goes forwards in
      `Convergent` and backwards in `Divergent`, and each further one the
      opposite way to the one before. */
  function Dir(kind: Kind, j: nat): (d: int)
    ensures d == 1 || d == -1
  {
    if (j % 2 == 0) == (kind == Converge) then 1 else -1
  }

  /** `not any(pixel)`: every byte is zero. */
  predicate Dark(c: Color) {
    c == Zeros(|c|)
  }

  /** What a frame's pass over the movers collects: the strip, the movers'
      new places, and whether a blocked mover asks for new insertions or a
      new cycle. */
  datatype Sweep = Sweep(leds: Strip, moved: seq<int>, newInsert: bool, newCycle: bool)

  /** Movers `j` onwards: a mover whose next place is a black computed
      pixel moves there (its colour goes with it and its old place turns
      black); a blocked one sets `new_cycle` if it is at an insertion
      point and `new_insert` otherwise; a step off the computed pixels is
      only reported by `Convergent` and sets `new_insert` in `Divergent`.
      A mover that does not move is dropped. */
  function MarchFrom(sw: Sweep, kind: Kind, movers: seq<int>, inserts: seq<int>, calcN: nat, j: nat): (r: Result<Sweep>)
    ensures r.Ok? ==> Shape(r.value.leds, sw.leds)
    decreases |movers| - j, 1
  {
    if j >= |movers| then Ok(sw)
    else MarchStep(sw, kind, movers, inserts, calcN, j)
  }

  /** Mover `j`, then the movers after it. */
  function MarchStep(sw: Sweep, kind: Kind, movers: seq<int>, inserts: seq<int>, calcN: nat, j: nat): (r: Result<Sweep>)
    requires j < |movers|
    ensures r.Ok? ==> Shape(r.value.leds, sw.leds)
    decreases |movers| - j, 0
  {
    var mv := movers[j];
    var ni := mv + Dir(kind, j);
    if 0 <= ni < calcN then
      var target :- GetPixel(sw.leds, ni);
      if Dark(target) then
        var s2 :- Swapped(sw.leds, mv, ni);
        MarchFrom(sw.(leds := s2, moved := sw.moved + [ni]), kind, movers, inserts, calcN, j + 1)
      else if mv in inserts then MarchFrom(sw.(newCycle := true), kind, movers, inserts, calcN, j + 1)
      else MarchFrom(sw.(newInsert := true), kind, movers, inserts, calcN, j + 1)
    else if kind == Diverge then MarchFrom(sw.(newInsert := true), kind, movers, inserts, calcN, j + 1)
    else MarchFrom(sw, kind, movers, inserts, calcN, j + 1)
  }

  /** `leds[ni] = leds[mv]; leds[mv] = 0` */
  function Swapped(s: Strip, mv: int, ni: int): (r: Result<Strip>)
    ensures r.Ok? ==> Shape(r.value, s)
  {
    var c :- GetPixel(s, mv);
    var s1 :- SetItem(s, ni, TupleColor(c));
    SetItem(s1, mv, IntColor(0))
  }

  /** `calc_frame`: march every mover; a new cycle restarts everything; new
      insertions (in `FILL_MODE_MULTI`, with the next palette colour) paint
      the insertion points and make them the movers; otherwise the movers
      that moved carry on. */
  function CalcFrame(a: Marcher): (r: Result<Marcher>)
    ensures r.Ok? ==> Shape(r.value.base.leds, a.base.leds) && r.value.inserts == a.inserts
  {
    var sw :- MarchFrom(Sweep(a.base.leds, [], false, false), a.kind, a.movers, a.inserts, a.base.calcN, 0);
    var b := a.(base := a.base.(leds := sw.leds));
    if sw.newCycle then StartCycle(b)
    else if sw.newInsert then Insert(b)
    else Ok(b.(movers := sw.moved))
  }

  /** The `new_insert` branch of `calc_frame`: in `FILL_MODE_MULTI` the
      next palette colour is taken first; the colour is painted at the
      insertion points, which become the movers. */
  function Insert(b: Marcher): (r: Result<Marcher>)
    ensures b.fillMode == FillModeMulti && b.palette.n == 0 ==> r == Err(ZeroDivisionError)
    ensures r.Ok? ==> Shape(r.value.base.leds, b.base.leds) && r.value.movers == b.inserts && r.value.inserts == b.inserts
  {
    var c :- if b.fillMode == FillModeMulti then
        if ByteMaps.Len(b.palette) == 0 then Err(ZeroDivisionError)
        else
          var idx := (b.paletteIdx + 1) % ByteMaps.Len(b.palette);
          var color :- PaletteEntry(b.palette, idx);
          Ok(b.(paletteIdx := idx, color := color))
      else Ok(b);
    var leds :- Paint(c.base.leds, b.inserts, c.color);
    Ok(c.(base := c.base.(leds := leds), movers := b.inserts))
  }

  // ------------------------------------------------------------ properties

  /** Places on the computed pixels. */
  predicate InRange(ps: seq<int>, calcN: nat) {
    forall k :: 0 <= k < |ps| ==> 0 <= ps[k] < calcN
  }

  /** The state every frame relies on: the insertion points are the kind's
      and lie on the computed pixels, the movers too, and the palette has
      entries as wide as a pixel. A pixel holds at most three bytes: on a
      wider strip `setup` already raises IndexError (`SetupValid`), so no
      frame ever runs. */
  predicate Valid(a: Marcher) {
    && Strips.Valid(a.base.leds) && a.base.calcN <= a.base.leds.n
    && a.inserts == InsertPoints(a.kind, a.base.calcN) && InRange(a.inserts, a.base.calcN)
    && InRange(a.movers, a.base.calcN)
    && ByteMaps.Valid(a.palette) && a.palette.n > 0 && a.palette.bpi == a.base.leds.bpp >= 2
    && a.base.leds.bpp <= 3
    && Writable(a.base.leds, a.color)
  }

  /** The insertion points lie on the computed pixels exactly when there
      is at least one computed pixel (`Convergent`) or at least three
      (`Divergent`). */
  lemma InsertsInRange(kind: Kind, calcN: nat)
    ensures InRange(InsertPoints(kind, calcN), calcN) <==> if kind == Converge then calcN >= 1 else calcN >= 3
  {
    var ip := InsertPoints(kind, calcN);
    if kind == Diverge && calcN < 3 {
      assert ip[1] == calcN / 2 + 1;
    }
  }

  /** A cycle starts on a black strip with the next palette colour at the
      insertion points and nowhere else; on a strip of more than three
      bytes per pixel it raises IndexError. */
  lemma StartCycleSpec(a: Marcher)
    requires Strips.Valid(a.base.leds) && InRange(a.inserts, a.base.leds.n)
    requires ByteMaps.Valid(a.palette) && a.palette.n > 0 && a.palette.bpi == a.base.leds.bpp >= 2
    ensures StartCycle(a).Ok? <==> a.base.leds.bpp <= 3
    ensures a.base.leds.bpp > 3 ==> StartCycle(a) == Err(IndexError)
    ensures a.base.leds.bpp <= 3 ==> var r := StartCycle(a).value; var idx := (a.paletteIdx + 1) % a.palette.n;
      Strips.Valid(r.base.leds) && r.color == TupleColor(ByteMaps.Item(a.palette, idx)) &&
      forall p :: 0 <= p < a.base.leds.n ==>
        Pixel(r.base.leds, p) == if p in a.inserts then ByteMaps.Item(a.palette, idx) else Zeros(a.base.leds.bpp)
  {
    if a.base.leds.bpp <= 3 {
      var idx := (a.paletteIdx + 1) % a.palette.n;
      var c := ByteMaps.Item(a.palette, idx);
      var s := Clear(a.base.leds);
      WritableColor(s, c);
      PaintSpec(s, a.inserts, TupleColor(c));
    }
  }

  /** A mover's step: the colour at `mv` moves to `ni`, `mv` turns black
      and nothing else changes. */
  lemma Swap(s: Strip, mv: int, ni: int) returns (s2: Strip)
    requires Strips.Valid(s) && 0 <= mv < s.n && 0 <= ni < s.n
    ensures Swapped(s, mv, ni) == Ok(s2)
    ensures Strips.Valid(s2) && s2.n == s.n && s2.bpp == s.bpp
    ensures mv != ni ==> Pixel(s2, ni) == Pixel(s, mv)
    ensures Pixel(s2, mv) == Zeros(s.bpp)
    ensures forall p :: 0 <= p < s.n && p != mv && p != ni ==> Pixel(s2, p) == Pixel(s, p)
  {
    GetPixelSpec(s, mv);
    var c := Pixel(s, mv);
    WritableColor(s, c);
    SetItemSpec(s, ni, TupleColor(c));
    var s1 := SetItem(s, ni, TupleColor(c)).value;
    assert Writable(s1, IntColor(0)) && Written(s1, IntColor(0)) == Zeros(s.bpp);
    SetItemSpec(s1, mv, IntColor(0));
    s2 := SetItem(s1, mv, IntColor(0)).value;
  }

  /** The computed pixels that are lit. */
  function Lit(s: Strip, calcN: nat): set<int>
    requires Strips.Valid(s) && calcN <= s.n
  {
    set p | 0 <= p < calcN && !Dark(Pixel(s, p))
  }

  /** A step onto a black computed pixel keeps the number of lit computed
      pixels: a lit mover's pixel stops being lit and the one ahead starts,
      and a black mover changes nothing that is lit. */
  lemma SwapKeepsLit(s: Strip, mv: int, ni: int, calcN: nat) returns (s2: Strip)
    requires Strips.Valid(s) && calcN <= s.n && 0 <= mv < calcN && 0 <= ni < calcN && mv != ni
    requires Dark(Pixel(s, ni))
    ensures Swapped(s, mv, ni) == Ok(s2) && Strips.Valid(s2) && s2.n == s.n
    ensures |Lit(s2, calcN)| == |Lit(s, calcN)|
  {
    s2 := Swap(s, mv, ni);
    LitAfterSwap(s, s2, mv, ni, calcN);
    if !Dark(Pixel(s, mv)) {
      SwapCount(Lit(s, calcN), mv, ni);
    }
  }

  /** Which computed pixels are lit after a swap. */
  lemma LitAfterSwap(s: Strip, s2: Strip, mv: int, ni: int, calcN: nat)
    requires Strips.Valid(s) && Strips.Valid(s2) && calcN <= s.n == s2.n
    requires 0 <= mv < calcN && 0 <= ni < calcN && mv != ni
    requires Dark(Pixel(s, ni)) && Pixel(s2, mv) == Zeros(s2.bpp) && Pixel(s2, ni) == Pixel(s, mv)
    requires forall p :: 0 <= p < s.n && p != mv && p != ni ==> Pixel(s2, p) == Pixel(s, p)
    ensures Lit(s2, calcN) == if Dark(Pixel(s, mv)) then Lit(s, calcN) else Lit(s, calcN) - {mv} + {ni}
  {
    assert Dark(Pixel(s2, mv));
  }

  /** Trading one member of a set for a non-member keeps its size. */
  lemma SwapCount(a: set<int>, x: int, y: int)
    requires x in a && y !in a
    ensures |a - {x} + {y}| == |a|
  {
    assert y !in a - {x};
  }

  /** Mover `j` finds a black computed pixel ahead: the strip is swapped
      (see `Swap`), the new place recorded, and the number of lit computed
      pixels kept. */
  lemma MoveOne(sw: Sweep, kind: Kind, movers: seq<int>, inserts: seq<int>, calcN: nat, j: nat) returns (sw': Sweep)
    requires Strips.Valid(sw.leds) && calcN <= sw.leds.n && j < |movers| && 0 <= movers[j] < calcN
    requires var ni := movers[j] + Dir(kind, j); 0 <= ni < calcN && Dark(Pixel(sw.leds, ni))
    ensures MarchFrom(sw, kind, movers, inserts, calcN, j) == MarchFrom(sw', kind, movers, inserts, calcN, j + 1)
    ensures var mv := movers[j]; var ni := mv + Dir(kind, j);
      Strips.Valid(sw'.leds) && sw'.leds.n == sw.leds.n && sw'.leds.bpp == sw.leds.bpp &&
      Swapped(sw.leds, mv, ni) == Ok(sw'.leds) && sw'.moved == sw.moved + [ni] &&
      sw'.newInsert == sw.newInsert && sw'.newCycle == sw.newCycle
    ensures |Lit(sw'.leds, calcN)| == |Lit(sw.leds, calcN)|
  {
    var ni := movers[j] + Dir(kind, j);
    var s2 := SwapKeepsLit(sw.leds, movers[j], ni, calcN);
    sw' := sw.(leds := s2, moved := sw.moved + [ni]);
    MarchMoves(sw, kind, movers, inserts, calcN, j, s2);
  }

  /** The pass takes a mover's step onto a black pixel. */
  lemma MarchMoves(sw: Sweep, kind: Kind, movers: seq<int>, inserts: seq<int>, calcN: nat, j: nat, s2: Strip)
    requires Strips.Valid(sw.leds) && calcN <= sw.leds.n && j < |movers|
    requires var ni := movers[j] + Dir(kind, j); 0 <= ni < calcN && Dark(Pixel(sw.leds, ni))
    requires Swapped(sw.leds, movers[j], movers[j] + Dir(kind, j)) == Ok(s2)
    ensures var ni := movers[j] + Dir(kind, j);
      MarchFrom(sw, kind, movers, inserts, calcN, j) ==
      MarchFrom(sw.(leds := s2, moved := sw.moved + [ni]), kind, movers, inserts, calcN, j + 1)
  {
    GetPixelSpec(sw.leds, movers[j] + Dir(kind, j));
  }

  /** What a mover that stays does to the flags: a blocked mover at an
      insertion point sets `new_cycle`, any other blocked mover
      `new_insert`, and a step off the computed pixels sets `new_insert`
      in `Divergent` only. */
  function Stay(sw: Sweep, kind: Kind, mv: int, ni: int, inserts: seq<int>, calcN: nat): Sweep {
    if 0 <= ni < calcN then (if mv in inserts then sw.(newCycle := true) else sw.(newInsert := true))
    else if kind == Diverge then sw.(newInsert := true) else sw
  }

  /** Mover `j` stays: it is blocked by a lit pixel or would leave the
      computed pixels. The strip and the recorded places are untouched. */
  lemma StayOne(sw: Sweep, kind: Kind, movers: seq<int>, inserts: seq<int>, calcN: nat, j: nat) returns (sw': Sweep)
    requires Strips.Valid(sw.leds) && calcN <= sw.leds.n && j < |movers|
    requires var ni := movers[j] + Dir(kind, j); !(0 <= ni < calcN && Dark(Pixel(sw.leds, ni)))
    ensures MarchFrom(sw, kind, movers, inserts, calcN, j) == MarchFrom(sw', kind, movers, inserts, calcN, j + 1)
    ensures sw' == Stay(sw, kind, movers[j], movers[j] + Dir(kind, j), inserts, calcN)
    ensures sw'.leds == sw.leds && sw'.moved == sw.moved
  {
    var ni := movers[j] + Dir(kind, j);
    if 0 <= ni < calcN {
      GetPixelSpec(sw.leds, ni);
    }
    sw' := Stay(sw, kind, movers[j], ni, inserts, calcN);
    assert MarchStep(sw, kind, movers, inserts, calcN, j) == MarchFrom(sw', kind, movers, inserts, calcN, j + 1);
  }

  /** One step of the pass, whichever way it goes: what it records and
      that it keeps the number of lit computed pixels. */
  lemma StepOne(sw: Sweep, kind: Kind, movers: seq<int>, inserts: seq<int>, calcN: nat, j: nat) returns (sw': Sweep)
    requires Strips.Valid(sw.leds) && calcN <= sw.leds.n && InRange(movers, calcN) && j < |movers|
    ensures MarchFrom(sw, kind, movers, inserts, calcN, j) == MarchFrom(sw', kind, movers, inserts, calcN, j + 1)
    ensures Strips.Valid(sw'.leds) && sw'.leds.n == sw.leds.n && sw'.leds.bpp == sw.leds.bpp
    ensures Stepped(sw, sw', kind, movers, inserts, calcN, j)
    ensures var ni := movers[j] + Dir(kind, j);
      sw'.moved == if 0 <= ni < calcN && Dark(Pixel(sw.leds, ni)) then sw.moved + [ni] else sw.moved
    ensures |Lit(sw'.leds, calcN)| == |Lit(sw.leds, calcN)|
  {
    var ni := movers[j] + Dir(kind, j);
    if 0 <= ni < calcN && Dark(Pixel(sw.leds, ni)) {
      sw' := MoveOne(sw, kind, movers, inserts, calcN, j);
    } else {
      sw' := StayOne(sw, kind, movers, inserts, calcN, j);
    }
  }

  /** The pass over the movers from `j` on succeeds; every new place it
      records is the place ahead of one of those movers and lies on the
      computed pixels; and it never changes how many computed pixels are
      lit. */
  lemma {:induction false} MarchSpec(sw: Sweep, kind: Kind, movers: seq<int>, inserts: seq<int>, calcN: nat, j: nat)
    returns (r: Sweep)
    requires Strips.Valid(sw.leds) && calcN <= sw.leds.n && InRange(movers, calcN) && j <= |movers|
    ensures MarchFrom(sw, kind, movers, inserts, calcN, j) == Ok(r)
    ensures Strips.Valid(r.leds) && r.leds.n == sw.leds.n && r.leds.bpp == sw.leds.bpp
    ensures |sw.moved| <= |r.moved| && r.moved[..|sw.moved|] == sw.moved
    ensures forall k :: |sw.moved| <= k < |r.moved| ==>
      0 <= r.moved[k] < calcN && exists m :: j <= m < |movers| && r.moved[k] == movers[m] + Dir(kind, m)
    ensures |Lit(r.leds, calcN)| == |Lit(sw.leds, calcN)|
    decreases |movers| - j
  {
    if j >= |movers| {
      r := sw;
    } else {
      var sw' := StepOne(sw, kind, movers, inserts, calcN, j);
      r := MarchSpec(sw', kind, movers, inserts, calcN, j + 1);
      MovedCombine(sw.moved, sw'.moved, r.moved, kind, movers, calcN, j);
    }
  }

  /** The places recorded by the whole pass from those of its first step
      and of the rest. */
  lemma MovedCombine(m0: seq<int>, m1: seq<int>, m2: seq<int>, kind: Kind, movers: seq<int>, calcN: nat, j: nat)
    requires j < |movers|
    requires var ni := movers[j] + Dir(kind, j); m1 == m0 || (m1 == m0 + [ni] && 0 <= ni < calcN)
    requires |m1| <= |m2| && m2[..|m1|] == m1
    requires forall k :: |m1| <= k < |m2| ==>
      0 <= m2[k] < calcN && exists m :: j + 1 <= m < |movers| && m2[k] == movers[m] + Dir(kind, m)
    ensures |m0| <= |m2| && m2[..|m0|] == m0
    ensures forall k :: |m0| <= k < |m2| ==>
      0 <= m2[k] < calcN && exists m :: j <= m < |movers| && m2[k] == movers[m] + Dir(kind, m)
  {
    assert m2[..|m0|] == m2[..|m1|][..|m0|];
    forall k | |m0| <= k < |m2|
      ensures 0 <= m2[k] < calcN && exists m :: j <= m < |movers| && m2[k] == movers[m] + Dir(kind, m)
    {
      if k < |m1| {
        assert m2[k] == m1[k] == movers[j] + Dir(kind, j);
      }
    }
  }

  /** Mover `m` is blocked: the pixel ahead of it is a lit computed pixel
      on the strip as the movers before it (from mover `j` on, starting
      from `sw`) left it. */
  predicate Blocked(sw: Sweep, kind: Kind, movers: seq<int>, inserts: seq<int>, calcN: nat, j: nat, m: nat)
    requires j <= m < |movers|
  {
    var before := MarchFrom(sw, kind, movers[..m], inserts, calcN, j);
    var ni := movers[m] + Dir(kind, m);
    before.Ok? && 0 <= ni < calcN && GetPixel(before.value.leds, ni).Ok? && !Dark(GetPixel(before.value.leds, ni).value)
  }

  /** Mover `m` would step off the computed pixels. */
  predicate Off(kind: Kind, movers: seq<int>, calcN: nat, m: nat)
    requires m < |movers|
  {
    !(0 <= movers[m] + Dir(kind, m) < calcN)
  }

  /** Where mover `j` leaves the sweep: moved on, or stayed (`Stay`). */
  predicate Stepped(sw: Sweep, sw': Sweep, kind: Kind, movers: seq<int>, inserts: seq<int>, calcN: nat, j: nat)
    requires Strips.Valid(sw.leds) && calcN <= sw.leds.n && j < |movers|
  {
    var mv := movers[j];
    var ni := mv + Dir(kind, j);
    if 0 <= ni < calcN && Dark(Pixel(sw.leds, ni)) then
      Swapped(sw.leds, mv, ni) == Ok(sw'.leds) && sw'.moved == sw.moved + [ni] &&
      sw'.newInsert == sw.newInsert && sw'.newCycle == sw.newCycle
    else sw' == Stay(sw, kind, mv, ni, inserts, calcN)
  }

  /** The pass up to mover `m`, after the step of mover `j`, is the pass
      from the sweep that step left. */
  lemma PrefixStep(sw: Sweep, sw': Sweep, kind: Kind, movers: seq<int>, inserts: seq<int>, calcN: nat, j: nat, m: nat)
    requires Strips.Valid(sw.leds) && calcN <= sw.leds.n && InRange(movers, calcN) && j < m <= |movers|
    requires Stepped(sw, sw', kind, movers, inserts, calcN, j)
    ensures MarchFrom(sw, kind, movers[..m], inserts, calcN, j) == MarchFrom(sw', kind, movers[..m], inserts, calcN, j + 1)
  {
    var ni := movers[j] + Dir(kind, j);
    if 0 <= ni < calcN && Dark(Pixel(sw.leds, ni)) {
      PrefixMove(sw, sw', kind, movers, inserts, calcN, j, m);
    } else {
      PrefixStay(sw, kind, movers, inserts, calcN, j, m);
    }
  }

  /** `PrefixStep` for a mover that moves. */
  lemma PrefixMove(sw: Sweep, sw': Sweep, kind: Kind, movers: seq<int>, inserts: seq<int>, calcN: nat, j: nat, m: nat)
    requires Strips.Valid(sw.leds) && calcN <= sw.leds.n && InRange(movers, calcN) && j < m <= |movers|
    requires var ni := movers[j] + Dir(kind, j);
      (0 <= ni < calcN && Dark(Pixel(sw.leds, ni)) &&
       Swapped(sw.leds, movers[j], ni) == Ok(sw'.leds) && sw'.moved == sw.moved + [ni] &&
       sw'.newInsert == sw.newInsert && sw'.newCycle == sw.newCycle)
    ensures MarchFrom(sw, kind, movers[..m], inserts, calcN, j) == MarchFrom(sw', kind, movers[..m], inserts, calcN, j + 1)
  {
    var prefix := movers[..m];
    assert prefix[j] == movers[j];
    MarchMoves(sw, kind, prefix, inserts, calcN, j, sw'.leds);
    assert sw' == sw.(leds := sw'.leds, moved := sw.moved + [movers[j] + Dir(kind, j)]);
  }

  /** `PrefixStep` for a mover that stays. */
  lemma PrefixStay(sw: Sweep, kind: Kind, movers: seq<int>, inserts: seq<int>, calcN: nat, j: nat, m: nat)
    requires Strips.Valid(sw.leds) && calcN <= sw.leds.n && j < m <= |movers|
    requires var ni := movers[j] + Dir(kind, j); !(0 <= ni < calcN && Dark(Pixel(sw.leds, ni)))
    ensures MarchFrom(sw, kind, movers[..m], inserts, calcN, j) ==
      MarchFrom(Stay(sw, kind, movers[j], movers[j] + Dir(kind, j), inserts, calcN), kind, movers[..m], inserts, calcN, j + 1)
  {
    var prefix := movers[..m];
    assert prefix[j] == movers[j];
    var x := StayOne(sw, kind, prefix, inserts, calcN, j);
  }


  /** One step of the pass and the flags it sets; for the movers after it,
      being blocked is the same seen from either sweep. */
  lemma StepFlags(sw: Sweep, kind: Kind, movers: seq<int>, inserts: seq<int>, calcN: nat, j: nat) returns (sw': Sweep)
    requires Strips.Valid(sw.leds) && calcN <= sw.leds.n && InRange(movers, calcN) && j < |movers|
    ensures MarchFrom(sw, kind, movers, inserts, calcN, j) == MarchFrom(sw', kind, movers, inserts, calcN, j + 1)
    ensures Strips.Valid(sw'.leds) && sw'.leds.n == sw.leds.n
    ensures sw'.newCycle <==> (sw.newCycle || (movers[j] in inserts && Blocked(sw, kind, movers, inserts, calcN, j, j)))
    ensures sw'.newInsert <==> (sw.newInsert ||
      (movers[j] !in inserts && Blocked(sw, kind, movers, inserts, calcN, j, j)) || (kind == Diverge && Off(kind, movers, calcN, j)))
    ensures forall m :: j < m < |movers| ==>
      (Blocked(sw, kind, movers, inserts, calcN, j, m) <==> Blocked(sw', kind, movers, inserts, calcN, j + 1, m))
  {
    sw' := StepOne(sw, kind, movers, inserts, calcN, j);
    BlockedHere(sw, kind, movers, inserts, calcN, j);
    BlockedAfter(sw, sw', kind, movers, inserts, calcN, j);
  }

  /** Mover `j` is blocked, seen from the sweep it starts from, exactly
      when the computed pixel ahead of it is lit. */
  lemma BlockedHere(sw: Sweep, kind: Kind, movers: seq<int>, inserts: seq<int>, calcN: nat, j: nat)
    requires Strips.Valid(sw.leds) && calcN <= sw.leds.n && j < |movers|
    ensures var ni := movers[j] + Dir(kind, j);
      Blocked(sw, kind, movers, inserts, calcN, j, j) <==> (0 <= ni < calcN && !Dark(Pixel(sw.leds, ni)))
  {
    assert MarchFrom(sw, kind, movers[..j], inserts, calcN, j) == Ok(sw);
    var ni := movers[j] + Dir(kind, j);
    if 0 <= ni < calcN {
      GetPixelSpec(sw.leds, ni);
    }
  }

  /** For the movers after `j`, being blocked is the same seen from the
      sweep before mover `j` and from the one its step left. */
  lemma BlockedAfter(sw: Sweep, sw': Sweep, kind: Kind, movers: seq<int>, inserts: seq<int>, calcN: nat, j: nat)
    requires Strips.Valid(sw.leds) && calcN <= sw.leds.n && InRange(movers, calcN) && j < |movers|
    requires Stepped(sw, sw', kind, movers, inserts, calcN, j)
    ensures forall m :: j < m < |movers| ==>
      (Blocked(sw, kind, movers, inserts, calcN, j, m) <==> Blocked(sw', kind, movers, inserts, calcN, j + 1, m))
  {
    forall m | j < m < |movers|
      ensures Blocked(sw, kind, movers, inserts, calcN, j, m) <==> Blocked(sw', kind, movers, inserts, calcN, j + 1, m)
    {
      PrefixStep(sw, sw', kind, movers, inserts, calcN, j, m);
    }
  }


  /** The pass asks for a new cycle exactly when a mover at an insertion
      point is blocked, and for new insertions exactly when a mover
      elsewhere is blocked or, in `Divergent`, a mover would step off the
      computed pixels (flags already set stay set). */
  lemma {:induction false} MarchFlags(sw: Sweep, kind: Kind, movers: seq<int>, inserts: seq<int>, calcN: nat, j: nat)
    requires Strips.Valid(sw.leds) && calcN <= sw.leds.n && InRange(movers, calcN) && j <= |movers|
    ensures MarchFrom(sw, kind, movers, inserts, calcN, j).Ok?
    ensures var r := MarchFrom(sw, kind, movers, inserts, calcN, j).value;
      r.newCycle <==> (sw.newCycle ||
        exists m :: j <= m < |movers| && movers[m] in inserts && Blocked(sw, kind, movers, inserts, calcN, j, m))
    ensures var r := MarchFrom(sw, kind, movers, inserts, calcN, j).value;
      r.newInsert <==> (sw.newInsert ||
        exists m :: j <= m < |movers| &&
          ((movers[m] !in inserts && Blocked(sw, kind, movers, inserts, calcN, j, m)) || (kind == Diverge && Off(kind, movers, calcN, m))))
    decreases |movers| - j
  {
    var r := MarchSpec(sw, kind, movers, inserts, calcN, j);
    if j < |movers| {
      var sw' := StepFlags(sw, kind, movers, inserts, calcN, j);
      MarchFlags(sw', kind, movers, inserts, calcN, j + 1);
      CycleCombine(sw, sw', r, kind, movers, inserts, calcN, j);
      InsertCombine(sw, sw', r, kind, movers, inserts, calcN, j);
    } else {
      assert r == sw;
    }
  }

  /** `new_cycle` over the whole pass from its first step and the rest. */
  lemma CycleCombine(sw: Sweep, sw': Sweep, r: Sweep, kind: Kind, movers: seq<int>, inserts: seq<int>, calcN: nat, j: nat)
    requires j < |movers|
    requires sw'.newCycle <==> sw.newCycle || (movers[j] in inserts && Blocked(sw, kind, movers, inserts, calcN, j, j))
    requires forall m :: j < m < |movers| ==>
      (Blocked(sw, kind, movers, inserts, calcN, j, m) <==> Blocked(sw', kind, movers, inserts, calcN, j + 1, m))
    requires r.newCycle <==> (sw'.newCycle ||
      exists m :: j + 1 <= m < |movers| && movers[m] in inserts && Blocked(sw', kind, movers, inserts, calcN, j + 1, m))
    ensures r.newCycle <==> (sw.newCycle ||
      exists m :: j <= m < |movers| && movers[m] in inserts && Blocked(sw, kind, movers, inserts, calcN, j, m))
  {
    if exists m :: j <= m < |movers| && movers[m] in inserts && Blocked(sw, kind, movers, inserts, calcN, j, m) {
      var m :| j <= m < |movers| && movers[m] in inserts && Blocked(sw, kind, movers, inserts, calcN, j, m);
      if m > j {
        assert Blocked(sw', kind, movers, inserts, calcN, j + 1, m);
      }
    }
    if exists m :: j + 1 <= m < |movers| && movers[m] in inserts && Blocked(sw', kind, movers, inserts, calcN, j + 1, m) {
      var m :| j + 1 <= m < |movers| && movers[m] in inserts && Blocked(sw', kind, movers, inserts, calcN, j + 1, m);
      assert Blocked(sw, kind, movers, inserts, calcN, j, m);
    }
  }

  /** `new_insert` over the whole pass from its first step and the rest. */
  lemma InsertCombine(sw: Sweep, sw': Sweep, r: Sweep, kind: Kind, movers: seq<int>, inserts: seq<int>, calcN: nat, j: nat)
    requires j < |movers|
    requires sw'.newInsert <==> (sw.newInsert ||
      (movers[j] !in inserts && Blocked(sw, kind, movers, inserts, calcN, j, j)) || (kind == Diverge && Off(kind, movers, calcN, j)))
    requires forall m :: j < m < |movers| ==>
      (Blocked(sw, kind, movers, inserts, calcN, j, m) <==> Blocked(sw', kind, movers, inserts, calcN, j + 1, m))
    requires r.newInsert <==> (sw'.newInsert ||
      exists m :: j + 1 <= m < |movers| &&
        ((movers[m] !in inserts && Blocked(sw', kind, movers, inserts, calcN, j + 1, m)) || (kind == Diverge && Off(kind, movers, calcN, m))))
    ensures r.newInsert <==> (sw.newInsert ||
      exists m :: j <= m < |movers| &&
        ((movers[m] !in inserts && Blocked(sw, kind, movers, inserts, calcN, j, m)) || (kind == Diverge && Off(kind, movers, calcN, m))))
  {
    if exists m :: j <= m < |movers| &&
        ((movers[m] !in inserts && Blocked(sw, kind, movers, inserts, calcN, j, m)) || (kind == Diverge && Off(kind, movers, calcN, m))) {
      var m :| j <= m < |movers| &&
        ((movers[m] !in inserts && Blocked(sw, kind, movers, inserts, calcN, j, m)) || (kind == Diverge && Off(kind, movers, calcN, m)));
      if m > j {
        assert Blocked(sw, kind, movers, inserts, calcN, j, m) <==> Blocked(sw', kind, movers, inserts, calcN, j + 1, m);
      }
    }
    if exists m :: j + 1 <= m < |movers| &&
        ((movers[m] !in inserts && Blocked(sw', kind, movers, inserts, calcN, j + 1, m)) || (kind == Diverge && Off(kind, movers, calcN, m))) {
      var m :| j + 1 <= m < |movers| &&
        ((movers[m] !in inserts && Blocked(sw', kind, movers, inserts, calcN, j + 1, m)) || (kind == Diverge && Off(kind, movers, calcN, m)));
      assert Blocked(sw, kind, movers, inserts, calcN, j, m) <==> Blocked(sw', kind, movers, inserts, calcN, j + 1, m);
    }
  }

  /** New insertions paint the insertion points, and only them, with the
      colour in use (in `FILL_MODE_MULTI` the next palette entry), and
      keep the state valid. */
  lemma InsertSpec(b: Marcher)
    requires Valid(b)
    ensures Insert(b).Ok?
    ensures var r := Insert(b).value; var idx := (b.paletteIdx + 1) % b.palette.n;
      Valid(r) &&
      r.color == (if b.fillMode == FillModeMulti then TupleColor(ByteMaps.Item(b.palette, idx)) else b.color) &&
      forall p :: 0 <= p < b.base.leds.n ==>
        Pixel(r.base.leds, p) == if p in b.inserts then Written(b.base.leds, r.color) else Pixel(b.base.leds, p)
  {
    var idx := (b.paletteIdx + 1) % b.palette.n;
    WritableColor(b.base.leds, ByteMaps.Item(b.palette, idx));
    var c := if b.fillMode == FillModeMulti then b.(paletteIdx := idx, color := TupleColor(ByteMaps.Item(b.palette, idx))) else b;
    PaintSpec(b.base.leds, b.inserts, c.color);
  }

  /** Starting a cycle keeps the state valid. */
  lemma StartCycleValid(b: Marcher)
    requires Valid(b)
    ensures StartCycle(b).Ok? && Valid(StartCycle(b).value)
  {
    StartCycleSpec(b);
    WritableColor(b.base.leds, ByteMaps.Item(b.palette, (b.paletteIdx + 1) % b.palette.n));
  }

  /** `setup` without a generator gives a valid state when the strip has
      enough computed pixels for the insertion points and the palette has
      entries as wide as a pixel, and raises IndexError when its first
      cycle clears a strip of more than three bytes per pixel. */
  lemma SetupValid(a: Marcher, gb: byte, t: Tape)
    requires a.gen.None? && Strips.Valid(a.base.leds) && a.base.calcN <= a.base.leds.n
    requires if a.kind == Converge then a.base.calcN >= 1 else a.base.calcN >= 3
    requires ByteMaps.Valid(a.palette) && a.palette.n > 0 && a.palette.bpi == a.base.leds.bpp >= 2
    ensures Setup(a, gb, t).Ok? <==> a.base.leds.bpp <= 3
    ensures a.base.leds.bpp > 3 ==> Setup(a, gb, t) == Err(IndexError)
    ensures a.base.leds.bpp <= 3 ==> Valid(Setup(a, gb, t).value.value)
    ensures a.base.leds.bpp <= 3 ==> Setup(a, gb, t).value.value.paletteIdx == 1 % a.palette.n
  {
    InsertsInRange(a.kind, a.base.calcN);
    var b := a.(inserts := InsertPoints(a.kind, a.base.calcN), paletteIdx := 0);
    StartCycleSpec(b);
    if a.base.leds.bpp <= 3 {
      WritableColor(b.base.leds, ByteMaps.Item(b.palette, 1 % b.palette.n));
    }
  }

  /** A frame keeps the state valid: the movers stay on the computed
      pixels whichever way the frame ends. */
  lemma CalcFrameValid(a: Marcher)
    requires Valid(a)
    ensures CalcFrame(a).Ok? && Valid(CalcFrame(a).value)
  {
    var sw := MarchSpec(Sweep(a.base.leds, [], false, false), a.kind, a.movers, a.inserts, a.base.calcN, 0);
    var b := a.(base := a.base.(leds := sw.leds));
    if sw.newCycle {
      StartCycleValid(b);
    } else if sw.newInsert {
      InsertSpec(b);
    }
  }

  /** A frame starts a new cycle exactly when a mover still at an
      insertion point is blocked by a lit pixel. */
  lemma NewCycleAtInsert(a: Marcher)
    requires Valid(a)
    ensures var sw := MarchFrom(Sweep(a.base.leds, [], false, false), a.kind, a.movers, a.inserts, a.base.calcN, 0);
      sw.Ok? && (sw.value.newCycle <==>
        exists m :: 0 <= m < |a.movers| && a.movers[m] in a.inserts &&
          Blocked(Sweep(a.base.leds, [], false, false), a.kind, a.movers, a.inserts, a.base.calcN, 0, m))
  {
    MarchFlags(Sweep(a.base.leds, [], false, false), a.kind, a.movers, a.inserts, a.base.calcN, 0);
  }

  /** A frame in which no mover is blocked (and, in `Divergent`, none would
      step off the computed pixels) moves the movers on and keeps the
      number of lit computed pixels. */
  lemma QuietFrameKeepsLit(a: Marcher) returns (r: Marcher)
    requires Valid(a)
    requires forall m :: 0 <= m < |a.movers| ==>
      !Blocked(Sweep(a.base.leds, [], false, false), a.kind, a.movers, a.inserts, a.base.calcN, 0, m) &&
      !(a.kind == Diverge && Off(a.kind, a.movers, a.base.calcN, m))
    ensures CalcFrame(a) == Ok(r) && Strips.Valid(r.base.leds) && r.base.calcN == a.base.calcN
    ensures r.base.leds.n == a.base.leds.n
    ensures |Lit(r.base.leds, a.base.calcN)| == |Lit(a.base.leds, a.base.calcN)|
  {
    var sw0 := Sweep(a.base.leds, [], false, false);
    var sw := MarchSpec(sw0, a.kind, a.movers, a.inserts, a.base.calcN, 0);
    MarchFlags(sw0, a.kind, a.movers, a.inserts, a.base.calcN, 0);
    r := a.(base := a.base.(leds := sw.leds), movers := sw.moved);
  }

  /** Movers meeting (a mover blocked away from the insertion points) with
      no mover at an insertion point blocked: the frame only inserts. The
      marched strip `sw.leds` is kept, the insertion points are painted
      with the colour in use (the next palette entry in `FILL_MODE_MULTI`)
      and they become the movers. No new cycle clears the strip. */
  lemma MeetInMiddle(a: Marcher) returns (sw: Sweep, r: Marcher)
    requires Valid(a)
    requires forall m :: (0 <= m < |a.movers| && a.movers[m] in a.inserts ==>
      !Blocked(Sweep(a.base.leds, [], false, false), a.kind, a.movers, a.inserts, a.base.calcN, 0, m))
    requires exists m :: (0 <= m < |a.movers| && a.movers[m] !in a.inserts &&
      Blocked(Sweep(a.base.leds, [], false, false), a.kind, a.movers, a.inserts, a.base.calcN, 0, m))
    ensures MarchFrom(Sweep(a.base.leds, [], false, false), a.kind, a.movers, a.inserts, a.base.calcN, 0) == Ok(sw)
    ensures Strips.Valid(sw.leds) && sw.leds.n == a.base.leds.n
    ensures CalcFrame(a) == Ok(r) && r.movers == a.inserts
    ensures Valid(r) && r.base.leds.n == sw.leds.n && r.base.leds.bpp == sw.leds.bpp
    ensures Writable(sw.leds, r.color)
    ensures r.color == if a.fillMode == FillModeMulti
      then TupleColor(ByteMaps.Item(a.palette, (a.paletteIdx + 1) % a.palette.n)) else a.color
    ensures forall p :: 0 <= p < sw.leds.n ==>
      Pixel(r.base.leds, p) == if p in a.inserts then Written(sw.leds, r.color) else Pixel(sw.leds, p)
  {
    var sw0 := Sweep(a.base.leds, [], false, false);
    sw := MarchSpec(sw0, a.kind, a.movers, a.inserts, a.base.calcN, 0);
    MarchFlags(sw0, a.kind, a.movers, a.inserts, a.base.calcN, 0);
    r := InsertFrame(a, sw);
  }

  /** The frame after a pass that asks for new insertions only. */
  lemma InsertFrame(a: Marcher, sw: Sweep) returns (r: Marcher)
    requires Valid(a)
    requires MarchFrom(Sweep(a.base.leds, [], false, false), a.kind, a.movers, a.inserts, a.base.calcN, 0) == Ok(sw)
    requires Strips.Valid(sw.leds) && sw.leds.n == a.base.leds.n && sw.leds.bpp == a.base.leds.bpp
    requires !sw.newCycle && sw.newInsert
    ensures CalcFrame(a) == Ok(r) && r.movers == a.inserts
    ensures Valid(r) && r.base.leds.n == sw.leds.n && r.base.leds.bpp == sw.leds.bpp
    ensures Writable(sw.leds, r.color)
    ensures r.color == if a.fillMode == FillModeMulti
      then TupleColor(ByteMaps.Item(a.palette, (a.paletteIdx + 1) % a.palette.n)) else a.color
    ensures forall p :: 0 <= p < sw.leds.n ==>
      Pixel(r.base.leds, p) == if p in a.inserts then Written(sw.leds, r.color) else Pixel(sw.leds, p)
  {
    FrameInserts(a, sw);
    r := InsertOnto(a, sw.leds);
  }

  /** `Insert` on the marcher with its strip replaced by a marched strip of
      the same shape. */
  lemma InsertOnto(a: Marcher, leds: Strip) returns (r: Marcher)
    requires Valid(a)
    requires Strips.Valid(leds) && leds.n == a.base.leds.n && leds.bpp == a.base.leds.bpp
    ensures Insert(a.(base := a.base.(leds := leds))) == Ok(r) && r.movers == a.inserts
    ensures Valid(r) && r.base.leds.n == leds.n && r.base.leds.bpp == leds.bpp
    ensures Writable(leds, r.color)
    ensures r.color == if a.fillMode == FillModeMulti then TupleColor(ByteMaps.Item(a.palette, (a.paletteIdx + 1) % a.palette.n)) else a.color
    ensures forall p :: 0 <= p < leds.n ==> Pixel(r.base.leds, p) == if p in a.inserts then Written(leds, r.color) else Pixel(leds, p)
  {
    var b := a.(base := a.base.(leds := leds));
    WidthWritable(a.base.leds, leds, a.color);
    assert Valid(b);
    InsertSpec(b);
    r := Insert(b).value;
    WidthWritable(r.base.leds, leds, r.color);
  }

  /** Whether a colour can be written, and what it writes, depends only on
      the pixel width. */
  lemma WidthWritable(s: Strip, s2: Strip, c: ColorArg)
    requires s.bpp == s2.bpp && Writable(s, c)
    ensures Writable(s2, c) && Written(s2, c) == Written(s, c)
  {
  }

  /** A pass that asks for new insertions and no new cycle leaves the
      frame to `Insert`. */
  lemma FrameInserts(a: Marcher, sw: Sweep)
    requires MarchFrom(Sweep(a.base.leds, [], false, false), a.kind, a.movers, a.inserts, a.base.calcN, 0) == Ok(sw)
    requires !sw.newCycle && sw.newInsert
    ensures CalcFrame(a) == Insert(a.(base := a.base.(leds := sw.leds)))
  {
  }
}

=== FILE: matrix.dfy ===
/** `TrickMatrix`: a NeoPixel strip of `width * height` pixels wired as a
    grid, row by row, either every row in the same direction
    (`LAYOUT_STRAIGHT`) or with odd rows running back (`LAYOUT_SNAKE`). */
module Matrices {
  import opened Wrappers
  import Arith
  import opened ColorMath
  import opened Strips

  const Straight := 1
  const Snake := 2

  datatype Matrix = Matrix(width: int, height: int, shape: int, leds: Strip)

  predicate Valid(m: Matrix) {
    m.width >= 0 && m.height >= 0 && Strips.Valid(m.leds) && m.leds.n == m.width * m.height
  }

  /** `TrickMatrix(pin, width, height, shape)`: a missing shape is the snake
      layout; the strip underneath has `width * height` black pixels. */
  function NewMatrix(width: nat, height: nat, shape: Option<int>, bpp: nat): (m: Matrix)
    requires bpp >= 1
    ensures Valid(m) && m.width == width && m.height == height
    ensures m.shape == if shape.None? then Snake else shape.value
  {
    Matrix(width, height, if shape.None? then Snake else shape.value, New(width * height, bpp, 0, 0))
  }

  /** `_idx(x, y)`: only the upper bounds are checked. Even rows (and every
      row of a straight layout) run left to right, odd snake rows right to
      left. */
  function Idx(m: Matrix, x: int, y: int): (r: Result<int>)
    ensures r.Err? <==> x >= m.width || y >= m.height
    ensures r.Err? ==> r.error == IndexError
  {
    if x >= m.width || y >= m.height then Err(IndexError)
    else if y % 2 == 0 || m.shape == Straight then Ok(m.width * y + x)
    else Ok(m.width * (y + 1) - x - 1)
  }

  /** The coordinate that pixel `k` of the strip shows: row `k / width`,
      counted from the row's start or, on a reversed row, from its end. */
  function Coord(m: Matrix, k: int): (c: (int, int))
    requires m.width > 0
  {
    var y := k / m.width;
    var col := k % m.width;
    if y % 2 == 0 || m.shape == Straight then (col, y) else (m.width - 1 - col, y)
  }

  /** Row `y` occupies pixels `[width * y, width * y + width)`. */
  lemma RowBounds(w: int, h: int, y: int)
    requires 0 <= y < h && w > 0
    ensures 0 <= w * y && w * y + w <= w * h
  {
    assert w * y + w == w * (y + 1);
  }

  /** Every in-range coordinate maps to a pixel of the strip, and reading
      that pixel's coordinate back gives the same coordinate. */
  lemma IdxInRange(m: Matrix, x: int, y: int)
    requires Valid(m) && 0 <= x < m.width && 0 <= y < m.height
    ensures Idx(m, x, y).Ok?
    ensures 0 <= Idx(m, x, y).value < m.width * m.height
    ensures Coord(m, Idx(m, x, y).value) == (x, y)
  {
    var w := m.width;
    RowBounds(w, m.height, y);
    var col := if y % 2 == 0 || m.shape == Straight then x else w - 1 - x;
    assert Idx(m, x, y).value == w * y + col;
    Arith.DivUnique(w * y + col, w, y, col);
  }

  /** Distinct in-range coordinates land on distinct pixels. */
  lemma IdxInjective(m: Matrix, x1: int, y1: int, x2: int, y2: int)
    requires Valid(m) && 0 <= x1 < m.width && 0 <= y1 < m.height && 0 <= x2 < m.width && 0 <= y2 < m.height
    requires Idx(m, x1, y1) == Idx(m, x2, y2)
    ensures x1 == x2 && y1 == y2
  {
    IdxInRange(m, x1, y1);
    IdxInRange(m, x2, y2);
  }

  /** Every pixel of the strip is the image of its coordinate: the mapping
      covers `[0, width * height)`. */
  lemma CoordRoundTrip(m: Matrix, k: int)
    requires Valid(m) && 0 <= k < m.width * m.height
    ensures var (x, y) := Coord(m, k);
      0 <= x < m.width && 0 <= y < m.height && Idx(m, x, y) == Ok(k)
  {
    var w := m.width;
    var y := k / w;
    var col := k % w;
    assert k == w * y + col;
    if y >= m.height {
      Arith.MulMono(m.height, y, w);
      assert false;
    }
  }

  /** In the snake layout, the pixel after the end of an even row is the
      last column of the next row: neighbours on the strip stay neighbours
      on the grid. */
  lemma SnakeTurn(m: Matrix, y: int)
    requires Valid(m) && m.shape == Snake && m.width > 0 && 0 <= y && y % 2 == 0 && y + 1 < m.height
    ensures Idx(m, m.width - 1, y).value + 1 == Idx(m, m.width - 1, y + 1).value
  {
    Arith.DivModStep(y, 2);
  }

  /** Negative coordinates are not rejected: `(-1, 0)` names index -1. */
  lemma NegativeAccepted(m: Matrix)
    requires m.width > 0 && m.height > 0
    ensures Idx(m, -1, 0) == Ok(-1)
  {
  }

  /** `pixel(x, y)`: the colour at a coordinate. */
  function PixelAt(m: Matrix, x: int, y: int): (r: Result<Color>)
  {
    var idx :- Idx(m, x, y);
    GetPixel(m.leds, idx)
  }

  /** `pixel(x, y, color)`: an int colour is written big-endian in `bpp`
      bytes (OverflowError when it does not fit), a tuple as it is. */
  function SetPixelAt(m: Matrix, x: int, y: int, color: ColorArg): (r: Result<Matrix>)
    requires !color.NoColor?
    ensures r.Ok? ==> r.value == m.(leds := r.value.leds) && r.value.leds.n == m.leds.n
  {
    var idx :- Idx(m, x, y);
    var v :- if color.IntColor? then
        if 0 <= color.v < Pow256(m.leds.bpp) then Ok(BigEndian(color.v, m.leds.bpp)) else Err(OverflowError)
      else Ok(color.t);
    var leds :- PutPixel(m.leds, idx, v);
    Ok(m.(leds := leds))
  }

  /** Setting an in-range coordinate to a colour of `bpp` bytes succeeds;
      reading it back gives the colour, and every other coordinate keeps its
      colour. */
  lemma SetThenGet(m: Matrix, x: int, y: int, c: Color, x2: int, y2: int)
    requires Valid(m) && 0 <= x < m.width && 0 <= y < m.height && |c| == m.leds.bpp && IsColor(c)
    requires 0 <= x2 < m.width && 0 <= y2 < m.height
    ensures SetPixelAt(m, x, y, TupleColor(c)).Ok?
    ensures var m' := SetPixelAt(m, x, y, TupleColor(c)).value;
      Valid(m') &&
      PixelAt(m', x2, y2) == if x2 == x && y2 == y then Ok(c) else PixelAt(m, x2, y2)
  {
    IdxInRange(m, x, y);
    IdxInRange(m, x2, y2);
    var i, j := Idx(m, x, y).value, Idx(m, x2, y2).value;
    PutPixelSpec(m.leds, i, c);
    var m' := SetPixelAt(m, x, y, TupleColor(c)).value;
    GetPixelSpec(m'.leds, j);
    GetPixelSpec(m.leds, j);
    if x2 != x || y2 != y {
      if i == j {
        IdxInjective(m, x, y, x2, y2);
      }
    }
  }
}

=== FILE: nextgen.dfy ===
/** `NextGen`: the strip scrolls one pixel per frame and a fresh colour from
    the generator is fed in at the end it scrolls away from; with `blanks`
    set, only every `blanks + 1`-th frame takes a colour and the others feed
    black. */
module NextGens {
  import opened Wrappers
  import opened ColorMath
  import opened Random
  import opened Generators
  import opened Strips
  import opened Animations
  import opened PySeq
  import ByteMaps
  import Arith

  /** `insert` is the `insert_point` entry of `state`: `None` until `setup`
      records it. */
  datatype NextGen = NextGen(base: Base, gen: Gen, blanks: int, speed: int, insert: Option<int>)

  /** The state every frame relies on: a well-formed strip that the
      computed pixels fit in, and a generator in a reachable state. */
  predicate Valid(a: NextGen) {
    Strips.Valid(a.base.leds) && a.base.calcN <= a.base.leds.n && Generators.Valid(a.gen)
  }

  /** `NextGen(leds, generator, blanks, scroll_speed)`: without a generator,
      a striped colour wheel of hue stride 10 and stripes of one pixel. */
  function Create(leds: LedsArg, gen: Option<Gen>, blanks: int, speed: int, interval: int, brightness: int): (r: Result<NextGen>)
    ensures r.Ok? <==> leds.TrickLEDArg?
    ensures r.Ok? ==> r.value.blanks == blanks && r.value.speed == speed && r.value.base == Init(leds, interval, brightness).value
    ensures r.Ok? && gen.None? ==> r.value.gen == StripedColorWheel(10, 1, 0)
    ensures r.Ok? && gen.Some? ==> r.value.gen == gen.value
    ensures r.Ok? ==> r.value.insert.None?
  {
    var g := if gen.None? then StripedColorWheel(10, 1, 0) else gen.value;
    var base :- Init(leds, interval, brightness);
    Ok(NextGen(base, g, blanks, speed, None))
  }

  /** `min(max(v, -1), 1) or 1` for a speed outside {-1, 1}: the direction
      is kept, and a zero speed goes forwards. */
  function NormSpeed(v: int): (r: int)
    ensures r == -1 || r == 1
    ensures r == -1 <==> v < 0
  {
    if v == -1 || v == 1 then v
    else
      var c := if v < -1 then -1 else if v > 1 then 1 else v;
      if c == 0 then 1 else c
  }

  /** The pixels `setup` pre-fills, in the order it fills them: every
      `blanks + 1`-th pixel from 0 when scrolling backwards (a zero step is
      a ValueError, a negative one fills nothing), every pixel from the last
      down otherwise. */
  function PrefillKeys(calcN: nat, blanks: int, speed: int): (r: Result<seq<int>>)
    ensures r.Err? <==> speed < 0 && blanks == -1
    ensures r.Err? ==> r.error == ValueError
    ensures r.Ok? ==> Distinct(r.value) && forall j :: 0 <= j < |r.value| ==> 0 <= r.value[j] < calcN
    ensures r.Ok? && speed >= 0 ==> |r.value| == calcN && forall j :: 0 <= j < calcN ==> r.value[j] == calcN - 1 - j
    ensures r.Ok? && speed < 0 && blanks >= 0 ==> forall j :: 0 <= j < |r.value| ==> r.value[j] == (blanks + 1) * j
  {
    if speed < 0 then
      if blanks + 1 == 0 then Err(ValueError)
      else if blanks + 1 < 0 then Ok([])
      else
        var keys := Range(0, calcN, blanks + 1);
        assert Distinct(keys) by {
          forall i, j | 0 <= i < j < |keys| ensures keys[i] != keys[j] {
            Arith.MulMono(i + 1, j, blanks + 1);
          }
        }
        Ok(keys)
    else
      Ok(ByteMaps.GenKeys(0, calcN - 1, -1))
  }

  /** `setup`: clear the strip, normalise the scroll speed, then pull one
      colour for each pre-filled pixel. The insertion point is the first
      pixel when scrolling forwards and the last computed pixel otherwise.
      Clearing a strip of more than three bytes per pixel raises
      IndexError before anything else happens. */
  function Setup(a: NextGen, gb: byte, t: Tape): (r: Result<Drawn<NextGen>>)
    requires Generators.Valid(a.gen)
    ensures a.base.leds.bpp > 3 ==> r == Err(IndexError)
    ensures r.Ok? ==> Generators.Valid(r.value.value.gen) && Shape(r.value.value.base.leds, a.base.leds)
    ensures r.Ok? ==> r.value.value.speed == NormSpeed(a.speed)
    ensures r.Ok? ==> r.value.value.insert == Some(if a.speed < 0 then a.base.calcN - 1 else 0)
  {
    var s :- FillBlack(a.base.leds);
    var speed := NormSpeed(a.speed);
    var keys :- PrefillKeys(a.base.calcN, a.blanks, speed);
    var f :- PullWrite(s, a.gen, gb, t, keys);
    var insert := if speed < 0 then a.base.calcN - 1 else 0;
    Ok(Drawn(a.(base := a.base.(leds := f.strip), gen := f.gen, speed := speed, insert := Some(insert)), f.rest))
  }

  /** The state `setup` draws scrolling forwards: pixel `calc_n - 1 - j`
      holds the generator's `j`-th colour, the pixels past `calc_n` are
      black, and the insertion point is the first pixel. */
  ghost predicate EndDrawn(a: NextGen, gb: byte, t: Tape, r: NextGen) {
    Generators.Valid(a.gen) && Take(a.gen, gb, t, a.base.calcN).Ok? &&
    var p := Take(a.gen, gb, t, a.base.calcN).value;
    var s := r.base.leds; var c := a.base.calcN;
    Strips.Valid(s) && c <= s.n && r.insert == Some(0) && r.speed == 1 &&
    (forall j :: 0 <= j < c ==> Pixel(s, c - 1 - j) == p.colors[j]) &&
    (forall i :: c <= i < s.n ==> Pixel(s, i) == Zeros(s.bpp))
  }

  /** After `setup` scrolling forwards, pixel `calc_n - 1 - j` holds the
      generator's `j`-th colour (the strip is filled from its far end), and
      the pixels past `calc_n` are black. On a strip of more than three
      bytes per pixel the clearing `fill((0, 0, 0))` raises IndexError. */
  lemma SetupForward(a: NextGen, gb: byte, t: Tape) returns (r: NextGen)
    requires Valid(a) && a.speed >= 0
    requires Take(a.gen, gb, t, a.base.calcN).Ok?
    requires Fits(a.base.leds, Take(a.gen, gb, t, a.base.calcN).value.colors)
    ensures Setup(a, gb, t).Ok? <==> a.base.leds.bpp <= 3
    ensures a.base.leds.bpp > 3 ==> Setup(a, gb, t) == Err(IndexError)
    ensures a.base.leds.bpp <= 3 ==> var p := Take(a.gen, gb, t, a.base.calcN).value;
      Setup(a, gb, t) == Ok(Drawn(r, p.rest)) && r.gen == p.gen
    ensures a.base.leds.bpp <= 3 ==> EndDrawn(a, gb, t, r)
  {
    r := a;
    if a.base.leds.bpp <= 3 {
      var keys := PrefillKeys(a.base.calcN, a.blanks, 1).value;
      var s := Clear(a.base.leds);
      var f, p := PullWriteKeys(s, a.gen, gb, t, keys);
      forall i | a.base.calcN <= i < s.n ensures Pixel(f.strip, i) == Zeros(s.bpp) {
        assert i !in keys;
      }
      r := Setup(a, gb, t).value.value;
    }
  }

  /** The state `setup` draws scrolling backwards with `blanks >= 0`: a
      pixel `i` on the grid of multiples of `blanks + 1` below `calc_n`
      holds the generator's `(i / (blanks + 1))`-th colour, every pixel off
      that grid is black, and the insertion point is the last computed
      pixel. */
  ghost predicate GridDrawn(a: NextGen, gb: byte, t: Tape, r: NextGen) {
    Generators.Valid(a.gen) && a.blanks >= 0 &&
    var k := |PrefillKeys(a.base.calcN, a.blanks, -1).value|;
    Take(a.gen, gb, t, k).Ok? &&
    var p := Take(a.gen, gb, t, k).value; var s := r.base.leds;
    Strips.Valid(s) && a.base.calcN <= s.n && r.insert == Some(a.base.calcN - 1) && r.speed == -1 &&
    (forall i :: 0 <= i < a.base.calcN && i % (a.blanks + 1) == 0 ==> 0 <= i / (a.blanks + 1) < |p.colors| && Pixel(s, i) == p.colors[i / (a.blanks + 1)]) &&
    (forall i :: 0 <= i < s.n && i % (a.blanks + 1) != 0 ==> Pixel(s, i) == Zeros(s.bpp))
  }

  /** After `setup` scrolling backwards with `blanks >= 0`, a pixel `i` on
      the grid of multiples of `blanks + 1` below `calc_n` holds the
      generator's `(i / (blanks + 1))`-th colour, and every pixel off that
      grid is black. On a strip of more than three bytes per pixel the
      clearing `fill((0, 0, 0))` raises IndexError. */
  lemma SetupBackward(a: NextGen, gb: byte, t: Tape) returns (r: NextGen)
    requires Valid(a) && a.speed < 0 && a.blanks >= 0
    requires var k := |PrefillKeys(a.base.calcN, a.blanks, -1).value|;
      Take(a.gen, gb, t, k).Ok? && Fits(a.base.leds, Take(a.gen, gb, t, k).value.colors)
    ensures Setup(a, gb, t).Ok? <==> a.base.leds.bpp <= 3
    ensures a.base.leds.bpp > 3 ==> Setup(a, gb, t) == Err(IndexError)
    ensures a.base.leds.bpp <= 3 ==> var k := |PrefillKeys(a.base.calcN, a.blanks, -1).value|;
      var p := Take(a.gen, gb, t, k).value;
      Setup(a, gb, t) == Ok(Drawn(r, p.rest)) && r.gen == p.gen
    ensures a.base.leds.bpp <= 3 ==> GridDrawn(a, gb, t, r)
  {
    r := a;
    if a.base.leds.bpp <= 3 {
      r := BackwardGrid(a, gb, t);
    }
  }

  /** The state `setup` leaves when scrolling backwards over a strip of
      at most three bytes per pixel: the generator's colours on the grid
      and black off it. */
  lemma BackwardGrid(a: NextGen, gb: byte, t: Tape) returns (r: NextGen)
    requires Valid(a) && a.speed < 0 && a.blanks >= 0 && a.base.leds.bpp <= 3
    requires var k := |PrefillKeys(a.base.calcN, a.blanks, -1).value|;
      Take(a.gen, gb, t, k).Ok? && Fits(a.base.leds, Take(a.gen, gb, t, k).value.colors)
    ensures var k := |PrefillKeys(a.base.calcN, a.blanks, -1).value|;
      var p := Take(a.gen, gb, t, k).value;
      Setup(a, gb, t) == Ok(Drawn(r, p.rest)) && r.gen == p.gen
    ensures GridDrawn(a, gb, t, r)
  {
    var keys := BackwardKeys(a.base.calcN, a.blanks + 1);
    var p := Take(a.gen, gb, t, |keys|).value;
    var s := Clear(a.base.leds);
    var f := BackwardFill(a, gb, t, keys);
    GridPixels(s, f, a.base.calcN, a.blanks + 1, p.colors);
    r := a.(base := a.base.(leds := f), gen := p.gen, speed := -1, insert := Some(a.base.calcN - 1));
  }

  /** The strip `setup` leaves when scrolling backwards: the generator's
      colours at the pre-filled keys over a cleared strip. */
  lemma BackwardFill(a: NextGen, gb: byte, t: Tape, keys: seq<int>) returns (f: Strip)
    requires Valid(a) && a.speed < 0 && a.blanks >= 0 && a.base.leds.bpp <= 3
    requires PrefillKeys(a.base.calcN, a.blanks, -1) == Ok(keys)
    requires Distinct(keys) && forall j :: 0 <= j < |keys| ==> 0 <= keys[j] < a.base.calcN
    requires Take(a.gen, gb, t, |keys|).Ok? && Fits(a.base.leds, Take(a.gen, gb, t, |keys|).value.colors)
    ensures var p := Take(a.gen, gb, t, |keys|).value; var s := Clear(a.base.leds);
      Setup(a, gb, t) == Ok(Drawn(a.(base := a.base.(leds := f), gen := p.gen, speed := -1, insert := Some(a.base.calcN - 1)), p.rest)) &&
      Strips.Valid(f) && f.n == s.n && f.bpp == s.bpp &&
      (forall j :: 0 <= j < |keys| ==> Pixel(f, keys[j]) == p.colors[j]) &&
      (forall i :: 0 <= i < s.n && i !in keys ==> Pixel(f, i) == Pixel(s, i))
  {
    var s := Clear(a.base.leds);
    var filled, p := PullWriteKeys(s, a.gen, gb, t, keys);
    f := filled.strip;
  }

  /** Scrolling backwards, the pre-filled pixels are the multiples of
      `step` below `calc_n`. */
  lemma BackwardKeys(calcN: nat, step: int) returns (keys: seq<int>)
    requires step > 0
    ensures PrefillKeys(calcN, step - 1, -1) == Ok(keys) && keys == Range(0, calcN, step)
    ensures Distinct(keys) && forall j :: 0 <= j < |keys| ==> 0 <= keys[j] < calcN
  {
    keys := PrefillKeys(calcN, step - 1, -1).value;
  }

  /** The pixels of a black strip after writing `colors` on the grid of
      multiples of `step` below `calcN`. */
  lemma GridPixels(s: Strip, f: Strip, calcN: nat, step: int, colors: seq<Color>)
    requires step > 0 && Strips.Valid(s) && Strips.Valid(f) && f.n == s.n && f.bpp == s.bpp && calcN <= s.n
    requires forall i :: 0 <= i < s.n ==> Pixel(s, i) == Zeros(s.bpp)
    requires |colors| == |Range(0, calcN, step)|
    requires forall j :: 0 <= j < |colors| ==> Pixel(f, Range(0, calcN, step)[j]) == colors[j]
    requires forall i :: 0 <= i < s.n && i !in Range(0, calcN, step) ==> Pixel(f, i) == Pixel(s, i)
    ensures forall i :: 0 <= i < calcN && i % step == 0 ==> 0 <= i / step < |colors| && Pixel(f, i) == colors[i / step]
    ensures forall i :: 0 <= i < s.n && i % step != 0 ==> Pixel(f, i) == Zeros(s.bpp)
  {
    var keys := Range(0, calcN, step);
    forall i | 0 <= i < s.n && i % step != 0 ensures Pixel(f, i) == Zeros(s.bpp) {
      OffGrid(keys, step, i);
    }
    forall i | 0 <= i < calcN && i % step == 0 ensures 0 <= i / step < |colors| && Pixel(f, i) == colors[i / step] {
      OnGrid(calcN, step, i);
    }
  }

  /** A pixel off the grid of multiples of the step is not pre-filled. */
  lemma OffGrid(keys: seq<int>, step: int, i: int)
    requires step > 0 && forall j :: 0 <= j < |keys| ==> keys[j] == step * j
    requires i % step != 0
    ensures i !in keys
  {
    if i in keys {
      var j :| 0 <= j < |keys| && keys[j] == i;
      Arith.DivUnique(i, step, j, 0);
    }
  }

  /** A multiple of the step below `hi` is pre-filled, at its quotient. */
  lemma OnGrid(hi: int, step: int, i: int)
    requires step > 0 && 0 <= i < hi && i % step == 0
    ensures 0 <= i / step < |Range(0, hi, step)| && Range(0, hi, step)[i / step] == i
  {
    var keys := Range(0, hi, step);
    var q := i / step;
    assert i == step * q;
    if q >= |keys| {
      Arith.MulMono(|keys|, q, step);
    }
  }

  /** A colour to write, with the generator and tape after producing it. */
  datatype Fed = Fed(col: ColorArg, gen: Gen, rest: Tape)

  /** The colour fed in on this frame: a fresh one from the generator, or
      black between colours when `blanks` is set. `frame % (blanks + 1)` is
      tested against 0 only, which floored and Euclidean remainders agree
      on. */
  function Feed(a: NextGen, gb: byte, t: Tape): (r: Result<Fed>)
    requires Generators.Valid(a.gen)
    ensures r.Ok? ==> Generators.Valid(r.value.gen)
    ensures a.blanks == -1 ==> r == Err(ZeroDivisionError)
    ensures r.Ok? && r.value.col.IntColor? ==> r.value.col.v == 0 && r.value.gen == a.gen && r.value.rest == t
  {
    if a.blanks != 0 && a.blanks + 1 == 0 then Err(ZeroDivisionError)
    else if a.blanks != 0 && a.base.frame % (a.blanks + 1) != 0 then Ok(Fed(IntColor(0), a.gen, t))
    else
      var y := Next(a.gen, gb, t);
      if y.Err? then Err(y.error) else Ok(Fed(TupleColor(y.value.color), y.value.gen, y.value.rest))
  }

  /** `calc_frame`: scroll by the speed, then write the fed colour at the
      insertion point. Before `setup` has recorded that point, reading it
      raises KeyError once the colour has been fed. */
  function CalcFrame(a: NextGen, gb: byte, t: Tape): (r: Result<Drawn<NextGen>>)
    requires Generators.Valid(a.gen)
    ensures r.Ok? ==> Generators.Valid(r.value.value.gen) && Shape(r.value.value.base.leds, a.base.leds)
    ensures r.Ok? ==> a.insert.Some? && r.value.value.insert == a.insert
    ensures a.insert.None? && Feed(a, gb, t).Ok? ==> r == Err(KeyError)
  {
    var s := Scroll(a.base.leds, a.speed);
    var fed :- Feed(a, gb, t);
    if a.insert.None? then Err(KeyError)
    else
      var s' :- SetItem(s, a.insert.value, fed.col);
      Ok(Drawn(a.(base := a.base.(leds := s'), gen := fed.gen), fed.rest))
  }

  /** What one frame draws from a state whose insertion point is set: every
      pixel moves one place in the scroll direction, cyclically over the
      whole strip, and the insertion point then holds a generator colour on
      every `blanks + 1`-th frame (the generator advancing only then) and
      black on the frames between. */
  ghost predicate Scrolled(a: NextGen, gb: byte, t: Tape, r: Drawn<NextGen>) {
    Valid(a) && a.insert.Some? && 0 <= a.insert.value < a.base.leds.n && a.blanks >= 0 && Next(a.gen, gb, t).Ok? &&
    var s := a.base.leds; var s' := r.value.base.leds; var k := a.insert.value;
    var pulls := a.blanks == 0 || a.base.frame % (a.blanks + 1) == 0;
    var y := Next(a.gen, gb, t).value;
    Strips.Valid(s') && Shape(s', s) &&
    Pixel(s', k) == (if pulls then y.color else Zeros(s.bpp)) &&
    r.value.gen == (if pulls then y.gen else a.gen) &&
    forall i :: 0 <= i < s.n && i != k ==> Pixel(s', i) == Pixel(s, (i - a.speed) % s.n)
  }

  /** A frame succeeds exactly when `setup` has recorded the insertion
      point, and then draws `Scrolled`; before `setup` it raises KeyError. */
  lemma CalcFrameSpec(a: NextGen, gb: byte, t: Tape)
    requires Valid(a) && (a.speed == 1 || a.speed == -1) && a.blanks >= 0
    requires a.insert.Some? ==> 0 <= a.insert.value < a.base.leds.n
    requires Next(a.gen, gb, t).Ok? && Fits(a.base.leds, [Next(a.gen, gb, t).value.color])
    ensures CalcFrame(a, gb, t).Ok? <==> a.insert.Some?
    ensures a.insert.None? ==> CalcFrame(a, gb, t) == Err(KeyError)
    ensures a.insert.Some? ==> Scrolled(a, gb, t, CalcFrame(a, gb, t).value)
  {
    var fed := FeedSpec(a, gb, t);
    if a.insert.Some? {
      InsertedFrame(a, gb, t, fed);
    }
  }

  /** The frame of a state whose insertion point is set. */
  lemma InsertedFrame(a: NextGen, gb: byte, t: Tape, fed: Fed)
    requires Valid(a) && (a.speed == 1 || a.speed == -1) && a.blanks >= 0
    requires a.insert.Some? && 0 <= a.insert.value < a.base.leds.n
    requires Next(a.gen, gb, t).Ok? && Fits(a.base.leds, [Next(a.gen, gb, t).value.color])
    requires Feed(a, gb, t) == Ok(fed)
    requires var pulls := a.blanks == 0 || a.base.frame % (a.blanks + 1) == 0; var y := Next(a.gen, gb, t).value;
      fed.col == (if pulls then TupleColor(y.color) else IntColor(0)) && fed.gen == (if pulls then y.gen else a.gen)
    ensures CalcFrame(a, gb, t).Ok? && Scrolled(a, gb, t, CalcFrame(a, gb, t).value)
  {
    var s := a.base.leds;
    var y := Next(a.gen, gb, t).value;
    assert [y.color][0] == y.color;
    var sc := Scroll(s, a.speed);
    var s' := FrameWrite(s, sc, a.insert.value, fed.col, y.color);
    assert CalcFrame(a, gb, t) == Ok(Drawn(a.(base := a.base.(leds := s'), gen := fed.gen), fed.rest));
    forall i | 0 <= i < s.n ensures Pixel(sc, i) == Pixel(s, (i - a.speed) % s.n) {
      ScrollPixels(s, a.speed, i);
    }
  }

  /** What a frame feeds: a generator colour (and the advanced generator)
      on every `blanks + 1`-th frame, black otherwise. */
  lemma FeedSpec(a: NextGen, gb: byte, t: Tape) returns (fed: Fed)
    requires Generators.Valid(a.gen) && a.blanks >= 0 && Next(a.gen, gb, t).Ok?
    ensures Feed(a, gb, t) == Ok(fed)
    ensures var pulls := a.blanks == 0 || a.base.frame % (a.blanks + 1) == 0; var y := Next(a.gen, gb, t).value;
      fed.col == (if pulls then TupleColor(y.color) else IntColor(0)) && fed.gen == (if pulls then y.gen else a.gen)
  {
    fed := Feed(a, gb, t).value;
  }

  /** Writing the fed value at the insertion point of the scrolled strip. */
  lemma FrameWrite(s: Strip, sc: Strip, insert: int, col: ColorArg, c: Color) returns (s': Strip)
    requires Strips.Valid(s) && Strips.Valid(sc) && Shape(sc, s) && 0 <= insert < s.n && Fits(s, [c])
    requires col == TupleColor(c) || col == IntColor(0)
    ensures SetItem(sc, insert, col) == Ok(s') && Strips.Valid(s')
    ensures Pixel(s', insert) == (if col.IntColor? then Zeros(s.bpp) else c)
    ensures forall i :: 0 <= i < s.n && i != insert ==> Pixel(s', i) == Pixel(sc, i)
  {
    assert [c][0] == c;
    assert Writable(sc, col) && Written(sc, col) == (if col.IntColor? then Zeros(s.bpp) else c);
    SetItemSpec(sc, insert, col);
    s' := SetItem(sc, insert, col).value;
  }
}

=== FILE: pyseq.dfy ===
/** Python's slice semantics on sequences (bytearrays, lists), which the
    library relies on for rotating and rebuilding its buffers. */
module PySeq {
  import opened Wrappers
  import opened Arith

  /** No index repeats. */
  predicate Distinct(keys: seq<int>) {
    forall i, j :: 0 <= i < j < |keys| ==> keys[i] != keys[j]
  }

  /** How Python normalises one slice bound `i` against a sequence of length
      `len`: negative bounds count from the end, and every bound is clamped
      into [0, len]. */
  function Bound(len: nat, i: int): (r: nat)
    ensures r <= len
    ensures 0 <= i <= len ==> r == i
    ensures -(len as int) <= i < 0 ==> r == i + len
    ensures i < -(len as int) ==> r == 0
    ensures len < i ==> r == len
  {
    if i < 0 then (if i + len < 0 then 0 else i + len)
    else if i > len then len
    else i
  }

  /** `s[j]` for an int index: negative indices count from the end, and
      anything outside [-len, len) raises IndexError. */
  function At<T>(s: seq<T>, j: int): (r: Result<T>)
    ensures r.Ok? <==> -|s| <= j < |s|
    ensures 0 <= j < |s| ==> r == Ok(s[j])
    ensures -|s| <= j < 0 ==> r == Ok(s[j + |s|])
  {
    if 0 <= j < |s| then Ok(s[j])
    else if -|s| <= j < 0 then Ok(s[j + |s|])
    else Err(IndexError)
  }

  /** `s[lo:hi]` */
  function Slice<T>(s: seq<T>, lo: int, hi: int): (r: seq<T>)
    ensures |r| <= |s|
    ensures 0 <= lo <= hi <= |s| ==> r == s[lo..hi]
  {
    var a := Bound(|s|, lo);
    var b := Bound(|s|, hi);
    if a <= b then s[a..b] else []
  }

  /** `s[lo:hi] = v` for a non-negative `lo`: the (clamped) slice is replaced
      by `v`, whatever its length, so the sequence may grow or shrink. */
  function SliceAssign<T>(s: seq<T>, lo: nat, hi: int, v: seq<T>): (r: seq<T>)
    ensures lo <= |s| && lo <= hi ==> |r| == |s| - (Bound(|s|, hi) - lo) + |v|
    ensures lo <= |s| ==> |r| >= lo + |v| && r[..lo] == s[..lo] && r[lo..lo + |v|] == v
    ensures lo + |v| <= hi <= |s| && |v| == hi - lo ==> |r| == |s|
  {
    var a := Bound(|s|, lo);
    var b := if Bound(|s|, hi) < a then a else Bound(|s|, hi);
    s[..a] + v + s[b..]
  }

  /** `s[cut:] + s[:cut]`, the idiom the library uses to scroll a buffer. */
  function Rotate<T>(s: seq<T>, cut: int): (r: seq<T>)
    ensures |r| == |s|
  {
    Slice(s, cut, |s|) + Slice(s, 0, cut)
  }

  /** While the cut lies within the sequence, rotating moves element
      `(k + cut) mod |s|` to position `k`. */
  lemma RotateWithin<T>(s: seq<T>, cut: int, k: nat)
    requires -|s| <= cut <= |s|
    requires k < |s|
    ensures Rotate(s, cut)[k] == s[(k + cut) % |s|]
  {
    var a := Bound(|s|, cut);
    var front := Slice(s, cut, |s|);
    var back := Slice(s, 0, cut);
    assert front == s[a..];
    assert back == s[..a];
    ModOnce(k + cut, |s|);
    if k < |s| - a {
      assert Rotate(s, cut)[k] == front[k] == s[a + k];
    } else {
      assert Rotate(s, cut)[k] == back[k - |front|] == s[k - (|s| - a)];
    }
  }

  /** Rotation only moves elements: everything in the result was in `s`. */
  lemma RotateMembers<T>(s: seq<T>, cut: int)
    ensures forall k :: 0 <= k < |s| ==> Rotate(s, cut)[k] in s
  {
    var a := Bound(|s|, cut);
    var b := Bound(|s|, |s|);
    forall k | 0 <= k < |s| ensures Rotate(s, cut)[k] in s {
      if k < |Slice(s, cut, |s|)| {
        assert Rotate(s, cut)[k] == Slice(s, cut, |s|)[k];
      } else {
        assert Rotate(s, cut)[k] == Slice(s, 0, cut)[k - |Slice(s, cut, |s|)|];
      }
    }
  }

  /** A cut beyond either end of the sequence leaves it as it was. */
  lemma RotateBeyond<T>(s: seq<T>, cut: int)
    requires cut < -|s| || |s| < cut
    ensures Rotate(s, cut) == s
  {
    if cut < -|s| {
      assert Slice(s, cut, |s|) == s;
      assert Slice(s, 0, cut) == [];
    } else {
      assert Slice(s, cut, |s|) == [];
      assert Slice(s, 0, cut) == s;
    }
  }

  /** Scrolling a buffer of `n` items of `w` entries each by `step` items:
      entry `c` of item `i` comes from entry `c` of item `(i - step) mod n`. */
  lemma ScrollBlock(i: int, c: int, step: int, n: int, w: int)
    requires 0 < n && 0 < w && 0 <= i < n && 0 <= c < w
    ensures 0 <= ((i - step) % n) * w + c < n * w
    ensures (i * w + c - step * w) % (n * w) == ((i - step) % n) * w + c
  {
    var j := (i - step) % n;
    var q := (i - step) / n;
    assert i - step == q * n + j;
    assert i * w + c - step * w == (i - step) * w + c;
    assert (i - step) * w == q * (n * w) + j * w;
    MulMono(j, n - 1, w);
    MulMono(0, j, w);
    assert 0 <= j * w + c < n * w;
    DivUnique(i * w + c - step * w, n * w, q, j * w + c);
  }
}

=== FILE: qsparse.dfy ===
/** The web front end's query-string parser `qs_parse`: the query is split
    on `&`, each element on `=`, and the piece before the first `=` becomes
    a key for the piece after it. Python's `str.split` with a separator is
    modelled by `Split`; a later element overwrites an earlier one with the
    same key, and an element without `=` makes `equalSplit[1]` raise
    `IndexError`. */
module QueryStrings {
  import opened Wrappers

  /** `s.split(sep)`: the pieces between separators, in order. The empty
      string splits into one empty piece. */
  function Split(s: string, sep: char): (r: seq<string>)
    ensures |r| >= 1
    ensures forall i :: 0 <= i < |r| ==> sep !in r[i]
    decreases |s|
  {
    if |s| == 0 then [""]
    else if s[0] == sep then [""] + Split(s[1..], sep)
    else
      var rest := Split(s[1..], sep);
      [[s[0]] + rest[0]] + rest[1..]
  }

  /** `sep.join(parts)`, the inverse of `Split`. */
  function Join(parts: seq<string>, sep: char): (r: string)
    requires |parts| >= 1
    ensures |r| >= |parts| - 1
    decreases |parts|
  {
    if |parts| == 1 then parts[0] else parts[0] + [sep] + Join(parts[1..], sep)
  }

  /** Joining the pieces back with the separator gives the original string. */
  lemma {:induction false} JoinSplit(s: string, sep: char)
    ensures Join(Split(s, sep), sep) == s
    decreases |s|
  {
    if |s| == 0 {
    } else if s[0] == sep {
      JoinSplit(s[1..], sep);
      assert s == [sep] + s[1..];
    } else {
      var rest := Split(s[1..], sep);
      JoinSplit(s[1..], sep);
      assert s == [s[0]] + s[1..];
      if |rest| == 1 {
        assert Split(s, sep) == [[s[0]] + rest[0]];
      } else {
        assert Split(s, sep)[1..] == rest[1..];
        assert Join(rest, sep) == rest[0] + [sep] + Join(rest[1..], sep);
      }
    }
  }

  /** Splitting pieces that hold no separator, once joined, gives back
      exactly those pieces. */
  lemma {:induction false} SplitJoin(parts: seq<string>, sep: char)
    requires |parts| >= 1 && forall i :: 0 <= i < |parts| ==> sep !in parts[i]
    ensures Split(Join(parts, sep), sep) == parts
    decreases |parts|, |parts[0]|
  {
    var p := parts[0];
    if |p| == 0 {
      if |parts| > 1 {
        SplitJoin(parts[1..], sep);
        assert Join(parts, sep) == [sep] + Join(parts[1..], sep);
        assert [""] + parts[1..] == parts;
      }
    } else {
      var parts' := [p[1..]] + parts[1..];
      assert p[1..] == parts'[0];
      forall i | 0 <= i < |parts'| ensures sep !in parts'[i] {
        if i == 0 {
          assert forall c :: c in p[1..] ==> c in p;
        } else {
          assert parts'[i] == parts[i];
        }
      }
      SplitJoin(parts', sep);
      assert Join(parts, sep) == [p[0]] + Join(parts', sep) by {
        if |parts| > 1 {
          assert p == [p[0]] + p[1..];
          assert parts'[1..] == parts[1..];
        }
      }
      assert p[0] != sep by { assert p[0] in p; }
      assert [[p[0]] + p[1..]] + parts'[1..] == parts by {
        assert p == [p[0]] + p[1..];
        assert parts'[1..] == parts[1..];
      }
    }
  }

  /** A string splits into at least two pieces exactly when it holds the
      separator. */
  lemma {:induction false} SplitHasTwo(s: string, sep: char)
    ensures |Split(s, sep)| >= 2 <==> sep in s
    decreases |s|
  {
    if |s| > 0 && s[0] != sep {
      SplitHasTwo(s[1..], sep);
      assert sep in s <==> sep in s[1..] by {
        assert s == [s[0]] + s[1..];
      }
    } else if |s| > 0 {
      assert sep in s by { assert s[0] in s; }
    }
  }

  /** An element that names a parameter: it holds an `=`. */
  predicate IsPair(e: string) {
    |Split(e, '=')| >= 2
  }

  /** The key of an element: the part before its first `=`. */
  function Key(e: string): string
    requires IsPair(e)
  {
    Split(e, '=')[0]
  }

  /** The value of an element: the part between its first and second `=`. */
  function Value(e: string): string
    requires IsPair(e)
  {
    Split(e, '=')[1]
  }

  /** The elements of a query, from left to right, stored into `params`
      in turn. */
  function StoreAll(elements: seq<string>, params: map<string, string>): (r: Result<map<string, string>>)
    ensures r.Ok? ==> params.Keys <= r.value.Keys
    decreases |elements|
  {
    if |elements| == 0 then Ok(params)
    else
      var equalSplit := Split(elements[0], '=');
      if |equalSplit| < 2 then Err(IndexError)
      else StoreAll(elements[1..], params[equalSplit[0] := equalSplit[1]])
  }

  /** `qs_parse(qs)`. */
  function QsParse(qs: string): (r: Result<map<string, string>>)
  {
    StoreAll(Split(qs, '&'), map[])
  }

  /** The value the last element with key `k` gives it, if any element
      has that key: a reference for the dictionary `qs_parse` builds. */
  function LastValue(elements: seq<string>, k: string): (r: Option<string>)
    requires forall i :: 0 <= i < |elements| ==> IsPair(elements[i])
    decreases |elements|
  {
    if |elements| == 0 then None
    else
      match LastValue(elements[1..], k)
      case Some(v) => Some(v)
      case None => if Key(elements[0]) == k then Some(Value(elements[0])) else None
  }

  /** `LastValue` is the value of the last element with the key, and there
      is none exactly when no element has the key. */
  lemma {:induction false} LastValueIsLast(elements: seq<string>, k: string)
    requires forall i :: 0 <= i < |elements| ==> IsPair(elements[i])
    ensures LastValue(elements, k).None? <==> forall i :: 0 <= i < |elements| ==> Key(elements[i]) != k
    ensures LastValue(elements, k).Some? ==>
      exists i :: 0 <= i < |elements| && Key(elements[i]) == k && Value(elements[i]) == LastValue(elements, k).value
        && forall i' :: i < i' < |elements| ==> Key(elements[i']) != k
    decreases |elements|
  {
    if |elements| > 0 {
      var tail := elements[1..];
      LastValueIsLast(tail, k);
      assert forall i :: 0 < i < |elements| ==> elements[i] == tail[i - 1];
      match LastValue(tail, k)
      case Some(v) => {
        var i :| 0 <= i < |tail| && Key(tail[i]) == k && Value(tail[i]) == v
          && forall i' :: i < i' < |tail| ==> Key(tail[i']) != k;
        assert Key(elements[i + 1]) == k && Value(elements[i + 1]) == v;
      }
      case None => {
        if Key(elements[0]) == k {
          assert Key(elements[0]) == k && Value(elements[0]) == LastValue(elements, k).value;
        }
      }
    }
  }

  /** Storing elements that all hold an `=` succeeds, and every key ends
      with the value of its last element, or keeps its earlier value when
      no element has it. */
  lemma {:induction false} StoreAllSpec(elements: seq<string>, params: map<string, string>) returns (m: map<string, string>)
    requires forall i :: 0 <= i < |elements| ==> IsPair(elements[i])
    ensures StoreAll(elements, params) == Ok(m)
    ensures forall k :: k in m <==> k in params || LastValue(elements, k).Some?
    ensures forall k :: k in m ==>
      m[k] == if LastValue(elements, k).Some? then LastValue(elements, k).value else params[k]
    decreases |elements|
  {
    if |elements| == 0 {
      m := params;
    } else {
      var e := elements[0];
      var tail := elements[1..];
      assert forall i :: 0 <= i < |tail| ==> tail[i] == elements[i + 1];
      m := StoreAllSpec(tail, params[Key(e) := Value(e)]);
      forall k ensures k in m <==> k in params || LastValue(elements, k).Some? {
        if LastValue(tail, k).None? && Key(e) == k {
          assert LastValue(elements, k) == Some(Value(e));
        }
      }
    }
  }

  /** Storing fails with `IndexError` as soon as one element has no `=`. */
  lemma {:induction false} StoreAllFails(elements: seq<string>, params: map<string, string>)
    ensures StoreAll(elements, params).Ok? <==> forall i :: 0 <= i < |elements| ==> IsPair(elements[i])
    ensures StoreAll(elements, params).Err? ==> StoreAll(elements, params).error == IndexError
    decreases |elements|
  {
    if |elements| > 0 {
      var equalSplit := Split(elements[0], '=');
      if |equalSplit| >= 2 {
        var tail := elements[1..];
        StoreAllFails(tail, params[equalSplit[0] := equalSplit[1]]);
        assert forall i :: 0 < i < |elements| ==> elements[i] == tail[i - 1];
      }
    }
  }

  /** `qs_parse` succeeds exactly when every `&`-separated element holds
      an `=`, and otherwise raises `IndexError`. */
  lemma QsParseFails(qs: string)
    ensures QsParse(qs).Ok? <==> forall i :: 0 <= i < |Split(qs, '&')| ==> '=' in Split(qs, '&')[i]
    ensures QsParse(qs).Err? ==> QsParse(qs).error == IndexError
  {
    var elements := Split(qs, '&');
    StoreAllFails(elements, map[]);
    assert QsParse(qs) == StoreAll(elements, map[]);
    if forall i :: 0 <= i < |elements| ==> IsPair(elements[i]) {
      forall i | 0 <= i < |elements| ensures '=' in elements[i] {
        SplitHasTwo(elements[i], '=');
      }
      assert StoreAll(elements, map[]).Ok?;
    } else {
      var i :| 0 <= i < |elements| && !IsPair(elements[i]);
      SplitHasTwo(elements[i], '=');
      assert '=' !in Split(qs, '&')[i];
      assert StoreAll(elements, map[]).Err?;
    }
  }

  /** On success, the parameters are exactly the keys of the elements, each
      with the value of the last element that names it. */
  lemma QsParseSpec(qs: string) returns (m: map<string, string>)
    requires forall i :: 0 <= i < |Split(qs, '&')| ==> IsPair(Split(qs, '&')[i])
    ensures QsParse(qs) == Ok(m)
    ensures forall k :: k in m <==> exists i :: 0 <= i < |Split(qs, '&')| && Key(Split(qs, '&')[i]) == k
    ensures forall k :: k in m ==> LastValue(Split(qs, '&'), k) == Some(m[k])
  {
    var elements := Split(qs, '&');
    m := StoreAllSpec(elements, map[]);
    forall k ensures LastValue(elements, k).Some? <==> exists i :: 0 <= i < |elements| && Key(elements[i]) == k {
      LastValueIsLast(elements, k);
    }
  }

  /** The key and value of an element are its text before the first `=`
      and between the first and the second `=` (or the end). */
  lemma KeyValueText(e: string)
    requires IsPair(e)
    ensures '=' !in Key(e) && '=' !in Value(e)
    ensures exists rest :: e == Key(e) + "=" + Value(e) + rest && (rest == "" || rest[0] == '=')
  {
    var parts := Split(e, '=');
    JoinSplit(e, '=');
    if |parts| == 2 {
      assert Join(parts[1..], '=') == parts[1];
      assert e == Key(e) + "=" + Value(e) + "";
    } else {
      var rest := [ '=' ] + Join(parts[2..], '=');
      assert Join(parts[1..], '=') == parts[1] + ['='] + Join(parts[2..], '=');
      assert e == Key(e) + "=" + Value(e) + rest;
    }
  }
}

=== FILE: random.dfy ===
/** The random sources the library draws from, made explicit.

    Every `getrandbits` call reads the next entry of a `Tape`, an arbitrary
    (so: any possible) infinite sequence of naturals, and keeps its low `k`
    bits. Each function that draws returns the advanced tape; properties
    proved for every tape hold for every outcome of the random generator. */
module Random {
  import opened Wrappers

  datatype Tape = Tape(source: nat -> nat, pos: nat)

  /** A value produced by one or more draws, with the tape left after them. */
  datatype Drawn<T> = Drawn(value: T, rest: Tape)

  function Pow2(k: nat): (r: nat)
    ensures r >= 1
  {
    if k == 0 then 1 else 2 * Pow2(k - 1)
  }

  /** `getrandbits(k)`: one draw, a value below 2^k. */
  function GetRandBits(t: Tape, k: nat): (d: Drawn<nat>)
    ensures d.value < Pow2(k)
    ensures d.rest.pos == t.pos + 1 && d.rest.source == t.source
  {
    Drawn(t.source(t.pos) % Pow2(k), t.(pos := t.pos + 1))
  }

  /** Number of binary digits of a natural, `len(bin(d)) - 2` (bin(0) is '0b0'). */
  function Digits(d: nat): (r: nat)
    ensures r >= 1
  {
    if d < 2 then 1 else 1 + Digits(d / 2)
  }

  /** `len(bin(d)) - 2` for any int: a negative value also counts its '-'. */
  function BinLength(d: int): nat
  {
    if d >= 0 then Digits(d) else Digits(-d) + 1
  }

  /** Bitwise `a & b` on naturals. */
  function And(a: nat, b: nat): nat
  {
    if a == 0 || b == 0 then 0
    else 2 * And(a / 2, b / 2) + (if a % 2 == 1 && b % 2 == 1 then 1 else 0)
  }

  /** Bitwise `a | b` on naturals. */
  function Or(a: nat, b: nat): nat
  {
    if a == 0 then b
    else if b == 0 then a
    else 2 * Or(a / 2, b / 2) + (if a % 2 == 1 || b % 2 == 1 then 1 else 0)
  }

  /** `trickLED.randrange(low, high)`: draw `len(bin(high - low)) - 2` bits,
      offset them by `low`, and if that overshoots try `rn & high`, then
      `rn | low`, and finally fall back to `high`. The interval is inclusive
      at both ends. Every caller passes `low` 0 or 1, so `low` is a natural;
      when `high < low` all three range tests fail and the result is `high`.
      The library uses it only on ports whose `random` module lacks
      `randrange`. */
  function RandRange(low: nat, high: int, t: Tape): (d: Drawn<int>)
    ensures low <= high ==> low <= d.value <= high
    ensures high < low ==> d.value == high
    ensures d.rest.pos == t.pos + 1 && d.rest.source == t.source
  {
    var g := GetRandBits(t, BinLength(high - low));
    var rn := g.value + low;
    if low <= rn <= high then Drawn(rn, g.rest)
    else if high < low then Drawn(high, g.rest)
    else
      var rv := And(rn, high);
      if low <= rv <= high then Drawn(rv, g.rest)
      else
        var rv2 := Or(rn, low);
        if low <= rv2 <= high then Drawn(rv2, g.rest)
        else Drawn(high, g.rest)
  }

  /** `random.randrange(low, high)`, which the library binds whenever the
      port's `random` module has it: a value in `[low, high)`, the upper
      bound excluded, and ValueError for an empty range. One draw picks
      the value. */
  function StdRandRange(low: int, high: int, t: Tape): (r: Result<Drawn<int>>)
    ensures r.Err? <==> high <= low
    ensures r.Err? ==> r.error == ValueError
    ensures r.Ok? ==> low <= r.value.value < high
    ensures r.Ok? ==> r.value.rest.pos == t.pos + 1 && r.value.rest.source == t.source
  {
    if high <= low then Err(ValueError)
    else Ok(Drawn(low + t.source(t.pos) % (high - low), t.(pos := t.pos + 1)))
  }

  /** Every value of a non-empty range comes out of some tape. */
  lemma StdRandRangeReaches(low: int, high: int, v: int) returns (t: Tape)
    requires low <= v < high
    ensures StdRandRange(low, high, t) == Ok(Drawn(v, t.(pos := 1)))
  {
    var d: nat := v - low;
    t := Tape(x => d, 0);
    assert d % (high - low) == d;
  }

  /** The two `randrange`s differ at the top of the range: the fallback can
      return `high` itself, which the standard one never does. */
  lemma FallbackReachesHigh(high: nat)
    ensures RandRange(0, high, Tape(x => high, 0)).value == high
    ensures forall t :: StdRandRange(0, high, t).Ok? ==> StdRandRange(0, high, t).value.value < high
  {
    var t := Tape(x => high, 0);
    var k := BinLength(high);
    DigitsBound(high);
    SmallMod(high, Pow2(k));
    assert GetRandBits(t, k).value == high;
  }

  /** A remainder by something larger is the number itself. */
  lemma SmallMod(a: nat, b: nat)
    requires a < b
    ensures a % b == a
  {
  }

  /** A natural fits in its own number of binary digits. */
  lemma {:induction false} DigitsBound(d: nat)
    ensures d < Pow2(Digits(d))
  {
    if d >= 2 {
      DigitsBound(d / 2);
    }
  }

  /** `getrandbits(32)` as a 32-bit word. */
  function Word(t: Tape): (d: Drawn<bv32>)
    ensures d.rest.pos == t.pos + 1 && d.rest.source == t.source
  {
    var g := GetRandBits(t, 32);
    assert Pow2(32) == 0x1_0000_0000 by {
      assert Pow2(8) == 256;
      assert Pow2(16) == 65536;
      assert Pow2(24) == 16777216;
    }
    Drawn(g.value as bv32, g.rest)
  }

  /** `n` successive `getrandbits(32)` draws. */
  function Words(t: Tape, n: nat): (d: Drawn<seq<bv32>>)
    decreases n
    ensures |d.value| == n
    ensures d.rest.pos == t.pos + n && d.rest.source == t.source
  {
    if n == 0 then Drawn([], t)
    else
      var a := Word(t);
      var more := Words(a.rest, n - 1);
      Drawn([a.value] + more.value, more.rest)
  }

  /** How many words `rand32(pct)` draws for a percentage in [1, 100). */
  function DrawCount(pct: int): (k: nat)
    ensures 1 <= k <= 4
  {
    if pct <= 6 then 4 else if pct <= 19 then 3 else if pct <= 31 then 2
    else if pct <= 44 then 3 else if pct <= 56 then 1 else if pct <= 69 then 3
    else if pct <= 81 then 2 else if pct <= 94 then 3 else 4
  }

  /** How `rand32(pct)` combines its draws: AND-ing thins the ones out,
      OR-ing adds more. */
  function Combine(pct: int, v: seq<bv32>): bv32
    requires |v| == DrawCount(pct)
  {
    if pct <= 6 then v[0] & v[1] & v[2] & v[3]
    else if pct <= 19 then v[0] & v[1] & v[2]
    else if pct <= 31 then v[0] & v[1]
    else if pct <= 44 then v[0] & (v[1] | v[2])
    else if pct <= 56 then v[0]
    else if pct <= 69 then v[0] | (v[1] & v[2])
    else if pct <= 81 then v[0] | v[1]
    else if pct <= 94 then v[0] | v[1] | v[2]
    else v[0] | v[1] | v[2] | v[3]
  }

  /** `rand32(pct)`: a random word whose density of ones grows with `pct`,
      built by AND-ing or OR-ing several draws (taken left to right). Below
      1% it is 0 and from 100% on it is all ones, with no draw consumed in
      either case. */
  function Rand32(pct: int, t: Tape): (d: Drawn<bv32>)
    ensures pct < 1 ==> d.value == 0 && d.rest.pos == t.pos
    ensures 100 <= pct ==> d.value == 0xFFFF_FFFF && d.rest.pos == t.pos
    ensures 1 <= pct < 100 ==> d.rest.pos == t.pos + DrawCount(pct)
    ensures d.rest.pos >= t.pos && d.rest.source == t.source
  {
    if pct < 1 then Drawn(0, t)
    else if pct >= 100 then Drawn(0xFFFF_FFFF, t)
    else
      var w := Words(t, DrawCount(pct));
      Drawn(Combine(pct, w.value), w.rest)
  }
}

=== FILE: repeat.dfy ===
/** `TrickLED.write`: before the buffer is sent, a strip with `repeat_n`
    set copies its first `repeat_n` pixels over the rest, either tiled
    (`_repeat_stripe`) or walked back and forth (`_repeat_mirror`). */
module Repeats {
  import opened Wrappers
  import opened Arith
  import opened PySeq
  import opened ColorMath
  import opened Strips

  // ---------------------------------------------------------------- stripe

  /** The `while` loop of `_repeat_stripe` from byte `loc` on: whole copies
      of `section` while they fit below `end`, then a cut copy up to `end`.
      A slice assignment that starts at the end of a shorter buffer
      appends, so the loop also regrows a buffer shorter than `end`. */
  function StripeFrom(b: seq<int>, section: seq<int>, loc: nat, jump: nat, end: nat): seq<int>
    requires jump > 0
    decreases end - loc
  {
    if loc + jump <= end then StripeFrom(SliceAssign(b, loc, loc + jump, section), section, loc + jump, jump, end)
    else if loc < end then SliceAssign(b, loc, end, Slice(section, 0, end - loc))
    else b
  }

  /** Whole copies of `section` laid at multiples of its length. */
  predicate Tiled(b: seq<int>, section: seq<int>, upto: nat)
    requires |section| > 0 && upto <= |b|
  {
    forall k :: 0 <= k < upto ==> b[k] == section[k % |section|]
  }

  /** One whole copy at `loc` extends the tiling by `|section|` bytes. */
  lemma StripeCopy(b: seq<int>, section: seq<int>, loc: nat)
    requires 0 < |section| <= loc <= |b| && loc % |section| == 0 && Tiled(b, section, loc)
    ensures var b' := SliceAssign(b, loc, loc + |section|, section);
      loc + |section| <= |b'| == (if |b| < loc + |section| then loc + |section| else |b|) &&
      (loc + |section|) % |section| == 0 && Tiled(b', section, loc + |section|)
  {
    var jump := |section|;
    var q := loc / jump;
    assert loc == q * jump;
    var b' := SliceAssign(b, loc, loc + jump, section);
    forall k | 0 <= k < loc + jump
      ensures b'[k] == section[k % jump]
    {
      if k < loc {
        assert b'[k] == b'[..loc][k];
      } else {
        assert b'[k] == b'[loc..loc + jump][k - loc];
        DivUnique(k, jump, q, k - loc);
      }
    }
    DivUnique(loc + jump, jump, q + 1, 0);
  }

  /** The cut copy at `loc` completes the tiling up to `end`. */
  lemma StripeCut(b: seq<int>, section: seq<int>, loc: nat, end: nat)
    requires 0 < |section| <= loc <= |b| <= end < loc + |section| && loc % |section| == 0
    requires Tiled(b, section, loc)
    ensures var b' := SliceAssign(b, loc, end, Slice(section, 0, end - loc));
      |b'| == end && Tiled(b', section, end)
  {
    var jump := |section|;
    var q := loc / jump;
    assert loc == q * jump;
    var tail := Slice(section, 0, end - loc);
    var b' := SliceAssign(b, loc, end, tail);
    forall k | 0 <= k < end
      ensures b'[k] == section[k % jump]
    {
      if k < loc {
        assert b'[k] == b'[..loc][k];
      } else {
        assert b'[k] == b'[loc..loc + |tail|][k - loc];
        DivUnique(k, jump, q, k - loc);
      }
    }
  }

  /** Once the first `loc` bytes repeat `section`, the loop finishes a
      buffer of exactly `end` bytes that repeats it throughout. */
  lemma {:induction false} StripeFromSpec(b: seq<int>, section: seq<int>, loc: nat, jump: nat, end: nat)
    requires 0 < jump == |section| <= loc <= |b| <= end && loc % jump == 0
    requires Tiled(b, section, loc)
    ensures |StripeFrom(b, section, loc, jump, end)| == end
    ensures Tiled(StripeFrom(b, section, loc, jump, end), section, end)
    decreases end - loc
  {
    if loc + jump <= end {
      StripeCopy(b, section, loc);
      StripeFromSpec(SliceAssign(b, loc, loc + jump, section), section, loc + jump, jump, end);
    } else if loc < end {
      StripeCut(b, section, loc, end);
    }
  }

  /** `_repeat_stripe()`: `section` is the first `repeat_n * bpp` bytes,
      copied from byte `repeat_n * bpp` up to byte `n * bpp`. */
  function RepeatStripe(s: Strip): (r: Strip)
    requires s.repeatN > 0 && s.bpp > 0
    ensures r == s.(buf := r.buf)
  {
    var jump := s.repeatN * s.bpp;
    s.(buf := StripeFrom(s.buf, Slice(s.buf, 0, jump), jump, jump, s.n * s.bpp))
  }

  /** Whenever the buffer holds at least the section and at most `n` pixels,
      the stripe copy leaves `n * bpp` bytes, byte `k` being byte
      `k mod (repeat_n * bpp)` of the old buffer. */
  lemma StripeSpec(s: Strip)
    requires s.repeatN > 0 && s.bpp > 0 && s.repeatN * s.bpp <= |s.buf| <= s.n * s.bpp
    ensures var r := RepeatStripe(s);
      |r.buf| == s.n * s.bpp &&
      forall k :: 0 <= k < |r.buf| ==> r.buf[k] == s.buf[k % (s.repeatN * s.bpp)]
  {
    var jump := s.repeatN * s.bpp;
    var section := Slice(s.buf, 0, jump);
    assert section == s.buf[..jump];
    DivUnique(jump, jump, 1, 0);
    forall k | 0 <= k < jump ensures s.buf[k] == section[k % jump] {
      DivUnique(k, jump, 0, k);
    }
    StripeFromSpec(s.buf, section, jump, jump, s.n * s.bpp);
    var r := RepeatStripe(s);
    forall k | 0 <= k < |r.buf| ensures r.buf[k] == s.buf[k % jump] {
      assert r.buf[k] == section[k % jump];
    }
  }

  /** On a well-formed strip, pixel `i` becomes old pixel `i mod repeat_n`. */
  lemma StripePixels(s: Strip)
    requires Valid(s) && 0 < s.repeatN <= s.n
    ensures Valid(RepeatStripe(s))
    ensures forall i :: 0 <= i < s.n ==> Pixel(RepeatStripe(s), i) == Pixel(s, i % s.repeatN)
  {
    var r := RepeatStripe(s);
    var w := s.bpp;
    MulMono(s.repeatN, s.n, w);
    StripeSpec(s);
    forall k | 0 <= k < |r.buf| ensures 0 <= r.buf[k] < 256 {
      assert 0 <= k % (s.repeatN * w) < |s.buf|;
    }
    assert Valid(r);
    forall i | 0 <= i < s.n
      ensures Pixel(r, i) == Pixel(s, i % s.repeatN)
    {
      TiledPixel(s, r, i);
    }
  }

  /** A strip whose byte `k` is byte `k mod (repeat_n * bpp)` of `s` has
      pixel `i` equal to pixel `i mod repeat_n` of `s`. */
  lemma TiledPixel(s: Strip, r: Strip, i: int)
    requires Valid(s) && Valid(r) && r.n == s.n && r.bpp == s.bpp && 0 < s.repeatN <= s.n
    requires s.repeatN * s.bpp <= |s.buf|
    requires forall k :: 0 <= k < |r.buf| ==> r.buf[k] == s.buf[k % (s.repeatN * s.bpp)]
    requires 0 <= i < s.n
    ensures Pixel(r, i) == Pixel(s, i % s.repeatN)
  {
    var w := s.bpp;
    var m := i % s.repeatN;
    ByteMaps.ItemBounds(i, s.n, w);
    ByteMaps.ItemBounds(m, s.n, w);
    forall c | 0 <= c < w ensures Pixel(r, i)[c] == Pixel(s, m)[c] {
      BlockMod(i, c, s.repeatN, w);
      assert Pixel(r, i)[c] == r.buf[i * w + c];
      assert Pixel(s, m)[c] == s.buf[m * w + c];
    }
  }

  /** A section that already covers the strip leaves it as it is. */
  lemma StripeNoRoom(s: Strip)
    requires s.bpp > 0 && s.repeatN >= s.n && s.repeatN > 0
    ensures RepeatStripe(s) == s
  {
    MulMono(s.n, s.repeatN, s.bpp);
  }

  // ---------------------------------------------------------------- mirror

  /** The `for` loop of `_repeat_mirror` from pixel `i` on: pixel `i` gets
      pixel `rl`, and `rl` moves by `d` while strictly inside (0, n); at 0
      the direction turns to +1 but `rl` is not moved. Reads and writes go
      through NeoPixel's own item access. */
  function MirrorFrom(s: Strip, n: int, i: int, rl: int, d: int): (r: Result<Strip>)
    decreases s.n - i
  {
    if i >= s.n then Ok(s)
    else
      var p :- GetPixel(s, rl);
      var s' :- PutPixel(s, i, p);
      if 0 < rl < n then MirrorFrom(s', n, i + 1, rl + d, d)
      else if rl == 0 then MirrorFrom(s', n, i + 1, rl, 1)
      else MirrorFrom(s', n, i + 1, rl, -1)
  }

  /** `_repeat_mirror()` as written: `rl` starts on the last copied pixel
      and `d` at -1. */
  function RepeatMirror(s: Strip): (r: Result<Strip>)
  {
    MirrorFrom(s, s.repeatN, s.repeatN, s.repeatN as int - 1, -1)
  }

  /** The pixel the loop as written copies into pixel `i`: the prefix
      itself, then the prefix backwards, then pixel 0 for ever. */
  function MirrorSource(n: int, i: int): (j: int)
    ensures i < n ==> j == i
    ensures n <= i ==> 0 <= j && (j == 0 || j == 2 * n - 1 - i)
  {
    if i < n then i else if 2 * n - 1 - i > 0 then 2 * n - 1 - i else 0
  }

  /** What the loop keeps between iterations: the pixels before `i` hold
      their `MirrorSource` pixel of the original, and `rl` is the source of
      pixel `i`, moving down (or resting on 0). */
  predicate MirrorSoFar(s0: Strip, s: Strip, n: int, i: int, rl: int, d: int)
    requires Valid(s0) && Valid(s) && s.n == s0.n && s.bpp == s0.bpp && 0 < n <= i <= s.n
  {
    rl == MirrorSource(n, i) && (d == -1 || rl == 0) &&
    forall j :: 0 <= j < i ==> Pixel(s, j) == Pixel(s0, MirrorSource(n, j))
  }

  lemma {:induction false} MirrorFromSpec(s0: Strip, s: Strip, n: int, i: int, rl: int, d: int)
    requires Valid(s0) && Valid(s) && s.n == s0.n && s.bpp == s0.bpp && 0 < n <= i <= s.n
    requires MirrorSoFar(s0, s, n, i, rl, d)
    ensures MirrorFrom(s, n, i, rl, d).Ok?
    ensures var r := MirrorFrom(s, n, i, rl, d).value;
      Valid(r) && r.n == s.n && r.bpp == s.bpp &&
      forall j :: 0 <= j < r.n ==> Pixel(r, j) == Pixel(s0, MirrorSource(n, j))
    decreases s.n - i
  {
    if i < s.n {
      GetPixelSpec(s, rl);
      var p := Pixel(s, rl);
      assert p == Pixel(s0, rl);
      PutPixelSpec(s, i, p);
      var s' := PutPixel(s, i, p).value;
      var rl', d' := if 0 < rl < n then rl + d else rl, if 0 < rl < n then d else if rl == 0 then 1 else -1;
      assert MirrorFrom(s, n, i, rl, d) == MirrorFrom(s', n, i + 1, rl', d');
      assert MirrorSoFar(s0, s', n, i + 1, rl', d');
      MirrorFromSpec(s0, s', n, i + 1, rl', d');
    }
  }

  /** On a well-formed strip with `0 < repeat_n <= n` the loop as written
      succeeds; pixel `i >= repeat_n` gets pixel `2 * repeat_n - 1 - i`
      while that is positive, and pixel 0 after that. */
  lemma MirrorSpec(s: Strip)
    requires Valid(s) && 0 < s.repeatN <= s.n
    ensures RepeatMirror(s).Ok?
    ensures var r := RepeatMirror(s).value;
      Valid(r) && r.n == s.n &&
      forall j :: 0 <= j < s.n ==> Pixel(r, j) == Pixel(s, MirrorSource(s.repeatN, j))
  {
    MirrorFromSpec(s, s, s.repeatN, s.repeatN, s.repeatN as int - 1, -1);
  }

  /** The walk as written never turns: from pixel `2 * repeat_n` on it
      copies pixel 0, where the bounce would copy pixel 1 next. */
  lemma MirrorSticksAtZero(n: int)
    requires n >= 2
    ensures forall i :: 2 * n <= i ==> MirrorSource(n, i) == 0
    ensures Reflect(n, 2 * n + 1) == 1
  {
    DivUnique(2 * n + 1, 2 * n, 1, 1);
  }

  /** The intended pattern, the prefix reflected back and forth with the
      end pixels doubled: pixel `i` gets pixel `i mod 2n` while that is
      below `n`, and its mirror image `2n - 1 - (i mod 2n)` otherwise. */
  function Reflect(n: int, i: int): (j: int)
    requires n > 0
    ensures 0 <= j < n
    ensures 0 <= i < n ==> j == i
  {
    var k := i % (2 * n);
    if 0 <= i < n then DivUnique(i, 2 * n, 0, i); k
    else if k < n then k else 2 * n - 1 - k
  }

  /** The walk with the turn taken: `rl` moves by `d` while the move stays
      inside [0, n), and otherwise `d` flips and `rl` stays for one more
      pixel. */
  function MirrorFixedFrom(s: Strip, n: int, i: int, rl: int, d: int): (r: Result<Strip>)
    decreases s.n - i
  {
    if i >= s.n then Ok(s)
    else
      var p :- GetPixel(s, rl);
      var s' :- PutPixel(s, i, p);
      if 0 <= rl + d < n then MirrorFixedFrom(s', n, i + 1, rl + d, d)
      else MirrorFixedFrom(s', n, i + 1, rl, -d)
  }

  /** `_repeat_mirror()` with the turn at pixel 0 taken. */
  function RepeatMirrorFixed(s: Strip): (r: Result<Strip>)
  {
    MirrorFixedFrom(s, s.repeatN, s.repeatN, s.repeatN as int - 1, -1)
  }

  /** The direction of the reflected walk at pixel `i`. */
  function Heading(n: int, i: int): int
    requires n > 0
  {
    if i % (2 * n) < n then 1 else -1
  }

  /** One step of the corrected walk lands on the reflection of the next
      pixel, heading the right way. */
  lemma ReflectStep(n: int, i: nat)
    requires 0 < n <= i
    ensures var rl, d := Reflect(n, i), Heading(n, i);
      (0 <= rl + d < n ==> Reflect(n, i + 1) == rl + d && Heading(n, i + 1) == d) &&
      (!(0 <= rl + d < n) ==> Reflect(n, i + 1) == rl && Heading(n, i + 1) == -d)
  {
    DivModStep(i, 2 * n);
  }

  predicate MirrorFixedSoFar(s0: Strip, s: Strip, n: int, i: int, rl: int, d: int)
    requires Valid(s0) && Valid(s) && s.n == s0.n && s.bpp == s0.bpp && 0 < n <= i <= s.n
  {
    rl == Reflect(n, i) && d == Heading(n, i) &&
    forall j :: 0 <= j < i ==> Pixel(s, j) == Pixel(s0, Reflect(n, j))
  }

  lemma {:induction false} MirrorFixedFromSpec(s0: Strip, s: Strip, n: int, i: nat, rl: int, d: int)
    requires Valid(s0) && Valid(s) && s.n == s0.n && s.bpp == s0.bpp && 0 < n <= i <= s.n
    requires MirrorFixedSoFar(s0, s, n, i, rl, d)
    ensures MirrorFixedFrom(s, n, i, rl, d).Ok?
    ensures var r := MirrorFixedFrom(s, n, i, rl, d).value;
      Valid(r) && r.n == s.n && r.bpp == s.bpp &&
      forall j :: 0 <= j < r.n ==> Pixel(r, j) == Pixel(s0, Reflect(n, j))
    decreases s.n - i
  {
    if i < s.n {
      GetPixelSpec(s, rl);
      var p := Pixel(s, rl);
      assert p == Pixel(s0, rl);
      PutPixelSpec(s, i, p);
      var s' := PutPixel(s, i, p).value;
      ReflectStep(n, i);
      var rl', d' := if 0 <= rl + d < n then rl + d else rl, if 0 <= rl + d < n then d else -d;
      assert MirrorFixedFrom(s, n, i, rl, d) == MirrorFixedFrom(s', n, i + 1, rl', d');
      assert MirrorFixedSoFar(s0, s', n, i + 1, rl', d');
      MirrorFixedFromSpec(s0, s', n, i + 1, rl', d');
    }
  }

  /** On a well-formed strip with `0 < repeat_n <= n` the corrected walk
      succeeds and pixel `i` becomes old pixel `Reflect(repeat_n, i)`. */
  lemma MirrorFixedSpec(s: Strip)
    requires Valid(s) && 0 < s.repeatN <= s.n
    ensures RepeatMirrorFixed(s).Ok?
    ensures var r := RepeatMirrorFixed(s).value;
      Valid(r) && r.n == s.n &&
      forall j :: 0 <= j < s.n ==> Pixel(r, j) == Pixel(s, Reflect(s.repeatN, j))
  {
    var n := s.repeatN;
    DivUnique(n, 2 * n, 0, n);
    MirrorFixedFromSpec(s, s, n, n, n as int - 1, -1);
  }

  /** The reflection is symmetric inside each period: pixels `i` and
      `2n - 1 - i` of a period show the same source pixel, and the pattern
      repeats every `2n` pixels. */
  lemma ReflectShape(n: int, i: nat)
    requires n > 0
    ensures Reflect(n, i + 2 * n) == Reflect(n, i)
    ensures i < 2 * n ==> Reflect(n, 2 * n - 1 - i) == Reflect(n, i)
  {
    ModShift(i, 1, 2 * n);
    if i < 2 * n {
      DivUnique(i, 2 * n, 0, i);
      DivUnique(2 * n - 1 - i, 2 * n, 0, 2 * n - 1 - i);
    }
  }

  // ----------------------------------------------------------------- write

  /** `write()` without the transmit: with `repeat_n` set, the stripe copy
      or the mirror copy as written; any other mode copies nothing. */
  function Write(s: Strip): (r: Result<Strip>)
    requires s.bpp > 0
    ensures s.repeatN == 0 || (s.mode != StripeMode && s.mode != MirrorMode) ==> r == Ok(s)
  {
    if s.repeatN == 0 then Ok(s)
    else if s.mode == StripeMode then Ok(RepeatStripe(s))
    else if s.mode == MirrorMode then RepeatMirror(s)
    else Ok(s)
  }

  /** On a well-formed strip whose `repeat_n` is within the strip, `write`
      succeeds, keeps the strip well formed and fills it from the prefix in
      its mode's pattern. */
  lemma WriteSpec(s: Strip)
    requires Valid(s) && s.repeatN <= s.n
    ensures Write(s).Ok? && Valid(Write(s).value) && Write(s).value.n == s.n
    ensures s.repeatN > 0 && s.mode == StripeMode ==>
      forall i :: 0 <= i < s.n ==> Pixel(Write(s).value, i) == Pixel(s, i % s.repeatN)
    ensures s.repeatN > 0 && s.mode == MirrorMode ==>
      forall i :: 0 <= i < s.n ==> Pixel(Write(s).value, i) == Pixel(s, MirrorSource(s.repeatN, i))
    ensures forall i :: 0 <= i < s.repeatN ==> Pixel(Write(s).value, i) == Pixel(s, i)
  {
    if s.repeatN > 0 && s.mode == StripeMode {
      StripePixels(s);
      forall i | 0 <= i < s.repeatN ensures i % s.repeatN == i {
        DivUnique(i, s.repeatN, 0, i);
      }
    } else if s.repeatN > 0 && s.mode == MirrorMode {
      MirrorSpec(s);
    }
  }

  /** Strip arithmetic keeps only the first `repeat_n` pixels; a stripe
      `write` afterwards grows the buffer back to `n` pixels, tiling what
      the arithmetic left. */
  lemma ArithThenStripe(s: Strip, op: ByteMaps.Op, x: ByteMaps.Operand)
    requires Valid(s) && 0 < s.repeatN <= s.n && s.mode == StripeMode
    requires ApplyAll(s, op, x).Ok?
    ensures var a := ApplyAll(s, op, x).value;
      Write(a).Ok? && Valid(Write(a).value) &&
      forall k :: 0 <= k < s.n * s.bpp ==> Write(a).value.buf[k] == a.buf[k % (s.repeatN * s.bpp)]
  {
    var a := ApplyAll(s, op, x).value;
    MulMono(s.repeatN, s.n, s.bpp);
    StripeSpec(a);
    var r := Write(a).value;
    forall k | 0 <= k < |r.buf| ensures 0 <= r.buf[k] < 256 {
      assert 0 <= k % (s.repeatN * s.bpp) < |a.buf|;
    }
  }

  /** In mirror mode the same sequence fails: the first copy writes pixel
      `repeat_n`, which the shrunken buffer no longer has. */
  lemma ArithThenMirror(s: Strip, op: ByteMaps.Op, x: ByteMaps.Operand)
    requires Valid(s) && 0 < s.repeatN < s.n && s.mode == MirrorMode
    requires ApplyAll(s, op, x).Ok?
    ensures Write(ApplyAll(s, op, x).value) == Err(IndexError)
    ensures RepeatMirror(ApplyAll(s, op, x).value) == Err(IndexError)
  {
    var a := ApplyAll(s, op, x).value;
    assert a.repeatN == s.repeatN && a.n == s.n && a.bpp == s.bpp && a.mode == MirrorMode;
    assert |a.buf| == a.repeatN * a.bpp;
    MirrorNoRoom(a);
  }

  /** A mirror copy on a buffer that holds only the first `repeatN` pixels
      fails at its first write, the pixel just past them. */
  lemma MirrorNoRoom(a: Strip)
    requires a.bpp > 0 && 0 < a.repeatN < a.n && |a.buf| == a.repeatN * a.bpp
    ensures RepeatMirror(a) == Err(IndexError)
  {
    var rl := a.repeatN - 1;
    assert rl * a.bpp + a.bpp == a.repeatN * a.bpp;
    assert GetPixel(a, rl).Ok?;
    assert PutPixel(a, a.repeatN, GetPixel(a, rl).value) == Err(IndexError);
  }
}

=== FILE: sideswipe.dfy ===
/** `SideSwipe`: one pixel per frame, a cursor runs along the computed
    pixels and back, writing the current generator's next colour; at each
    end it turns round and moves on to the next generator in the list. */
module SideSwipes {
  import opened Wrappers
  import opened ColorMath
  import opened Random
  import opened Generators
  import opened Strips
  import opened Animations
  import PySeq

  /** The sweep's state: the pixel written next, the direction (1 or -1),
      how many times it has turned, and which generator it draws from. */
  datatype Cursor = Cursor(loc: int, dir: int, cycle: int, genIdx: int)

  datatype SideSwipe = SideSwipe(base: Base, gens: seq<Gen>, at: Cursor)

  /** The state `setup` starts every run from. */
  const Start := Cursor(0, 1, 0, 0)

  /** The generators used when none (or an empty list) is given. */
  function DefaultGens(): (r: seq<Gen>)
    ensures |r| == 2 && forall k :: 0 <= k < |r| ==> Generators.Valid(r[k])
  {
    [Vivid, StripedColorWheel(20, 10, 0)]
  }

  /** `SideSwipe(leds, color_generators)`: an empty or missing list of
      generators becomes `random_vivid()` and a striped colour wheel of hue
      stride 20 and stripes of 10. The cursor starts where `setup` puts
      it. */
  function Create(leds: LedsArg, gens: seq<Gen>, interval: int, brightness: int): (r: Result<SideSwipe>)
    ensures r.Ok? <==> leds.TrickLEDArg?
    ensures r.Ok? ==> r.value.gens == (if gens == [] then DefaultGens() else gens) && r.value.at == Start
    ensures r.Ok? ==> r.value.base == Init(leds, interval, brightness).value
  {
    var base :- Init(leds, interval, brightness);
    Ok(SideSwipe(base, if gens == [] then DefaultGens() else gens, Start))
  }

  /** `setup`: cycle 0, forwards, from pixel 0, with the first generator. */
  function Setup(a: SideSwipe): (r: SideSwipe)
    ensures r.at.loc == 0 && r.at.dir == 1 && r.at.cycle == 0 && r.at.genIdx == 0
    ensures r.base == a.base && r.gens == a.gens
  {
    a.(at := Start)
  }

  /** The cursor after a frame: it steps on while the next pixel is a
      computed one; otherwise it stays, turns round, counts the turn and
      takes generator `cycle % len(generators)`. */
  function Move(c: Cursor, calcN: nat, count: nat): (r: Cursor)
    requires count > 0
  {
    var nloc := c.loc + c.dir;
    if 0 <= nloc < calcN then c.(loc := nloc)
    else Cursor(c.loc, -c.dir, c.cycle + 1, (c.cycle + 1) % count)
  }

  /** `calc_frame`: write the current generator's next colour at the
      cursor, then move the cursor. Python generators are advanced in
      place, so the list keeps the advanced state. */
  function CalcFrame(a: SideSwipe, gb: byte, t: Tape): (r: Result<Drawn<SideSwipe>>)
    requires forall k :: 0 <= k < |a.gens| ==> Generators.Valid(a.gens[k])
    ensures r.Ok? ==> Shape(r.value.value.base.leds, a.base.leds) && |r.value.value.gens| == |a.gens|
    ensures r.Ok? ==> forall k :: 0 <= k < |a.gens| ==> Generators.Valid(r.value.value.gens[k])
    ensures !(-|a.gens| <= a.at.genIdx < |a.gens|) ==> r == Err(IndexError)
  {
    var gen :- PySeq.At(a.gens, a.at.genIdx);
    var idx := if a.at.genIdx < 0 then a.at.genIdx + |a.gens| else a.at.genIdx;
    var y :- Next(gen, gb, t);
    var leds :- SetItem(a.base.leds, a.at.loc, TupleColor(y.color));
    Ok(Drawn(a.(base := a.base.(leds := leds), gens := a.gens[idx := y.gen], at := Move(a.at, a.base.calcN, |a.gens|)), y.rest))
  }

  /** Where a cursor may be: on a computed pixel, going either way, with
      the generator index its turn count selects. */
  predicate CursorOk(c: Cursor, calcN: nat, count: nat)
    requires count > 0
  {
    0 <= c.loc < calcN && (c.dir == 1 || c.dir == -1) && c.cycle >= 0 && c.genIdx == c.cycle % count
  }

  /** The state every frame relies on. */
  predicate Valid(a: SideSwipe) {
    && Strips.Valid(a.base.leds) && 0 < a.base.calcN <= a.base.leds.n
    && |a.gens| > 0 && (forall k :: 0 <= k < |a.gens| ==> Generators.Valid(a.gens[k]))
    && CursorOk(a.at, a.base.calcN, |a.gens|)
  }

  /** `setup` on a strip with at least one computed pixel gives a valid
      state. */
  lemma SetupValid(a: SideSwipe)
    requires Strips.Valid(a.base.leds) && 0 < a.base.calcN <= a.base.leds.n
    requires |a.gens| > 0 && forall k :: 0 <= k < |a.gens| ==> Generators.Valid(a.gens[k])
    ensures Valid(Setup(a))
  {
  }

  /** Moving keeps the cursor on the computed pixels: a step stays inside,
      a turn stays put and flips the direction. */
  lemma MoveOk(c: Cursor, calcN: nat, count: nat)
    requires count > 0 && CursorOk(c, calcN, count)
    ensures CursorOk(Move(c, calcN, count), calcN, count)
    ensures var m := Move(c, calcN, count);
      (m.loc == c.loc + c.dir && m.dir == c.dir && m.cycle == c.cycle) ||
      (m.loc == c.loc && m.dir == -c.dir && m.cycle == c.cycle + 1)
  {
  }

  /** A frame writes the generator's colour at the cursor, changes no other
      pixel, advances only the generator it used, and keeps the state
      valid. */
  lemma CalcFrameSpec(a: SideSwipe, gb: byte, t: Tape)
    requires Valid(a)
    requires Next(a.gens[a.at.genIdx], gb, t).Ok? && Width(a.gens[a.at.genIdx]) == a.base.leds.bpp
    ensures CalcFrame(a, gb, t).Ok?
    ensures var r := CalcFrame(a, gb, t).value; var y := Next(a.gens[a.at.genIdx], gb, t).value;
      var s := a.base.leds; var s' := r.value.base.leds;
      Valid(r.value) && r.rest == y.rest &&
      Pixel(s', a.at.loc) == y.color &&
      (forall j :: 0 <= j < s.n && j != a.at.loc ==> Pixel(s', j) == Pixel(s, j)) &&
      r.value.gens == a.gens[a.at.genIdx := y.gen] &&
      r.value.at == Move(a.at, a.base.calcN, |a.gens|)
  {
    var y := Next(a.gens[a.at.genIdx], gb, t).value;
    WritableColor(a.base.leds, y.color);
    SetItemSpec(a.base.leds, a.at.loc, TupleColor(y.color));
    MoveOk(a.at, a.base.calcN, |a.gens|);
  }

  /** `k` frames' worth of cursor moves. */
  function MoveN(c: Cursor, calcN: nat, count: nat, k: nat): Cursor
    requires count > 0
    decreases k
  {
    if k == 0 then c else MoveN(Move(c, calcN, count), calcN, count, k - 1)
  }

  /** Moving `a + b` times is moving `a` times, then `b` times. */
  lemma {:induction false} MoveNAdd(c: Cursor, calcN: nat, count: nat, a: nat, b: nat)
    requires count > 0
    ensures MoveN(c, calcN, count, a + b) == MoveN(MoveN(c, calcN, count, a), calcN, count, b)
    decreases a
  {
    if a > 0 {
      MoveNAdd(Move(c, calcN, count), calcN, count, a - 1, b);
    }
  }

  /** Going forwards from pixel `l`, the cursor visits `l + 1, l + 2, …`
      up to the last computed pixel, and one move later it is still there,
      facing back, with the next generator. */
  lemma {:induction false} SweepForward(calcN: nat, count: nat, l: int, cy: int, gi: int, k: nat)
    requires count > 0 && 0 <= l < calcN && k <= calcN - l
    ensures MoveN(Cursor(l, 1, cy, gi), calcN, count, k) ==
      if k < calcN - l then Cursor(l + k, 1, cy, gi) else Cursor(calcN - 1, -1, cy + 1, (cy + 1) % count)
    decreases k
  {
    if k > 0 {
      if l + 1 < calcN {
        SweepForward(calcN, count, l + 1, cy, gi, k - 1);
      }
    }
  }

  /** Going backwards from pixel `l`, the cursor visits `l - 1, l - 2, …`
      down to pixel 0, and one move later it is still there, facing
      forwards, with the next generator. */
  lemma {:induction false} SweepBackward(calcN: nat, count: nat, l: int, cy: int, gi: int, k: nat)
    requires count > 0 && 0 <= l < calcN && k <= l + 1
    ensures MoveN(Cursor(l, -1, cy, gi), calcN, count, k) ==
      if k <= l then Cursor(l - k, -1, cy, gi) else Cursor(0, 1, cy + 1, (cy + 1) % count)
    decreases k
  {
    if k > 0 {
      if l > 0 {
        SweepBackward(calcN, count, l - 1, cy, gi, k - 1);
      }
    }
  }

  /** From the start, `2 * calc_n` frames run the cursor to the far end and
      back: it is again at pixel 0 going forwards, having turned twice and
      taken generator `2 % len(generators)`. */
  lemma RoundTrip(calcN: nat, count: nat)
    requires count > 0 && calcN > 0
    ensures MoveN(Start, calcN, count, 2 * calcN) == Cursor(0, 1, 2, 2 % count)
  {
    MoveNAdd(Start, calcN, count, calcN, calcN);
    SweepForward(calcN, count, 0, 0, 0, calcN);
    SweepBackward(calcN, count, calcN - 1, 1, 1 % count, calcN);
  }
}

=== FILE: strip.dfy ===
/** `TrickLED`: a NeoPixel strip of `n` pixels of `bpp` bytes with buffer
    operations on top. The hardware transmit and the byte order of the
    LEDs are outside the model: the buffer holds the channels in logical
    order, and a pixel is read and written as NeoPixel does, `bpp` bytes at
    offset `i * bpp`. When `repeatN` is set (non-zero), animations draw only
    the first `repeatN` pixels and `write` copies them over the rest. */
module Strips {
  import opened Wrappers
  import opened Arith
  import opened PySeq
  import opened ColorMath
  import opened Random
  import opened Generators
  import ByteMaps

  /** `repeat_mode` values: the prefix is tiled, or bounced back and forth. */
  const StripeMode := 1
  const MirrorMode := 2

  /** `repeatN == 0` stands for `repeat_n = None`: the library only ever
      tests it for truth (`repeat_n or n`, `if self.repeat_n`). */
  datatype Strip = Strip(n: nat, bpp: nat, buf: seq<int>, repeatN: nat, mode: int)

  predicate Valid(s: Strip) {
    s.bpp >= 1 && |s.buf| == s.n * s.bpp && IsColor(s.buf)
  }

  /** `TrickLED(pin, n, repeat_n, repeat_mode, bpp=...)`: a black strip; a
      missing (falsy) repeat mode becomes the stripe mode. */
  function New(n: nat, bpp: nat, repeatN: nat, mode: int): (s: Strip)
    ensures bpp >= 1 ==> Valid(s)
    ensures s.n == n && s.bpp == bpp && s.repeatN == repeatN
    ensures s.mode == if mode == 0 then StripeMode else mode
    ensures forall k :: 0 <= k < |s.buf| ==> s.buf[k] == 0
  {
    Strip(n, bpp, Zeros(n * bpp), repeatN, if mode == 0 then StripeMode else mode)
  }

  /** The pixel count the buffer operations work on: `repeat_n or n`. */
  function Active(s: Strip): nat {
    if s.repeatN != 0 then s.repeatN else s.n
  }

  /** The strip seen as a map of `n` items of `bpp` bytes, to share the
      item arithmetic and the scrolling proofs. */
  function AsMap(s: Strip): (m: ByteMaps.ByteMap)
    ensures Valid(s) <==> ByteMaps.Valid(m)
    ensures m.n == s.n && m.bpi == s.bpp && m.buf == s.buf
  {
    ByteMaps.ByteMap(s.n, s.bpp, s.buf, [])
  }

  /** The bytes of pixel `i`. */
  function Pixel(s: Strip, i: int): (r: Color)
    requires Valid(s) && 0 <= i < s.n
    ensures |r| == s.bpp && IsColor(r)
  {
    ByteMaps.Item(AsMap(s), i)
  }

  /** NeoPixel's `self[i]`: the `bpp` bytes at offset `i * bpp`. */
  function GetPixel(s: Strip, i: int): (r: Result<Color>)
    ensures r.Ok? ==> |r.value| == s.bpp
  {
    if 0 <= i && i * s.bpp + s.bpp <= |s.buf| then Ok(s.buf[i * s.bpp .. i * s.bpp + s.bpp])
    else Err(IndexError)
  }

  lemma GetPixelSpec(s: Strip, i: int)
    requires Valid(s)
    ensures GetPixel(s, i).Ok? <==> 0 <= i < s.n
    ensures 0 <= i < s.n ==> GetPixel(s, i) == Ok(Pixel(s, i))
  {
    if 0 <= i < s.n {
      ByteMaps.ItemBounds(i, s.n, s.bpp);
    } else if i >= s.n {
      MulMono(s.n, i, s.bpp);
    }
  }

  /** NeoPixel's `self[i] = v`: the first `bpp` entries of `v` go to the
      bytes at offset `i * bpp`; a short value or a pixel beyond the buffer
      raises IndexError and a non-byte entry ValueError. */
  function PutPixel(s: Strip, i: int, v: Color): (r: Result<Strip>)
    ensures r.Ok? <==> 0 <= i && i * s.bpp + s.bpp <= |s.buf| && |v| >= s.bpp && IsColor(v[..s.bpp])
    ensures r.Ok? ==> r.value == s.(buf := s.buf[..i * s.bpp] + v[..s.bpp] + s.buf[i * s.bpp + s.bpp..])
    ensures r.Ok? ==> Shape(r.value, s)
  {
    if 0 <= i && i * s.bpp + s.bpp <= |s.buf| && |v| >= s.bpp then
      if IsColor(v[..s.bpp]) then
        Ok(s.(buf := s.buf[..i * s.bpp] + v[..s.bpp] + s.buf[i * s.bpp + s.bpp..]))
      else Err(ValueError)
    else Err(IndexError)
  }

  /** Putting a colour of `bpp` bytes into a pixel of a well-formed strip
      succeeds, sets that pixel and keeps every other one. */
  lemma PutPixelSpec(s: Strip, i: int, v: Color)
    requires Valid(s) && 0 <= i < s.n && |v| == s.bpp && IsColor(v)
    ensures PutPixel(s, i, v).Ok?
    ensures var r := PutPixel(s, i, v).value;
      Valid(r) && r.n == s.n && Pixel(r, i) == v &&
      forall j :: 0 <= j < s.n && j != i ==> Pixel(r, j) == Pixel(s, j)
  {
    ByteMaps.ItemBounds(i, s.n, s.bpp);
    assert v[..s.bpp] == v;
    ByteMaps.SetItemInRange(AsMap(s), i, v);
    assert AsMap(PutPixel(s, i, v).value) == ByteMaps.SetItem(AsMap(s), i, TupleColor(v)).value;
  }

  /** Everything but the buffer's contents is kept. */
  predicate Shape(r: Strip, s: Strip) {
    r.n == s.n && r.bpp == s.bpp && r.repeatN == s.repeatN && r.mode == s.mode && |r.buf| == |s.buf|
  }

  /** `strip[i] = val`: the index is checked against `n` before the value is
      normalised by `colval`. */
  function SetItem(s: Strip, i: int, val: ColorArg): (r: Result<Strip>)
    ensures !(0 <= i < s.n) ==> r == Err(IndexError)
    ensures r.Ok? ==> Shape(r.value, s)
  {
    if 0 <= i < s.n then
      var v :- Colval(val, s.bpp);
      PutPixel(s, i, v)
    else Err(IndexError)
  }

  /** A colour argument `colval` turns into at least `bpp` bytes. */
  predicate Writable(s: Strip, val: ColorArg) {
    Colval(val, s.bpp).Ok? && |Colval(val, s.bpp).value| >= s.bpp && IsColor(Colval(val, s.bpp).value)
  }

  /** The bytes a writable argument puts into a pixel. */
  function Written(s: Strip, val: ColorArg): (r: Color)
    requires Writable(s, val)
    ensures |r| == s.bpp && IsColor(r)
  {
    Colval(val, s.bpp).value[..s.bpp]
  }

  /** Writing a value `colval` turns into at least `bpp` bytes at an index
      in [0, n) succeeds, sets that pixel to the value's first `bpp` bytes
      and keeps every other pixel; any other index raises IndexError. */
  lemma SetItemSpec(s: Strip, i: int, val: ColorArg)
    requires Valid(s) && Writable(s, val)
    ensures SetItem(s, i, val).Ok? <==> 0 <= i < s.n
    ensures 0 <= i < s.n ==> var r := SetItem(s, i, val).value;
      Valid(r) && Pixel(r, i) == Written(s, val) &&
      forall j :: 0 <= j < s.n && j != i ==> Pixel(r, j) == Pixel(s, j)
  {
    if 0 <= i < s.n {
      var w := Written(s, val);
      ByteMaps.ItemBounds(i, s.n, s.bpp);
      ByteMaps.SetItemInRange(AsMap(s), i, w);
      var r := SetItem(s, i, val).value;
      assert AsMap(r) == ByteMaps.SetItem(AsMap(s), i, TupleColor(w)).value;
    }
  }

  /** `scroll(step)`: the same byte rotation as `ByteMap.scroll`. */
  function Scroll(s: Strip, step: int): (r: Strip)
    ensures r.n == s.n && r.bpp == s.bpp && r.repeatN == s.repeatN && r.mode == s.mode
    ensures |r.buf| == |s.buf| && (Valid(s) ==> Valid(r))
  {
    var m := ByteMaps.Scroll(AsMap(s), step);
    s.(buf := m.buf)
  }

  /** For a step of at most `n` pixels, new pixel `i` is old pixel
      `(i - step) mod n`; a longer step leaves the strip unchanged. */
  lemma ScrollPixels(s: Strip, step: int, i: int)
    requires Valid(s) && 0 <= i < s.n
    ensures -(s.n as int) <= step <= s.n ==> Pixel(Scroll(s, step), i) == Pixel(s, (i - step) % s.n)
    ensures (step < -(s.n as int) || s.n < step) ==> Scroll(s, step) == s
  {
    ByteMaps.ScrollItems(AsMap(s), step, i);
    assert AsMap(Scroll(s, step)) == ByteMaps.Scroll(AsMap(s), step);
  }

  /** Where the `fill_*` methods stop: a missing end position, or one at
      or past `n`, becomes the last pixel of `repeat_n or n`. */
  function FillEnd(s: Strip, end: Option<int>): int {
    if end.None? || end.value >= s.n then Active(s) - 1 else end.value
  }

  /** `self[start + j] = vals[j]` for each `j` in turn, stopping at the
      first failing write. */
  function WriteFrom(s: Strip, start: int, vals: seq<ColorArg>): (r: Result<Strip>)
    ensures r.Ok? ==> Shape(r.value, s)
    decreases |vals|
  {
    if vals == [] then Ok(s)
    else
      var s' :- SetItem(s, start, vals[0]);
      WriteFrom(s', start + 1, vals[1..])
  }

  /** Every value is writable. */
  predicate AllWritable(s: Strip, vals: seq<ColorArg>) {
    forall j :: 0 <= j < |vals| ==> Writable(s, vals[j])
  }

  /** A run of writable values inside the strip lands at `start + j` and
      leaves every other pixel alone. */
  lemma {:induction false} WriteFromSpec(s: Strip, start: int, vals: seq<ColorArg>)
    requires Valid(s) && 0 <= start && start + |vals| <= s.n && AllWritable(s, vals)
    ensures WriteFrom(s, start, vals).Ok?
    ensures var r := WriteFrom(s, start, vals).value;
      Valid(r) && Shape(r, s) &&
      (forall i :: start <= i < start + |vals| ==> Pixel(r, i) == Written(s, vals[i - start])) &&
      (forall i :: 0 <= i < s.n && !(start <= i < start + |vals|) ==> Pixel(r, i) == Pixel(s, i))
    decreases |vals|
  {
    if vals != [] {
      SetItemSpec(s, start, vals[0]);
      var s' := SetItem(s, start, vals[0]).value;
      var tail := vals[1..];
      assert AllWritable(s', tail) by {
        forall j | 0 <= j < |tail| ensures Writable(s', tail[j]) {
          assert tail[j] == vals[j + 1];
        }
      }
      WriteFromSpec(s', start + 1, tail);
      var r := WriteFrom(s', start + 1, tail).value;
      assert WriteFrom(s, start, vals) == Ok(r);
      forall i | start <= i < start + |vals|
        ensures Pixel(r, i) == Written(s, vals[i - start])
      {
        if i > start {
          assert vals[i - start] == tail[i - (start + 1)];
        }
      }
      forall i | 0 <= i < s.n && !(start <= i < start + |vals|)
        ensures Pixel(r, i) == Pixel(s, i)
      {
        assert Pixel(r, i) == Pixel(s', i);
      }
    }
  }

  /** `count` copies of one colour argument. */
  function ArgCopies(val: ColorArg, count: int): (r: seq<ColorArg>)
    ensures |r| == if count < 0 then 0 else count
    ensures forall j :: 0 <= j < |r| ==> r[j] == val
  {
    if count <= 0 then [] else seq(count, _ => val)
  }

  /** `fill_solid(color, start_pos, end_pos)`: every index from `start` to
      the end position is assigned `color`, each write normalising it. */
  function FillSolid(s: Strip, color: ColorArg, start: int, end: Option<int>): (r: Result<Strip>)
    ensures r.Ok? ==> Shape(r.value, s)
  {
    WriteFrom(s, start, ArgCopies(color, FillEnd(s, end) - start + 1))
  }

  /** Inside the strip, `fill_solid` paints exactly the pixels from `start`
      to the end position (at most the last of `repeat_n or n`). */
  lemma FillSolidSpec(s: Strip, color: ColorArg, start: nat, end: Option<int>)
    requires Valid(s) && Writable(s, color) && FillEnd(s, end) < s.n
    ensures FillSolid(s, color, start, end).Ok?
    ensures var r := FillSolid(s, color, start, end).value; var e := FillEnd(s, end);
      Valid(r) &&
      (forall i :: start <= i <= e ==> Pixel(r, i) == Written(s, color)) &&
      (forall i :: 0 <= i < s.n && !(start <= i <= e) ==> Pixel(r, i) == Pixel(s, i))
  {
    var vals := ArgCopies(color, FillEnd(s, end) - start + 1);
    if vals == [] {
      assert FillSolid(s, color, start, end) == Ok(s);
    } else {
      WriteFromSpec(s, start, vals);
    }
  }

  /** With `repeat_n` set, a fill without an end position stops at pixel
      `repeat_n - 1`: the pixels after it are left for `write` to fill. */
  lemma FillSolidStopsAtRepeat(s: Strip, color: ColorArg)
    requires Valid(s) && Writable(s, color) && 0 < s.repeatN <= s.n
    ensures FillSolid(s, color, 0, None).Ok?
    ensures var r := FillSolid(s, color, 0, None).value;
      Valid(r) &&
      (forall i :: 0 <= i < s.repeatN ==> Pixel(r, i) == Written(s, color)) &&
      (forall i :: s.repeatN <= i < s.n ==> Pixel(r, i) == Pixel(s, i))
  {
    FillSolidSpec(s, color, 0, None);
  }

  /** Colours as tuple arguments. */
  function Tuples(cs: seq<Color>): (r: seq<ColorArg>)
    ensures |r| == |cs| && forall j :: 0 <= j < |cs| ==> r[j] == TupleColor(cs[j])
  {
    seq(|cs|, j requires 0 <= j < |cs| => TupleColor(cs[j]))
  }

  /** A non-empty colour of exactly `bpp` bytes is written as it is. */
  lemma WritableColor(s: Strip, c: Color)
    requires s.bpp >= 1 && |c| == s.bpp && IsColor(c)
    ensures Writable(s, TupleColor(c)) && Written(s, TupleColor(c)) == c
  {
  }

  /** `fill_gradient(col1, col2, start_pos, end_pos)`: `steps` interpolated
      pixels from `start`, each as wide as `col1`, then `col2` at the end
      position. */
  function FillGradient(s: Strip, col1: ColorArg, col2: ColorArg, start: int, end: Option<int>): (r: Result<Strip>)
    ensures r.Ok? ==> Shape(r.value, s)
  {
    var e := FillEnd(s, end);
    var steps := e - start;
    var c1 :- Colval(col1, s.bpp);
    var c2 :- Colval(col2, s.bpp);
    var _ :- ByteMaps.StepIncCheck(c1, c2, steps);
    var ramp := if steps > 0 then Tuples(ByteMaps.Ramp(c1, c2, steps, |c1|)) else [];
    var s' :- WriteFrom(s, start, ramp);
    SetItem(s', e, TupleColor(c2))
  }

  /** The pixels a gradient fill leaves: the ramp from `start`, `col2` at
      the end position, and the old pixels elsewhere. */
  lemma FillGradientPixels(s: Strip, v1: Color, v2: Color, start: nat, end: Option<int>) returns (r: Strip)
    requires Valid(s) && |v1| == s.bpp && |v2| == s.bpp && IsColor(v1) && IsColor(v2)
    requires start < FillEnd(s, end) < s.n
    ensures FillGradient(s, TupleColor(v1), TupleColor(v2), start, end) == Ok(r)
    ensures var e := FillEnd(s, end);
      Valid(r) && Shape(r, s) && Pixel(r, e) == v2 &&
      (forall i :: start <= i < e ==> Pixel(r, i) == ByteMaps.GradientItem(v1, v2, i - start, e - start, s.bpp)) &&
      (forall i :: 0 <= i < s.n && !(start <= i <= e) ==> Pixel(r, i) == Pixel(s, i))
  {
    var e := FillEnd(s, end);
    var steps := e - start;
    var cs := ByteMaps.Ramp(v1, v2, steps, s.bpp);
    var ramp := Tuples(cs);
    assert AllWritable(s, ramp) by {
      forall j | 0 <= j < |ramp| ensures Writable(s, ramp[j]) {
        WritableColor(s, cs[j]);
      }
    }
    WriteFromSpec(s, start, ramp);
    var s' := WriteFrom(s, start, ramp).value;
    forall i | start <= i < e
      ensures Pixel(s', i) == cs[i - start]
    {
      WritableColor(s, cs[i - start]);
    }
    WritableColor(s', v2);
    SetItemSpec(s', e, TupleColor(v2));
    r := SetItem(s', e, TupleColor(v2)).value;
    assert FillGradient(s, TupleColor(v1), TupleColor(v2), start, end) == Ok(r);
  }

  /** A gradient over at least two pixels starts on `col1`, ends on `col2`,
      and every pixel in between lies channel by channel between the two. */
  lemma FillGradientSpec(s: Strip, v1: Color, v2: Color, start: nat, end: Option<int>) returns (r: Strip)
    requires Valid(s) && |v1| == s.bpp && |v2| == s.bpp && IsColor(v1) && IsColor(v2)
    requires start < FillEnd(s, end) < s.n
    ensures FillGradient(s, TupleColor(v1), TupleColor(v2), start, end) == Ok(r)
    ensures var e := FillEnd(s, end);
      Valid(r) && Pixel(r, start) == v1 && Pixel(r, e) == v2 &&
      (forall i :: start <= i <= e ==> ByteMaps.Between(v1, v2, Pixel(r, i), s.bpp)) &&
      (forall i :: 0 <= i < s.n && !(start <= i <= e) ==> Pixel(r, i) == Pixel(s, i))
  {
    r := FillGradientPixels(s, v1, v2, start, end);
    PixelsBetween(r, v1, v2, start, FillEnd(s, end));
  }

  lemma PixelsBetween(r: Strip, v1: Color, v2: Color, start: int, e: int)
    requires Valid(r) && 0 <= start < e < r.n && |v1| == r.bpp && |v2| == r.bpp && IsColor(v1) && IsColor(v2)
    requires Pixel(r, e) == v2
    requires forall i :: start <= i < e ==> Pixel(r, i) == ByteMaps.GradientItem(v1, v2, i - start, e - start, r.bpp)
    ensures Pixel(r, start) == v1
    ensures forall i :: start <= i <= e ==> ByteMaps.Between(v1, v2, Pixel(r, i), r.bpp)
  {
    ByteMaps.GradientStart(v1, v2, e - start, r.bpp);
    forall i | start <= i <= e
      ensures ByteMaps.Between(v1, v2, Pixel(r, i), r.bpp)
    {
      if i < e {
        ByteMaps.GradientBetween(v1, v2, i - start, e - start, r.bpp);
      } else {
        ByteMaps.GradientBetween(v1, v2, e - start, e - start, r.bpp);
        ByteMaps.GradientEnd(v1, v2, e - start, r.bpp);
      }
    }
  }

  /** The strip and generator after `fill_gen`. */
  datatype Filled = Filled(strip: Strip, gen: Gen, rest: Tape)

  /** For each key in turn: advance the generator, then write its colour. */
  function PullWrite(s: Strip, g: Gen, brightness: byte, t: Tape, keys: seq<int>): (r: Result<Filled>)
    requires Generators.Valid(g)
    ensures r.Ok? ==> Generators.Valid(r.value.gen) && Shape(r.value.strip, s)
    decreases |keys|
  {
    if keys == [] then Ok(Filled(s, g, t))
    else
      var y :- Next(g, brightness, t);
      var s' :- SetItem(s, keys[0], TupleColor(y.color));
      PullWrite(s', y.gen, brightness, y.rest, keys[1..])
  }

  /** `fill_gen(gen, start_pos, end_pos, direction)`: forwards from `start`
      when `direction > 0`, otherwise backwards from the end position. */
  function FillGen(s: Strip, g: Gen, brightness: byte, t: Tape, start: int, end: Option<int>, direction: int): (r: Result<Filled>)
    requires Generators.Valid(g)
    ensures r.Ok? ==> Generators.Valid(r.value.gen) && Shape(r.value.strip, s)
  {
    PullWrite(s, g, brightness, t, ByteMaps.GenKeys(start, FillEnd(s, end), direction))
  }

  lemma PullWriteStep(s: Strip, g: Gen, b: byte, t: Tape, keys: seq<int>, y: Yield)
    requires Generators.Valid(g) && keys != [] && Next(g, b, t) == Ok(y)
    requires SetItem(s, keys[0], TupleColor(y.color)).Ok?
    ensures PullWrite(s, g, b, t, keys) ==
      PullWrite(SetItem(s, keys[0], TupleColor(y.color)).value, y.gen, b, y.rest, keys[1..])
  {
  }

  lemma PullWriteJoin(s: Strip, g: Gen, b: byte, t: Tape, start: int, k: nat, y: Yield, rest: seq<Color>)
    requires Generators.Valid(g) && k > 0 && Next(g, b, t) == Ok(y)
    requires SetItem(s, start, TupleColor(y.color)).Ok?
    requires var s' := SetItem(s, start, TupleColor(y.color)).value;
      PullWrite(s', y.gen, b, y.rest, ByteMaps.Span(start + 1, k - 1)).Ok? &&
      Ok(PullWrite(s', y.gen, b, y.rest, ByteMaps.Span(start + 1, k - 1)).value.strip) == WriteFrom(s', start + 1, Tuples(rest))
    ensures PullWrite(s, g, b, t, ByteMaps.Span(start, k)).Ok?
    ensures Ok(PullWrite(s, g, b, t, ByteMaps.Span(start, k)).value.strip) == WriteFrom(s, start, Tuples([y.color] + rest))
  {
    ByteMaps.SpanTail(start, k);
    PullWriteStep(s, g, b, t, ByteMaps.Span(start, k), y);
    var cs := Tuples([y.color] + rest);
    assert cs[0] == TupleColor(y.color) && cs[1..] == Tuples(rest);
  }

  /** The generator's colours fit the strip's pixels. */
  predicate Fits(s: Strip, cs: seq<Color>) {
    forall j :: 0 <= j < |cs| ==> |cs[j]| == s.bpp && IsColor(cs[j])
  }

  /** Pulling and writing pixel by pixel is the same as pulling all the
      colours first and writing them in order, when nothing fails. */
  lemma {:induction false} PullWriteIsWrite(s: Strip, g: Gen, b: byte, t: Tape, start: int, k: nat)
    requires Valid(s) && Generators.Valid(g) && 0 <= start && start + k <= s.n
    requires Take(g, b, t, k).Ok? && Fits(s, Take(g, b, t, k).value.colors)
    ensures PullWrite(s, g, b, t, ByteMaps.Span(start, k)).Ok?
    ensures Ok(PullWrite(s, g, b, t, ByteMaps.Span(start, k)).value.strip) ==
      WriteFrom(s, start, Tuples(Take(g, b, t, k).value.colors))
    decreases k
  {
    if k == 0 {
      assert ByteMaps.Span(start, k) == [];
      assert Tuples(Take(g, b, t, k).value.colors) == [];
    } else {
      var y, more := TakeHead(g, b, t, k);
      var s' := WriteHead(s, start, y.color, more.colors);
      PullWriteIsWrite(s', y.gen, b, y.rest, start + 1, k - 1);
      PullWriteJoin(s, g, b, t, start, k, y, more.colors);
    }
  }

  /** Writing the first of a run of fitting colours keeps the strip's
      shape, so the rest still fit. */
  lemma WriteHead(s: Strip, start: int, c: Color, rest: seq<Color>) returns (s': Strip)
    requires Valid(s) && 0 <= start < s.n && Fits(s, [c] + rest)
    ensures SetItem(s, start, TupleColor(c)) == Ok(s')
    ensures Valid(s') && s'.n == s.n && s'.bpp == s.bpp && Fits(s', rest)
  {
    var cs := [c] + rest;
    assert cs[0] == c;
    WritableColor(s, c);
    SetItemSpec(s, start, TupleColor(c));
    s' := SetItem(s, start, TupleColor(c)).value;
    forall j | 0 <= j < |rest| ensures |rest[j]| == s'.bpp && IsColor(rest[j]) {
      assert rest[j] == cs[j + 1];
    }
  }

  /** Writing a run of fitting colours as tuples puts `cs[j]` at
      `start + j` and keeps every other pixel. */
  lemma WriteColors(s: Strip, start: nat, cs: seq<Color>) returns (r: Strip)
    requires Valid(s) && start + |cs| <= s.n && Fits(s, cs)
    ensures WriteFrom(s, start, Tuples(cs)) == Ok(r)
    ensures Valid(r) &&
      (forall i :: start <= i < start + |cs| ==> Pixel(r, i) == cs[i - start]) &&
      (forall i :: 0 <= i < s.n && !(start <= i < start + |cs|) ==> Pixel(r, i) == Pixel(s, i))
  {
    var vals := Tuples(cs);
    assert AllWritable(s, vals) by {
      forall j | 0 <= j < |vals| ensures Writable(s, vals[j]) {
        WritableColor(s, cs[j]);
      }
    }
    WriteFromSpec(s, start, vals);
    r := WriteFrom(s, start, vals).value;
    forall i | start <= i < start + |cs|
      ensures Pixel(r, i) == cs[i - start]
    {
      WritableColor(s, cs[i - start]);
    }
  }

  /** `fill_gen` forwards over pixels `start..e` writes the generator's
      first `e - start + 1` colours in order and keeps every other pixel. */
  lemma FillGenForward(s: Strip, g: Gen, b: byte, t: Tape, start: nat, end: Option<int>) returns (r: Strip)
    requires Valid(s) && Generators.Valid(g) && start <= FillEnd(s, end) < s.n
    requires var k := FillEnd(s, end) - start + 1;
      Take(g, b, t, k).Ok? && Fits(s, Take(g, b, t, k).value.colors)
    ensures FillGen(s, g, b, t, start, end, 1).Ok? && FillGen(s, g, b, t, start, end, 1).value.strip == r
    ensures var e := FillEnd(s, end);
      var cs := Take(g, b, t, e - start + 1).value.colors;
      Valid(r) &&
      (forall i :: start <= i <= e ==> Pixel(r, i) == cs[i - start]) &&
      (forall i :: 0 <= i < s.n && !(start <= i <= e) ==> Pixel(r, i) == Pixel(s, i))
  {
    var e := FillEnd(s, end);
    var k := e - start + 1;
    var cs := Take(g, b, t, k).value.colors;
    r := WriteColors(s, start, cs);
    assert ByteMaps.GenKeys(start, e, 1) == ByteMaps.Span(start, k);
    PullWriteIsWrite(s, g, b, t, start, k);
  }

  /** The loop of `blend_to_color` from pixel `i` to `e`, with its memo:
      `last` is the last pixel colour blended and `bc` what it blended to.
      A pixel equal to `bc` is skipped, a pixel equal to `last` gets `bc`,
      and any other pixel is blended and becomes the new memo. */
  function BlendFrom(s: Strip, color: Color, pct: int, i: int, e: int, last: Color, bc: Color): (r: Result<Strip>)
    ensures r.Ok? ==> Shape(r.value, s)
    decreases e - i + 1
  {
    if i > e then Ok(s)
    else
      var p :- GetPixel(s, i);
      if p == bc then BlendFrom(s, color, pct, i + 1, e, last, bc)
      else if p == last then
        var s' :- SetItem(s, i, TupleColor(bc));
        BlendFrom(s', color, pct, i + 1, e, last, bc)
      else
        var b :- Blend(p, color, pct);
        var s' :- SetItem(s, i, TupleColor(b));
        BlendFrom(s', color, pct, i + 1, e, p, b)
  }

  /** Where `blend_to_color` stops: only a missing end position is
      replaced (by the last pixel of `repeat_n or n`); it is not clamped. */
  function BlendEnd(s: Strip, end: Option<int>): int {
    if end.None? then Active(s) - 1 else end.value
  }

  /** `blend_to_color(color, pct, start_pos, end_pos)`: the memo starts with
      black for both the last colour and its blend. */
  function BlendToColor(s: Strip, color: ColorArg, pct: int, start: int, end: Option<int>): (r: Result<Strip>)
    ensures r.Ok? ==> Shape(r.value, s)
  {
    var c :- Colval(color, s.bpp);
    BlendFrom(s, c, pct, start, BlendEnd(s, end), Zeros(s.bpp), Zeros(s.bpp))
  }

  /** The memo is sound: the recorded blend is the blend of the recorded
      colour (or both are the initial black). */
  predicate MemoSound(last: Color, bc: Color, color: Color, pct: int) {
    (last == Zeros(3) && bc == Zeros(3)) ||
    (|last| == 3 && Blend(last, color, pct) == Ok(bc))
  }

  /** On a three-byte strip, every pixel of the range is either left as it
      was or set to exactly its blend with `color`; pixels outside the range
      keep their colour. */
  lemma {:induction false} BlendFromSpec(s: Strip, color: Color, pct: int, i: nat, e: int, last: Color, bc: Color)
    returns (r: Strip)
    requires Valid(s) && s.bpp == 3 && |color| >= 3 && IsColor(color) && 0 <= pct <= 100
    requires e < s.n && MemoSound(last, bc, color, pct)
    ensures BlendFrom(s, color, pct, i, e, last, bc) == Ok(r)
    ensures Valid(r) && r.n == s.n && r.bpp == s.bpp
    ensures forall j :: i <= j <= e ==> Pixel(r, j) == Pixel(s, j) || Ok(Pixel(r, j)) == Blend(Pixel(s, j), color, pct)
    ensures forall j :: 0 <= j < s.n && !(i <= j <= e) ==> Pixel(r, j) == Pixel(s, j)
    decreases e - i + 1
  {
    if i > e {
      r := s;
    } else {
      var s', nl, nb := BlendOne(s, color, pct, i, e, last, bc);
      r := BlendFromSpec(s', color, pct, i + 1, e, nl, nb);
      Chain(BlendFrom(s, color, pct, i, e, last, bc), BlendFrom(s', color, pct, i + 1, e, nl, nb), Ok(r));
    }
  }

  /** One pixel of the `blend_to_color` loop: it is kept or set to its
      blend, and the memo stays sound. */
  lemma BlendOne(s: Strip, color: Color, pct: int, i: nat, e: int, last: Color, bc: Color)
    returns (s': Strip, nl: Color, nb: Color)
    requires Valid(s) && s.bpp == 3 && |color| >= 3 && IsColor(color) && 0 <= pct <= 100
    requires i <= e < s.n && MemoSound(last, bc, color, pct)
    ensures BlendFrom(s, color, pct, i, e, last, bc) == BlendFrom(s', color, pct, i + 1, e, nl, nb)
    ensures Valid(s') && s'.n == s.n && s'.bpp == s.bpp && MemoSound(nl, nb, color, pct)
    ensures Pixel(s', i) == Pixel(s, i) || Ok(Pixel(s', i)) == Blend(Pixel(s, i), color, pct)
    ensures forall j :: 0 <= j < s.n && j != i ==> Pixel(s', j) == Pixel(s, j)
  {
    GetPixelSpec(s, i);
    var p := Pixel(s, i);
    BlendEnds(p, color, pct);
    var b := Blend(p, color, pct).value;
    if p == bc {
      s', nl, nb := s, last, bc;
    } else {
      nl, nb := if p == last then last else p, if p == last then bc else b;
      assert nb == b;
      WritableColor(s, nb);
      SetItemSpec(s, i, TupleColor(nb));
      s' := SetItem(s, i, TupleColor(nb)).value;
    }
  }


  /** `blend_to_color` over pixels inside the strip never fails on a
      three-byte strip, never touches pixels outside the range, and every
      pixel it changes gets exactly its blend with `color`. */
  lemma BlendToColorSpec(s: Strip, color: Color, pct: int, start: nat, end: Option<int>)
    requires Valid(s) && s.bpp == 3 && |color| == 3 && IsColor(color) && 0 <= pct <= 100
    requires BlendEnd(s, end) < s.n
    ensures BlendToColor(s, TupleColor(color), pct, start, end).Ok?
    ensures var r := BlendToColor(s, TupleColor(color), pct, start, end).value; var e := BlendEnd(s, end);
      Valid(r) &&
      (forall j :: start <= j <= e ==> Pixel(r, j) == Pixel(s, j) || Ok(Pixel(r, j)) == Blend(Pixel(s, j), color, pct)) &&
      (forall j :: 0 <= j < s.n && !(start <= j <= e) ==> Pixel(r, j) == Pixel(s, j))
  {
    var r := BlendFromSpec(s, color, pct, start, BlendEnd(s, end), Zeros(3), Zeros(3));
  }

  /** As written, the skip test also skips a black pixel, which equals the
      initial memo, and so never blends it: a black pixel blended all the
      way to (200, 0, 0) stays black. */
  lemma BlendSkipsBlack()
    ensures Blend([0, 0, 0], [200, 0, 0], 100) == Ok([200, 0, 0])
    ensures var s := New(1, 3, 0, 0);
      BlendToColor(s, TupleColor([200, 0, 0]), 100, 0, None) == Ok(s)
  {
    BlendBlackToRed();
    BlackStaysBlack();
  }

  lemma BlendBlackToRed()
    ensures Blend([0, 0, 0], [200, 0, 0], 100) == Ok([200, 0, 0])
  {
    var c1: Color := [0, 0, 0];
    var c2: Color := [200, 0, 0];
    BlendEnds(c1, c2, 100);
    assert c2[..3] == c2;
  }

  lemma BlackStaysBlack()
    ensures var s := New(1, 3, 0, 0);
      BlendToColor(s, TupleColor([200, 0, 0]), 100, 0, None) == Ok(s)
  {
    var c2: Color := [200, 0, 0];
    var s := New(1, 3, 0, 0);
    var z := Zeros(3);
    assert z[0] == 0 && z[1] == 0 && z[2] == 0;
    assert z == [0, 0, 0];
    assert s.buf == z;
    assert s.buf[0..3] == z;
    assert GetPixel(s, 0) == Ok(z);
    assert BlendFrom(s, c2, 100, 1, 0, z, z) == Ok(s);
  }

  /** The memo of the corrected loop: the last colour blended and its blend. */
  datatype Memo = Memo(last: Color, blended: Color)

  /** The corrected loop: the memo only stands in for `blend` when the pixel
      equals the colour it was computed from, so no pixel is skipped. */
  function BlendFromFixed(s: Strip, color: Color, pct: int, i: int, e: int, memo: Option<Memo>): (r: Result<Strip>)
    ensures r.Ok? ==> Shape(r.value, s)
    decreases e - i + 1
  {
    if i > e then Ok(s)
    else
      var p :- GetPixel(s, i);
      if memo.Some? && p == memo.value.last then
        var s' :- SetItem(s, i, TupleColor(memo.value.blended));
        BlendFromFixed(s', color, pct, i + 1, e, memo)
      else
        var b :- Blend(p, color, pct);
        var s' :- SetItem(s, i, TupleColor(b));
        BlendFromFixed(s', color, pct, i + 1, e, Some(Memo(p, b)))
  }

  /** `blend_to_color` with the corrected loop, starting without a memo. */
  function BlendToColorFixed(s: Strip, color: ColorArg, pct: int, start: int, end: Option<int>): (r: Result<Strip>)
    ensures r.Ok? ==> Shape(r.value, s)
  {
    var c :- Colval(color, s.bpp);
    BlendFromFixed(s, c, pct, start, BlendEnd(s, end), None)
  }

  lemma {:induction false} BlendFromFixedSpec(s: Strip, color: Color, pct: int, i: nat, e: int, memo: Option<Memo>)
    requires Valid(s) && s.bpp == 3 && |color| >= 3 && IsColor(color) && 0 <= pct <= 100 && e < s.n
    requires memo.Some? ==> |memo.value.last| == 3 && Blend(memo.value.last, color, pct) == Ok(memo.value.blended)
    ensures BlendFromFixed(s, color, pct, i, e, memo).Ok?
    ensures var r := BlendFromFixed(s, color, pct, i, e, memo).value;
      Valid(r) &&
      (forall j :: i <= j <= e ==> Ok(Pixel(r, j)) == Blend(Pixel(s, j), color, pct)) &&
      (forall j :: 0 <= j < s.n && !(i <= j <= e) ==> Pixel(r, j) == Pixel(s, j))
    decreases e - i + 1
  {
    if i <= e {
      GetPixelSpec(s, i);
      var p := Pixel(s, i);
      BlendEnds(p, color, pct);
      var b := Blend(p, color, pct).value;
      var next := if memo.Some? && p == memo.value.last then memo else Some(Memo(p, b));
      WritableColor(s, b);
      SetItemSpec(s, i, TupleColor(b));
      var s' := SetItem(s, i, TupleColor(b)).value;
      BlendFromFixedSpec(s', color, pct, i + 1, e, next);
      var r := BlendFromFixed(s', color, pct, i + 1, e, next).value;
      assert BlendFromFixed(s, color, pct, i, e, memo) == Ok(r);
      assert Pixel(r, i) == Pixel(s', i) == b;
    }
  }

  /** With the corrected loop every pixel of the range becomes exactly its
      blend with `color`, as a pixel-by-pixel `blend` would make it. */
  lemma BlendToColorFixedSpec(s: Strip, color: Color, pct: int, start: nat, end: Option<int>)
    requires Valid(s) && s.bpp == 3 && |color| == 3 && IsColor(color) && 0 <= pct <= 100
    requires BlendEnd(s, end) < s.n
    ensures BlendToColorFixed(s, TupleColor(color), pct, start, end).Ok?
    ensures var r := BlendToColorFixed(s, TupleColor(color), pct, start, end).value; var e := BlendEnd(s, end);
      Valid(r) &&
      (forall j :: start <= j <= e ==> Ok(Pixel(r, j)) == Blend(Pixel(s, j), color, pct)) &&
      (forall j :: 0 <= j < s.n && !(start <= j <= e) ==> Pixel(r, j) == Pixel(s, j))
  {
    BlendFromFixedSpec(s, color, pct, start, BlendEnd(s, end), None);
  }

  /** `add(val)`, `sub(val)`, `mul(val)`, `div(val)` on the strip: a tuple
      shorter than `bpp` raises ValueError and is otherwise cut to its first
      `bpp` entries; then the buffer is rebuilt from its first
      `(repeat_n or n) * bpp` bytes only, each combined with the operand and
      clamped by `uint8`. `div` divides exactly (see `TrueDivAgrees`). */
  function ApplyAll(s: Strip, op: ByteMaps.Op, x: ByteMaps.Operand): (r: Result<Strip>)
    ensures x.Tuple? && |x.t| < s.bpp ==> r == Err(ValueError)
    ensures r.Ok? ==> r.value == s.(buf := r.value.buf)
    ensures r.Ok? ==> |r.value.buf| == Active(s) * s.bpp && IsColor(r.value.buf)
  {
    if x.Tuple? && |x.t| < s.bpp then Err(ValueError)
    else if s.bpp == 0 then Ok(s.(buf := []))
    else
      var y := if x.Tuple? then ByteMaps.Tuple(x.t[..s.bpp]) else x;
      var b :- ByteMaps.MapBytes(s.buf, 0, Active(s) * s.bpp, op, y, s.bpp);
      Ok(s.(buf := b))
  }

  /** Byte `k` of the rebuilt buffer: the old byte combined with operand
      entry `k mod bpp`, clamped. The whole rebuild fails exactly when some
      byte is missing or divided by zero. */
  lemma ApplyAllBytes(s: Strip, op: ByteMaps.Op, x: ByteMaps.Operand)
    requires s.bpp >= 1 && !(x.Tuple? && |x.t| < s.bpp)
    ensures var y := if x.Tuple? then ByteMaps.Tuple(x.t[..s.bpp]) else x;
      (ApplyAll(s, op, x).Ok? <==> forall k :: 0 <= k < Active(s) * s.bpp ==> ByteMaps.ByteOk(s.buf, k, op, y, s.bpp)) &&
      (ApplyAll(s, op, x).Ok? ==> forall k :: 0 <= k < Active(s) * s.bpp ==>
        ApplyAll(s, op, x).value.buf[k] == ByteMaps.ByteAt(s.buf, k, op, y, s.bpp))
  {
  }

  /** Without `repeat_n`, strip arithmetic is `ByteMap` arithmetic on the
      same bytes: the two classes rebuild their buffers alike. */
  lemma ApplyAllMatchesByteMap(s: Strip, op: ByteMaps.Op, x: ByteMaps.Operand)
    requires Valid(s) && s.repeatN == 0
    ensures ApplyAll(s, op, x).Ok? <==> ByteMaps.ApplyAll(AsMap(s), op, x).Ok?
    ensures ApplyAll(s, op, x).Ok? ==> ApplyAll(s, op, x).value.buf == ByteMaps.ApplyAll(AsMap(s), op, x).value.buf
  {
    if !(x.Tuple? && |x.t| < s.bpp) {
      var y := if x.Tuple? then ByteMaps.Tuple(x.t[..s.bpp]) else x;
      ApplyAllBytes(s, op, x);
      var m := AsMap(s);
      forall k | 0 <= k < |s.buf|
        ensures ByteMaps.ByteOk(s.buf, k, op, y, s.bpp) == ByteMaps.ByteOk(m.buf, k, op, x, m.bpi)
        ensures ByteMaps.ByteOk(s.buf, k, op, y, s.bpp) ==>
          ByteMaps.ByteAt(s.buf, k, op, y, s.bpp) == ByteMaps.ByteAt(m.buf, k, op, x, m.bpi)
      {
        assert ByteMaps.OperandAt(y, k, s.bpp) == ByteMaps.OperandAt(x, k, s.bpp);
      }
      if ApplyAll(s, op, x).Ok? {
        var a := ApplyAll(s, op, x).value.buf;
        var c := ByteMaps.ApplyAll(m, op, x).value.buf;
        assert |a| == |c|;
        forall k | 0 <= k < |a| ensures a[k] == c[k] { }
      }
    }
  }
}

=== FILE: wrappers.dfy ===
/** Failure-compatible result type shared by every module of the model.
    The Python library signals failure by raising; the model returns `Err`
    with the kind of exception that would have been raised. */
module Wrappers {

  /** The exception kinds the modelled code can raise. `NoValue` stands for a
      generator whose `next()` never returns (its loop runs forever without a
      `yield`), and `BufferLength` for the bare `Exception('buffer length
      changed')` raised by `colorize`. `TypeError` is an operation on
      `None` (an animation step run before its palette exists) or the
      indexing of a colour that is not a tuple, and `KeyError` a read of a
      `state` entry that `setup` has not written yet. */
  datatype Error =
    | IndexError
    | ValueError
    | ZeroDivisionError
    | OverflowError
    | BufferLength
    | NoValue
    | TypeError
    | KeyError

  datatype Option<+T> = None | Some(value: T)

  datatype Result<+T> = Ok(value: T) | Err(error: Error) {

    predicate IsFailure() {
      Err?
    }

    function PropagateFailure<U>(): Result<U>
      requires Err?
    {
      Err(error)
    }

    function Extract(): T
      requires Ok?
    {
      value
    }
  }

  /** Two equal steps in a row: `x` is `z`. Stating the link as a call
      keeps the solver from unfolding the functions on either side. */
  lemma Chain<T>(x: T, y: T, z: T)
    requires x == y && y == z
    ensures x == z
  {
  }
}
